=== FILE: README.md ===
# A verified model of the lip-sync studio's core logic

This project models, in Dafny, the sequential and data-oriented core of a
desktop text-to-speech studio that drives a Live2D character's mouth. The
studio is written in Python. The model covers eight groups of its logic:

- **The vowel-timeline pipeline** of `core/lip_sync_engine.py` and
  `core/phoneme_analyzer.py`. Phoneme tokens are merged, mapped to one of
  the mouth vowels `a i u e o n sil` and given intensities. Word endings are
  marked and protected. The sensitivity is applied, and the timeline is
  rescaled so its frames sit back to back on the real audio length.
  Silence regions are forced to `sil`, gaps are filled and segments are
  grouped. Finally the timeline is resampled into per-video-frame
  keyframes (modules `VowelFrames`, `LipSyncPhonemes`, `LipSyncFrames`,
  `LipSyncSegments`, `LipSyncKeyframes`, `LipSyncSettings`,
  `PhonemeAnalysis`).
- **The realtime vowel heuristics** of `core/audio_realtime_processor.py`:
  the range score, the formant-table classifier and its tie rule, the
  frequency-band fallback and the bounded analysis buffer (`RealtimeVowel`).
  Formants, RMS level and dominant frequency are inputs.
- **The bounded undo/redo history** of `ui/history_manager.py` (`History`).
- **Validators and lookups**:
  - the animation validator (`AnimationManager`);
  - the fixed-position lookup by id, then path, then name (`FixedPosition`);
  - the chroma-key colour normaliser (`CharacterDisplay`).
- **The most-recently-used histories** of voice models, images and Live2D
  models (`ModelHistory`, `ImageHistory`, `Live2DHistory`). They are built
  on shared list operations (`Recent`).
- **The decision rules of the audio analyser** that turn measurements into
  a cleaning preset (`AudioAnalysis`).
- **The playback state machines** of the WAV player and its control panel
  (`WavPlayer`, `WavPlaybackControl`).
- **Pure transformations inside UI files** (`MainWindow`, `MultiText`,
  `StreamingWorker`, `AudioCleaner`, `CharacterDisplay`):
  - frame filtering and shifting;
  - settings normalisation;
  - line splitting and row numbering;
  - silence trimming;
  - the cleaner presets;
  - slider maps and zoom and drag clamps.

Shared vocabulary lives in the following modules:

- `Common`: options, clamps and Python's `int()`;
- `Json`: dictionaries and `dict.update`;
- `Text`: `str.strip`, `str.split` and `splitlines`;
- `PathNames`: POSIX `basename` and `dirname`, and pathlib's `name` (which drops `.` components) and `stem`;
- `Samples`: sample sequences.

Every operation is a pure function or method that returns the new state.
Where an operation raises in Python, the model returns an explicit error
value. File I/O, hashing, UUIDs, clocks and the sound device are either
parameters or left out.

## Model

| member | source | states |
|---|---|---|
| History.Empty | ui/history_manager.py:10-14 | a new history has the given bound, an empty stack, nothing to undo or redo, and the undoing flag off |
| History.Save | ui/history_manager.py:16-31 | saving `None` or while undoing changes nothing; otherwise the redo tail past the index is dropped, the snapshot becomes the current last entry, the length is min(index + 2, bound) and on overflow the oldest entry is the one dropped; the invariant is kept |
| History.Previous | ui/history_manager.py:33-46 | without an undo available nothing changes and `None` is returned; otherwise the index moves back by one and the snapshot now current is returned |
| History.Next | ui/history_manager.py:39-49 | without a redo available nothing changes and `None` is returned; otherwise the index moves forward by one and the snapshot now current is returned |
| History.Clear | ui/history_manager.py:51-53 | the stack is empty, the index -1, neither undo nor redo is available, the bound and flag are kept |
| History.SetUndoing | ui/history_manager.py:55-56 | only the flag changes: stack, index and bound are kept, so the invariant is kept |
| History.UndoThenRedo | ui/history_manager.py:33-43 | an undo followed by a redo restores the history and returns the snapshot that was current |
| History.RedoThenUndo | ui/history_manager.py:33-43 | a redo followed by an undo restores the history and returns the snapshot that was current |
| History.SavesIgnoredWhileUndoing | ui/history_manager.py:18-19 | any sequence of saves while the undoing flag is set leaves the history unchanged |
| History.SaveAll | ui/history_manager.py:16-31 | repeated saves keep the invariant and never exceed the bound |
| History.SaveAllFills | ui/history_manager.py:23-31 | after saving n snapshots the stack holds exactly min(index + 1 + n, bound) entries: the bound is reached and never passed |
| FixedPosition.NormalizePath | core/live2d_fixed_position_manager.py:37-41 | a normalised path has no back-slash and no whitespace at either end |
| FixedPosition.NormalizeIdempotent | core/live2d_fixed_position_manager.py:37-41 | normalising twice is normalising once |
| FixedPosition.SeparatorsDoNotMatter | core/live2d_fixed_position_manager.py:41 | turning back-slashes into slashes first does not change the normal form |
| FixedPosition.NormalizeOpt | core/live2d_fixed_position_manager.py:38-41 | `None` stays `None`; a path is normalised |
| FixedPosition.StrForm | core/live2d_fixed_position_manager.py:55 | Python's `str()` of a stored string, integer or boolean: the string itself, the decimal digits with any minus sign, `True`/`False` |
| FixedPosition.Field | core/live2d_fixed_position_manager.py:54-64 | a field is read exactly when the entry is a dict whose value under the key has a known `str()` form, and it is that form; a stored string reads as itself |
| FixedPosition.MatchEntry | core/live2d_fixed_position_manager.py:43-67 | an entry matches exactly when its truthy id or name equals the given one as a string, or its normalised folder path equals the given one; a non-dict never matches |
| FixedPosition.IntegerIdMatchesItsSpelling | core/live2d_fixed_position_manager.py:54-56 | an entry stored with a non-zero integer id matches that integer's decimal spelling and no other integer's |
| FixedPosition.FalsyIdNeverMatches | core/live2d_fixed_position_manager.py:54-56 | a stored id that is falsy, such as `0` or `false`, never matches by id |
| FixedPosition.PathMatchIgnoresSeparators | core/live2d_fixed_position_manager.py:58-61 | a path match survives rewriting the target's back-slashes as slashes |
| FixedPosition.FindFirst | core/live2d_fixed_position_manager.py:88-106 | `None` exactly when no entry meets the criterion; otherwise the first entry that meets it |
| FixedPosition.SettingsOf | core/live2d_fixed_position_manager.py:90-91 | settings are returned exactly when the entry's `ui_settings` is a dict, and they are that dict |
| FixedPosition.GetFixedSettings | core/live2d_fixed_position_manager.py:69-108 | an id match anywhere decides before a path match anywhere, which decides before a name match; within one pass the first matching entry decides; nothing matching gives `None`; any answer comes from a matching entry |
| FixedPosition.IdBeatsEarlierPath | core/live2d_fixed_position_manager.py:85-101 | a later entry matching by id wins over an earlier entry matching by path |
| FixedPosition.UnusableFirstMatchHidesLater | core/live2d_fixed_position_manager.py:103-106 | a first match whose `ui_settings` is missing answers `None` even though a later match has settings |
| FixedPosition.LoadModels | core/live2d_fixed_position_manager.py:14-31 | a missing file, an unreadable file or a non-dict gives no entries; a dict's `models` list is taken as is, and a dict whose `models` is missing or not a list gives no entries |
| FixedPosition.HasFixedSettings | core/live2d_fixed_position_manager.py:110-122 | true exactly when the lookup on the reloaded entries answers settings, and then some matching entry has dict settings; false when the file is missing |
| Text.IntToStringInjective | core/live2d_fixed_position_manager.py:55 | two integers with the same `str()` spelling are equal, so comparing spellings compares the integers |
| AnimationManager.ValidateKeyframe | core/animation_manager.py:108-119 | a keyframe passes exactly when it is a dict with `time` and a dict `parameters` |
| AnimationManager.ValidateKeyframes | core/animation_manager.py:107-121 | the list passes exactly when every keyframe passes; a failure is the failure of some keyframe |
| AnimationManager.ValidateAnimation | core/animation_manager.py:84-121 | a scalar raises, a dict without `keyframes` or with a non-list or empty `keyframes` is rejected |
| AnimationManager.ValidExactlyWhenWellFormed | core/animation_manager.py:84-121 | the validator accepts exactly the dicts whose `keyframes` is a non-empty list of well-formed keyframes, in both directions |
| AnimationManager.WellFormedIsTruthy | core/animation_manager.py:148-149 | a valid animation is a non-empty dict, so the caller's truth test passes |
| AnimationManager.LoadAnimationFile | core/animation_manager.py:56-82 | a file is returned exactly when it parsed and is well formed, unchanged |
| AnimationManager.LoadAnimationByName | core/animation_manager.py:132-152 | an animation is returned exactly when the file exists, parses and is well formed, and only then becomes the current one; otherwise the manager is unchanged |
| AnimationManager.SaveAnimation | core/animation_manager.py:165-188 | the save goes ahead exactly when the data is valid and its `metadata` (if any) is a dict; the saved data keeps its keyframes and carries `saved_at` in its metadata |
| AnimationManager.GetAnimationInfo | core/animation_manager.py:272-285 | `None` exactly when no listed file has the name; otherwise the first entry with that name |
| ImageHistory.DefaultImageName | core/image_manager.py:15-17 | never empty; the file's stem when that is non-empty |
| ImageHistory.TrailingDotIgnored | core/image_manager.py:15-17 | a path with `/.` appended gets the same default name as the path itself |
| ImageHistory.CurrentDirectoryIsImage | core/image_manager.py:15-17 | the current directory `.` has an empty stem and is named `image` |
| PathNames.Name | core/image_manager.py:17 | `Path(p).name` never holds a separator, is never `.`, and is no longer than the path |
| PathNames.NameOfChild | core/image_manager.py:17 | the name of a path ending in a component other than `.` after a separator, or of a lone such component, is that component |
| PathNames.NameDropsDot | core/image_manager.py:17 | appending `/.` to a path leaves its name unchanged |
| PathNames.DotHasNoName | core/image_manager.py:17 | `.` and `./` have the empty name |
| ImageHistory.AddImage | core/image_manager.py:75-101 | a known identifier moves its entry to the front and the others keep their order; a new one is pushed at the front with empty `ui_settings` and the custom name (when non-empty) or the default name, and the list is cut to 20; either way the image is at the front |
| ImageHistory.AddedImageIsLast | core/image_manager.py:75-177 | after adding, identifiers stay distinct and the last image is the one just added |
| ImageHistory.GetLastImage | core/image_manager.py:173-177 | `None` exactly for an empty history; otherwise the front entry |
| ImageHistory.RemoveImage | core/image_manager.py:112-119 | reports a change exactly when the identifier was present; afterwards no entry has it; with distinct identifiers exactly that entry is removed |
| ImageHistory.UpdateImageName | core/image_manager.py:121-128 | true exactly when the identifier is known; then only the first such entry gets the new name, every other entry is unchanged |
| ImageHistory.UpdateImageNote | core/image_manager.py:130-137 | true exactly when the identifier is known; then only the first such entry gets the new note, every other entry is unchanged |
| ImageHistory.GetUiSettings | core/image_manager.py:140-146 | an unknown identifier gives `{}`; a known one gives its entry's `ui_settings`, or `{}` when absent |
| ImageHistory.MergedSettings | core/image_manager.py:155-158 | the merge raises exactly when the stored `ui_settings` is not a dict; otherwise it holds the old keys and the new ones, with the new values winning |
| ImageHistory.UpdateUiSettings | core/image_manager.py:148-161 | unknown exactly when no entry has the identifier; an update changes only the first such entry's `ui_settings`, to the merge; a non-dict stored value raises |
| ImageHistory.UpdateThenGet | core/image_manager.py:140-161 | reading settings after an update sees every key just written with its new value |
| ImageHistory.CurrentName | core/image_manager.py:29 | `(name or "").strip()`: raises only for a truthy non-string name; a string name is stripped; a missing or falsy name reads as empty |
| ImageHistory.ImagePath | core/image_manager.py:30 | a missing path reads as empty; a non-string path raises |
| ImageHistory.NormalizeImage | core/image_manager.py:26-44 | normalising an entry fails exactly when its name or path cannot be read |
| ImageHistory.NormalizeImageSpec | core/image_manager.py:26-44 | a blank name is replaced by the default name, a missing note becomes empty, missing settings become `{}`, everything else is kept, and the flag is raised exactly when one of these fills happened |
| ImageHistory.FillEntry | core/image_manager.py:31-42 | the filled entry adds exactly the missing keys, with their defaults, and keeps the others |
| ImageHistory.FlagMeansChange | core/image_manager.py:24-45 | when the default name is not blank, the changed flag is raised exactly when the entry changed |
| ImageHistory.NormalizeIsIdempotent | core/image_manager.py:24-45 | normalising a normalised entry changes nothing and reports no change |
| ImageHistory.NormalizeData | core/image_manager.py:24-45 | the loop fails exactly when some entry raises; otherwise every entry is normalised in place and the flag says whether any entry changed |
| ImageHistory.GetDisplayMode | core/image_manager.py:208-210 | `image` without a `character_display` section; raises for a non-dict section; otherwise the stored mode, `image` by default |
| ImageHistory.SetDisplayMode | core/image_manager.py:212-223 | an invalid mode changes nothing; a valid one is stored in the section (created when missing) and every other setting is kept; a non-dict section raises |
| ImageHistory.SetThenGetMode | core/image_manager.py:208-223 | reading the mode after setting a valid one gives it back, and the section's other keys remain |
| ModelHistory.LeadingDigits | core/model_manager.py:21 | the `\d+` run at the start of a string: every counted character is a digit and the next one is not |
| ModelHistory.TokenStartFrom | core/model_manager.py:21 | the leftmost position from which the rest of the name is an epoch/step token, and no earlier one |
| ModelHistory.DropTrainingSuffix | core/model_manager.py:21 | the `re.sub` keeps a prefix of the name, ending exactly where the leftmost trailing token starts, and keeps the whole name when there is none |
| ModelHistory.StripJoiners | core/model_manager.py:21 | `strip("_- ")`: the result neither starts nor ends with a joiner, and is empty exactly when the input is all joiners |
| ModelHistory.PrettyDefaultName | core/model_manager.py:14-22 | never empty and never holds a separator; a usable parent folder name is taken as it is; otherwise a name other than `model` has no joiner at either end |
| ModelHistory.CurrentDirectoryIsModel | core/model_manager.py:14-22 | the current directory `.` has no usable parent and an empty stem, so it is named `model` |
| ModelHistory.FolderNameWins | core/model_manager.py:16-18 | any model file inside a folder other than `.` is named after that folder |
| ModelHistory.AddModel | core/model_manager.py:77-103 | a known identifier moves its entry to the front, the others keep their order and the length is kept; a new one is pushed at the front under the custom name (when non-empty) or the default name, and the list is cut to 20 |
| ModelHistory.AddKeepsIdsDistinct | core/model_manager.py:77-103 | adding keeps the identifiers pairwise distinct |
| ModelHistory.ReAddingIsIdempotent | core/model_manager.py:80-86 | adding the same model twice in a row gives the list the first addition gave |
| ModelHistory.GetModelById | core/model_manager.py:105-109 | `None` exactly when no entry has the identifier; otherwise the first entry with it |
| ModelHistory.RemoveModel | core/model_manager.py:130-136 | reports a change exactly when the identifier was present; afterwards no entry has it; with distinct identifiers exactly that entry is removed |
| ModelHistory.UpdateModelName | core/model_manager.py:114-120 | true exactly when the identifier is known; then only the first such entry gets the new name |
| ModelHistory.UpdateNote | core/model_manager.py:122-128 | true exactly when the identifier is known; then only the first such entry gets the new note |
| Live2DHistory.FallbackExtendsNewModel | core/live2d_manager.py:86-173 | the settings returned for an unknown model are a new model's settings plus `idle_motion_enabled`, with the same values |
| Live2DHistory.LoadDefaultsAgreeWithNewModel | core/live2d_manager.py:35-103 | every default loading fills in is part of a new model's settings with the same value |
| Live2DHistory.ModelName | core/live2d_manager.py:66 | a non-empty given name is kept; otherwise the folder's last component |
| Live2DHistory.AddModel | core/live2d_manager.py:63-109 | a known folder moves its first entry to the front with a fresh `last_used` and answers that entry's id, the others keep their order; a new folder is pushed at the front with the new id, the name rule and the new-model settings; the list is not capped |
| Live2DHistory.AddKeepsFoldersDistinct | core/live2d_manager.py:63-109 | adding keeps folder paths pairwise distinct and puts the folder at the front |
| Live2DHistory.ReAddAnswersSameId | core/live2d_manager.py:69-76 | adding a folder again answers the id it got the first time and changes only the front entry |
| Live2DHistory.GetLastModel | core/live2d_manager.py:122-126 | `None` exactly for an empty history; otherwise the front entry |
| Live2DHistory.AddedModelIsLast | core/live2d_manager.py:63-126 | after adding, the last model is the added folder and has the id the addition answered |
| Live2DHistory.RemoveModel | core/live2d_manager.py:128-135 | true exactly when the identifier is present; then the first entry with it is deleted; otherwise nothing changes |
| Live2DHistory.RemoveFirstIsRemoveAll | core/live2d_manager.py:128-135 | with distinct identifiers, deleting the first match is the same as filtering out every match |
| Live2DHistory.UpdateUiSettings | core/live2d_manager.py:137-145 | unknown exactly when no entry has the identifier; the first such entry's settings are merged with the new ones and its `last_used` refreshed, nothing else changes; missing or non-dict settings raise |
| Live2DHistory.GetUiSettings | core/live2d_manager.py:147-173 | an unknown identifier gives the fallback settings; a known one gives a copy of its stored settings, and raises when they are missing or cannot be copied |
| Live2DHistory.UpdateThenGet | core/live2d_manager.py:137-151 | reading settings after an update sees every key just written with its new value |
| Live2DHistory.NewModelReadsDefaults | core/live2d_manager.py:79-151 | a freshly added model reads back exactly the new-model settings |
| Live2DHistory.FillUiDefaults | core/live2d_manager.py:35-44 | the setdefault chain adds exactly the missing default keys with their defaults and keeps every stored value |
| Live2DHistory.FillUiDefaultsIdempotent | core/live2d_manager.py:35-44 | filling twice is filling once |
| Live2DHistory.NewModelSurvivesLoad | core/live2d_manager.py:35-104 | loading leaves a new model's settings untouched |
| Live2DHistory.LoadEntry | core/live2d_manager.py:33-44 | one entry raises exactly when it is not a dict or its `ui_settings` is not a dict |
| Live2DHistory.LoadEntrySpec | core/live2d_manager.py:33-44 | a loaded entry keeps its fields, gains a `ui_settings` dict that keeps its stored keys and gains the missing defaults, and the flag says whether anything was added |
| Live2DHistory.LoadHistory | core/live2d_manager.py:26-49 | a missing, unreadable or non-dict file gives an empty history; an entry that raises empties the history; otherwise every entry is loaded in place |
| AudioAnalysis.HumGains | core/audio_analyzer.py:589-601 | eight negative gains in dB, never rising in depth from one harmonic to the next |
| AudioAnalysis.StrongerHumCutsDeeper | core/audio_analyzer.py:589-601 | a stronger hum never gets a shallower notch on any harmonic |
| AudioAnalysis.Harmonics | core/audio_analyzer.py:554 | the eight harmonics `base * k` for k = 1..8 |
| AudioAnalysis.SignificantHums | core/audio_analyzer.py:545-550 | the hums above 15 %, each taken from the input; every hum above 15 % is kept as often as it occurs; empty exactly when none is above 15 % |
| AudioAnalysis.SignificantHumsAppend | core/audio_analyzer.py:548-550 | selecting from two lists joined is selecting from each and joining, so the kept hums keep the analysis order |
| AudioAnalysis.NotchFrequencies | core/audio_analyzer.py:553-558 | eight frequencies per significant hum, block j being the harmonics of hum j |
| AudioAnalysis.NotchGains | core/audio_analyzer.py:553-559 | eight gains per significant hum, block j being the gains for hum j's strength |
| AudioAnalysis.GenerateCleaningPreset | core/audio_analyzer.py:527-587 | the preset is enabled and auto-generated; hum removal is on exactly when some hum exceeds 15 %, with a notch block per such hum; noise reduction is on exactly for an SNR under 25 dB, and its floor is 5 dB under a measured floor above -35, at least -35, else -28; the high-pass is 100 Hz exactly when some hum exceeds 30 %; clipping beats a high peak in choosing the true-peak ceiling |
| AudioAnalysis.CleanRecordingGetsDefaults | core/audio_analyzer.py:529-542 | a recording without hum, with good SNR, a low peak and no clipping gets exactly the default preset |
| AudioAnalysis.LeadingRun | core/audio_analyzer.py:515-517 | `np.argmax(~mask)`: the length of the leading run of silent samples |
| AudioAnalysis.EdgeSilenceLen | core/audio_analyzer.py:510-525 | the three branches (empty, all silent, first sound) agree with one rule: the leading silent run from the chosen end, in seconds |
| AudioAnalysis.EdgeSilenceBounded | core/audio_analyzer.py:510-525 | the silent edge lies between 0 and the recording's length |
| AudioAnalysis.TrailingIsReversedLeading | core/audio_analyzer.py:519-524 | the trailing silence is the leading silence of the reversed mask |
| AudioAnalysis.ClipMask | core/audio_analyzer.py:426 | a sample is marked exactly when its magnitude reaches the threshold |
| AudioAnalysis.RunsAreMaximalRuns | core/audio_analyzer.py:429-432 | the run lengths are exactly the maximal runs of clipped samples, left to right: each is bounded by an unclipped sample or the edge on both sides, neighbours are separated, and every clipped sample lies in one |
| AudioAnalysis.RunsCoverClips | core/audio_analyzer.py:429-432 | the run lengths add up to the number of clipped samples |
| AudioAnalysis.CountAtLeast | core/audio_analyzer.py:433 | how many run lengths reach `min_run`: all of them when every one does, none when none does |
| AudioAnalysis.CountAtLeastAppend | core/audio_analyzer.py:433 | counting distributes over joining, so each run counts once, by its own length |
| AudioAnalysis.CountClipRuns | core/audio_analyzer.py:421-435 | the maximal runs of at least `min_run` clipped samples of the first channel plus those of the rest; no channel, no run; with `min_run` at most 1 every maximal run counts |
| AudioAnalysis.CountClipRunsAppend | core/audio_analyzer.py:424-434 | the count over several channels is the sum of the per-channel counts |
| AudioAnalysis.RunOfFourCountsOnce | core/audio_analyzer.py:429-434 | four clipped samples in a row are one run, counted once with `min_run` 3 |
| AudioAnalysis.NoClipsNoRuns | core/audio_analyzer.py:427-428 | a channel without a clipped sample contributes no run, matching the early `continue` |
| AudioCleaner.DefaultUserSettings | ui/audio_cleaner_control.py:141-150 | the built-in settings hold exactly the `audio_cleaner` and `ui_preferences` sections |
| AudioCleaner.PairOf | ui/audio_cleaner_control.py:160-161 | the elements modelled as pairs `dict.update` accepts: a two-element list with a string key gives that key and item, a two-character string gives its two characters; every other element is treated as refused |
| AudioCleaner.UpdatePairs | ui/audio_cleaner_control.py:160-161 | `update` with a list of pairs succeeds exactly when every element is a pair; it keeps the old keys, adds every pair's key, adds no other key, and the last pair's value wins |
| AudioCleaner.UntouchedKeyKept | ui/audio_cleaner_control.py:160-161 | a key no pair sets keeps its old value |
| AudioCleaner.LoadSettings | ui/audio_cleaner_control.py:153-169 | a loaded dict is merged over the defaults with its top-level keys winning and the other defaults kept; a list of pairs sets its keys in order; anything `update` refuses, or a missing or unreadable file, gives the defaults; the default keys are always there |
| AudioCleaner.PairListLoads | ui/audio_cleaner_control.py:153-169 | a pair list setting `audio_cleaner` replaces that section: the cleaner reads as on and the other defaults stay |
| AudioCleaner.CleanerField | ui/audio_cleaner_control.py:180-193 | a missing section gives the default; a non-dict section raises; otherwise the section's value or the default |
| AudioCleaner.SetCleanerField | ui/audio_cleaner_control.py:184-200 | the section is created when missing and only the one key changes in it; every other top-level key is kept; a non-dict section raises |
| AudioCleaner.DefaultsReadBack | ui/audio_cleaner_control.py:141-193 | fresh settings read as cleaner off and the standard preset |
| AudioCleaner.SetThenGet | ui/audio_cleaner_control.py:180-200 | a field reads back what was last written, and writing one field leaves another as it read before |
| AudioCleaner.EnabledRoundTrip | ui/audio_cleaner_control.py:180-193 | setting the enabled flag reads back that flag and leaves the remembered preset as it was |
| AudioCleaner.Preset | ui/audio_cleaner_control.py:739-763 | exactly the four named presets exist; none carries `enabled`; every one is marked not auto-generated; notch frequencies and gains come in equal numbers |
| AudioCleaner.ApplyPreset | ui/audio_cleaner_control.py:729-782 | an empty choice changes nothing; settings without `enabled` raise; an unknown preset changes nothing; a known preset's values are taken, every other setting and the `enabled` flag are kept, and the preset is remembered |
| AudioCleaner.PresetIsPlainMerge | ui/audio_cleaner_control.py:765-772 | putting `enabled` back gives the same result as the plain merge, because no preset carries `enabled` |
| AudioCleaner.PresetIdempotent | ui/audio_cleaner_control.py:765-772 | choosing the same preset twice changes nothing the second time |
| AudioCleaner.PresetKeepsSwitch | ui/audio_cleaner_control.py:735-772 | any known preset applies and leaves the on/off switch as it was |
| WavPlayer.Load | core/wav_player.py:33-60 | success exactly when the file was read with a non-zero rate; then loaded at position 0 with duration × rate = sample count and the play flags and volume kept; a missing file changes nothing |
| WavPlayer.Play | core/wav_player.py:62-84 | (corrected) nothing without audio or while already playing; otherwise playing, not paused, at the clamped start, or where it paused, or at 0 |
| WavPlayer.PlayAsWrittenLeavesAudio | core/wav_player.py:72-80 | as written, a fresh play at 5 s on a 1 s clip sets the position to 5, which breaks the player invariant |
| WavPlayer.PlayDiffersOnlyOnFreshStart | core/wav_player.py:72-80 | the written and corrected `play` agree on every resume, every start without a position and every start inside the audio |
| WavPlayer.Pause | core/wav_player.py:89-100 | only while playing; then paused, not playing, position and length kept |
| WavPlayer.Stop | core/wav_player.py:102-114 | only while playing or paused; then neither, and back at 0 |
| WavPlayer.SetVolume | core/wav_player.py:132-134 | the volume ends in [0, 2], equals the request when that is in range, and nothing else changes |
| WavPlayer.Seek | core/wav_player.py:116-130 | without audio nothing; otherwise the position is the target clamped into the audio and running playback keeps running |
| WavPlayer.SeekSameAsWritten | core/wav_player.py:116-130 | seeking resumes through the pause branch, so the written `play` keeps the clamp there |
| WavPlayer.UpdatePosition | core/wav_player.py:180-191 | a tick while playing advances 0.05 s, or at the end stops the player back at 0; otherwise nothing |
| WavPlayer.OperationsKeepValid | core/wav_player.py:18-191 | the fresh player and every (corrected) operation keep: non-negative length, position inside it, never playing and paused at once, volume in [0, 2] |
| WavPlayer.PauseThenPlayResumes | core/wav_player.py:62-100 | pausing and then playing without a position gives back the playing state unchanged |
| WavPlayer.TicksReachEnd | core/wav_player.py:180-191 | enough ticks to pass the end always leave the player stopped at 0 |
| WavPlayer.StoppedStaysStopped | core/wav_player.py:180-183 | ticks do nothing to a player that is not playing |
| WavPlaybackControl.Pad2 | ui/wav_playback_control.py:464-468 | `{n:02d}` gives two decimal digits for 0-99, only digits for any non-negative number, and for a negative number a minus sign followed by its digits, two characters in all exactly from -9 to -1 |
| WavPlaybackControl.SignedDigits | ui/wav_playback_control.py:468 | a minus sign followed by the digits of `m` reads back as `m` |
| WavPlaybackControl.Pad2Value | ui/wav_playback_control.py:464-468 | the padded digits read back as the number |
| WavPlaybackControl.Mod60 | ui/wav_playback_control.py:467 | Python's float `% 60` lies in [0, 60) |
| WavPlaybackControl.FormatTime | ui/wav_playback_control.py:464-468 | for non-negative seconds the text has at least five characters with the colon third from the end; negative seconds start with a minus sign |
| WavPlaybackControl.NegativeTimeDisplay | ui/wav_playback_control.py:464-468 | one second before zero shows as `-1:59` |
| WavPlaybackControl.WholeSeconds | ui/wav_playback_control.py:466-467 | 60 × minutes + seconds as computed by `//` and `%` equals the whole seconds |
| WavPlaybackControl.FormatTimeReadsBack | ui/wav_playback_control.py:464-468 | the `mm:ss` text parses back to minutes and seconds below 60 whose total is the whole seconds of the input |
| WavPlaybackControl.MinutesAndSeconds | ui/wav_playback_control.py:468 | padded minutes, a colon and padded seconds parse back to the same pair |
| WavPlaybackControl.ResumeStartsAtZeroAsWritten | ui/wav_playback_control.py:384-392 | as written, resuming from a pause always asks playback to start at 0, because the paused flag is cleared before it is read |
| WavPlaybackControl.ResumeLosesPosition | ui/wav_playback_control.py:384-392 | as written, a control paused at 3 s resumes from 0 s rather than 3 s |
| WavPlaybackControl.TogglePlayPause | ui/wav_playback_control.py:371-392 | (corrected) nothing without audio; playing pauses and signals a pause; otherwise plays and signals a start at the paused position or at 0; the position and slider are kept |
| WavPlaybackControl.ToggleTwiceResumes | ui/wav_playback_control.py:371-392 | (corrected) pausing and toggling again asks playback to resume where it was |
| WavPlaybackControl.ToggleDiffersOnlyOnResume | ui/wav_playback_control.py:371-392 | the written and corrected toggles agree except on a resume from a non-zero position |
| WavPlaybackControl.StopPlayback | ui/wav_playback_control.py:395-410 | without audio nothing; otherwise stopped, not paused, at 0 with the slider at 0, and a stop is signalled |
| WavPlaybackControl.UpdatePosition | ui/wav_playback_control.py:412-424 | the position is always taken; the slider is left alone while dragging or without a length; otherwise it is the truncated per-mille position, clamped by the slider into [0, 1000]: 0 before the start, 1000 past the end |
| WavPlaybackControl.SeekReleased | ui/wav_playback_control.py:430-437 | dragging ends; a position is signalled exactly when the length is positive, and it lies inside the audio |
| WavPlaybackControl.SliderRoundTrip | ui/wav_playback_control.py:412-437 | a position shown on the slider and released comes back at most one slider step (a thousandth of the length) earlier, never later |
| WavPlaybackControl.OperationsKeepValid | ui/wav_playback_control.py:371-437 | every handler keeps the control's invariant (never playing and paused, slider in range), whatever position is reported |
| StreamingWorker.TrimSilence | ui/streaming_tts_worker.py:238-250 | the result is a prefix of the audio; it is the whole audio when empty, with no positive threshold or with nothing loud, and otherwise ends a tenth of a second after the last loud sample or at the end; no loud sample is cut |
| StreamingWorker.TrimAgreesWithMainWindow | ui/streaming_tts_worker.py:238-250 | the worker's trim and the main window's trim agree for every positive threshold |
| StreamingWorker.TrimCutsOnlySilence | ui/streaming_tts_worker.py:238-250 | every sample that the trim drops is quiet |
| StreamingWorker.AddSilenceAfter | ui/streaming_tts_worker.py:204-226 | a positive `silence_after` appends `int(rate × seconds)` zero samples and one ending `sil` frame at the old total, lengthening the total by the silence; otherwise nothing changes |
| StreamingWorker.SilenceAfterKeepsTimeline | ui/streaming_tts_worker.py:212-226 | frames that tile the timeline from 0 to the total still do so after the silence frame is appended |
| StreamingWorker.ProcessChunk | ui/streaming_tts_worker.py:161-236 | no chunk for blank text or a failed synthesis; otherwise the sample rate is kept and the audio starts with the trimmed synthesis, which is all of it without `silence_after` |
| StreamingWorker.DeliveredCount | ui/streaming_tts_worker.py:81-92 | never more than the number of texts; all of them without a cancellation |
| StreamingWorker.SynthesizeStreaming | ui/streaming_tts_worker.py:53-121 | the emitted events are the reference event sequence; the chunks started are those delivered plus at most three ahead, in index order |
| StreamingWorker.ProgressInOrder | ui/streaming_tts_worker.py:81-108 | the progress counts emitted are exactly 1, 2, … up to the number delivered |
| StreamingWorker.ChunkReadyExactly | ui/streaming_tts_worker.py:96-105 | a chunk is delivered under an index exactly when that index was reached and its processing produced that chunk |
| StreamingWorker.FinishedExactly | ui/streaming_tts_worker.py:64-120 | `all_finished` is emitted exactly when there was nothing to do or no cancellation, and alone when there was nothing to do |
| MainWindow.FramesFrom | ui/main_window.py:1240-1243 | the kept frames are exactly the frames at or after the start, each taken from the input |
| MainWindow.FramesFromAppend | ui/main_window.py:1240-1243 | filtering distributes over concatenation, so the order of the frames is kept |
| MainWindow.ShiftFrames | ui/main_window.py:1249-1259 | each frame is moved back by the start and otherwise unchanged |
| MainWindow.ShiftRoundTrip | ui/main_window.py:1249-1259 | shifting back by the start and forward again gives the frames back |
| MainWindow.StartWavLipSync | ui/main_window.py:1227-1275 | nothing without data, without a loaded model, or with no frame at or after the start; otherwise the text, the duration minus the start, and the kept frames shifted to start at 0, none of them negative |
| MainWindow.StartAtFrame | ui/main_window.py:1227-1275 | starting at a frame's own timestamp of a timeline that tiles from 0 keeps that frame and every later one, re-tiled from 0 |
| MainWindow.TimestampsIncrease | ui/main_window.py:1240-1243 | in frames that tile the timeline with positive durations the timestamps strictly increase |
| MainWindow.OpenLevel | ui/main_window.py:270 | `mouth_open / 100` clamped into [0, 1], equal to it inside the range and to the bound outside |
| MainWindow.FormLevel | ui/main_window.py:271 | `mouth_form / 100` clamped into [-1, 1], equal to it inside the range and to the bound outside |
| MainWindow.VowelShape | ui/main_window.py:268-276 | a vowel with numeric `mouth_open` and `mouth_form` becomes exactly `open` and `form`, rounded to three places; a non-number raises |
| MainWindow.BasicPart | ui/main_window.py:258-262 | the basic section gives exactly `enabled` (default true) and the sensitivity and mouth scale divided by 100 (default 100); a non-number raises |
| MainWindow.VowelsPart | ui/main_window.py:265-276 | every dictionary-valued vowel and no other key is sent, with its shape; any bad vowel makes the whole call raise |
| MainWindow.SimpleSettings | ui/main_window.py:249-276 | the sent keys are the basic keys when `basic` is present plus `vowels` when `phoneme` is present, with those parts' values; either part failing fails the whole |
| MainWindow.SentLevelsInRange | ui/main_window.py:268-276 | every level sent (without rounding) is inside [0, 1] for opening and [-1, 1] for form |
| MainWindow.TrimSilence | ui/main_window.py:759-763 | a prefix of the audio; all of it when nothing is loud, otherwise ending a tenth of a second after the last loud sample or at the end; no loud sample is cut |
| MainWindow.CorrectSplitter | ui/main_window.py:493-508 | with fewer than two panes nothing; a right pane wider than 30 % is cut to `int(30 %)`, otherwise a left pane narrower than 70 % is widened to `int(70 %)`, the total always kept; no change exactly when both limits hold |
| MainWindow.CappedRightIsStable | ui/main_window.py:493-508 | after the right pane is capped, a second check leaves the panes alone |
| MainWindow.WidenedLeftSettles | ui/main_window.py:493-508 | after the left pane is widened, the right pane is below 30 % plus one pixel and a second check can at most trim it back within 30 % |
| MultiText.RowText | ui/multi_text.py:218-220 | a row's text comes back with no surrounding whitespace |
| MultiText.CleanLine | ui/multi_text.py:641-647 | a blank line is skipped; any other line becomes its words joined by single spaces |
| MultiText.CleanLines | ui/multi_text.py:641-647 | no more lines come out than went in, and each is single-spaced: not empty, only plain spaces, none at an end or doubled |
| MultiText.TextLines | ui/multi_text.py:636-647 | a blank row gives no lines, and every line given is single-spaced |
| MultiText.TextLinesOfSingleSpaced | ui/multi_text.py:636-647 | a row that already holds one single-spaced line gives back exactly that line |
| MultiText.JoinWordsOfSingleSpaced | ui/multi_text.py:645 | splitting a single-spaced line into words and joining them with spaces gives the line back |
| MultiText.SplitRowsAppend | ui/multi_text.py:633-647 | the lines of consecutive rows are the lines of each row in order |
| MultiText.RequiredRows | ui/multi_text.py:655 | the required row count is the number of lines, and 1 when there are none |
| MultiText.ExtraRowIds | ui/multi_text.py:659-662 | the rows past the required count, in order, are the ones marked for deletion; none when there are not more rows than required |
| MultiText.ArrangeRows | ui/multi_text.py:627-712 | after the batched split there are exactly the required rows; row k holds line k or nothing; existing rows keep their id, parameters and silence; added rows get fresh ids, the default parameters and no silence |
| MultiText.AutoSplitIdempotent | ui/multi_text.py:627-712 | splitting rows that were already split gives the same lines again |
| MultiText.ResplitLines | ui/multi_text.py:627-712 | after the split the rows' lines are exactly the lines that were extracted |
| MultiText.SplitNothing | ui/multi_text.py:627-712 | a split of rows without text leaves one empty row, which yields no lines |
| MultiText.DeleteRow | ui/multi_text.py:479-494 | the last remaining row and unknown ids are kept; otherwise exactly the row with the id is removed, so at least one row always remains |
| MultiText.DeleteRowRemovesId | ui/multi_text.py:479-494 | with distinct ids and more than one row, the id is gone afterwards and the ids stay distinct |
| MultiText.RowNumbers | ui/multi_text.py:496-501 | the numbering has an entry for every row id and no other |
| MultiText.RowNumbersArePositions | ui/multi_text.py:496-501 | with distinct ids each row is numbered by its position, starting at 1 |
| MultiText.FocusTarget | ui/multi_text.py:599-609 | no target without rows; otherwise the requested number clamped into [1, row count] |
| MultiText.JumpRange | ui/multi_text.py:564-573 | the maximum is `max(1, count)` and the current value is kept unless it exceeds that, when it is lowered to it |
| MultiText.CollectTexts | ui/multi_text.py:525-539 | at most one entry per row, each with non-empty stripped text |
| MultiText.CollectAppend | ui/multi_text.py:525-539 | collecting consecutive rows gives each part's entries in row order |
| MultiText.CollectOne | ui/multi_text.py:525-539 | a blank row contributes nothing; any other row contributes its id, stripped text, parameters and silence |
| MultiText.CollectAfterSplit | ui/multi_text.py:525-539 | after a split every row contributes exactly its line, in row order |
| CharacterDisplay.NormalizeColorCode | ui/character_display.py:887-903 | nothing for empty text; after a `#` is put in front when missing, a code is returned exactly when the text has seven characters and the rest is accepted by `int(..., 16)`, and it is `#` plus the lowercased rest |
| CharacterDisplay.NormalizeIdempotent | ui/character_display.py:887-903 | normalising a normalised code gives it back |
| CharacterDisplay.PlainHexAccepted | ui/character_display.py:887-903 | six hex digits, with or without `#`, are accepted and lowercased |
| CharacterDisplay.SignedCodeAccepted | ui/character_display.py:887-903 | because `int(..., 16)` takes a sign, `-`/`+` and five hex digits pass as a colour |
| CharacterDisplay.PrefixedCodeAccepted | ui/character_display.py:887-903 | because `int(..., 16)` takes a `0x` prefix, `0x` and four hex digits pass as a colour |
| CharacterDisplay.SpacedCodeAccepted | ui/character_display.py:887-903 | because `int(..., 16)` strips whitespace, four hex digits between spaces pass as a colour |
| CharacterDisplay.OtherRefused | ui/character_display.py:896-901 | a `#` code with any character that is neither hex, sign, `x`, `_` nor whitespace is refused |
| CharacterDisplay.DoubleUnderscoreRefused | ui/character_display.py:896-901 | a `#` code with two underscores in a row is refused |
| CharacterDisplay.Or | ui/character_display.py:846 | Python's `a or b`: `a` when truthy, else `b` |
| CharacterDisplay.BackgroundSettings | ui/character_display.py:821-862 | image mode without any image path changes nothing; otherwise the mode, alpha and preview alpha are set, an explicit alpha wins, image mode keeps a truthy path, and chroma without a colour keeps the previous colour or green |
| CharacterDisplay.BackgroundDefaults | ui/character_display.py:821-862 | each mode's keys, and each value as the keyword argument or else the mode's default: white `#ffffff` at alpha 0 and preview 1, transparent `#000000` at 0 and 0, chroma at 1 and 1 with the previous colour or green, image at 0 and 1 with the previous fit and repeat or `contain`/`no-repeat`, any other mode at 0 and 1 |
| CharacterDisplay.PreviewOpacityByMode | ui/character_display.py:821-845 | without arguments transparent is invisible in the preview, white is opaque there but transparent in output, and chroma is opaque |
| CharacterDisplay.ImageModeKeepsPreviousImage | ui/character_display.py:846-856 | switching to image mode without a path reuses the previous image |
| CharacterDisplay.ImageModeReapplies | ui/character_display.py:846-862 | switching to image mode again with no arguments gives the same settings |
| CharacterDisplay.PositionMaps | ui/character_display.py:1230-1231 | slider values in [0, 100] map into [-1, 1], 50 maps to 0, the horizontal axis is reversed, and the map is inverted by `50 ∓ 50·pos` |
| CharacterDisplay.WheelZoom | ui/character_display.py:250-354 | a wheel step moves the zoom by the step up or down, stopping at the bound, and keeps a zoom inside the bounds inside |
| CharacterDisplay.Live2DWheelZoom | ui/character_display.py:345-354 | the Live2D zoom stays within [80, 500] |
| CharacterDisplay.ImageWheelZoom | ui/character_display.py:250-257 | the image zoom stays within [20, 150] |
| CharacterDisplay.ZoomInThenOut | ui/character_display.py:250-354 | zooming in and back out returns to the start when the first step did not hit the bound |
| CharacterDisplay.Drag | ui/character_display.py:366-384 | both sliders end within [0, 100], and a slider on an axis without movement keeps its value |
| CharacterDisplay.DragDirections | ui/character_display.py:366-384 | moving right or down never raises the corresponding slider, moving left or up never lowers it |
| CharacterDisplay.ViewSettingsOf | ui/character_display.py:1629-1643 | the scale is the zoom over 100 and the position the slider map of the stored values (defaults 100, 50, 50); a non-number fails |
| CharacterDisplay.ApplySettings | ui/character_display.py:1629-1666 | nothing without a loaded model; unforced, nothing when the rounded key equals the last one, else a send exactly when 50 ms have passed since the last; forced, always a send; a send remembers its key and time |
| CharacterDisplay.ReapplySendsNothing | ui/character_display.py:1646-1651 | re-applying the same settings unforced sends nothing, however late |
| VowelFrames.Silence | core/lip_sync_engine.py:1009-1015 | a silence frame is `sil`, at zero intensity and not an ending |
| VowelFrames.SameTimingKeepsContiguity | core/lip_sync_engine.py:977-1028 | frames with the same timestamps and durations as a contiguous timeline are contiguous from the same start |
| LipSyncFrames.Stretch | core/lip_sync_engine.py:253-256 | each frame's duration is multiplied by the scale and nothing else changes |
| LipSyncFrames.Restack | core/lip_sync_engine.py:250-265 | the frames are laid end to end from the start, each otherwise unchanged |
| LipSyncFrames.StretchTotal | core/lip_sync_engine.py:247-256 | stretching multiplies the total duration by the scale |
| LipSyncFrames.RestackTotal | core/lip_sync_engine.py:250-265 | laying frames end to end keeps their total duration |
| LipSyncFrames.Rescale | core/lip_sync_engine.py:246-294 | frames of zero total are left alone; otherwise the result is contiguous from 0, totals exactly the target, and is each frame's duration scaled by target / old total |
| LipSyncFrames.RescaleKeepsContent | core/lip_sync_engine.py:246-294 | rescaling keeps every vowel a known one and every intensity in [0, 1] |
| LipSyncFrames.ApplySilence | core/lip_sync_engine.py:977-1028 | timing is kept; a non-silent frame whose midpoint lies in a region, bounds included, becomes a silent non-ending frame, and every other frame is kept; no regions change nothing |
| LipSyncFrames.ApplySilenceIdempotent | core/lip_sync_engine.py:977-1028 | applying the same regions twice is the same as once |
| LipSyncFrames.ApplySilenceSilences | core/lip_sync_engine.py:977-1028 | every frame centred in a region ends up `sil`, at zero intensity unless it was already `sil` |
| LipSyncFrames.ProtectEndings | core/lip_sync_engine.py:584-610 | timing is kept; disabled it changes nothing; enabled, each non-silent ending frame's intensity becomes `min(1, intensity × boost)` and every other frame is kept |
| LipSyncFrames.ProtectEndingsBounds | core/lip_sync_engine.py:584-610 | with a boost of at least 1, intensities stay in [0, 1] and never drop |
| LipSyncFrames.ApplySensitivity | core/lip_sync_engine.py:623-644 | timing, vowel and ending flag are kept and each intensity becomes `intensity × sensitivity / 100` clamped into [0, 1] |
| LipSyncFrames.SensitivityHundredIsIdentity | core/lip_sync_engine.py:623-644 | a sensitivity of 100 leaves frames with intensities in [0, 1] unchanged |
| LipSyncFrames.EstimateDurationFromText | core/lip_sync_engine.py:336-349 | the estimate is at least 0.5 s and at most the character count (at least 1) times the per-character time; without punctuation it is exactly that product or 0.5 |
| LipSyncFrames.FallbackFrames | core/lip_sync_engine.py:659-672 | frame k of the run is the fallback frame for index i + k |
| LipSyncFrames.Fallback | core/lip_sync_engine.py:646-676 | the text is kept; the total is the actual duration or the text estimate; there are `min(len, 10)` frames cycling a-i-u-e-o, each of the total over the length, and only the frame at the last character is an ending, at 0.8 against 0.7 |
| LipSyncFrames.FallbackWellFormed | core/lip_sync_engine.py:646-676 | the fallback frames have known vowels, intensities in [0, 1] and tile the timeline from 0 |
| LipSyncFrames.FallbackFramesContiguous | core/lip_sync_engine.py:659-672 | the fallback frames from index i are contiguous from i × the per-character time |
| LipSyncFrames.ShapeFrames | core/lip_sync_engine.py:246-310 | rescaling, silencing, ending protection and sensitivity keep vowels known and intensities in [0, 1] |
| LipSyncFrames.ShapeFramesTiming | core/lip_sync_engine.py:296-310 | silencing, protection and sensitivity never change the rescaled timing |
| LipSyncFrames.Analyze | core/lip_sync_engine.py:206-334 | the result keeps the text, its frames have known vowels and intensities in [0, 1], and with audio the total is the audio's length |
| LipSyncFrames.AnalyzeIsContiguous | core/lip_sync_engine.py:206-334 | when the phonemes give at least one frame, the frames tile the timeline from 0 and add up to the total duration |
| LipSyncPhonemes.Combine | core/lip_sync_engine.py:427-451 | a pair is combined exactly when it is a consonant from the table with a, i, u, e or o, or y with a, u, o, or ch, sh, j with i, u, o; the result is the two joined, except that (w, a) gives `ha` because the later dictionary entry wins |
| LipSyncPhonemes.ConvertSingle | core/lip_sync_engine.py:453-460 | a lone `w` becomes `wa`, a lone `n` becomes `N`, and anything else is kept |
| LipSyncPhonemes.Merge | core/lip_sync_engine.py:398-425 | the merge never lengthens the list, at most halves it, and gives something for any non-empty input |
| LipSyncPhonemes.MergePhonemes | core/lip_sync_engine.py:398-425 | the loop computes the reference merge |
| LipSyncPhonemes.MergeWithoutPairs | core/lip_sync_engine.py:398-425 | with no combinable neighbours every token is converted on its own, one for one |
| LipSyncPhonemes.BaseDuration | core/lip_sync_engine.py:488-496 | a plain vowel lasts 1.0, `N`, `Q`, `pau`, `cl` last 0.3, anything else 0.7 |
| LipSyncPhonemes.LayOut | core/lip_sync_engine.py:366-388 | blank tokens are skipped, no entry is an ending yet, each lasts its base duration, and the entries are laid end to end from the start; without blanks there is one entry per token |
| LipSyncPhonemes.LastMeaningful | core/lip_sync_engine.py:468-481 | the last entry that is not `pau`, `sil`, `sp`, `Q` or `cl`, all later ones being pauses; none when every entry is a pause |
| LipSyncPhonemes.MarkEnding | core/lip_sync_engine.py:462-486 | only the ending flag can change; disabled, or with only pauses, nothing changes; enabled, exactly the last meaningful entry is marked |
| LipSyncPhonemes.MarkEndingIsLast | core/lip_sync_engine.py:462-486 | an entry newly marked as the ending is followed only by pauses |
| LipSyncPhonemes.MapToVowel | core/lip_sync_engine.py:529-582 | the result is always a known vowel, `n` or `sil`: the table's entry, else the vowel the phoneme ends in, else `sil` |
| LipSyncPhonemes.MergedPairVowel | core/lip_sync_engine.py:427-451 | every merged pair maps to the vowel it was merged with |
| LipSyncPhonemes.TableAgreesWithSuffix | core/lip_sync_engine.py:529-582 | wherever the table and the last-letter rule both apply (other than `pau`) they agree |
| LipSyncPhonemes.Intensity | core/lip_sync_engine.py:612-621 | a, e, o give 0.9, i, u 0.7, n 0.3, anything else 0.1, so always strictly inside (0, 1) |
| LipSyncPhonemes.ToFrames | core/lip_sync_engine.py:498-527 | one frame per entry with its start, duration and ending flag, the mapped vowel, and an intensity in [0, 1] |
| LipSyncKeyframes.FirstActive | core/lip_sync_engine.py:773-778 | the index of the first frame covering the time, with no earlier frame covering it; none exactly when no frame covers it |
| LipSyncKeyframes.FindActive | core/lip_sync_engine.py:773-778 | a frame is found exactly when some frame covers the time, and it is the first such frame |
| LipSyncKeyframes.ContiguousActive | core/lip_sync_engine.py:773-778 | on a contiguous timeline the frame covering a time is the one found |
| LipSyncKeyframes.EndsBefore | core/lip_sync_engine.py:773-778 | on a contiguous timeline an earlier frame ends no later than a later one starts |
| LipSyncKeyframes.GenerateKeyframes | core/lip_sync_engine.py:678-771 | empty for missing data or no frames; otherwise six vowel channels and the two mouth lists, each with `int(total × fps)` keys, holding the per-keyframe values |
| LipSyncKeyframes.KeysNumbered | core/lip_sync_engine.py:704-757 | every key carries its own keyframe number |
| LipSyncKeyframes.OneChannelAtATime | core/lip_sync_engine.py:710-719 | at any keyframe at most one vowel channel is non-zero |
| LipSyncKeyframes.GapIsClosed | core/lip_sync_engine.py:741-757 | where no frame is active every channel and both mouth values are 0 and not endings |
| LipSyncKeyframes.MouthKeysBounded | core/lip_sync_engine.py:720-731 | with the built-in mapping, intensities in [0, 1] and a scale up to 500 %, the opening is in [0, 5] and the form in [-1, 1] |
| LipSyncKeyframes.KeyframesBounded | core/lip_sync_engine.py:678-771 | under the same conditions every generated `mouth_open` is in [0, 5] and every `mouth_form` in [-1, 1] |
| LipSyncKeyframes.MouthKeysWithin | core/lip_sync_engine.py:720-731 | the same bounds for any mapping whose shapes are within ±100 |
| LipSyncSegments.GroupSegments | core/lip_sync_engine.py:1182-1232 | no groups for no segments; otherwise the groups hold all the segments in order, each group spans its segments with their joined text and has no pause of `min_gap` or more inside, and consecutive groups are split by a pause of at least `min_gap` |
| LipSyncSegments.ExtendOk | core/lip_sync_engine.py:1220-1224 | adding a segment after a short pause keeps the group well formed and the groups separated |
| LipSyncSegments.CloseOk | core/lip_sync_engine.py:1207-1218 | starting a new group after a long pause keeps the groups separated and the segment order |
| LipSyncSegments.FinishGrouping | core/lip_sync_engine.py:1226-1230 | appending the open group completes a grouping of exactly the input segments |
| LipSyncSegments.FillBody | core/lip_sync_engine.py:1262-1283 | each frame followed by at most one filler, so between one and two entries per frame; `FillBodyFilled` and `FillBodyPlaced` state its exact layout |
| LipSyncSegments.FillBodyFilled | core/lip_sync_engine.py:1262-1283 | the frames with fillers between them: every frame kept, in place at both ends, at most one filler per gap, every added frame a silent non-ending filler longer than 0.1 s, and no pause over 0.1 s left |
| LipSyncSegments.Slots | core/lip_sync_engine.py:1262-1283 | one place per frame plus one for the end, starting at 0 and growing by each frame's stride |
| LipSyncSegments.FillBodyPlaced | core/lip_sync_engine.py:1262-1283 | the body has exactly the slots' total length; frame i sits at its slot, and after a pause over 0.1 s the next place holds the silence frame from the frame's end lasting the pause, so the body holds nothing else and nothing twice |
| LipSyncSegments.FillerStep | core/lip_sync_engine.py:1262-1283 | one frame followed by a filler exactly for a gap over 0.1 s extends a filled timeline |
| LipSyncSegments.LeadFill | core/lip_sync_engine.py:1249-1259 | the silence from 0 lasting up to the first frame when it starts after 0.1 s, else nothing |
| LipSyncSegments.TailFill | core/lip_sync_engine.py:1285-1298 | the silence from the last frame's end up to the total when more than 0.1 s is left, else nothing |
| LipSyncSegments.FillGaps | core/lip_sync_engine.py:1235-1300 | empty exactly for no frames; every input frame kept and every added frame a filler; at most two more frames than twice the input |
| LipSyncSegments.FillGapsLayout | core/lip_sync_engine.py:1235-1300 | the filled timeline is the leading silence when the first frame starts after 0.1 s, then the body laid out as `FillBodyPlaced` states, then the trailing silence when the last frame ends more than 0.1 s before the total, and no other frame |
| LipSyncSegments.FillGapsLeavesNoLongPause | core/lip_sync_engine.py:1235-1300 | after filling, the timeline starts within 0.1 s of 0, ends within 0.1 s of the total or later, and has no pause over 0.1 s |
| LipSyncSegments.FillGapsStart | core/lip_sync_engine.py:1249-1259 | the filled timeline starts within 0.1 s of 0 |
| LipSyncSegments.FillGapsEnd | core/lip_sync_engine.py:1285-1298 | the filled timeline ends no earlier than 0.1 s before the total |
| LipSyncSegments.FillGapsPauses | core/lip_sync_engine.py:1235-1300 | the filled timeline has no pause over 0.1 s between consecutive frames |
| LipSyncSettings.DefaultsInRange | core/lip_sync_engine.py:41-80 | the built-in settings, ending protection and vowel mapping lie within the ranges the updates clamp to |
| LipSyncSettings.ToInt | core/lip_sync_engine.py:131-180 | Python's `int()` of a number truncates toward zero, of a bool gives 0 or 1, and raises on null, lists and dictionaries |
| LipSyncSettings.ToFloat | core/lip_sync_engine.py:133-168 | Python's `float()` of a number is its value and raises on null, lists and dictionaries |
| LipSyncSettings.BasicKey | core/lip_sync_engine.py:124-135 | one `basic` key: a flag becomes the value's truthiness; `sensitivity`, `response_speed` and `mouth_open_scale` become `int()` of the value clamped to [0, 500] and `char_duration` `float()` clamped to [0.05, 0.3], raising exactly when the conversion does; nothing else changes, and range is kept |
| LipSyncSettings.ProtectionKey | core/lip_sync_engine.py:137-150 | one `ending_protection` key: `enabled` becomes the value's truthiness, `min_duration` and `intensity_boost` `float()` clamped to [0.1, 1] and [1, 3], `detection_range` `int()` clamped to [1, 10], raising exactly when the conversion does; nothing else changes |
| LipSyncSettings.AdvancedKey | core/lip_sync_engine.py:170-183 | one `advanced` key: `delay_compensation` becomes `int()` clamped to [-1000, 1000], `smoothing_factor` and `volume_threshold` `int()` clamped to [0, 100], the two flags the value's truthiness, `quality_mode` the value as given; nothing else changes |
| LipSyncSettings.ApplyKey | core/lip_sync_engine.py:124-183 | one key keeps the engine in range, touches only its own section and never the mapping, and a raising conversion leaves the engine as it was |
| LipSyncSettings.ApplyKeys | core/lip_sync_engine.py:124-183 | a section's keys in order keep the engine in range, touch only that section, and a section without any of its keys changes nothing |
| LipSyncSettings.ApplySection | core/lip_sync_engine.py:121-173 | a missing or non-dictionary section changes nothing; otherwise the engine stays in range and only that section changes |
| LipSyncSettings.UpdateShape | core/lip_sync_engine.py:159-168 | a convertible `mouth_open` becomes the new opening clamped to [0, 500] and a convertible `mouth_form` the new form clamped to [-500, 500]; a missing or unconvertible value keeps the old one |
| LipSyncSettings.ApplyPhoneme | core/lip_sync_engine.py:152-168 | only the mapping changes, its vowels stay the same, and it stays in range |
| LipSyncSettings.UpdateSettings | core/lip_sync_engine.py:118-196 | any update keeps the engine in range; a section that is absent leaves its settings as they were, the mapping changes only through a `phoneme` dict, and an update naming no known section changes nothing |
| LipSyncSettings.ApplyKeysSingle | core/lip_sync_engine.py:124-183 | a section holding one of its keys is exactly that key's update, raising or not |
| LipSyncSettings.OneKeyUpdate | core/lip_sync_engine.py:118-183 | `update_settings` with one section holding one key applies exactly that key's converted, clamped value |
| LipSyncSettings.SensitivityUpdate | core/lip_sync_engine.py:124-131 | a numeric sensitivity alone is clamped into [0, 500] and nothing else changes |
| LipSyncSettings.RaisingBasicStops | core/lip_sync_engine.py:118-196 | a conversion that raises in `basic` ends the update before `ending_protection` is read |
| PhonemeAnalysis.MapPhonemeToVowel | core/phoneme_analyzer.py:472-491 | always a known vowel, `n` or `sil`: the table's entry, else the vowel the phoneme ends in, else `sil` |
| PhonemeAnalysis.TableAgreesWithLastLetter | core/phoneme_analyzer.py:472-491 | wherever the table and the last-letter rule both apply (other than `pau`) they agree |
| PhonemeAnalysis.ConsonantsAreSilent | core/phoneme_analyzer.py:472-491 | a phoneme outside the table with no vowel letter maps to `sil` |
| PhonemeAnalysis.LengthFactor | core/phoneme_analyzer.py:467 | the factor `10 / max(len, 1)` clamped into [0.8, 1.2]: 1.2 up to 8 characters, 0.8 from 13 |
| PhonemeAnalysis.EstimatePhonemeDuration | core/phoneme_analyzer.py:462-470 | within 0.8 to 1.2 times the phoneme's base duration (0.15 when unknown); an unknown phoneme in a short text lasts 0.18 |
| PhonemeAnalysis.PhonemeIntensity | core/phoneme_analyzer.py:493-518 | in [0, 1]: 0 for pauses, 0.4 for `N`, 0.1 for `Q`, the vowel's intensity for a one-letter phoneme and 0.9 of it for a longer one |
| PhonemeAnalysis.CompoundIsQuieter | core/phoneme_analyzer.py:511-518 | a compound phoneme is never louder than a single-letter one of the same vowel |
| PhonemeAnalysis.IsEndingPhoneme | core/phoneme_analyzer.py:151-177 | the last phoneme is an ending; any other is not exactly when a real phoneme follows and it is more than two from the end or is itself a pause |
| PhonemeAnalysis.EarlyPhonemeIsNotEnding | core/phoneme_analyzer.py:151-177 | a phoneme more than two from the end with a real phoneme after it is not an ending |
| PhonemeAnalysis.ProtectFrom | core/phoneme_analyzer.py:196-243 | (corrected) each record is protected and shifted by the lengthening of the earlier endings |
| PhonemeAnalysis.ApplyEndingProtection | core/phoneme_analyzer.py:179-245 | (corrected) disabled it changes nothing; enabled, every ending non-silent record lasts at least the minimum and is boosted up to 1, every other record is unchanged but shifted, and each starts after the lengthening before it |
| PhonemeAnalysis.ProtectionKeepsContiguity | core/phoneme_analyzer.py:179-245 | (corrected) a back-to-back list stays back to back from the same start |
| PhonemeAnalysis.ProtectAsWritten | core/phoneme_analyzer.py:179-245 | as written, a disabled analyzer or an empty list is returned unchanged |
| PhonemeAnalysis.AsWrittenRaisesWithoutLengthening | core/phoneme_analyzer.py:196-213 | as written, an ending that is already long enough reads `adjustment` before it was ever assigned, which raises |
| PhonemeAnalysis.AsWrittenOverlapsAfterLengthening | core/phoneme_analyzer.py:196-213 | as written, a later ending that needs no lengthening reuses the stale `adjustment` and starts inside the previous record; the corrected version keeps them back to back |
| PhonemeAnalysis.Retime | core/phoneme_analyzer.py:540-569 | the records are laid back to back from the given time, one per input |
| PhonemeAnalysis.RetimeRecords | core/phoneme_analyzer.py:540-569 | each record is scaled, an ending one kept at least 0.8 × the minimum when protection is on, and otherwise unchanged |
| PhonemeAnalysis.OptimizeForTts | core/phoneme_analyzer.py:520-575 | without records, without a positive audio length or with zero estimated length nothing changes; otherwise the records are scaled to the audio and laid back to back from 0 |
| PhonemeAnalysis.RetimeTotal | core/phoneme_analyzer.py:540-569 | without protection the scaled records add up to the scale times the old total |
| PhonemeAnalysis.OptimizeFillsAudio | core/phoneme_analyzer.py:520-575 | without protection the optimised records add up to exactly the audio length |
| PhonemeAnalysis.ExtractVowelSequence | core/phoneme_analyzer.py:577-579 | never longer than the records, no `sil` kept and every other vowel present; `ExtractAtPositions` states that it drops exactly the `sil` records, in order |
| PhonemeAnalysis.ExtractSingle | core/phoneme_analyzer.py:577-579 | one record gives nothing when its vowel is `sil` and its vowel otherwise; with `ExtractAppend` this fixes the whole result |
| PhonemeAnalysis.KeptPositionsExact | core/phoneme_analyzer.py:577-579 | the kept positions are the indices of the non-`sil` records, every one of them, strictly increasing |
| PhonemeAnalysis.ExtractAtPositions | core/phoneme_analyzer.py:577-579 | the extracted vowels are, one for one and in order, the vowels at the kept positions: exactly the `sil` records are dropped |
| PhonemeAnalysis.ExtractAppend | core/phoneme_analyzer.py:577-579 | extraction distributes over concatenation, so record order is kept |
| PhonemeAnalysis.FallbackFrom | core/phoneme_analyzer.py:412-442 | kana give 0.2 s records and punctuation 0.3 s pauses laid back to back, pauses exactly being `sil`; other characters give nothing |
| PhonemeAnalysis.FallbackRecords | core/phoneme_analyzer.py:412-442 | every record's mora position is an index of the text at or after the start; the character there is a table kana, giving that character with its vowel for 0.2 s at 0.7, or else a punctuation mark, giving a 0.3 s `pau` record with vowel `sil` at 0; positions strictly increase; every kana or punctuation index from the start has a record |
| PhonemeAnalysis.DefaultRecords | core/phoneme_analyzer.py:444-458 | five back-to-back records from 0 |
| PhonemeAnalysis.FallbackAnalysis | core/phoneme_analyzer.py:384-460 | never empty, every vowel known; the five defaults when the text has no kana or punctuation, and otherwise one record per kana or punctuation mark as `FallbackRecords` states |
| PhonemeAnalysis.FallbackIsContiguous | core/phoneme_analyzer.py:384-460 | the fallback records are back to back from 0 |
| RealtimeVowel.FormantTableValid | core/audio_realtime_processor.py:69-76 | every row of the Japanese formant table has a non-empty F1 and F2 range |
| RealtimeVowel.RangeScore | core/audio_realtime_processor.py:442-461 | the score lies in [0, 1]; inside the range it falls linearly from the centre, outside it falls over twice the range's width |
| RealtimeVowel.ScoreOneExactlyAtCentre | core/audio_realtime_processor.py:442-452 | the score is 1 exactly at the centre of the range, in both directions |
| RealtimeVowel.ScoreZeroAtEndsAndFarAway | core/audio_realtime_processor.py:442-461 | the score is 0 at either end of the range and at two widths or more outside it |
| RealtimeVowel.ScoreJumpsAtTheEnds | core/audio_realtime_processor.py:442-461 | the score is discontinuous at the range's ends: 0 at 600 Hz but above 0.99 at 599 Hz for the range 600-900 |
| RealtimeVowel.RowScore | core/audio_realtime_processor.py:425-431 | the mean of the F1 and F2 scores stays in [0, 1] |
| RealtimeVowel.ClassifyVowel | core/audio_realtime_processor.py:415-440 | the best score is at least every row's score and is the best score; a zero best keeps `a`; otherwise the vowel is that of the first row with the strictly best score |
| RealtimeVowel.FirstBestUnique | core/audio_realtime_processor.py:433-435 | the strict `>` comparison picks a single row: two first-best rows are the same row |
| RealtimeVowel.BestScore | core/audio_realtime_processor.py:425-440 | the highest row score, or 0 when none is positive: at least every row's score and either 0 or some row's score |
| RealtimeVowel.ScoreIsBest | core/audio_realtime_processor.py:425-440 | any bound on every row that is 0 or attained by a row is the best score |
| RealtimeVowel.ClassifiedUnique | core/audio_realtime_processor.py:425-440 | the classifier's vowel and confidence are determined by the table and the formants |
| RealtimeVowel.BandsAreOrdered | core/audio_realtime_processor.py:481-491 | a higher dominant frequency never picks a lower vowel band (u, o, a, e, i) |
| RealtimeVowel.SimpleDetection | core/audio_realtime_processor.py:463-508 | below RMS 0.01 the frame is silence at confidence 0.8; otherwise a band vowel at confidence 0.6 with intensity `min(1, 3 rms)` in (0, 1] |
| RealtimeVowel.DetectVowel | core/audio_realtime_processor.py:323-360 | without SciPy or with fewer than two formants the simple detector answers; otherwise an answer comes exactly when the best score reaches the threshold, and it carries the classifier's vowel and score, the first two formants, the timestamp and intensity `min(1, 5 rms)` |
| RealtimeVowel.UpdateBuffer | core/audio_realtime_processor.py:250-259 | the buffer is the newest `min(total, max)` samples of the old buffer followed by the new data |
| RealtimeVowel.UpdateBufferTwice | core/audio_realtime_processor.py:250-259 | two updates equal one update with the concatenated data |
| RealtimeVowel.NewProcessor | core/audio_realtime_processor.py:44-67 | the processor is valid with the given frame size; detection has exactly the four keys, enabled with threshold 0.6, smoothing window 3, and formant analysis exactly when SciPy is available |
| RealtimeVowel.UpdateSettings | core/audio_realtime_processor.py:524-540 | vowel settings are merged over the old ones; a new frame size resets the hop size to half of it; the hop-size invariant is kept |
| Recent.Find | core/model_manager.py:104-108 | `None` exactly when no entry has the key; otherwise the index of the first entry with it |
| Recent.FindUnique | core/model_manager.py:104-108 | with distinct keys, the lookup finds the one entry that has the key |
| Recent.MoveToFront | core/model_manager.py:82-84 | the chosen entry comes first, the others keep their order behind it, and nothing is lost or added |
| Recent.MoveToFrontDistinct | core/model_manager.py:82-84 | moving an entry to the front keeps the keys distinct |
| Recent.PushFront | core/model_manager.py:97-100 | the new entry comes first, followed by the old list, cut to the cap when there is one |
| Recent.PushFrontDistinct | core/model_manager.py:97-100 | pushing an entry with a new key keeps the keys distinct |
| Recent.RemoveAll | core/model_manager.py:132 | the result keeps exactly the entries without the key, is shorter exactly when the key was present, and invents nothing |
| Recent.RemoveAllAbsent | core/model_manager.py:130-135 | removing an absent key leaves the list as it was |
| Recent.RemoveAllIsRemoveAt | core/live2d_manager.py:128-135 | with distinct keys, filtering the key out is the same as deleting its one position |
| Recent.RemoveAt | core/live2d_manager.py:130-132 | the entries before the position stay, those after it move up by one |
| Recent.RemoveAtDistinct | core/live2d_manager.py:130-132 | deleting one entry keeps the keys distinct |
| Recent.UpdateFirst | core/model_manager.py:113-119 | reports whether an entry has the key; if so, only the first such entry is changed |
| Recent.RemoveById | core/image_manager.py:111-117 | reports whether the id was present; afterwards no entry has it; with distinct ids exactly its one position is removed |
| Recent.SetFieldById | core/image_manager.py:119-127 | reports whether the id was present; if so the first entry with it has the field set and every other entry is as it was |

## Left out

- File I/O: JSON history and settings files are never read or written. A parsed file is a parameter (`None` when missing or unreadable), and saving is a no-op.
- Hashes, UUIDs, path resolution and the clock: the MD5 identifiers of models and images, the UUIDs of Live2D models, `os.path.abspath`, `datetime.now()` and `time.time()` are parameters.
- Threads, queues, locks, Qt timers, signals and widgets: a timer tick or a queued call is modelled as the caller invoking the operation, and emitted signals are returned as values.
- The sound device, FFT and filters: the realtime processor takes formants, RMS and dominant frequency as inputs, and the cleaner's DSP (notches, noise reduction, loudness) is not modelled. Sample values are plain reals.
- The measurements the audio analyser computes (hum strengths, SNR, noise floor, peaks, clip ratios) are inputs to the decision rules, not computed from audio.
- The phonemiser (pyopenjtalk) and the transcriber (Whisper): their token lists and segments are inputs.
- The silence detection of the lip-sync engine: silence regions are inputs to the step that applies them.
- The JavaScript viewer: scripts sent to the Live2D web view are modelled only as the settings dictionaries they carry.
- Floating point: every float is a Dafny `real`, so rounding error is not modelled. `round(x, 3)` and string formatting of numbers are uninterpreted function parameters.
- LipSyncSettings.ToInt: returns `None` for every string, where Python's `int()` also parses numeric strings such as `"12"`.
- LipSyncSettings.ToFloat: returns `None` for every string, where Python's `float()` also parses numeric strings such as `"0.5"`.
- CharacterDisplay.NormalizeColorCode: `int(text, 16)` also accepts non-ASCII Unicode digits, which the model classifies as invalid characters.
- Text.Lower: only ASCII letters are lower-cased; `str.lower()` also folds other scripts.
- ModelHistory.PrettyDefaultName: the trailing-token rule matches only at the very end of the stem, while the `$` of Python regular expressions also matches before a final newline; its digits are those of `ModelHistory.LeadingDigits`, ASCII only.
- Paths are POSIX: `/` is the only separator in `PathNames`, as on the systems where `os.path` uses it.
- ModelHistory: `_normalize_names`, `validate_model_files` and `cleanup_missing_models` touch the file system and are not modelled. A history file whose `models` is not a list is out of scope.
- ImageHistory: `cleanup_missing_images` touches the file system and is not modelled.
- ImageHistory.FlagMeansChange: proved only when the default name is not blank. An image whose file stem is all whitespace is renamed to itself and still reported as changed.
- ImageHistory.NormalizeIsIdempotent: proved only when the default name is not blank, for the same reason.
- AnimationManager: listing animation files and writing them are file I/O. Only the validation guard and the state change are modelled.
- MultiText: `auto_split_texts` creates and fills rows through Qt timers in batches; only the final list of rows is modelled.
- LipSyncSettings: the file-based `load_settings` path, which can turn a list of pairs into a dictionary, is not modelled. Only `update_settings` on a dictionary is.
- CharacterDisplay.ApplySettings: exceptions raised while building the script are not modelled.
- PhonemeAnalysis.ProtectAsWritten: its contract states only the cases where nothing is protected. Its behaviour on real input is shown by the two concrete lemmas in the findings below.
- ModelHistory, Live2DHistory and Recent: a history entry that lacks `id` or `model_folder_path` is treated as matching nothing and is skipped, where Python's `m['id']` raises `KeyError` and abandons the call. Elsewhere a value of the wrong type, or a missing key the source indexes with `[...]`, yields `None` (the `KeyError`/`TypeError` path) rather than a specific exception.
- Live2DHistory.LoadHistory: `cleanup_missing_models`, which drops entries whose folder no longer exists, touches the file system and is not modelled; the loaded list is taken as is.
- ModelHistory.LeadingDigits: accepts only the ASCII digits 0-9, while `\d` in Python regular expressions matches every Unicode decimal digit, such as full-width `３０`.
- FixedPosition.Field: Python's `str()` is modelled for strings, integers and booleans; a stored float, list, dict or `null` reads as absent, so it never matches.
- FixedPosition.MatchEntry: inherits the limit of `FixedPosition.Field`; an id or name stored as a float, list or dict never matches, where Python compares its `str()` spelling.
- FixedPosition.GetFixedSettings: inherits the limit of `FixedPosition.Field` through `MatchEntry`.
- FixedPosition.HasFixedSettings: inherits the limit of `FixedPosition.Field` through `GetFixedSettings`.
- AudioCleaner.PairOf: refuses two kinds of element that Python's `dict.update` accepts as a pair. One is a two-element list whose first item is a number, boolean or `null`, which Python takes as the key. The other is a dict with exactly two keys, which Python unpacks into its keys in file order (`{"a": 1, "b": 2}` sets `"a"` to `"b"`); the model's JSON objects are maps and keep no key order.
- AudioCleaner.LoadSettings: inherits the limit of `AudioCleaner.PairOf`. A loaded list holding a two-element list with a non-string key, or a two-key dict, is treated as a failed update giving the defaults, where Python sets those keys.
- StreamingWorker.SynthesizeStreaming: the effect chain and the cleaner between synthesis and delivery are outside the model; a chunk's result is an input.

## Findings

| source | as written | input that shows it | evidently intended | confidence | as-written member | corrected member |
|---|---|---|---|---|---|---|
| core/wav_player.py:73-80 | a fresh start (not resuming) sets the position to `start_position` itself, overriding the clamp computed just before | a loaded 1 s clip, stopped, `play(5.0)`: position becomes 5.0, past the end | start at the clamped position, as resuming does | not executed | WavPlayer.PlayAsWrittenLeavesAudio | WavPlayer.Play |
| ui/wav_playback_control.py:384-392 | `is_paused` is cleared before it is read, so resuming always emits start position 0.0 | loaded, paused at 3 s, toggle: `playback_started(0.0)` | resume from the paused position | not executed | WavPlaybackControl.ResumeLosesPosition | WavPlaybackControl.TogglePlayPause |
| core/phoneme_analyzer.py:196-213 | `adjustment` is assigned only when an ending record is lengthened, yet every ending record reads it to compute its start time | one record `a` lasting 0.3 s (already long enough): `UnboundLocalError`; records `ka` 0.1 s then `a` 0.3 s: the second starts inside the lengthened first | each record starts after all lengthening of the records before it, which keeps the records back to back | not executed | PhonemeAnalysis.AsWrittenRaisesWithoutLengthening | PhonemeAnalysis.ProtectionKeepsContiguity |

=== FILE: animation_manager.dfy ===
/**
  core/animation_manager.py: validation of animation data read from JSON,
  the state change of `load_animation_by_name`, the validation guard of
  `save_animation` and the lookup in the animation list. Files are inputs:
  whether a file exists and what it parses to are parameters.
 */
module AnimationManager {
  import opened Common
  import opened Json

  /**
    What `validate_animation` does with a value: answer true, answer false,
    or raise (a `TypeError` from `in` or `[]` on a value that does not
    support it). Both callers treat raising as failure.
   */
  datatype Validation = Valid | Invalid | Raised

  /** The checks on one keyframe: `time` and `parameters` present, `parameters` a dict. */
  function ValidateKeyframe(kf: Value): (r: Validation)
    ensures r == Valid <==> kf.Obj? && "time" in kf.fields && "parameters" in kf.fields && kf.fields["parameters"].Obj?
  {
    match Contains(kf, "time")
    case None => Raised
    case Some(hasTime) =>
      if !hasTime then Invalid
      else match Contains(kf, "parameters")
        case None => Raised
        case Some(hasParams) =>
          if !hasParams then Invalid
          else if !kf.Obj? then Raised
          else if !kf.fields["parameters"].Obj? then Invalid
          else Valid
  }

  /** The keyframes in order; the first one that is not valid decides. */
  function ValidateKeyframes(kfs: seq<Value>): (r: Validation)
    ensures r == Valid <==> forall k :: 0 <= k < |kfs| ==> ValidateKeyframe(kfs[k]) == Valid
    ensures r != Valid ==> exists k :: 0 <= k < |kfs| && r == ValidateKeyframe(kfs[k])
  {
    if |kfs| == 0 then Valid
    else
      var first := ValidateKeyframe(kfs[0]);
      if first != Valid then first
      else
        var rest := ValidateKeyframes(kfs[1..]);
        assert forall k :: 1 <= k < |kfs| ==> kfs[k] == kfs[1..][k - 1];
        rest
  }

  /** `validate_animation`. */
  function ValidateAnimation(data: Value): (r: Validation)
    ensures data.Null? || data.Bool? || data.Int? || data.Num? ==> r == Raised
    ensures data.Obj? && "keyframes" !in data.fields ==> r == Invalid
    ensures data.Obj? && "keyframes" in data.fields && (!data.fields["keyframes"].List? || |data.fields["keyframes"].items| == 0) ==> r == Invalid
  {
    match Contains(data, "keyframes")
    case None => Raised
    case Some(has) =>
      if !has then Invalid
      else if !data.Obj? then Raised
      else
        var kfs := data.fields["keyframes"];
        if !kfs.List? then Invalid
        else if |kfs.items| == 0 then Invalid
        else ValidateKeyframes(kfs.items)
  }

  /** The shape the validator accepts: a dict whose `keyframes` is a non-empty list of well-formed keyframes. */
  predicate WellFormedAnimation(data: Value) {
    && data.Obj? && "keyframes" in data.fields
    && data.fields["keyframes"].List?
    && |data.fields["keyframes"].items| > 0
    && forall k :: 0 <= k < |data.fields["keyframes"].items| ==> WellFormedKeyframe(data.fields["keyframes"].items[k])
  }

  predicate WellFormedKeyframe(kf: Value) {
    kf.Obj? && "time" in kf.fields && "parameters" in kf.fields && kf.fields["parameters"].Obj?
  }

  /** The validator accepts exactly the well-formed animations; `time` need not be ordered or numeric. */
  lemma ValidExactlyWhenWellFormed(data: Value)
    ensures ValidateAnimation(data) == Valid <==> WellFormedAnimation(data)
  {
    if data.Obj? && "keyframes" in data.fields && data.fields["keyframes"].List? {
      var kfs := data.fields["keyframes"].items;
      assert ValidateKeyframes(kfs) == Valid <==> forall k :: 0 <= k < |kfs| ==> WellFormedKeyframe(kfs[k]);
    }
  }

  /** A well-formed animation is a non-empty dict, so the `if animation_data:` test passes. */
  lemma WellFormedIsTruthy(data: Value)
    requires WellFormedAnimation(data)
    ensures Truthy(data)
  {
    assert "keyframes" in data.fields;
  }

  // ---------------------------------------------------------------------------
  // Loading, saving and lookup

  /** `load_animation_file`: the parsed value when it validates; `None` for a parse error or any failure. */
  function LoadAnimationFile(parsed: Option<Value>): (r: Option<Value>)
    ensures r.Some? <==> parsed.Some? && WellFormedAnimation(parsed.value)
    ensures r.Some? ==> r == parsed
  {
    assert parsed.Some? ==> (ValidateAnimation(parsed.value) == Valid <==> WellFormedAnimation(parsed.value)) by {
      if parsed.Some? { ValidExactlyWhenWellFormed(parsed.value); }
    }
    if parsed.Some? && ValidateAnimation(parsed.value) == Valid then parsed else None
  }

  datatype Manager = Manager(current: Option<Value>, animations: seq<AnimationInfo>)

  /**
    `load_animation_by_name`: a missing file or a failed load returns `None`
    and keeps the current animation; a successful load becomes current.
   */
  function LoadAnimationByName(m: Manager, fileExists: bool, parsed: Option<Value>): (r: (Manager, Option<Value>))
    ensures r.1.Some? <==> fileExists && parsed.Some? && WellFormedAnimation(parsed.value)
    ensures r.1.Some? ==> r.0 == m.(current := r.1)
    ensures r.1.None? ==> r.0 == m
  {
    if !fileExists then (m, None)
    else
      var data := LoadAnimationFile(parsed);
      assert data.Some? ==> Truthy(data.value) by {
        if data.Some? { WellFormedIsTruthy(data.value); }
      }
      if data.Some? && Truthy(data.value) then (m.(current := data), data)
      else (m, data)
  }

  /**
    `save_animation` without the file write: invalid data is refused; valid
    data gets `metadata.saved_at`, which raises (and so fails) when
    `metadata` is present but not a dict.
   */
  function SaveAnimation(data: Value, savedAt: string): (r: Option<Value>)
    ensures r.Some? <==> WellFormedAnimation(data) && ("metadata" !in data.fields || data.fields["metadata"].Obj?)
    ensures r.Some? ==> r.value.Obj? && "keyframes" in r.value.fields && r.value.fields["keyframes"] == data.fields["keyframes"]
    ensures r.Some? ==> "metadata" in r.value.fields && r.value.fields["metadata"].Obj?
                        && "saved_at" in r.value.fields["metadata"].fields
                        && r.value.fields["metadata"].fields["saved_at"] == Str(savedAt)
  {
    ValidExactlyWhenWellFormed(data);
    if ValidateAnimation(data) != Valid then None
    else
      var metadata := if "metadata" in data.fields then data.fields["metadata"] else Obj(map[]);
      if !metadata.Obj? then None
      else Some(Obj(data.fields["metadata" := Obj(metadata.fields["saved_at" := Str(savedAt)])]))
  }

  /** One entry of `animation_list`. */
  datatype AnimationInfo = AnimationInfo(filePath: string, fileName: string, name: string, description: string,
                                         duration: Value, keyframeCount: nat)

  /** `get_animation_info`: the first entry with that file name. */
  function GetAnimationInfo(list: seq<AnimationInfo>, fileName: string): (r: Option<AnimationInfo>)
    ensures r.None? <==> forall k :: 0 <= k < |list| ==> list[k].fileName != fileName
    ensures r.Some? ==> exists k :: 0 <= k < |list| && list[k] == r.value && FirstNamed(list, fileName, k)
  {
    if |list| == 0 then None
    else if list[0].fileName == fileName then
      assert FirstNamed(list, fileName, 0);
      Some(list[0])
    else
      var r := GetAnimationInfo(list[1..], fileName);
      assert forall k :: 1 <= k < |list| ==> list[k] == list[1..][k - 1];
      assert r.Some? ==> exists k :: 0 <= k < |list| && list[k] == r.value && FirstNamed(list, fileName, k) by {
        if r.Some? {
          var k :| 0 <= k < |list[1..]| && list[1..][k] == r.value && FirstNamed(list[1..], fileName, k);
          assert FirstNamed(list, fileName, k + 1);
        }
      }
      r
  }

  /** Entry `k` is the first one named `fileName`. */
  predicate FirstNamed(list: seq<AnimationInfo>, fileName: string, k: int) {
    0 <= k < |list| && list[k].fileName == fileName && forall j :: 0 <= j < k ==> list[j].fileName != fileName
  }
}

=== FILE: audio_analyzer.dfy ===
/**
  The decision rules of core/audio_analyzer.py that turn measurements into a
  cleaning preset: hum-notch gains, the preset itself, the length of the
  silence at either edge and the count of clipped runs. Python keeps the
  later of the file's duplicate definitions, and those are the ones modelled.
 */
module AudioAnalysis {
  import opened Common

  // ---------------------------------------------------------------------------
  // Hum gains

  /** `_calculate_hum_gains`: eight notch gains (dB) by hum strength. */
  function HumGains(strength: real): (g: seq<int>)
    ensures |g| == 8
    ensures forall k :: 0 <= k < 8 ==> g[k] < 0
    ensures forall k :: 0 <= k < 7 ==> g[k] <= g[k + 1]
  {
    if strength > 0.8 then [-25, -25, -18, -18, -15, -15, -12, -12]
    else if strength > 0.5 then [-20, -20, -15, -15, -12, -12, -9, -9]
    else if strength > 0.3 then [-15, -15, -12, -12, -9, -9, -6, -6]
    else [-10, -10, -8, -8, -6, -6, -3, -3]
  }

  /** A stronger hum never gets a shallower notch on any harmonic. */
  lemma StrongerHumCutsDeeper(s: real, t: real, k: int)
    requires s <= t && 0 <= k < 8
    ensures HumGains(t)[k] <= HumGains(s)[k]
  {
  }

  // ---------------------------------------------------------------------------
  // Cleaning preset

  /** One `hum_detection` entry: a base frequency and its relative strength, in dict order. */
  datatype Hum = Hum(base: real, strength: real)

  /** The measurements the preset reads; absent keys take the source's defaults. */
  datatype Analysis = Analysis(
    hums: seq<Hum>,
    snrDb: Option<real>,
    noiseFloorDb: Option<real>,
    truePeak: real,
    clipRatios: seq<real>)

  datatype Preset = Preset(
    enabled: bool,
    autoGenerated: bool,
    highpassFreq: int,
    humRemoval: bool,
    humFrequencies: seq<real>,
    humGains: seq<int>,
    noiseReduction: bool,
    noiseFloor: real,
    loudnessNorm: bool,
    targetLufs: real,
    truePeak: real,
    lra: real)

  /** The eight harmonics `base * k`, k = 1..8. */
  function Harmonics(base: real): (h: seq<real>)
    ensures |h| == 8
    ensures forall k :: 0 <= k < 8 ==> h[k] == base * (k + 1) as real
  {
    [base, base * 2.0, base * 3.0, base * 4.0, base * 5.0, base * 6.0, base * 7.0, base * 8.0]
  }

  predicate Significant(h: Hum) { h.strength > 0.15 }

  /** The hums above 15 %, in order. */
  function SignificantHums(hums: seq<Hum>): (r: seq<Hum>)
    ensures |r| <= |hums|
    ensures forall k :: 0 <= k < |r| ==> Significant(r[k]) && r[k] in hums
    ensures forall h :: Significant(h) ==> multiset(r)[h] == multiset(hums)[h]
    ensures |r| == 0 <==> forall k :: 0 <= k < |hums| ==> !Significant(hums[k])
  {
    if |hums| == 0 then []
    else if Significant(hums[0]) then
      assert hums == [hums[0]] + hums[1..];
      [hums[0]] + SignificantHums(hums[1..])
    else
      assert hums == [hums[0]] + hums[1..];
      assert forall k :: 1 <= k < |hums| ==> hums[k] == hums[1..][k - 1];
      SignificantHums(hums[1..])
  }

  /**
    The selection keeps the order of the analysis: selecting from two lists
    one after the other is selecting from each and joining, so every
    significant hum is kept in the place it had.
   */
  lemma {:induction false} SignificantHumsAppend(a: seq<Hum>, b: seq<Hum>)
    ensures SignificantHums(a + b) == SignificantHums(a) + SignificantHums(b)
    decreases |a|
  {
    if |a| > 0 {
      assert (a + b)[1..] == a[1..] + b;
      SignificantHumsAppend(a[1..], b);
    } else {
      assert a + b == b;
    }
  }

  /** The `j`-th group of eight entries. */
  function Block<T>(s: seq<T>, j: int): seq<T>
    requires 0 <= j && 8 * j + 8 <= |s|
  {
    s[8 * j..8 * j + 8]
  }

  lemma BlockOfAppend<T>(head: seq<T>, rest: seq<T>, j: int)
    requires |head| == 8 && 1 <= j && 8 * j + 8 <= 8 + |rest|
    ensures Block(head + rest, j) == Block(rest, j - 1)
  {
    assert (head + rest)[8 * j..8 * j + 8] == rest[8 * j - 8..8 * j];
  }

  /** The notch frequencies: every significant base's harmonics, base after base. */
  function NotchFrequencies(hums: seq<Hum>): (f: seq<real>)
    ensures |f| == 8 * |hums|
    ensures forall j :: 0 <= j < |hums| ==> Block(f, j) == Harmonics(hums[j].base)
  {
    if |hums| == 0 then []
    else
      var rest := NotchFrequencies(hums[1..]);
      var f := Harmonics(hums[0].base) + rest;
      forall j | 0 <= j < |hums|
        ensures Block(f, j) == Harmonics(hums[j].base)
      {
        if j > 0 {
          BlockOfAppend(Harmonics(hums[0].base), rest, j);
          assert hums[j] == hums[1..][j - 1];
        }
      }
      f
  }

  /** The notch gains, eight per significant base. */
  function NotchGains(hums: seq<Hum>): (g: seq<int>)
    ensures |g| == 8 * |hums|
    ensures forall j :: 0 <= j < |hums| ==> Block(g, j) == HumGains(hums[j].strength)
  {
    if |hums| == 0 then []
    else
      var rest := NotchGains(hums[1..]);
      var g := HumGains(hums[0].strength) + rest;
      forall j | 0 <= j < |hums|
        ensures Block(g, j) == HumGains(hums[j].strength)
      {
        if j > 0 {
          BlockOfAppend(HumGains(hums[0].strength), rest, j);
          assert hums[j] == hums[1..][j - 1];
        }
      }
      g
  }

  predicate AnyStrongerThan(hums: seq<Hum>, level: real) {
    exists k :: 0 <= k < |hums| && hums[k].strength > level
  }

  predicate AnyClip(ratios: seq<real>) {
    exists k :: 0 <= k < |ratios| && ratios[k] > 0.001
  }

  /** `_generate_cleaning_preset`. */
  function GenerateCleaningPreset(a: Analysis): (p: Preset)
    ensures p.enabled && p.autoGenerated && p.loudnessNorm && p.targetLufs == -20.0 && p.lra == 11.0
    ensures p.humRemoval <==> AnyStrongerThan(a.hums, 0.15)
    ensures |p.humFrequencies| == |p.humGains| == 8 * |SignificantHums(a.hums)|
    ensures p.humFrequencies == NotchFrequencies(SignificantHums(a.hums))
    ensures p.humGains == NotchGains(SignificantHums(a.hums))
    ensures p.noiseReduction <==> a.snrDb.Some? && a.snrDb.value < 25.0
    ensures (p.noiseReduction && a.noiseFloorDb.Some? && a.noiseFloorDb.value > -35.0)
              ==> p.noiseFloor == MaxR(-35.0, a.noiseFloorDb.value - 5.0)
    ensures !(p.noiseReduction && a.noiseFloorDb.Some? && a.noiseFloorDb.value > -35.0) ==> p.noiseFloor == -28.0
    ensures p.highpassFreq == (if AnyStrongerThan(a.hums, 0.3) then 100 else 80)
    ensures p.truePeak == (if AnyClip(a.clipRatios) then -2.0 else if a.truePeak > 0.9 then -1.5 else -1.0)
  {
    var significant := SignificantHums(a.hums);
    assert |significant| > 0 <==> AnyStrongerThan(a.hums, 0.15);
    var noiseReduction := a.snrDb.Some? && a.snrDb.value < 25.0;
    var noiseFloor := if noiseReduction && a.noiseFloorDb.Some? && a.noiseFloorDb.value > -35.0
                      then MaxR(-35.0, a.noiseFloorDb.value - 5.0) else -28.0;
    var peak := if AnyClip(a.clipRatios) then -2.0 else if a.truePeak > 0.9 then -1.5 else -1.0;
    Preset(true, true, if AnyStrongerThan(a.hums, 0.3) then 100 else 80,
           |significant| > 0, NotchFrequencies(significant), NotchGains(significant),
           noiseReduction, noiseFloor, true, -20.0, peak, 11.0)
  }

  /** A clean recording (no hum, good SNR, low peak, no clipping) gets the default preset. */
  lemma CleanRecordingGetsDefaults(a: Analysis)
    requires forall k :: 0 <= k < |a.hums| ==> a.hums[k].strength <= 0.15
    requires a.snrDb.None? || a.snrDb.value >= 25.0
    requires a.truePeak <= 0.9 && forall k :: 0 <= k < |a.clipRatios| ==> a.clipRatios[k] <= 0.001
    ensures GenerateCleaningPreset(a) == Preset(true, true, 80, false, [], [], false, -28.0, true, -20.0, -1.0, 11.0)
  {
    var p := GenerateCleaningPreset(a);
    assert |SignificantHums(a.hums)| == 0;
  }

  // ---------------------------------------------------------------------------
  // Edge silence

  /** Number of leading `true` entries. */
  function LeadingRun(mask: seq<bool>): (n: nat)
    ensures n <= |mask|
    ensures forall j :: 0 <= j < n ==> mask[j]
    ensures n < |mask| ==> !mask[n]
  {
    if |mask| == 0 || !mask[0] then 0 else 1 + LeadingRun(mask[1..])
  }

  function Reverse<T>(s: seq<T>): (r: seq<T>)
    ensures |r| == |s| && forall k :: 0 <= k < |s| ==> r[k] == s[|s| - 1 - k]
  {
    if |s| == 0 then [] else Reverse(s[1..]) + [s[0]]
  }

  /**
    `_edge_silence_len`: 0 for an empty mask, the whole length when every
    sample is silent, otherwise the index of the first sound from the chosen
    end; each in seconds.
   */
  function EdgeSilenceLen(silent: seq<bool>, sampleRate: int, fromStart: bool): (t: real)
    requires sampleRate > 0
    ensures t == LeadingRun(if fromStart then silent else Reverse(silent)) as real / sampleRate as real
  {
    var m := if fromStart then silent else Reverse(silent);
    var t := if |silent| == 0 then 0.0
      else if forall k :: 0 <= k < |m| ==> m[k] then |silent| as real / sampleRate as real
      else LeadingRun(m) as real / sampleRate as real;
    assert (forall k :: 0 <= k < |m| ==> m[k]) ==> LeadingRun(m) == |m|;
    t
  }

  /** The silent edge is never longer than the recording. */
  lemma EdgeSilenceBounded(silent: seq<bool>, sampleRate: int, fromStart: bool)
    requires sampleRate > 0
    ensures 0.0 <= EdgeSilenceLen(silent, sampleRate, fromStart) <= |silent| as real / sampleRate as real
  {
    var n := LeadingRun(if fromStart then silent else Reverse(silent));
    DivMonotone(n as real, |silent| as real, sampleRate as real);
  }

  /** Reading from the end is reading the reversed mask from the start. */
  lemma TrailingIsReversedLeading(silent: seq<bool>, sampleRate: int)
    requires sampleRate > 0
    ensures EdgeSilenceLen(silent, sampleRate, false) == EdgeSilenceLen(Reverse(silent), sampleRate, true)
  {
  }

  // ---------------------------------------------------------------------------
  // Clip runs

  /** Which samples of a channel reach the clip threshold. */
  function ClipMask(channel: seq<real>, threshold: real): (m: seq<bool>)
    ensures |m| == |channel| && forall k :: 0 <= k < |channel| ==> m[k] == (Abs(channel[k]) >= threshold)
  {
    if |channel| == 0 then [] else [Abs(channel[0]) >= threshold] + ClipMask(channel[1..], threshold)
  }

  /** The lengths of the maximal runs of `true`, in order. */
  function Runs(mask: seq<bool>): (r: seq<nat>)
    ensures forall k :: 0 <= k < |r| ==> r[k] > 0
    decreases |mask|
  {
    if |mask| == 0 then []
    else if !mask[0] then Runs(mask[1..])
    else
      var n := LeadingRun(mask);
      [n] + Runs(mask[n..])
  }

  /**
    `mask[s..e]` is a maximal run of `true`: it is all `true` and has a
    `false` or the edge of the mask on either side. These are the runs
    `np.diff(np.r_[0, mask, 0])` delimits, from a rising edge at `s` to a
    falling edge at `e`.
   */
  predicate MaximalRun(mask: seq<bool>, s: int, e: int) {
    && 0 <= s < e <= |mask|
    && (forall j :: s <= j < e ==> mask[j])
    && (s == 0 || !mask[s - 1])
    && (e == |mask| || !mask[e])
  }

  function Shift(xs: seq<nat>, d: nat): (r: seq<nat>)
    ensures |r| == |xs| && forall k :: 0 <= k < |xs| ==> r[k] == xs[k] + d
  {
    if |xs| == 0 then [] else [xs[0] + d] + Shift(xs[1..], d)
  }

  /** Where each run of `Runs(mask)` starts. */
  function RunStarts(mask: seq<bool>): (st: seq<nat>)
    decreases |mask|
  {
    if |mask| == 0 then []
    else if !mask[0] then Shift(RunStarts(mask[1..]), 1)
    else
      var n := LeadingRun(mask);
      [0] + Shift(RunStarts(mask[n..]), n)
  }

  /** Index `i` lies inside one of the runs. */
  predicate InSomeRun(st: seq<nat>, r: seq<nat>, i: int)
    requires |st| == |r|
  {
    exists k :: 0 <= k < |r| && st[k] <= i < st[k] + r[k]
  }

  /** The runs start in order, with at least one index between neighbours. */
  predicate Separated(st: seq<nat>, r: seq<nat>)
    requires |st| == |r|
  {
    forall k :: 0 <= k < |r| - 1 ==> st[k] + r[k] < st[k + 1]
  }

  /** Every `true` at or after `from` lies inside one of the runs. */
  predicate CoversFrom(mask: seq<bool>, st: seq<nat>, r: seq<nat>, from: int)
    requires |st| == |r|
  {
    forall i {:trigger InSomeRun(st, r, i)} :: 0 <= i < |mask| && from <= i && mask[i] ==> InSomeRun(st, r, i)
  }

  /** Each listed run is a maximal run of the mask. */
  predicate AllMaximal(mask: seq<bool>, st: seq<nat>, r: seq<nat>)
    requires |st| == |r|
  {
    forall k :: 0 <= k < |r| ==> MaximalRun(mask, st[k], st[k] + r[k])
  }

  /** The runs' starts and lengths, read against the mask. */
  predicate RunsDescribe(mask: seq<bool>, st: seq<nat>, r: seq<nat>) {
    && |st| == |r|
    && AllMaximal(mask, st, r)
    && Separated(st, r)
    && CoversFrom(mask, st, r, 0)
  }

  /**
    `Runs` lists exactly the maximal runs of the mask, left to right: the
    k-th length belongs to a maximal run, the runs come in order with a
    `false` between neighbours, and every `true` lies in one of them. A
    run of four is one run of four, never two of two.
   */
  lemma {:induction false} RunsAreMaximalRuns(mask: seq<bool>)
    ensures RunsDescribe(mask, RunStarts(mask), Runs(mask))
    decreases |mask|
  {
    if |mask| == 0 {
      return;
    }
    var d := if mask[0] then LeadingRun(mask) else 1;
    var st := RunStarts(mask[d..]);
    var r := Runs(mask[d..]);
    RunsAreMaximalRuns(mask[d..]);
    ShiftMaximal(mask, d, st, r);
    ShiftSeparated(st, r, d);
    ShiftCovers(mask, d, st, r);
    if mask[0] {
      assert RunStarts(mask) == [0] + Shift(st, d) && Runs(mask) == [d] + r;
      LeadingBlock(mask, d, Shift(st, d), r);
    } else {
      assert RunStarts(mask) == Shift(st, 1) && Runs(mask) == r;
      assert !mask[0];
      assert forall i {:trigger InSomeRun(Shift(st, 1), r, i)} :: 0 <= i < |mask| && mask[i] ==> 1 <= i;
    }
  }

  /** Moving runs right keeps them separated. */
  lemma ShiftSeparated(st: seq<nat>, r: seq<nat>, d: nat)
    requires |st| == |r| && Separated(st, r)
    ensures Separated(Shift(st, d), r)
  {
  }

  /**
    The runs of `mask[d..]`, moved right by `d`, are maximal runs of `mask`
    as well, provided no run of the tail can extend to the left past `d`;
    they start after `d`, or at `d` itself only when `mask[d - 1]` is false.
   */
  lemma ShiftMaximal(mask: seq<bool>, d: nat, st: seq<nat>, r: seq<nat>)
    requires 1 <= d <= |mask|
    requires !mask[d - 1] || d == |mask| || !mask[d]
    requires |st| == |r| && AllMaximal(mask[d..], st, r)
    ensures AllMaximal(mask, Shift(st, d), r)
    ensures forall k :: 0 <= k < |r| ==> Shift(st, d)[k] > d || (Shift(st, d)[k] == d && !mask[d - 1])
  {
    var st2 := Shift(st, d);
    forall k | 0 <= k < |r|
      ensures MaximalRun(mask, st2[k], st2[k] + r[k])
      ensures st2[k] > d || (st2[k] == d && !mask[d - 1])
    {
      OneShifted(mask, d, st[k], st[k] + r[k]);
    }
  }

  /** One maximal run of `mask[d..]`, moved right by `d`. */
  lemma OneShifted(mask: seq<bool>, d: nat, s: nat, e: nat)
    requires 1 <= d <= |mask|
    requires !mask[d - 1] || d == |mask| || !mask[d]
    requires MaximalRun(mask[d..], s, e)
    ensures MaximalRun(mask, s + d, e + d)
    ensures s > 0 || !mask[d - 1]
  {
    var rest := mask[d..];
    assert rest[s] == mask[s + d];
    forall j | s + d <= j < e + d ensures mask[j] {
      assert rest[j - d] == mask[j];
    }
    if e < |rest| {
      assert rest[e] == mask[e + d];
    }
    if s > 0 {
      assert rest[s - 1] == mask[s - 1 + d];
    }
  }

  /** Every `true` of the tail lies in one of its runs moved right by `d`. */
  lemma ShiftCovers(mask: seq<bool>, d: nat, st: seq<nat>, r: seq<nat>)
    requires 1 <= d <= |mask| && |st| == |r|
    requires CoversFrom(mask[d..], st, r, 0)
    ensures CoversFrom(mask, Shift(st, d), r, d)
  {
    var rest := mask[d..];
    var st2 := Shift(st, d);
    forall i | d <= i < |mask| && mask[i]
      ensures InSomeRun(st2, r, i)
    {
      assert rest[i - d] == mask[i];
      assert InSomeRun(st, r, i - d);
      var k :| 0 <= k < |r| && st[k] <= i - d < st[k] + r[k];
      assert st2[k] <= i < st2[k] + r[k];
    }
  }

  /** Putting the leading run of `d` trues in front of the shifted runs of the tail describes the whole mask. */
  lemma LeadingBlock(mask: seq<bool>, d: nat, st2: seq<nat>, r: seq<nat>)
    requires 1 <= d <= |mask| && |st2| == |r|
    requires forall j :: 0 <= j < d ==> mask[j]
    requires d < |mask| ==> !mask[d]
    requires AllMaximal(mask, st2, r)
    requires Separated(st2, r)
    requires CoversFrom(mask, st2, r, d)
    requires forall k :: 0 <= k < |r| ==> st2[k] > d || (st2[k] == d && !mask[d - 1])
    ensures RunsDescribe(mask, [0] + st2, [d] + r)
  {
    LeadingMaximal(mask, d, st2, r);
    LeadingSeparated(d, st2, r);
    LeadingCovers(mask, d, st2, r);
  }

  lemma LeadingMaximal(mask: seq<bool>, d: nat, st2: seq<nat>, r: seq<nat>)
    requires 1 <= d <= |mask| && |st2| == |r|
    requires forall j :: 0 <= j < d ==> mask[j]
    requires d < |mask| ==> !mask[d]
    requires AllMaximal(mask, st2, r)
    ensures AllMaximal(mask, [0] + st2, [d] + r)
  {
    var st := [0] + st2;
    var rr := [d] + r;
    assert MaximalRun(mask, 0, d);
    forall k | 0 <= k < |rr| ensures MaximalRun(mask, st[k], st[k] + rr[k]) {
      if k > 0 {
        assert st[k] == st2[k - 1] && rr[k] == r[k - 1];
      }
    }
  }

  lemma LeadingSeparated(d: nat, st2: seq<nat>, r: seq<nat>)
    requires |st2| == |r| && Separated(st2, r) && 1 <= d
    requires forall k :: 0 <= k < |r| ==> st2[k] >= d
    requires |r| > 0 ==> st2[0] > d
    ensures Separated([0] + st2, [d] + r)
  {
    var st := [0] + st2;
    var rr := [d] + r;
    forall k | 0 <= k < |rr| - 1 ensures st[k] + rr[k] < st[k + 1] {
      if k > 0 {
        assert st[k] == st2[k - 1] && rr[k] == r[k - 1] && st[k + 1] == st2[k];
      }
    }
  }

  lemma LeadingCovers(mask: seq<bool>, d: nat, st2: seq<nat>, r: seq<nat>)
    requires 1 <= d <= |mask| && |st2| == |r|
    requires CoversFrom(mask, st2, r, d)
    ensures CoversFrom(mask, [0] + st2, [d] + r, 0)
  {
    var st := [0] + st2;
    var rr := [d] + r;
    forall i | 0 <= i < |mask| && mask[i]
      ensures InSomeRun(st, rr, i)
    {
      if i >= d {
        assert InSomeRun(st2, r, i);
        var k :| 0 <= k < |r| && st2[k] <= i < st2[k] + r[k];
        assert st[k + 1] <= i < st[k + 1] + rr[k + 1];
      } else {
        assert st[0] <= i < st[0] + rr[0];
      }
    }
  }

  function CountTrue(mask: seq<bool>): nat {
    if |mask| == 0 then 0 else (if mask[0] then 1 else 0) + CountTrue(mask[1..])
  }

  function SumNat(xs: seq<nat>): nat {
    if |xs| == 0 then 0 else xs[0] + SumNat(xs[1..])
  }

  /** The runs cover every clipped sample exactly once. */
  lemma {:induction false} RunsCoverClips(mask: seq<bool>)
    ensures SumNat(Runs(mask)) == CountTrue(mask)
    decreases |mask|
  {
    if |mask| > 0 {
      if !mask[0] {
        RunsCoverClips(mask[1..]);
      } else {
        var n := LeadingRun(mask);
        RunsCoverClips(mask[n..]);
        LeadingTrueCount(mask, n);
      }
    }
  }

  /** A prefix of `n` trues contributes `n` to the count. */
  lemma {:induction false} LeadingTrueCount(mask: seq<bool>, n: nat)
    requires n <= |mask| && forall j :: 0 <= j < n ==> mask[j]
    ensures CountTrue(mask) == n + CountTrue(mask[n..])
    decreases n
  {
    if n > 0 {
      LeadingTrueCount(mask[1..], n - 1);
      assert mask[1..][n - 1..] == mask[n..];
    }
  }

  /** How many of `xs` are at least `minRun`. */
  function CountAtLeast(xs: seq<nat>, minRun: int): (c: nat)
    ensures c <= |xs|
    ensures (forall k :: 0 <= k < |xs| ==> xs[k] >= minRun) ==> c == |xs|
    ensures (forall k :: 0 <= k < |xs| ==> xs[k] < minRun) ==> c == 0
  {
    if |xs| == 0 then 0 else (if xs[0] >= minRun then 1 else 0) + CountAtLeast(xs[1..], minRun)
  }

  /** Counting distributes over joining, so each element counts once, by its own value. */
  lemma {:induction false} CountAtLeastAppend(a: seq<nat>, b: seq<nat>, minRun: int)
    ensures CountAtLeast(a + b, minRun) == CountAtLeast(a, minRun) + CountAtLeast(b, minRun)
    decreases |a|
  {
    if |a| > 0 {
      assert (a + b)[1..] == a[1..] + b;
      CountAtLeastAppend(a[1..], b, minRun);
    } else {
      assert a + b == b;
    }
  }

  /**
    `_count_clip_runs`: the maximal runs of at least `minRun` samples whose
    magnitude reaches `threshold`, counted per channel and summed.
   */
  function CountClipRuns(channels: seq<seq<real>>, threshold: real, minRun: int): (n: nat)
    ensures |channels| == 0 ==> n == 0
    ensures |channels| > 0 ==> n == CountAtLeast(Runs(ClipMask(channels[0], threshold)), minRun)
                                    + CountClipRuns(channels[1..], threshold, minRun)
    ensures minRun <= 1 && |channels| == 1 ==> n == |Runs(ClipMask(channels[0], threshold))|
  {
    if |channels| == 0 then 0
    else CountAtLeast(Runs(ClipMask(channels[0], threshold)), minRun) + CountClipRuns(channels[1..], threshold, minRun)
  }

  /** The count over several channels is the sum of the counts of each. */
  lemma {:induction false} CountClipRunsAppend(a: seq<seq<real>>, b: seq<seq<real>>, threshold: real, minRun: int)
    ensures CountClipRuns(a + b, threshold, minRun) == CountClipRuns(a, threshold, minRun) + CountClipRuns(b, threshold, minRun)
    decreases |a|
  {
    if |a| > 0 {
      assert (a + b)[0] == a[0] && (a + b)[1..] == a[1..] + b;
      CountClipRunsAppend(a[1..], b, threshold, minRun);
    } else {
      assert a + b == b;
    }
  }

  /** Four clipped samples in a row are one run of four: with `min_run` 3 they count once. */
  lemma RunOfFourCountsOnce()
    ensures CountClipRuns([[1.0, 1.0, 1.0, 1.0]], 0.9995, 3) == 1
  {
    var m := ClipMask([1.0, 1.0, 1.0, 1.0], 0.9995);
    assert m == [true, true, true, true];
    assert LeadingRun(m) == 4;
    assert Runs(m) == [4] + Runs(m[4..]);
    assert m[4..] == [];
  }

  /** A channel with no clipped sample contributes no run. */
  lemma {:induction false} NoClipsNoRuns(mask: seq<bool>)
    requires forall k :: 0 <= k < |mask| ==> !mask[k]
    ensures Runs(mask) == []
    decreases |mask|
  {
    if |mask| > 0 {
      NoClipsNoRuns(mask[1..]);
    }
  }

  /** A channel never has more runs of length >= 1 than clipped samples. */
  lemma RunCountBound(mask: seq<bool>, minRun: int)
    ensures CountAtLeast(Runs(mask), minRun) <= CountTrue(mask)
  {
    RunsCoverClips(mask);
    CountAtMostSum(Runs(mask), minRun);
  }

  lemma {:induction false} CountAtMostSum(xs: seq<nat>, minRun: int)
    requires forall k :: 0 <= k < |xs| ==> xs[k] > 0
    ensures CountAtLeast(xs, minRun) <= SumNat(xs)
  {
    if |xs| > 0 {
      CountAtMostSum(xs[1..], minRun);
    }
  }
}

=== FILE: audio_cleaner.dfy ===
/**
  The settings side of ui/audio_cleaner_control.py: the user settings file
  (`UserSettingsManager`) that remembers whether the cleaner is on and
  which preset was used last, and the cleaner presets, which replace the
  processing settings but never switch the cleaner on or off.
 */
module AudioCleaner {
  import opened Common
  import opened Json

  // ---------------------------------------------------------------------------
  // User settings

  /** The built-in user settings. */
  function DefaultUserSettings(): (d: Dict)
    ensures d.Keys == {"audio_cleaner", "ui_preferences"}
  {
    map["audio_cleaner" := Obj(map["enabled" := Bool(false), "last_preset" := Str("standard_processing")]),
        "ui_preferences" := Obj(map["window_geometry" := Null, "last_tab_index" := Int(0)])]
  }

  /**
    One element of the sequence of pairs `dict.update` also accepts, as far
    as it is modelled: a two-element list with a string key, or a
    two-character string (its characters are the key and the value). Every
    other element is treated as one `update` refuses; Python also takes a
    two-element list with any hashable key and a two-key dict (its keys in
    file order), which the model does not.
   */
  function PairOf(item: Value): (r: Option<(string, Value)>)
    ensures item.List? && |item.items| == 2 && item.items[0].Str? ==> r == Some((item.items[0].s, item.items[1]))
    ensures item.Str? && |item.s| == 2 ==> r == Some(([item.s[0]], Str([item.s[1]])))
    ensures r.Some? ==> (item.List? && |item.items| == 2) || (item.Str? && |item.s| == 2)
  {
    match item
    case List(xs) => if |xs| == 2 && xs[0].Str? then Some((xs[0].s, xs[1])) else None
    case Str(s) => if |s| == 2 then Some(([s[0]], Str([s[1]]))) else None
    case _ => None
  }

  /**
    `d.update(items)` for a list of pairs: each pair in turn sets its key,
    so a later pair wins; `None` when some element is not a pair.
   */
  function UpdatePairs(d: Dict, items: seq<Value>): (r: Option<Dict>)
    ensures r.Some? <==> forall i :: 0 <= i < |items| ==> PairOf(items[i]).Some?
    ensures r.Some? ==> d.Keys <= r.value.Keys
    ensures r.Some? ==> forall i :: 0 <= i < |items| ==> PairOf(items[i]).value.0 in r.value
    ensures r.Some? ==> forall k :: k in r.value && k !in d ==> exists i :: 0 <= i < |items| && PairOf(items[i]).value.0 == k
    ensures r.Some? && |items| > 0 ==>
              var (k, v) := PairOf(items[|items| - 1]).value; r.value[k] == v
    decreases |items|
  {
    if |items| == 0 then Some(d)
    else
      var front := UpdatePairs(d, items[..|items| - 1]);
      var last := PairOf(items[|items| - 1]);
      assert forall i :: 0 <= i < |items| - 1 ==> items[..|items| - 1][i] == items[i];
      if front.None? || last.None? then None
      else Some(front.value[last.value.0 := last.value.1])
  }

  /** A key that no pair sets keeps its value from before the update. */
  lemma {:induction false} UntouchedKeyKept(d: Dict, items: seq<Value>, k: string)
    requires UpdatePairs(d, items).Some? && k in d
    requires forall i :: 0 <= i < |items| ==> PairOf(items[i]).value.0 != k
    ensures UpdatePairs(d, items).value[k] == d[k]
    decreases |items|
  {
    if |items| > 0 {
      assert forall i :: 0 <= i < |items| - 1 ==> items[..|items| - 1][i] == items[i];
      UntouchedKeyKept(d, items[..|items| - 1], k);
    }
  }

  /**
    `load_settings`: `loaded` is the parsed file, `None` when it is missing
    or unreadable. The defaults are updated with it: a dictionary's
    top-level keys win, a list of pairs sets its keys in order, and a
    value `update` refuses falls back to the defaults.
   */
  function LoadSettings(loaded: Option<Value>): (r: Dict)
    ensures loaded.Some? && loaded.value.Obj? ==> r.Keys == DefaultUserSettings().Keys + loaded.value.fields.Keys
    ensures loaded.Some? && loaded.value.Obj? ==> forall k :: k in loaded.value.fields ==> r[k] == loaded.value.fields[k]
    ensures loaded.Some? && loaded.value.Obj? ==>
              forall k :: k in DefaultUserSettings() && k !in loaded.value.fields ==> k in r && r[k] == DefaultUserSettings()[k]
    ensures loaded.Some? && loaded.value.List? && UpdatePairs(DefaultUserSettings(), loaded.value.items).Some? ==>
              r == UpdatePairs(DefaultUserSettings(), loaded.value.items).value
    ensures loaded.Some? && loaded.value.List? && UpdatePairs(DefaultUserSettings(), loaded.value.items).None? ==>
              r == DefaultUserSettings()
    ensures !(loaded.Some? && (loaded.value.Obj? || loaded.value.List?)) ==> r == DefaultUserSettings()
    ensures DefaultUserSettings().Keys <= r.Keys
  {
    if loaded.Some? && loaded.value.Obj? then Update(DefaultUserSettings(), loaded.value.fields)
    else if loaded.Some? && loaded.value.List? then
      match UpdatePairs(DefaultUserSettings(), loaded.value.items)
      case Some(d) => d
      case None => DefaultUserSettings()
    else DefaultUserSettings()
  }

  /**
    A file holding the pair list `[["audio_cleaner", {"enabled": true}]]`
    replaces the whole cleaner section: the cleaner reads as on and the
    other sections keep their defaults.
   */
  lemma PairListLoads()
    ensures var r := LoadSettings(Some(List([List([Str("audio_cleaner"), Obj(map["enabled" := Bool(true)])])])));
            && r == DefaultUserSettings()["audio_cleaner" := Obj(map["enabled" := Bool(true)])]
            && CleanerEnabled(r) == Some(Bool(true))
  {
    var items := [List([Str("audio_cleaner"), Obj(map["enabled" := Bool(true)])])];
    assert items[..0] == [];
    assert PairOf(items[0]) == Some(("audio_cleaner", Obj(map["enabled" := Bool(true)])));
  }

  /**
    `settings.get('audio_cleaner', {}).get(key, default)`; `None` when the
    section is there but is not a dictionary (the call raises).
   */
  function CleanerField(settings: Dict, key: string, default: Value): (r: Option<Value>)
    ensures "audio_cleaner" !in settings ==> r == Some(default)
    ensures "audio_cleaner" in settings ==> (r.None? <==> !settings["audio_cleaner"].Obj?)
    ensures r.Some? && "audio_cleaner" in settings ==> r.value == Get(settings["audio_cleaner"].fields, key, default)
  {
    var section := Get(settings, "audio_cleaner", Obj(map[]));
    if section.Obj? then Some(Get(section.fields, key, default)) else None
  }

  /**
    `set_cleaner_enabled` / `set_last_preset`: the section is created when
    missing and `key` set in it; `None` when the section is not a
    dictionary (the assignment raises). Saving is a no-op in the model.
   */
  function SetCleanerField(settings: Dict, key: string, v: Value): (r: Option<Dict>)
    ensures r.None? <==> "audio_cleaner" in settings && !settings["audio_cleaner"].Obj?
    ensures r.Some? ==> && r.value.Keys == settings.Keys + {"audio_cleaner"}
                        && (forall k :: k in settings && k != "audio_cleaner" ==> r.value[k] == settings[k])
                        && r.value["audio_cleaner"].Obj?
                        && r.value["audio_cleaner"].fields
                           == (if "audio_cleaner" in settings then settings["audio_cleaner"].fields else map[])[key := v]
  {
    var section := if "audio_cleaner" in settings then settings["audio_cleaner"] else Obj(map[]);
    if !section.Obj? then None
    else Some(settings["audio_cleaner" := Obj(section.fields[key := v])])
  }

  /** `get_cleaner_enabled`. */
  function CleanerEnabled(settings: Dict): Option<Value> {
    CleanerField(settings, "enabled", Bool(false))
  }

  /** `get_last_preset`. */
  function LastPreset(settings: Dict): Option<Value> {
    CleanerField(settings, "last_preset", Str("standard_processing"))
  }

  /** Fresh settings have the cleaner off and the standard preset remembered. */
  lemma DefaultsReadBack()
    ensures CleanerEnabled(DefaultUserSettings()) == Some(Bool(false))
    ensures LastPreset(DefaultUserSettings()) == Some(Str("standard_processing"))
    ensures CleanerEnabled(map[]) == Some(Bool(false))
  {
  }

  /**
    Reading a field returns what was last written to it, and writing one
    field leaves the other as it was.
   */
  lemma SetThenGet(settings: Dict, key: string, other: string, v: Value, default: Value)
    requires SetCleanerField(settings, key, v).Some?
    ensures CleanerField(SetCleanerField(settings, key, v).value, key, default) == Some(v)
    ensures other != key && CleanerField(settings, other, default).Some? ==>
              CleanerField(SetCleanerField(settings, key, v).value, other, default) == CleanerField(settings, other, default)
  {
  }

  /** `set_cleaner_enabled` then `get_cleaner_enabled` gives the flag back. */
  lemma EnabledRoundTrip(settings: Dict, enabled: bool)
    requires SetCleanerField(settings, "enabled", Bool(enabled)).Some?
    ensures CleanerEnabled(SetCleanerField(settings, "enabled", Bool(enabled)).value) == Some(Bool(enabled))
    ensures LastPreset(SetCleanerField(settings, "enabled", Bool(enabled)).value) == LastPreset(settings)
  {
    SetThenGet(settings, "enabled", "last_preset", Bool(enabled), Str("standard_processing"));
  }

  // ---------------------------------------------------------------------------
  // Presets

  function Ints(xs: seq<int>): (r: Value)
    ensures r.List? && |r.items| == |xs|
  {
    List(seq(|xs|, i requires 0 <= i < |xs| => Int(xs[i])))
  }

  /** The built-in presets; none of them mentions `enabled`. */
  function Preset(key: string): (r: Option<Dict>)
    ensures r.Some? <==> key in {"standard_processing", "light_processing", "heavy_cleaning", "streaming_optimized"}
    ensures r.Some? ==> "enabled" !in r.value && "auto_generated" in r.value && r.value["auto_generated"] == Bool(false)
    ensures r.Some? && "hum_frequencies" in r.value ==>
              "hum_gains" in r.value && r.value["hum_frequencies"].List? && r.value["hum_gains"].List?
              && |r.value["hum_frequencies"].items| == |r.value["hum_gains"].items|
  {
    if key == "standard_processing" then
      Some(map["auto_generated" := Bool(false), "highpass_freq" := Int(80),
               "hum_removal" := Bool(true), "hum_frequencies" := Ints([50, 60, 100, 120, 150, 180, 200, 240]),
               "hum_gains" := Ints([-20, -20, -12, -12, -9, -9, -6, -6]), "noise_reduction" := Bool(true),
               "noise_floor" := Int(-28), "loudness_norm" := Bool(true), "target_lufs" := Num(-20.0), "true_peak" := Num(-1.0)])
    else if key == "light_processing" then
      Some(map["auto_generated" := Bool(false), "highpass_freq" := Int(60),
               "hum_removal" := Bool(false), "noise_reduction" := Bool(true), "noise_floor" := Int(-35),
               "loudness_norm" := Bool(true), "target_lufs" := Num(-18.0), "true_peak" := Num(-1.0)])
    else if key == "heavy_cleaning" then
      Some(map["auto_generated" := Bool(false), "highpass_freq" := Int(100),
               "hum_removal" := Bool(true), "hum_frequencies" := Ints([50, 60, 100, 120, 150, 180, 200, 240, 300]),
               "hum_gains" := Ints([-25, -25, -18, -18, -15, -15, -12, -12, -9]), "noise_reduction" := Bool(true),
               "noise_floor" := Int(-25), "loudness_norm" := Bool(true), "target_lufs" := Num(-20.0), "true_peak" := Num(-2.0)])
    else if key == "streaming_optimized" then
      Some(map["auto_generated" := Bool(false), "highpass_freq" := Int(80),
               "hum_removal" := Bool(true), "hum_frequencies" := Ints([50, 60, 100, 120]),
               "hum_gains" := Ints([-15, -15, -10, -10]), "noise_reduction" := Bool(true), "noise_floor" := Int(-30),
               "loudness_norm" := Bool(true), "target_lufs" := Num(-16.0), "true_peak" := Num(-1.0)])
    else None
  }

  /** What choosing a preset does. */
  datatype PresetOutcome =
    | Unchanged
    | Raised
    | Applied(settings: Dict, lastPreset: string)

  /**
    `apply_preset_automatically`: nothing for an empty selection; reading
    the current `enabled` raises when the settings lack it; an unknown
    preset changes nothing; a known preset is merged over the settings,
    `enabled` is put back, and the preset is to be remembered as the last.
   */
  function ApplyPreset(settings: Dict, presetKey: string): (r: PresetOutcome)
    ensures presetKey == "" ==> r.Unchanged?
    ensures presetKey != "" && "enabled" !in settings ==> r.Raised?
    ensures presetKey != "" && "enabled" in settings && Preset(presetKey).None? ==> r.Unchanged?
    ensures r.Applied? ==> && Preset(presetKey).Some? && r.lastPreset == presetKey
                           && r.settings.Keys == settings.Keys + Preset(presetKey).value.Keys
                           && "enabled" in r.settings && r.settings["enabled"] == settings["enabled"]
                           && (forall k :: k in Preset(presetKey).value ==> r.settings[k] == Preset(presetKey).value[k])
                           && (forall k :: k in settings && k !in Preset(presetKey).value ==> r.settings[k] == settings[k])
  {
    if presetKey == "" then Unchanged
    else if "enabled" !in settings then Raised
    else
      var current := settings["enabled"];
      match Preset(presetKey)
      case None => Unchanged
      case Some(preset) => Applied(Update(settings, preset)["enabled" := current], presetKey)
  }

  /**
    Putting `enabled` back is the same as never touching it: the result is
    the plain merge, since no preset carries `enabled`.
   */
  lemma PresetIsPlainMerge(settings: Dict, presetKey: string)
    requires ApplyPreset(settings, presetKey).Applied?
    ensures ApplyPreset(settings, presetKey).settings == Update(settings, Preset(presetKey).value)
  {
  }

  /** Choosing the same preset twice changes nothing the second time. */
  lemma PresetIdempotent(settings: Dict, presetKey: string)
    requires ApplyPreset(settings, presetKey).Applied?
    ensures var once := ApplyPreset(settings, presetKey).settings;
            ApplyPreset(once, presetKey) == Applied(once, presetKey)
  {
    var preset := Preset(presetKey).value;
    var once := ApplyPreset(settings, presetKey).settings;
    PresetIsPlainMerge(settings, presetKey);
    PresetIsPlainMerge(once, presetKey);
    assert Update(once, preset) == once;
  }

  /** With the cleaner switched on, any preset keeps it on; likewise off. */
  lemma PresetKeepsSwitch(settings: Dict, presetKey: string, enabled: bool)
    requires "enabled" in settings && settings["enabled"] == Bool(enabled)
    requires Preset(presetKey).Some?
    ensures ApplyPreset(settings, presetKey).Applied?
    ensures ApplyPreset(settings, presetKey).settings["enabled"] == Bool(enabled)
  {
  }
}

=== FILE: character_display.dfy ===
/**
  The value handling inside ui/character_display.py: the chroma-key colour
  code, the Live2D background settings, the mapping from the position
  sliders to model coordinates, wheel zoom and drag limits, and the check
  that skips re-sending unchanged settings to the viewer. Widgets, message
  boxes and the viewer's script are left out.
 */
module CharacterDisplay {
  import opened Common
  import opened Text
  import opened Json

  // ---------------------------------------------------------------------------
  // Colour codes

  /**
    How `int(text, 16)` sees a character. Only ASCII whitespace counts
    after the conversion Python applies first, which turns every other
    Unicode space into an ASCII space.
   */
  datatype CharClass = Space | Sign | Zero | LetterX | Underscore | HexDigit | Other

  function ClassOf(c: char): CharClass {
    if c == '+' || c == '-' then Sign
    else if c == '0' then Zero
    else if c == 'x' || c == 'X' then LetterX
    else if c == '_' then Underscore
    else if ('1' <= c <= '9') || ('a' <= c <= 'f') || ('A' <= c <= 'F') then HexDigit
    else if IsSpace(c) && !('\U{001C}' <= c <= '\U{001F}') then Space
    else Other
  }

  function Classes(s: string): (ks: seq<CharClass>)
    ensures |ks| == |s| && forall i :: 0 <= i < |s| ==> ks[i] == ClassOf(s[i])
  {
    seq(|s|, i requires 0 <= i < |s| => ClassOf(s[i]))
  }

  predicate IsHex(k: CharClass) { k == Zero || k == HexDigit }

  /** Drops leading and trailing whitespace classes. */
  function StripSpaces(ks: seq<CharClass>): (r: seq<CharClass>)
    ensures |r| <= |ks|
    decreases |ks|
  {
    if |ks| == 0 then []
    else if ks[0] == Space then StripSpaces(ks[1..])
    else if ks[|ks| - 1] == Space then StripSpaces(ks[..|ks| - 1])
    else ks
  }

  /** Hex digits, with single underscores only between two digits. */
  predicate DigitRun(ks: seq<CharClass>) {
    && |ks| > 0
    && IsHex(ks[0]) && IsHex(ks[|ks| - 1])
    && (forall i :: 0 <= i < |ks| ==> IsHex(ks[i]) || ks[i] == Underscore)
    && (forall i :: 0 <= i < |ks| - 1 ==> !(ks[i] == Underscore && ks[i + 1] == Underscore))
  }

  /** After an optional sign: an optional `0x` (which may be followed by one `_`) and a digit run. */
  predicate Unsigned(ks: seq<CharClass>) {
    if |ks| >= 2 && ks[0] == Zero && ks[1] == LetterX then
      DigitRun(if |ks| >= 3 && ks[2] == Underscore then ks[3..] else ks[2..])
    else DigitRun(ks)
  }

  /** The strings `int(text, 16)` accepts, by character class. */
  predicate ParsesAsHex(text: string) {
    var ks := StripSpaces(Classes(text));
    if |ks| > 0 && ks[0] == Sign then Unsigned(ks[1..]) else Unsigned(ks)
  }

  /**
    `_normalize_color_code`: `None` for empty text, for text that is not
    seven characters once a missing `#` is added, or whose other six
    characters `int(..., 16)` rejects; otherwise `#` and those six in
    lower case.
   */
  function NormalizeColorCode(text: string): (r: Option<string>)
    ensures text == [] ==> r.None?
    ensures var full := if |text| > 0 && text[0] == '#' then text else "#" + text;
            && (r.Some? <==> text != [] && |full| == 7 && ParsesAsHex(full[1..]))
            && (r.Some? ==> r.value == "#" + Lower(full[1..]))
    ensures r.Some? ==> |r.value| == 7 && r.value[0] == '#'
  {
    if text == [] then None
    else
      var full := if text[0] == '#' then text else "#" + text;
      if |full| != 7 then None
      else if !ParsesAsHex(full[1..]) then None
      else Some("#" + Lower(full[1..]))
  }

  /** Lower-casing keeps every character's class. */
  lemma LowerKeepsClasses(s: string)
    ensures Classes(Lower(s)) == Classes(s)
  {
    forall i | 0 <= i < |s| ensures ClassOf(Lower(s)[i]) == ClassOf(s[i]) {
      LowerCharKeepsClass(s[i]);
    }
  }

  lemma LowerCharKeepsClass(c: char)
    ensures ClassOf(LowerChar(c)) == ClassOf(c)
  {
    if 'A' <= c <= 'Z' {
      var d := LowerChar(c);
      assert d as int == c as int + 32;
      assert !IsSpace(c) && !IsSpace(d);
    }
  }

  /** A normalised code normalises to itself. */
  lemma NormalizeIdempotent(text: string)
    requires NormalizeColorCode(text).Some?
    ensures NormalizeColorCode(NormalizeColorCode(text).value) == NormalizeColorCode(text)
  {
    var full := if text[0] == '#' then text else "#" + text;
    var r := NormalizeColorCode(text).value;
    assert r[1..] == Lower(full[1..]);
    LowerKeepsClasses(full[1..]);
    LowerIdempotent(full[1..]);
  }

  /** Six hex digits parse, whatever their case. */
  lemma PlainHexParses(h: string)
    requires |h| == 6
    requires forall i :: 0 <= i < 6 ==> IsHex(ClassOf(h[i]))
    ensures ParsesAsHex(h)
  {
    var ks := Classes(h);
    assert ks[0] != Space && ks[5] != Space && ks[0] != Sign;
    assert StripSpaces(ks) == ks;
    assert ks[1] != LetterX;
    assert DigitRun(ks);
  }

  /** Six plain hex digits, in either case, are accepted with or without `#`. */
  lemma PlainHexAccepted(text: string)
    requires |text| == 6
    requires forall i :: 0 <= i < 6 ==> IsHex(ClassOf(text[i]))
    ensures NormalizeColorCode(text) == Some("#" + Lower(text))
    ensures NormalizeColorCode("#" + text) == Some("#" + Lower(text))
  {
    PlainHexBare(text);
    PlainHexParses(text);
    NormalizeHashSix(text);
  }

  /** Six plain hex digits without `#` get one. */
  lemma PlainHexBare(text: string)
    requires |text| == 6
    requires forall i :: 0 <= i < 6 ==> IsHex(ClassOf(text[i]))
    ensures NormalizeColorCode(text) == Some("#" + Lower(text))
  {
    PlainHexParses(text);
    HexIsNotHash(text[0]);
    NormalizeSix(text);
  }

  lemma HexIsNotHash(c: char)
    requires IsHex(ClassOf(c))
    ensures c != '#'
  {
  }

  /** Six characters without `#` that parse become `#` and the six lower-cased. */
  lemma NormalizeSix(h: string)
    requires |h| == 6 && h[0] != '#' && ParsesAsHex(h)
    ensures NormalizeColorCode(h) == Some("#" + Lower(h))
  {
    assert ("#" + h)[1..] == h;
  }

  /** Six characters after `#` that parse become `#` and the six lower-cased. */
  lemma NormalizeHashSix(h: string)
    requires |h| == 6 && ParsesAsHex(h)
    ensures NormalizeColorCode("#" + h) == Some("#" + Lower(h))
  {
    var full := "#" + h;
    assert full[0] == '#' && |full| == 7;
    assert full[1..] == h;
  }

  /** Lower-casing text without capitals changes nothing. */
  lemma LowerNoCapitals(s: string)
    requires forall i :: 0 <= i < |s| ==> !('A' <= s[i] <= 'Z')
    ensures Lower(s) == s
  {
  }

  /** A digit or a lower-case hex letter. */
  predicate LowerHex(c: char) { '0' <= c <= '9' || 'a' <= c <= 'f' }

  lemma LowerHexClass(c: char)
    requires LowerHex(c)
    ensures IsHex(ClassOf(c)) && !('A' <= c <= 'Z') && c != '#'
  {
  }

  /** `int(..., 16)` takes a sign, so a signed five-digit number passes as a colour code. */
  lemma SignedCodeAccepted(h: string)
    requires |h| == 6 && (h[0] == '-' || h[0] == '+')
    requires forall i :: 1 <= i < 6 ==> LowerHex(h[i])
    ensures NormalizeColorCode(h) == Some("#" + h)
  {
    var ks := Classes(h);
    forall i | 1 <= i < 6 ensures IsHex(ks[i]) { LowerHexClass(h[i]); }
    assert ks[0] == Sign && StripSpaces(ks) == ks;
    assert DigitRun(ks[1..]);
    NormalizeSix(h);
    LowerNoCapitals(h);
  }

  /** A `0x` prefix passes too and stays in the code. */
  lemma PrefixedCodeAccepted(h: string)
    requires |h| == 6 && h[0] == '0' && h[1] == 'x'
    requires forall i :: 2 <= i < 6 ==> LowerHex(h[i])
    ensures NormalizeColorCode(h) == Some("#" + h)
  {
    var ks := Classes(h);
    forall i | 2 <= i < 6 ensures IsHex(ks[i]) { LowerHexClass(h[i]); }
    assert ks[0] == Zero && ks[1] == LetterX && StripSpaces(ks) == ks;
    assert DigitRun(ks[2..]);
    NormalizeSix(h);
    LowerNoCapitals(h);
  }

  /** Spaces around four digits pass and are kept in the code. */
  lemma SpacedCodeAccepted(h: string)
    requires |h| == 6 && h[0] == ' ' && h[5] == ' '
    requires forall i :: 1 <= i < 5 ==> LowerHex(h[i])
    ensures NormalizeColorCode(h) == Some("#" + h)
  {
    var ks := Classes(h);
    forall i | 1 <= i < 5 ensures IsHex(ks[i]) { LowerHexClass(h[i]); }
    assert IsSpace(' ');
    assert ks[0] == Space && ks[5] == Space;
    var mid := ks[1..5];
    assert ks[1..][..4] == mid;
    assert ks[1..][0] != Space && ks[1..][4] == Space;
    assert StripSpaces(mid) == mid by { assert mid[0] != Space && mid[3] != Space; }
    assert StripSpaces(ks[1..]) == StripSpaces(mid);
    assert StripSpaces(ks) == mid;
    assert DigitRun(ks[1..5]);
    NormalizeSix(h);
    LowerNoCapitals(h);
  }

  /** Stripping removes only spaces, from both ends, and keeps the middle as it is. */
  lemma {:induction false} StripSpacesSlice(ks: seq<CharClass>) returns (a: nat, b: nat)
    ensures a <= b <= |ks| && StripSpaces(ks) == ks[a..b]
    ensures forall i :: 0 <= i < a ==> ks[i] == Space
    ensures forall i :: b <= i < |ks| ==> ks[i] == Space
    decreases |ks|
  {
    if |ks| == 0 {
      a, b := 0, 0;
    } else if ks[0] == Space {
      var a1, b1 := StripSpacesSlice(ks[1..]);
      a, b := a1 + 1, b1 + 1;
      assert ks[1..][a1..b1] == ks[a..b];
      forall i | 0 <= i < a ensures ks[i] == Space {
        if i > 0 { assert ks[i] == ks[1..][i - 1]; }
      }
      forall i | b <= i < |ks| ensures ks[i] == Space {
        assert ks[i] == ks[1..][i - 1];
      }
    } else if ks[|ks| - 1] == Space {
      var init := ks[..|ks| - 1];
      a, b := StripSpacesSlice(init);
      assert init[a..b] == ks[a..b];
      forall i | b <= i < |ks| ensures ks[i] == Space {
        if i < |ks| - 1 { assert ks[i] == init[i]; }
      }
    } else {
      a, b := 0, |ks|;
    }
  }

  /** What is left after an optional sign never contains a character of class `Other`. */
  lemma UnsignedNoOther(us: seq<CharClass>, j: nat)
    requires j < |us| && us[j] == Other
    ensures !Unsigned(us)
  {
    if |us| >= 2 && us[0] == Zero && us[1] == LetterX {
      if |us| >= 3 && us[2] == Underscore {
        assert us[3..][j - 3] == Other;
      } else {
        assert us[2..][j - 2] == Other;
      }
    }
  }

  /** Nor two underscores in a row. */
  lemma UnsignedNoDoubleUnderscore(us: seq<CharClass>, j: nat)
    requires j + 1 < |us| && us[j] == Underscore && us[j + 1] == Underscore
    ensures !Unsigned(us)
  {
    if |us| >= 2 && us[0] == Zero && us[1] == LetterX {
      if |us| >= 3 && us[2] == Underscore {
        if j == 2 {
          assert us[3..][0] == Underscore;
        } else {
          assert us[3..][j - 3] == Underscore && us[3..][j - 2] == Underscore;
        }
      } else {
        assert us[2..][j - 2] == Underscore && us[2..][j - 1] == Underscore;
      }
    }
  }

  /** A character `int(..., 16)` cannot read anywhere in the code refuses it. */
  lemma OtherRefused(text: string, i: nat)
    requires |text| == 7 && text[0] == '#' && 1 <= i < 7 && ClassOf(text[i]) == Other
    ensures NormalizeColorCode(text).None?
  {
    var h := text[1..];
    var ks := Classes(h);
    assert ks[i - 1] == Other;
    var a, b := StripSpacesSlice(ks);
    var st := ks[a..b];
    assert a <= i - 1 < b;
    var j := i - 1 - a;
    assert st[j] == Other;
    if |st| > 0 && st[0] == Sign {
      assert st[1..][j - 1] == Other;
      UnsignedNoOther(st[1..], j - 1);
    } else {
      UnsignedNoOther(st, j);
    }
  }

  /** Two underscores in a row anywhere in the code refuse it. */
  lemma DoubleUnderscoreRefused(text: string, i: nat)
    requires |text| == 7 && text[0] == '#' && 1 <= i < 6 && text[i] == '_' && text[i + 1] == '_'
    ensures NormalizeColorCode(text).None?
  {
    var h := text[1..];
    var ks := Classes(h);
    assert ks[i - 1] == Underscore && ks[i] == Underscore;
    var a, b := StripSpacesSlice(ks);
    var st := ks[a..b];
    assert a <= i - 1 && i < b;
    var j := i - 1 - a;
    assert st[j] == Underscore && st[j + 1] == Underscore;
    if |st| > 0 && st[0] == Sign {
      assert st[1..][j - 1] == Underscore && st[1..][j] == Underscore;
      UnsignedNoDoubleUnderscore(st[1..], j - 1);
    } else {
      UnsignedNoDoubleUnderscore(st, j);
    }
  }

  // ---------------------------------------------------------------------------
  // Live2D background settings

  /** `a or b` on JSON values. */
  function Or(a: Value, b: Value): (r: Value)
    ensures Truthy(a) ==> r == a
    ensures !Truthy(a) ==> r == b
  {
    if Truthy(a) then a else b
  }

  /**
    `set_live2d_background_mode`: the new background settings, built from
    the mode, the keyword arguments and, for some keys, the previous
    settings. `None` when image mode has no image path in either place;
    the settings are then left as they were.
   */
  function BackgroundSettings(previous: Dict, mode: string, kwargs: Dict): (r: Option<Dict>)
    ensures r.None? <==> mode == "image" && !Truthy(Or(Get(kwargs, "imagePath", Null), Get(previous, "imagePath", Null)))
    ensures r.Some? ==> && "mode" in r.value && r.value["mode"] == Str(mode)
                        && "alpha" in r.value && "previewAlpha" in r.value
                        && ("alpha" in kwargs ==> r.value["alpha"] == kwargs["alpha"])
    ensures r.Some? && mode == "image" ==> "imagePath" in r.value && Truthy(r.value["imagePath"])
    ensures r.Some? && mode == "chroma" && "color" !in kwargs ==> "color" in r.value && r.value["color"] == Get(previous, "color", Str("#00ff00"))
  {
    var base := map["mode" := Str(mode)];
    if mode == "white_alpha" then
      Some(base + map["color" := Get(kwargs, "color", Str("#ffffff")), "alpha" := Get(kwargs, "alpha", Num(0.0)),
                "previewAlpha" := Get(kwargs, "previewAlpha", Num(1.0))])
    else if mode == "transparent" then
      Some(base + map["color" := Get(kwargs, "color", Str("#000000")), "alpha" := Get(kwargs, "alpha", Num(0.0)),
                "previewAlpha" := Get(kwargs, "previewAlpha", Num(0.0))])
    else if mode == "chroma" then
      Some(base + map["color" := Get(kwargs, "color", Get(previous, "color", Str("#00ff00"))),
                "alpha" := Get(kwargs, "alpha", Num(1.0)), "previewAlpha" := Get(kwargs, "previewAlpha", Num(1.0))])
    else if mode == "image" then
      var path := Or(Get(kwargs, "imagePath", Null), Get(previous, "imagePath", Null));
      if !Truthy(path) then None
      else
        Some(base + map["imagePath" := path,
                  "imageFit" := Get(kwargs, "imageFit", Get(previous, "imageFit", Str("contain"))),
                  "imageRepeat" := Get(kwargs, "imageRepeat", Get(previous, "imageRepeat", Str("no-repeat"))),
                  "alpha" := Get(kwargs, "alpha", Num(0.0)), "previewAlpha" := Get(kwargs, "previewAlpha", Num(1.0))])
    else
      Some(base + map["alpha" := Get(kwargs, "alpha", Num(0.0)), "previewAlpha" := Get(kwargs, "previewAlpha", Num(1.0))])
  }

  /**
    What each mode falls back to when a keyword is not given: its colour
    (`None` where the mode sets no fixed colour), its opacity and its
    preview opacity.
   */
  datatype ModeDefault = ModeDefault(color: Option<Value>, alpha: Value, previewAlpha: Value)

  function DefaultsOf(mode: string): ModeDefault {
    if mode == "white_alpha" then ModeDefault(Some(Str("#ffffff")), Num(0.0), Num(1.0))
    else if mode == "transparent" then ModeDefault(Some(Str("#000000")), Num(0.0), Num(0.0))
    else if mode == "chroma" then ModeDefault(None, Num(1.0), Num(1.0))
    else ModeDefault(None, Num(0.0), Num(1.0))
  }

  /**
    The keys each mode produces and the value of each: a keyword argument
    when given, otherwise the mode's default; chroma keeps the previous
    colour before its green default, and image mode keeps the previous fit
    and repeat before `contain` and `no-repeat`.
   */
  predicate DescribesBackground(previous: Dict, mode: string, kwargs: Dict, r: Dict) {
    && r.Keys == {"mode", "alpha", "previewAlpha"}
                 + (if mode in {"white_alpha", "transparent", "chroma"} then {"color"} else {})
                 + (if mode == "image" then {"imagePath", "imageFit", "imageRepeat"} else {})
    && r["alpha"] == Get(kwargs, "alpha", DefaultsOf(mode).alpha)
    && r["previewAlpha"] == Get(kwargs, "previewAlpha", DefaultsOf(mode).previewAlpha)
    && (mode in {"white_alpha", "transparent"} ==> r["color"] == Get(kwargs, "color", DefaultsOf(mode).color.value))
    && (mode == "chroma" ==> r["color"] == Get(kwargs, "color", Get(previous, "color", Str("#00ff00"))))
    && (mode == "image" ==> && r["imageFit"] == Get(kwargs, "imageFit", Get(previous, "imageFit", Str("contain")))
                            && r["imageRepeat"] == Get(kwargs, "imageRepeat", Get(previous, "imageRepeat", Str("no-repeat"))))
  }

  lemma BackgroundDefaults(previous: Dict, mode: string, kwargs: Dict)
    requires BackgroundSettings(previous, mode, kwargs).Some?
    ensures DescribesBackground(previous, mode, kwargs, BackgroundSettings(previous, mode, kwargs).value)
  {
    if mode == "white_alpha" {
      WhiteDefaults(previous, kwargs);
    } else if mode == "transparent" {
      TransparentDefaults(previous, kwargs);
    } else if mode == "chroma" {
      ChromaDefaults(previous, kwargs);
    } else if mode == "image" {
      ImageDefaults(previous, kwargs);
    } else {
      OtherModeDefaults(previous, mode, kwargs);
    }
  }

  lemma WhiteDefaults(previous: Dict, kwargs: Dict)
    ensures DescribesBackground(previous, "white_alpha", kwargs, BackgroundSettings(previous, "white_alpha", kwargs).value)
  {
  }

  lemma TransparentDefaults(previous: Dict, kwargs: Dict)
    ensures DescribesBackground(previous, "transparent", kwargs, BackgroundSettings(previous, "transparent", kwargs).value)
  {
  }

  lemma ChromaDefaults(previous: Dict, kwargs: Dict)
    ensures DescribesBackground(previous, "chroma", kwargs, BackgroundSettings(previous, "chroma", kwargs).value)
  {
  }

  lemma ImageDefaults(previous: Dict, kwargs: Dict)
    requires BackgroundSettings(previous, "image", kwargs).Some?
    ensures DescribesBackground(previous, "image", kwargs, BackgroundSettings(previous, "image", kwargs).value)
  {
  }

  lemma OtherModeDefaults(previous: Dict, mode: string, kwargs: Dict)
    requires mode !in {"white_alpha", "transparent", "chroma", "image"}
    ensures DescribesBackground(previous, mode, kwargs, BackgroundSettings(previous, mode, kwargs).value)
  {
  }

  /** With no keyword arguments, the transparent background is invisible in the preview too, and white is opaque there. */
  lemma PreviewOpacityByMode(previous: Dict)
    ensures BackgroundSettings(previous, "transparent", map[]).value["previewAlpha"] == Num(0.0)
    ensures BackgroundSettings(previous, "white_alpha", map[]).value["previewAlpha"] == Num(1.0)
    ensures BackgroundSettings(previous, "white_alpha", map[]).value["alpha"] == Num(0.0)
    ensures BackgroundSettings(previous, "chroma", map[]).value["alpha"] == Num(1.0)
  {
    BackgroundDefaults(previous, "transparent", map[]);
    BackgroundDefaults(previous, "white_alpha", map[]);
    BackgroundDefaults(previous, "chroma", map[]);
  }

  /** Switching to image mode keeps the previous image when none is given. */
  lemma ImageModeKeepsPreviousImage(previous: Dict, kwargs: Dict)
    requires "imagePath" in previous && Truthy(previous["imagePath"])
    requires "imagePath" !in kwargs
    ensures BackgroundSettings(previous, "image", kwargs).Some?
    ensures BackgroundSettings(previous, "image", kwargs).value["imagePath"] == previous["imagePath"]
  {
  }

  /** Re-selecting the current image mode with no arguments reproduces its image settings. */
  lemma ImageModeReapplies(previous: Dict)
    requires BackgroundSettings(previous, "image", map[]).Some?
    ensures var once := BackgroundSettings(previous, "image", map[]).value;
            BackgroundSettings(once, "image", map[]) == Some(once)
  {
  }

  // ---------------------------------------------------------------------------
  // Position, zoom and drag

  /** Horizontal slider to model x: right of centre moves the character left. */
  function PositionX(h: real): real { -(h - 50.0) / 50.0 }

  /** Vertical slider to model y. */
  function PositionY(v: real): real { (v - 50.0) / 50.0 }

  /** The sliders' 0..100 maps onto -1..1 with 50 at the centre, and the map can be undone. */
  lemma PositionMaps(h: real, v: real)
    ensures 0.0 <= h <= 100.0 ==> -1.0 <= PositionX(h) <= 1.0
    ensures 0.0 <= v <= 100.0 ==> -1.0 <= PositionY(v) <= 1.0
    ensures PositionX(50.0) == 0.0 && PositionY(50.0) == 0.0
    ensures PositionX(0.0) == 1.0 && PositionX(100.0) == -1.0
    ensures PositionY(0.0) == -1.0 && PositionY(100.0) == 1.0
    ensures 50.0 - 50.0 * PositionX(h) == h && 50.0 + 50.0 * PositionY(v) == v
  {
  }

  /** One wheel step: up by `step` capped at `hi`, otherwise down by `step` floored at `lo`. */
  function WheelZoom(current: int, delta: int, step: nat, lo: int, hi: int): (r: int)
    requires lo <= hi
    ensures lo <= current <= hi ==> lo <= r <= hi
    ensures delta > 0 ==> r == (if current + step <= hi then current + step else hi)
    ensures delta <= 0 ==> r == (if current - step >= lo then current - step else lo)
  {
    if delta > 0 then (if current + step <= hi then current + step else hi)
    else (if current - step >= lo then current - step else lo)
  }

  /** The Live2D view zooms in steps of 10 within 80..500 %. */
  function Live2DWheelZoom(current: int, delta: int): (r: int)
    ensures 80 <= current <= 500 ==> 80 <= r <= 500
  {
    WheelZoom(current, delta, 10, 80, 500)
  }

  /** The image view zooms in steps of 5 within 20..150 %. */
  function ImageWheelZoom(current: int, delta: int): (r: int)
    ensures 20 <= current <= 150 ==> 20 <= r <= 150
  {
    WheelZoom(current, delta, 5, 20, 150)
  }

  /** Away from the limits, one step in and one step out return to the start. */
  lemma ZoomInThenOut(current: int)
    ensures 80 <= current <= 490 ==> Live2DWheelZoom(Live2DWheelZoom(current, 1), -1) == current
    ensures 20 <= current <= 145 ==> ImageWheelZoom(ImageWheelZoom(current, 1), -1) == current
  {
  }

  /**
    `mouseMoveEvent` on the Live2D view: the mouse moved by (dx, dy) pixels
    shifts the sliders by 0.3 per pixel, kept within 0..100 and truncated.
   */
  function Drag(h: int, v: int, dx: int, dy: int): (r: (int, int))
    ensures 0 <= r.0 <= 100 && 0 <= r.1 <= 100
    ensures dx == 0 && 0 <= h <= 100 ==> r.0 == h
    ensures dy == 0 && 0 <= v <= 100 ==> r.1 == v
  {
    var hChange := dx as real * 0.3;
    var vChange := -(dy as real) * 0.3;
    (Trunc(ClampR(h as real - hChange, 0.0, 100.0)), Trunc(ClampR(v as real + vChange, 0.0, 100.0)))
  }

  /** Dragging right never moves the horizontal slider up; dragging down never moves the vertical one up. */
  lemma DragDirections(h: int, v: int, dx: int, dy: int)
    requires 0 <= h <= 100 && 0 <= v <= 100
    ensures dx >= 0 ==> Drag(h, v, dx, dy).0 <= h
    ensures dx <= 0 ==> Drag(h, v, dx, dy).0 >= h
    ensures dy >= 0 ==> Drag(h, v, dx, dy).1 <= v
    ensures dy <= 0 ==> Drag(h, v, dx, dy).1 >= v
  {
  }

  // ---------------------------------------------------------------------------
  // Sending settings to the viewer

  datatype ViewSettings = ViewSettings(scale: real, x: real, y: real)

  /** What the last send remembered: the rounded key and the time. */
  datatype ApplyState = ApplyState(lastKey: Option<(string, string, string)>, lastTime: Option<real>)

  /** `f"{scale:.3f}_{x:.3f}_{y:.3f}"`, with the formatting supplied as `fmt3`. */
  function KeyOf(s: ViewSettings, fmt3: real -> string): (string, string, string) {
    (fmt3(s.scale), fmt3(s.x), fmt3(s.y))
  }

  /** The viewer settings for stored UI settings; `None` when a value is not a number. */
  function ViewSettingsOf(ui: Dict): (r: Option<ViewSettings>)
    ensures r.None? <==> NumberOf(Get(ui, "zoom_percent", Int(100))).None?
                         || NumberOf(Get(ui, "h_position", Int(50))).None?
                         || NumberOf(Get(ui, "v_position", Int(50))).None?
    ensures r.Some? ==> && r.value.scale == NumberOf(Get(ui, "zoom_percent", Int(100))).value / 100.0
                        && r.value.x == PositionX(NumberOf(Get(ui, "h_position", Int(50))).value)
                        && r.value.y == PositionY(NumberOf(Get(ui, "v_position", Int(50))).value)
  {
    var zoom := NumberOf(Get(ui, "zoom_percent", Int(100)));
    var h := NumberOf(Get(ui, "h_position", Int(50)));
    var v := NumberOf(Get(ui, "v_position", Int(50)));
    if zoom.None? || h.None? || v.None? then None
    else Some(ViewSettings(zoom.value / 100.0, PositionX(h.value), PositionY(v.value)))
  }

  /**
    `apply_settings_to_webview`: nothing without a loaded model or with
    unreadable settings; unless forced, nothing when the rounded key equals
    the last one sent or the last send was under 50 ms ago; otherwise the
    settings are sent and the key and time remembered.
   */
  function ApplySettings(st: ApplyState, modelLoaded: bool, ui: Dict, force: bool, now: real, fmt3: real -> string)
    : (r: (ApplyState, Option<ViewSettings>))
    ensures !modelLoaded || ViewSettingsOf(ui).None? ==> r == (st, None)
    ensures modelLoaded && ViewSettingsOf(ui).Some? && !force && st.lastKey == Some(KeyOf(ViewSettingsOf(ui).value, fmt3)) ==>
              r == (st, None)
    ensures modelLoaded && ViewSettingsOf(ui).Some? && force ==>
              r.1 == ViewSettingsOf(ui) && r.0 == ApplyState(Some(KeyOf(ViewSettingsOf(ui).value, fmt3)), Some(now))
    ensures modelLoaded && ViewSettingsOf(ui).Some? && !force && st.lastKey != Some(KeyOf(ViewSettingsOf(ui).value, fmt3)) ==>
              (r.1.Some? <==> st.lastTime.None? || now - st.lastTime.value >= 0.05)
    ensures r.1.None? ==> r.0 == st
    ensures r.1.Some? ==> r.1 == ViewSettingsOf(ui) && r.0 == ApplyState(Some(KeyOf(r.1.value, fmt3)), Some(now))
  {
    if !modelLoaded then (st, None)
    else
      match ViewSettingsOf(ui)
      case None => (st, None)
      case Some(s) =>
        var key := KeyOf(s, fmt3);
        if !force && st.lastKey == Some(key) then (st, None)
        else if !force && st.lastTime.Some? && now - st.lastTime.value < 0.05 then (st, None)
        else (ApplyState(Some(key), Some(now)), Some(s))
  }

  /** Applying the same settings again without forcing sends nothing, whenever it happens. */
  lemma ReapplySendsNothing(st: ApplyState, ui: Dict, now: real, later: real, fmt3: real -> string)
    requires ApplySettings(st, true, ui, false, now, fmt3).1.Some?
    ensures var st2 := ApplySettings(st, true, ui, false, now, fmt3).0;
            ApplySettings(st2, true, ui, false, later, fmt3) == (st2, None)
  {
  }
}

=== FILE: common.dfy ===
/**
  Small shared vocabulary: an optional value (Python's `None` or a value) and
  the numeric conversions and clamps the studio's code uses everywhere.
 */
module Common {

  datatype Option<T> = None | Some(value: T)

  /** Python's `int(x)` on a float: truncation toward zero. */
  function Trunc(x: real): (n: int)
    ensures x >= 0.0 ==> n as real <= x < n as real + 1.0
    ensures x < 0.0 ==> n as real - 1.0 < x <= n as real
  {
    if x >= 0.0 then x.Floor else -((-x).Floor)
  }

  function MinR(a: real, b: real): real { if a <= b then a else b }
  function MaxR(a: real, b: real): real { if a >= b then a else b }
  function MinI(a: int, b: int): int { if a <= b then a else b }
  function Abs(x: real): real { if x < 0.0 then -x else x }

  /** `max(lo, min(hi, x))` on reals. */
  function ClampR(x: real, lo: real, hi: real): (r: real)
    requires lo <= hi
    ensures lo <= r <= hi
    ensures lo <= x <= hi ==> r == x
    ensures x < lo ==> r == lo
    ensures x > hi ==> r == hi
  {
    MaxR(lo, MinR(hi, x))
  }

  /** `max(lo, min(hi, x))` on integers. */
  function ClampI(x: int, lo: int, hi: int): (r: int)
    requires lo <= hi
    ensures lo <= r <= hi
    ensures lo <= x <= hi ==> r == x
    ensures x < lo ==> r == lo
    ensures x > hi ==> r == hi
  {
    if x < lo then lo else if x > hi then hi else x
  }

  lemma NonNegMul(a: real, c: real)
    requires a >= 0.0 && c >= 0.0
    ensures a * c >= 0.0
  {
  }

  /** Dividing by a positive number keeps the order. */
  lemma DivMonotone(x: real, y: real, d: real)
    requires 0.0 <= x <= y && d > 0.0
    ensures 0.0 <= x / d <= y / d
  {
    assert y / d - x / d == (y - x) / d;
  }

  /** Sum of a sequence of reals. */
  function Sum(xs: seq<real>): real {
    if |xs| == 0 then 0.0 else xs[0] + Sum(xs[1..])
  }

  /** Every entry of `q` moved up by `d`. */
  function Shifted(d: nat, q: seq<nat>): (p: seq<nat>)
    ensures |p| == |q| && forall j :: 0 <= j < |q| ==> p[j] == d + q[j]
  {
    if |q| == 0 then [] else [d + q[0]] + Shifted(d, q[1..])
  }

  lemma {:induction false} SumAppend(a: seq<real>, b: seq<real>)
    ensures Sum(a + b) == Sum(a) + Sum(b)
  {
    if |a| == 0 {
      assert a + b == b;
    } else {
      assert (a + b)[1..] == a[1..] + b;
      SumAppend(a[1..], b);
    }
  }

  lemma SumNonNegative(xs: seq<real>)
    requires forall i :: 0 <= i < |xs| ==> xs[i] >= 0.0
    ensures Sum(xs) >= 0.0
  {
  }

  /** `f` fails on element `i` of `xs`. */
  predicate FailsAt<A, B>(xs: seq<A>, f: A -> Option<(B, bool)>, i: int) {
    0 <= i < |xs| && f(xs[i]).None?
  }

  /** `f` succeeds on element `i` of `xs` and reports a change. */
  predicate ChangesAt<A, B>(xs: seq<A>, f: A -> Option<(B, bool)>, i: int) {
    0 <= i < |xs| && f(xs[i]).Some? && f(xs[i]).value.1
  }

  /** Element `i` of `ys` is what `f` makes of element `i` of `xs`. */
  predicate MappedAt<A, B(==)>(xs: seq<A>, f: A -> Option<(B, bool)>, ys: seq<B>, i: int) {
    0 <= i < |xs| && i < |ys| && f(xs[i]).Some? && ys[i] == f(xs[i]).value.0
  }

  /**
    A loop that rewrites every element in order and gives up as soon as one
    step fails (the step raising an exception); the flag says whether any
    step reported a change.
   */
  method MapOrFail<A, B(==)>(xs: seq<A>, f: A -> Option<(B, bool)>) returns (r: Option<(seq<B>, bool)>)
    ensures r.None? <==> exists i :: FailsAt(xs, f, i)
    ensures r.Some? ==> |r.value.0| == |xs| && forall i :: 0 <= i < |xs| ==> MappedAt(xs, f, r.value.0, i)
    ensures r.Some? ==> (r.value.1 <==> exists i :: ChangesAt(xs, f, i))
  {
    var out: seq<B> := [];
    var changed := false;
    for i := 0 to |xs|
      invariant |out| == i
      invariant forall j :: 0 <= j < i ==> MappedAt(xs, f, out, j)
      invariant changed <==> exists j :: 0 <= j < i && ChangesAt(xs, f, j)
    {
      var step := f(xs[i]);
      if step.None? {
        assert FailsAt(xs, f, i);
        return None;
      }
      ghost var before := out;
      out := out + [step.value.0];
      forall j | 0 <= j < i
        ensures MappedAt(xs, f, out, j)
      {
        assert MappedAt(xs, f, before, j);
      }
      assert MappedAt(xs, f, out, i);
      assert ChangesAt(xs, f, i) <==> step.value.1;
      changed := changed || step.value.1;
    }
    forall i | 0 <= i < |xs|
      ensures !FailsAt(xs, f, i)
    {
      assert MappedAt(xs, f, out, i);
    }
    return Some((out, changed));
  }
}

=== FILE: fixed_position.dfy ===
/**
  core/live2d_fixed_position_manager.py: the lookup of a model's fixed
  ("home") position settings in `live2d_fixed_positions.json`. Entries are
  matched by id first, then by normalised folder path, then by name; the
  first entry matched in the first pass that matches anything decides the
  answer. Whether the file exists and what it parses to are parameters.
 */
module FixedPosition {
  import opened Common
  import opened Text
  import opened Json

  // ---------------------------------------------------------------------------
  // Path normalisation

  /** `_normalize_path` on a string: back-slashes become slashes, then strip, then lower-case. */
  function NormalizePath(p: string): (r: string)
    ensures '\\' !in r
    ensures Trimmed(r)
  {
    var replaced := ReplaceChar(p, '\\', '/');
    var stripped := Strip(replaced);
    assert '\\' !in stripped by {
      StripIsInfix(replaced);
    }
    LowerKeeps(stripped, '\\');
    Lower(stripped)
  }

  /** Stripping keeps a contiguous piece of the input, so it adds no character. */
  lemma StripIsInfix(s: string)
    ensures forall c :: c in Strip(s) ==> c in s
  {
    var l := StripLeft(s);
    var r := StripRight(l);
    assert r == Strip(s);
    forall c | c in r ensures c in s {
      var i :| 0 <= i < |r| && r[i] == c;
      assert r[i] == l[i];
      assert l[i] == s[i + (|s| - |l|)];
    }
  }

  /** Replacing a character that does not occur changes nothing. */
  lemma ReplaceAbsent(s: string, a: char, b: char)
    requires a !in s
    ensures ReplaceChar(s, a, b) == s
  {
  }

  /** A normalised path is its own normal form. */
  lemma NormalizeIdempotent(p: string)
    ensures NormalizePath(NormalizePath(p)) == NormalizePath(p)
  {
    var q := NormalizePath(p);
    ReplaceAbsent(q, '\\', '/');
    StripTrimmed(q);
    LowerIdempotent(Strip(ReplaceChar(p, '\\', '/')));
  }

  /** Two spellings that differ only in the direction of their separators normalise alike. */
  lemma {:induction false} SeparatorsDoNotMatter(p: string)
    ensures NormalizePath(ReplaceChar(p, '\\', '/')) == NormalizePath(p)
  {
    var once := ReplaceChar(p, '\\', '/');
    assert ReplaceChar(once, '\\', '/') == once;
  }

  /** `_normalize_path` on an optional path: `None` stays `None`. */
  function NormalizeOpt(p: Option<string>): (r: Option<string>)
    ensures r.Some? <==> p.Some?
    ensures r.Some? ==> r.value == NormalizePath(p.value)
  {
    match p
    case None => None
    case Some(s) => Some(NormalizePath(s))
  }

  // ---------------------------------------------------------------------------
  // Matching one entry

  /** A non-empty string: the truthiness test on an optional string. */
  predicate Given(s: Option<string>) {
    s.Some? && |s.value| > 0
  }

  /**
    Python's `str()` of a stored value, for the values whose rendering the
    model knows: a string is itself, an integer its decimal digits, a
    boolean `True` or `False`. `None` for `null` and for floats, lists and
    dicts.
   */
  function StrForm(v: Value): (r: Option<string>)
    ensures r.Some? <==> v.Str? || v.Int? || v.Bool?
    ensures v.Str? ==> r == Some(v.s)
    ensures v.Int? ==> r == Some(IntToString(v.i))
    ensures v.Bool? ==> r == Some(if v.b then "True" else "False")
  {
    match v
    case Str(s) => Some(s)
    case Int(i) => Some(IntToString(i))
    case Bool(b) => Some(if b then "True" else "False")
    case _ => None
  }

  /** `str(entry.get(key))` when the key holds a value `StrForm` renders; `None` otherwise. */
  function Field(entry: Value, key: string): (r: Option<string>)
    ensures r.Some? <==> entry.Obj? && key in entry.fields && StrForm(entry.fields[key]).Some?
    ensures r.Some? ==> StrForm(entry.fields[key]) == r
    ensures entry.Obj? && key in entry.fields && entry.fields[key].Str? ==> r == Some(entry.fields[key].s)
  {
    if entry.Obj? && key in entry.fields then StrForm(entry.fields[key]) else None
  }

  /** The truthiness test on the stored value itself, before any `str()`. */
  predicate StoredTruthy(entry: Value, key: string) {
    entry.Obj? && key in entry.fields && Truthy(entry.fields[key])
  }

  /** The three criteria the lookup tries, in order of priority. */
  datatype Criterion = ById(id: Option<string>) | ByPath(path: Option<string>) | ByName(name: Option<string>)

  /** The id test of `_match_entry`: both ids truthy and equal as strings. */
  predicate SameId(entry: Value, id: Option<string>) {
    Given(id) && StoredTruthy(entry, "id") && Field(entry, "id") == id
  }

  /**
    The path test of `_match_entry`: both paths non-empty after
    normalisation, which applies `str()` first, and equal.
   */
  predicate SamePath(entry: Value, path: Option<string>) {
    var target := NormalizeOpt(path);
    var stored := NormalizeOpt(Field(entry, "model_folder_path"));
    Given(target) && Given(stored) && stored == target
  }

  /** The name test of `_match_entry`: both names truthy and equal as strings. */
  predicate SameName(entry: Value, name: Option<string>) {
    Given(name) && StoredTruthy(entry, "name") && Field(entry, "name") == name
  }

  /**
    `_match_entry` with only one of its three keyword arguments given; an
    entry that is not a dict matches nothing.
   */
  predicate Matches(entry: Value, c: Criterion) {
    entry.Obj? &&
    match c
    case ById(id) => SameId(entry, id)
    case ByPath(path) => SamePath(entry, path)
    case ByName(name) => SameName(entry, name)
  }

  /** `_match_entry` with all three arguments: any one criterion suffices, tried in the order id, path, name. */
  function MatchEntry(entry: Value, id: Option<string>, path: Option<string>, name: Option<string>): (r: bool)
    ensures r <==> Matches(entry, ById(id)) || Matches(entry, ByPath(path)) || Matches(entry, ByName(name))
    ensures !entry.Obj? ==> !r
  {
    if !entry.Obj? then false
    else if SameId(entry, id) then true
    else if SamePath(entry, path) then true
    else SameName(entry, name)
  }

  /** An entry whose id is a non-zero integer matches that integer's decimal spelling, and no other integer's. */
  lemma IntegerIdMatchesItsSpelling(entry: Value, n: int, m: int)
    requires entry.Obj? && "id" in entry.fields && entry.fields["id"] == Int(n) && n != 0
    ensures Matches(entry, ById(Some(IntToString(n))))
    ensures Matches(entry, ById(Some(IntToString(m)))) ==> m == n
  {
    if Matches(entry, ById(Some(IntToString(m)))) {
      IntToStringInjective(m, n);
    }
  }

  /** A falsy stored id, such as `0` or `false`, matches nothing even though its `str()` is non-empty. */
  lemma FalsyIdNeverMatches(entry: Value, id: Option<string>)
    requires entry.Obj? && "id" in entry.fields && !Truthy(entry.fields["id"])
    ensures !Matches(entry, ById(id))
  {
  }

  /** Paths that agree after normalisation match, whatever their separators, so the path test is symmetric. */
  lemma PathMatchIgnoresSeparators(entry: Value, path: string)
    requires Matches(entry, ByPath(Some(path)))
    ensures Matches(entry, ByPath(Some(ReplaceChar(path, '\\', '/'))))
  {
    SeparatorsDoNotMatter(path);
  }

  // ---------------------------------------------------------------------------
  // The lookup

  /** Entry `k` is the first one meeting criterion `c`. */
  predicate FirstWith(models: seq<Value>, c: Criterion, k: int) {
    0 <= k < |models| && Matches(models[k], c) && forall j :: 0 <= j < k ==> !Matches(models[j], c)
  }

  predicate AnyWith(models: seq<Value>, c: Criterion) {
    exists k :: 0 <= k < |models| && Matches(models[k], c)
  }

  /** The first entry meeting `c`, if any. */
  function FindFirst(models: seq<Value>, c: Criterion): (r: Option<nat>)
    ensures r.None? <==> !AnyWith(models, c)
    ensures r.Some? ==> FirstWith(models, c, r.value)
  {
    if |models| == 0 then None
    else if Matches(models[0], c) then Some(0)
    else
      var rest := FindFirst(models[1..], c);
      assert forall k :: 1 <= k < |models| ==> models[k] == models[1..][k - 1];
      assert AnyWith(models, c) ==> AnyWith(models[1..], c) by {
        if AnyWith(models, c) {
          var k :| 0 <= k < |models| && Matches(models[k], c);
          assert Matches(models[1..][k - 1], c);
        }
      }
      match rest
      case None => None
      case Some(k) => Some(k + 1)
  }

  /** `entry.get("ui_settings")` when it is a dict, copied; `None` otherwise. */
  function SettingsOf(entry: Value): (r: Option<Dict>)
    ensures r.Some? <==> entry.Obj? && "ui_settings" in entry.fields && entry.fields["ui_settings"].Obj?
    ensures r.Some? ==> entry.fields["ui_settings"] == Obj(r.value)
  {
    if entry.Obj? && "ui_settings" in entry.fields && entry.fields["ui_settings"].Obj? then
      Some(entry.fields["ui_settings"].fields)
    else None
  }

  /**
    `get_fixed_settings`: an id match anywhere beats a path match anywhere,
    which beats a name match; within a pass the first match decides, and a
    match without a dict of settings answers `None` without looking further.
   */
  function GetFixedSettings(models: seq<Value>, id: Option<string>, path: Option<string>, name: Option<string>): (r: Option<Dict>)
    ensures AnyWith(models, ById(id)) ==>
              exists k :: FirstWith(models, ById(id), k) && r == SettingsOf(models[k])
    ensures !AnyWith(models, ById(id)) && AnyWith(models, ByPath(path)) ==>
              exists k :: FirstWith(models, ByPath(path), k) && r == SettingsOf(models[k])
    ensures !AnyWith(models, ById(id)) && !AnyWith(models, ByPath(path)) && AnyWith(models, ByName(name)) ==>
              exists k :: FirstWith(models, ByName(name), k) && r == SettingsOf(models[k])
    ensures !AnyWith(models, ById(id)) && !AnyWith(models, ByPath(path)) && !AnyWith(models, ByName(name)) ==>
              r.None?
    ensures r.Some? ==> exists k :: 0 <= k < |models| && MatchEntry(models[k], id, path, name)
                                     && SettingsOf(models[k]) == r
  {
    var byId := if Given(id) then FindFirst(models, ById(id)) else None;
    assert !Given(id) ==> !AnyWith(models, ById(id));
    if byId.Some? then
      assert MatchEntry(models[byId.value], id, path, name);
      SettingsOf(models[byId.value])
    else
      var byPath := FindFirst(models, ByPath(path));
      if byPath.Some? then
        assert MatchEntry(models[byPath.value], id, path, name);
        SettingsOf(models[byPath.value])
      else
        var byName := FindFirst(models, ByName(name));
        if byName.Some? then
          assert MatchEntry(models[byName.value], id, path, name);
          SettingsOf(models[byName.value])
        else None
  }

  /** A later entry that matches by id wins over an earlier one that matches by path. */
  lemma IdBeatsEarlierPath(models: seq<Value>, id: string, path: string, i: nat, j: nat)
    requires i < j < |models|
    requires Matches(models[i], ByPath(Some(path))) && !Matches(models[i], ById(Some(id)))
    requires FirstWith(models, ById(Some(id)), j)
    ensures GetFixedSettings(models, Some(id), Some(path), None) == SettingsOf(models[j])
  {
    var r := GetFixedSettings(models, Some(id), Some(path), None);
    var k :| FirstWith(models, ById(Some(id)), k) && r == SettingsOf(models[k]);
    FirstWithUnique(models, ById(Some(id)), k, j);
  }

  /** At most one entry is the first to meet a criterion. */
  lemma FirstWithUnique(models: seq<Value>, c: Criterion, k1: int, k2: int)
    requires FirstWith(models, c, k1) && FirstWith(models, c, k2)
    ensures k1 == k2
  {
  }

  /**
    An entry matched first whose settings are not a dict hides a later
    entry that has them: the lookup answers `None`.
   */
  lemma UnusableFirstMatchHidesLater(models: seq<Value>, name: string)
    requires |models| == 2 && |name| > 0
    requires models[0] == Obj(map["name" := Str(name)])
    requires models[1] == Obj(map["name" := Str(name), "ui_settings" := Obj(map[])])
    ensures GetFixedSettings(models, None, None, Some(name)).None?
  {
    assert !AnyWith(models, ByPath(None));
    assert FirstWith(models, ByName(Some(name)), 0);
    assert !AnyWith(models, ById(None));
    assert forall k :: FirstWith(models, ByName(Some(name)), k) ==> k == 0;
  }

  // ---------------------------------------------------------------------------
  // The stored file

  /**
    `_load`: the `models` list of a file that parses to a dict whose
    `models` entry is a list (a missing entry reads as an empty list);
    anything else, including a missing file or a parse error, gives no models.
   */
  function LoadModels(fileExists: bool, parsed: Option<Value>): (r: seq<Value>)
    ensures !fileExists || parsed.None? || !parsed.value.Obj? ==> r == []
    ensures (fileExists && parsed.Some? && parsed.value.Obj? && "models" in parsed.value.fields
             && parsed.value.fields["models"].List?) ==> r == parsed.value.fields["models"].items
    ensures (fileExists && parsed.Some? && parsed.value.Obj?
             && !("models" in parsed.value.fields && parsed.value.fields["models"].List?)) ==> r == []
    ensures |r| > 0 ==> fileExists && parsed.Some? && parsed.value.Obj? && "models" in parsed.value.fields
  {
    if !fileExists || parsed.None? || !parsed.value.Obj? then []
    else
      var models := Get(parsed.value.fields, "models", List([]));
      if models.List? then models.items else []
  }

  /** `has_fixed_settings`: reloads the file, then asks whether the lookup finds a dict of settings. */
  function HasFixedSettings(fileExists: bool, parsed: Option<Value>, id: Option<string>, path: Option<string>, name: Option<string>): (r: bool)
    ensures r ==> exists k :: 0 <= k < |LoadModels(fileExists, parsed)|
                              && MatchEntry(LoadModels(fileExists, parsed)[k], id, path, name)
                              && SettingsOf(LoadModels(fileExists, parsed)[k]).Some?
    ensures !fileExists ==> !r
    ensures r <==> GetFixedSettings(LoadModels(fileExists, parsed), id, path, name).Some?
    ensures r ==> fileExists && parsed.Some? && parsed.value.Obj?
  {
    var models := LoadModels(fileExists, parsed);
    var s := GetFixedSettings(models, id, path, name);
    s.Some?
  }
}

=== FILE: frames.dfy ===
/**
  The vowel-frame timeline of core/lip_sync_engine.py: a `VowelFrame` says
  which mouth vowel is shown from `timestamp` for `duration` seconds and how
  strongly; a `LipSyncData` is a timeline with its total length.
 */
module VowelFrames {

  datatype VowelFrame = VowelFrame(timestamp: real, vowel: string, intensity: real, duration: real, isEnding: bool)
  {
    function End(): real { timestamp + duration }
  }

  datatype LipSyncData = LipSyncData(text: string, totalDuration: real, frames: seq<VowelFrame>, sampleRate: int)

  /** The closed set of mouth vowels the engine emits. */
  predicate IsVowel(v: string) {
    v in {"a", "i", "u", "e", "o", "n", "sil"}
  }

  /** A silent filler frame: the shape the engine inserts for pauses. */
  function Silence(timestamp: real, duration: real): (f: VowelFrame)
    ensures f.vowel == "sil" && f.intensity == 0.0 && !f.isEnding
  {
    VowelFrame(timestamp, "sil", 0.0, duration, false)
  }

  function Durations(fs: seq<VowelFrame>): (ds: seq<real>)
    ensures |ds| == |fs| && forall k :: 0 <= k < |fs| ==> ds[k] == fs[k].duration
  {
    if |fs| == 0 then [] else [fs[0].duration] + Durations(fs[1..])
  }

  /** The frames sit back to back, the first starting at `start`. */
  predicate ContiguousFrom(fs: seq<VowelFrame>, start: real) {
    && (|fs| > 0 ==> fs[0].timestamp == start)
    && forall k :: 0 <= k < |fs| - 1 ==> fs[k + 1].timestamp == fs[k].timestamp + fs[k].duration
  }

  /** Every frame uses a vowel of the closed set. */
  predicate ClosedVowels(fs: seq<VowelFrame>) {
    forall k :: 0 <= k < |fs| ==> IsVowel(fs[k].vowel)
  }

  /** Every intensity lies in [0, 1]. */
  predicate UnitIntensities(fs: seq<VowelFrame>) {
    forall k :: 0 <= k < |fs| ==> 0.0 <= fs[k].intensity <= 1.0
  }

  /** `b` has the timing of `a`: same length, timestamps and durations. */
  predicate SameTiming(a: seq<VowelFrame>, b: seq<VowelFrame>) {
    |a| == |b| && forall k :: 0 <= k < |a| ==> b[k].timestamp == a[k].timestamp && b[k].duration == a[k].duration
  }

  lemma SameTimingKeepsContiguity(a: seq<VowelFrame>, b: seq<VowelFrame>, start: real)
    requires SameTiming(a, b) && ContiguousFrom(a, start)
    ensures ContiguousFrom(b, start)
  {
  }
}

=== FILE: history.dfy ===
/**
  The bounded undo/redo history of parameter snapshots (`ParameterHistory` in
  ui/history_manager.py), as an immutable state record: each operation
  returns the next state, and the two lookups also return the snapshot they
  hand back (or `None`). Snapshot copying has no observable effect on values
  and is not modelled.
 */
module History {
  import opened Common

  datatype History<S> = History(stack: seq<S>, index: int, maxHistory: nat, undoing: bool)
  {
    /** The stack/index invariant every operation keeps. */
    predicate Valid() {
      && (|stack| == 0 <==> index == -1)
      && -1 <= index < |stack|
      && |stack| <= maxHistory
    }

    predicate HasUndo() { index > 0 }
    predicate HasRedo() { index < |stack| - 1 }
  }

  /** The result of an undo or redo: the next history and the snapshot returned, if any. */
  datatype Step<S> = Step(next: History<S>, state: Option<S>)

  /** A new history; the source's default bound is 20. */
  function Empty<S>(maxHistory: nat): (h: History<S>)
    ensures h.Valid() && h.stack == [] && !h.undoing
    ensures h.maxHistory == maxHistory && !h.HasUndo() && !h.HasRedo()
  {
    History([], -1, maxHistory, false)
  }

  /** `save_current_state`. */
  function Save<S>(h: History<S>, snapshot: Option<S>): (r: History<S>)
    requires h.Valid()
    ensures r.Valid()
    ensures r.maxHistory == h.maxHistory && r.undoing == h.undoing
    ensures snapshot.None? || h.undoing ==> r == h
    ensures snapshot.Some? && !h.undoing ==>
      && !r.HasRedo()
      && |r.stack| == MinI(h.index + 2, h.maxHistory)
      && (|r.stack| > 0 ==> r.stack[r.index] == snapshot.value)
      && (h.index + 2 <= h.maxHistory ==> r.stack == h.stack[..h.index + 1] + [snapshot.value])
      && (h.index + 2 > h.maxHistory ==> r.stack == (h.stack[..h.index + 1] + [snapshot.value])[1..])
  {
    if snapshot.None? || h.undoing then h
    else
      var kept := if h.index < |h.stack| - 1 then h.stack[..h.index + 1] else h.stack;
      var pushed := kept + [snapshot.value];
      if |pushed| > h.maxHistory then h.(stack := pushed[1..], index := |pushed| - 2)
      else h.(stack := pushed, index := |pushed| - 1)
  }

  /** `get_previous_state`. */
  function Previous<S>(h: History<S>): (r: Step<S>)
    requires h.Valid()
    ensures r.next.Valid()
    ensures !h.HasUndo() ==> r == Step(h, None)
    ensures h.HasUndo() ==>
      r.next == h.(index := h.index - 1) && r.state == Some(h.stack[h.index - 1])
  {
    if !h.HasUndo() then Step(h, None)
    else Step(h.(index := h.index - 1), Some(h.stack[h.index - 1]))
  }

  /** `get_next_state`. */
  function Next<S>(h: History<S>): (r: Step<S>)
    requires h.Valid()
    ensures r.next.Valid()
    ensures !h.HasRedo() ==> r == Step(h, None)
    ensures h.HasRedo() ==>
      r.next == h.(index := h.index + 1) && r.state == Some(h.stack[h.index + 1])
  {
    if !h.HasRedo() then Step(h, None)
    else Step(h.(index := h.index + 1), Some(h.stack[h.index + 1]))
  }

  /** `clear_history`: the bound and the undoing flag are kept. */
  function Clear<S>(h: History<S>): (r: History<S>)
    ensures r.Valid() && r.stack == [] && r.index == -1
    ensures !r.HasUndo() && !r.HasRedo()
    ensures r.maxHistory == h.maxHistory && r.undoing == h.undoing
  {
    h.(stack := [], index := -1)
  }

  /** `set_undoing_flag`. */
  function SetUndoing<S>(h: History<S>, flag: bool): (r: History<S>)
    ensures r.undoing == flag && r.stack == h.stack && r.index == h.index
    ensures r.maxHistory == h.maxHistory
    ensures h.Valid() ==> r.Valid()
  {
    h.(undoing := flag)
  }

  /** An undo followed by a redo restores the index and returns the state that was current. */
  lemma UndoThenRedo<S>(h: History<S>)
    requires h.Valid() && h.HasUndo()
    ensures Previous(h).next.HasRedo()
    ensures Next(Previous(h).next) == Step(h, Some(h.stack[h.index]))
  {
  }

  /** A redo followed by an undo restores the index and returns the state that was current. */
  lemma RedoThenUndo<S>(h: History<S>)
    requires h.Valid() && h.HasRedo() && h.index >= 0
    ensures Previous(Next(h).next) == Step(h, Some(h.stack[h.index]))
  {
  }

  /** Saving while the undoing flag is set never changes the history, whatever is saved. */
  lemma SavesIgnoredWhileUndoing<S>(h: History<S>, snapshots: seq<Option<S>>)
    requires h.Valid() && h.undoing
    ensures SaveAll(h, snapshots) == h
  {
  }

  /** Several saves in a row. */
  function SaveAll<S>(h: History<S>, snapshots: seq<Option<S>>): (r: History<S>)
    requires h.Valid()
    ensures r.Valid() && r.maxHistory == h.maxHistory && r.undoing == h.undoing
    ensures |r.stack| <= h.maxHistory
    decreases |snapshots|
  {
    if |snapshots| == 0 then h else SaveAll(Save(h, snapshots[0]), snapshots[1..])
  }

  /** Once enough snapshots have been saved the history is full: the bound is reached exactly. */
  lemma {:induction false} SaveAllFills<S>(h: History<S>, snapshots: seq<S>)
    requires h.Valid() && !h.undoing && |snapshots| > 0
    ensures |SaveAll(h, Somes(snapshots)).stack| == MinI(h.index + 1 + |snapshots|, h.maxHistory)
    decreases |snapshots|
  {
    if |snapshots| > 1 {
      assert Somes(snapshots)[1..] == Somes(snapshots[1..]);
      SaveAllFills(Save(h, Some(snapshots[0])), snapshots[1..]);
    }
  }

  function Somes<S>(xs: seq<S>): (r: seq<Option<S>>)
    ensures |r| == |xs| && forall i :: 0 <= i < |xs| ==> r[i] == Some(xs[i])
  {
    if |xs| == 0 then [] else [Some(xs[0])] + Somes(xs[1..])
  }

}

=== FILE: image_manager.dfy ===
/**
  core/image_manager.py: the history of character images (newest first,
  capped at 20, each with its own `ui_settings` dictionary) and the
  display-mode setting of `DisplayModeManager`. The identifier of an image
  is the MD5 hash of its resolved path; both the hash and the resolution
  are outside the model, so callers pass them in. File I/O is left out.
 */
module ImageHistory {
  import opened Common
  import opened Text
  import opened Json
  import opened Recent
  import opened PathNames

  const MaxImages: nat := 20

  /** `_pretty_default_name`: the file's stem, or `"image"` when that is empty. */
  function DefaultImageName(path: string): (r: string)
    ensures |r| > 0
    ensures |Stem(Name(path))| > 0 ==> r == Stem(Name(path))
  {
    var stem := Stem(Name(path));
    if |stem| > 0 then stem else "image"
  }

  /** A trailing `/.` names the same image, because pathlib drops `.` components. */
  lemma TrailingDotIgnored(path: string)
    ensures DefaultImageName(path + "/.") == DefaultImageName(path)
  {
    NameDropsDot(path);
  }

  /** The current directory has an empty stem, so it gets the fallback name. */
  lemma CurrentDirectoryIsImage()
    ensures DefaultImageName(".") == "image"
  {
    DotHasNoName();
    assert Stem("") == "";
  }

  /** The entry `add_image` creates: empty note and empty `ui_settings`. */
  function NewImage(id: string, name: string, path: string): Dict {
    map["id" := Str(id), "name" := Str(name), "note" := Str(""),
        "image_path" := Str(path), "ui_settings" := Obj(map[])]
  }

  /**
    `add_image` on an already resolved path: a known identifier moves its
    entry to the front; a new image is pushed at the front with empty
    settings and the list is cut to 20.
   */
  function AddImage(images: seq<Dict>, path: string, customName: Option<string>, imageId: string): (r: (seq<Dict>, string))
    ensures r.1 == imageId
    ensures |r.0| > 0 && IdOf(r.0[0]) == Str(imageId)
    ensures HasKey(images, IdOf, Str(imageId)) ==>
              exists i :: FirstKeyed(images, IdOf, Str(imageId), i) && r.0[0] == images[i]
                          && r.0[1..] == images[..i] + images[i + 1..]
    ensures !HasKey(images, IdOf, Str(imageId)) ==>
              && |r.0| == MinNat(|images| + 1, MaxImages)
              && r.0[1..] == images[..|r.0| - 1]
              && "ui_settings" in r.0[0] && r.0[0]["ui_settings"] == Obj(map[])
              && "name" in r.0[0] && r.0[0]["name"] == Str(if customName.Some? && |customName.value| > 0 then customName.value
                                                            else DefaultImageName(path))
  {
    match Find(images, IdOf, Str(imageId))
    case Some(i) => (MoveToFront(images, i), imageId)
    case None =>
      var name := if customName.Some? && |customName.value| > 0 then customName.value else DefaultImageName(path);
      (PushFront(images, NewImage(imageId, name, path), Some(MaxImages)), imageId)
  }

  /** Adding keeps identifiers pairwise distinct, and the added image is the one `get_last_image` answers. */
  lemma AddedImageIsLast(images: seq<Dict>, path: string, customName: Option<string>, imageId: string)
    requires DistinctKeys(images, IdOf)
    ensures var added := AddImage(images, path, customName, imageId).0;
            DistinctKeys(added, IdOf) && GetLastImage(added).Some? && IdOf(GetLastImage(added).value) == Str(imageId)
  {
    match Find(images, IdOf, Str(imageId))
    case Some(i) => MoveToFrontDistinct(images, IdOf, i);
    case None =>
      var name := if customName.Some? && |customName.value| > 0 then customName.value else DefaultImageName(path);
      PushFrontDistinct(images, IdOf, NewImage(imageId, name, path), Some(MaxImages));
  }

  /** `get_last_image`: the newest entry. */
  function GetLastImage(images: seq<Dict>): (r: Option<Dict>)
    ensures r.None? <==> |images| == 0
    ensures r.Some? ==> r.value == images[0]
  {
    if |images| > 0 then Some(images[0]) else None
  }

  /** `remove_image`: true exactly when some entry had the identifier; the others keep their order. */
  function RemoveImage(images: seq<Dict>, id: string): (r: (seq<Dict>, bool))
    ensures r.1 <==> HasKey(images, IdOf, Str(id))
    ensures !HasKey(r.0, IdOf, Str(id))
    ensures !r.1 ==> r.0 == images
    ensures DistinctKeys(images, IdOf) && r.1 ==>
              exists i :: 0 <= i < |images| && IdOf(images[i]) == Str(id) && r.0 == RemoveAt(images, i)
  {
    RemoveById(images, id)
  }

  /** `update_image_name`. */
  function UpdateImageName(images: seq<Dict>, id: string, newName: string): (r: (seq<Dict>, bool))
    ensures r.1 <==> HasKey(images, IdOf, Str(id))
    ensures !r.1 ==> r.0 == images
    ensures r.1 ==> exists i :: FirstKeyed(images, IdOf, Str(id), i) && |r.0| == |images|
                                && r.0[i] == images[i]["name" := Str(newName)]
                                && forall j :: 0 <= j < |images| && j != i ==> r.0[j] == images[j]
  {
    SetFieldById(images, id, "name", Str(newName))
  }

  /** `update_note`. */
  function UpdateImageNote(images: seq<Dict>, id: string, note: string): (r: (seq<Dict>, bool))
    ensures r.1 <==> HasKey(images, IdOf, Str(id))
    ensures !r.1 ==> r.0 == images
    ensures r.1 ==> exists i :: FirstKeyed(images, IdOf, Str(id), i) && |r.0| == |images|
                                && r.0[i] == images[i]["note" := Str(note)]
                                && forall j :: 0 <= j < |images| && j != i ==> r.0[j] == images[j]
  {
    SetFieldById(images, id, "note", Str(note))
  }

  // ---------------------------------------------------------------------------
  // Per-image UI settings

  /** `get_ui_settings`: the stored settings, `{}` when they are missing or the image is unknown. */
  function GetUiSettings(images: seq<Dict>, id: string): (r: Value)
    ensures !HasKey(images, IdOf, Str(id)) ==> r == Obj(map[])
    ensures HasKey(images, IdOf, Str(id)) ==>
              exists i :: FirstKeyed(images, IdOf, Str(id), i) && r == Get(images[i], "ui_settings", Obj(map[]))
  {
    match Find(images, IdOf, Str(id))
    case None => Obj(map[])
    case Some(i) => Get(images[i], "ui_settings", Obj(map[]))
  }

  /** The merged settings of one entry: a missing dictionary starts empty; a non-dictionary cannot merge. */
  function MergedSettings(entry: Dict, settings: Dict): (r: Option<Dict>)
    ensures r.None? <==> "ui_settings" in entry && !entry["ui_settings"].Obj?
    ensures r.Some? ==> r.value.Keys == settings.Keys + (if "ui_settings" in entry then entry["ui_settings"].fields.Keys else {})
    ensures r.Some? ==> forall k :: k in settings ==> r.value[k] == settings[k]
  {
    var stored := Get(entry, "ui_settings", Obj(map[]));
    if stored.Obj? then Some(Update(stored.fields, settings)) else None
  }

  /** `update_ui_settings`. */
  function UpdateUiSettings(images: seq<Dict>, id: string, settings: Dict): (r: UiUpdate)
    ensures r == Unknown <==> !HasKey(images, IdOf, Str(id))
    ensures r.Updated? ==> exists i :: FirstKeyed(images, IdOf, Str(id), i) && |r.entries| == |images|
                                       && MergedSettings(images[i], settings).Some?
                                       && r.entries[i] == images[i]["ui_settings" := Obj(MergedSettings(images[i], settings).value)]
                                       && forall j :: 0 <= j < |images| && j != i ==> r.entries[j] == images[j]
    ensures r == Raised ==> exists i :: FirstKeyed(images, IdOf, Str(id), i) && MergedSettings(images[i], settings).None?
  {
    match Find(images, IdOf, Str(id))
    case None => Unknown
    case Some(i) =>
      match MergedSettings(images[i], settings)
      case None => Raised
      case Some(merged) => Updated(images[i := images[i]["ui_settings" := Obj(merged)]])
  }

  /** After a successful update, reading the settings back gives the merged dictionary. */
  lemma UpdateThenGet(images: seq<Dict>, id: string, settings: Dict)
    requires UpdateUiSettings(images, id, settings).Updated?
    ensures var after := UpdateUiSettings(images, id, settings).entries;
            var v := GetUiSettings(after, id);
            v.Obj? && forall k :: k in settings ==> k in v.fields && v.fields[k] == settings[k]
  {
    var after := UpdateUiSettings(images, id, settings).entries;
    var i :| FirstKeyed(images, IdOf, Str(id), i) && |after| == |images|
             && MergedSettings(images[i], settings).Some?
             && after[i] == images[i]["ui_settings" := Obj(MergedSettings(images[i], settings).value)]
             && forall j :: 0 <= j < |images| && j != i ==> after[j] == images[j];
    assert IdOf(after[i]) == IdOf(images[i]);
    assert FirstKeyed(after, IdOf, Str(id), i);
    var v := GetUiSettings(after, id);
    var k :| FirstKeyed(after, IdOf, Str(id), k) && v == Get(after[k], "ui_settings", Obj(map[]));
    assert k == i by {
      assert !(k < i);
      assert !(i < k);
    }
  }

  // ---------------------------------------------------------------------------
  // Normalising loaded entries

  /**
    `(img.get("name") or "").strip()`: `None` when a truthy non-string name
    makes `.strip()` raise.
   */
  function CurrentName(entry: Dict): (r: Option<string>)
    ensures r.None? <==> "name" in entry && Truthy(entry["name"]) && !entry["name"].Str?
    ensures r.Some? && "name" in entry && entry["name"].Str? ==> r.value == Strip(entry["name"].s)
    ensures r.Some? && !("name" in entry && entry["name"].Str?) ==> r.value == ""
  {
    var v := Get(entry, "name", Null);
    if !Truthy(v) then Some("")
    else if v.Str? then Some(Strip(v.s))
    else None
  }

  /** `image_path` as `_normalize_data` reads it: `""` when absent, `None` when not a string. */
  function ImagePath(entry: Dict): (r: Option<string>)
    ensures r.None? <==> "image_path" in entry && !entry["image_path"].Str?
    ensures "image_path" !in entry ==> r == Some("")
    ensures r.Some? && "image_path" in entry ==> entry["image_path"] == Str(r.value)
  {
    var path := Get(entry, "image_path", Str(""));
    if path.Str? then Some(path.s) else None
  }

  /**
    One step of `_normalize_data`: a blank name becomes the default name,
    and a missing note or `ui_settings` is added; the flag says whether any
    of the three applied. `None` when the name is a truthy non-string or
    `image_path` is not a string (`Path` raises on it).
   */
  function NormalizeImage(entry: Dict): (r: Option<(Dict, bool)>)
    ensures r.None? <==> CurrentName(entry).None? || ImagePath(entry).None?
  {
    match CurrentName(entry)
    case None => None
    case Some(current) =>
      match ImagePath(entry)
      case None => None
      case Some(path) =>
        var done := FillEntry(entry, if |current| == 0 then Some(DefaultImageName(path)) else None);
        Some((done, |current| == 0 || "note" !in entry || "ui_settings" !in entry))
  }

  /** What one normalisation step writes, field by field. */
  lemma NormalizeImageSpec(entry: Dict)
    requires NormalizeImage(entry).Some?
    ensures var r := NormalizeImage(entry).value;
            && r.0.Keys == entry.Keys + {"name", "note", "ui_settings"}
            && (forall k :: k in entry && k != "name" ==> r.0[k] == entry[k])
            && (CurrentName(entry) == Some("") ==> r.0["name"] == Str(DefaultImageName(ImagePath(entry).value)))
            && (CurrentName(entry) != Some("") ==> "name" in entry && r.0["name"] == entry["name"])
            && ("note" !in entry ==> r.0["note"] == Str(""))
            && ("ui_settings" !in entry ==> r.0["ui_settings"] == Obj(map[]))
            && (r.1 <==> CurrentName(entry) == Some("") || "note" !in entry || "ui_settings" !in entry)
  {
    var current := CurrentName(entry).value;
    assert |current| > 0 ==> "name" in entry;
  }

  /** Sets the name when one is given, then adds a missing note and `ui_settings`. */
  function FillEntry(entry: Dict, name: Option<string>): (r: Dict)
    ensures r.Keys == entry.Keys + {"note", "ui_settings"} + (if name.Some? then {"name"} else {})
    ensures name.Some? || "name" in entry ==> r.Keys == entry.Keys + {"name", "note", "ui_settings"}
    ensures forall k :: k in entry && k != "name" ==> r[k] == entry[k]
    ensures name.Some? ==> r["name"] == Str(name.value)
    ensures name.None? && "name" in entry ==> r["name"] == entry["name"]
    ensures "note" !in entry ==> r["note"] == Str("")
    ensures "ui_settings" !in entry ==> r["ui_settings"] == Obj(map[])
  {
    var named := if name.Some? then entry["name" := Str(name.value)] else entry;
    SetDefault(SetDefault(named, "note", Str("")), "ui_settings", Obj(map[]))
  }

  /**
    The flag reports a real change when the default name is not blank; a
    blank default (an image whose stem is all whitespace) is rewritten
    with itself and still reported as a change.
   */
  lemma FlagMeansChange(entry: Dict)
    requires NormalizeImage(entry).Some? && DefaultNameIsNotBlank(entry)
    ensures NormalizeImage(entry).value.1 <==> NormalizeImage(entry).value.0 != entry
  {
    NormalizeImageSpec(entry);
    var r := NormalizeImage(entry).value.0;
    if CurrentName(entry) == Some("") && "name" in entry {
      var desired := DefaultImageName(ImagePath(entry).value);
      assert r["name"] == Str(desired);
      assert entry["name"] != Str(desired) by {
        assert entry["name"] == Str(desired) ==> CurrentName(entry) == Some(Strip(desired));
      }
    }
  }

  /** Normalising an entry that was already normalised changes nothing. */
  lemma NormalizeIsIdempotent(entry: Dict)
    requires NormalizeImage(entry).Some?
    requires DefaultNameIsNotBlank(entry)
    ensures NormalizeImage(NormalizeImage(entry).value.0) == Some((NormalizeImage(entry).value.0, false))
  {
    NormalizeImageSpec(entry);
    var once := NormalizeImage(entry).value.0;
    var path := ImagePath(entry).value;
    SameImagePath(entry, once);
    if CurrentName(entry) == Some("") {
      CurrentNameOfString(once, DefaultImageName(path));
    } else {
      assert once["name"] == entry["name"];
    }
    assert CurrentName(once) != Some("");
    NormalizeImageSpec(once);
    var twice := NormalizeImage(once).value.0;
    assert twice.Keys == once.Keys;
    assert forall k :: k in once ==> twice[k] == once[k];
  }

  /** A dictionary that keeps every field except the name reads the same `image_path`. */
  lemma SameImagePath(entry: Dict, other: Dict)
    requires other.Keys == entry.Keys + {"name", "note", "ui_settings"}
    requires forall k :: k in entry && k != "name" ==> other[k] == entry[k]
    ensures ImagePath(other) == ImagePath(entry)
  {
    assert "image_path" !in {"name", "note", "ui_settings"} by {
      assert |"image_path"| != |"name"| && |"image_path"| != |"note"| && |"image_path"| != |"ui_settings"|;
    }
  }

  /** A string name reads back stripped. */
  lemma CurrentNameOfString(entry: Dict, name: string)
    requires "name" in entry && entry["name"] == Str(name)
    ensures CurrentName(entry) == Some(Strip(name))
  {
    if name == [] {
      assert Strip(name) == [];
    }
  }

  /** The default name that may be written is not all whitespace, so the next pass keeps it. */
  predicate DefaultNameIsNotBlank(entry: Dict) {
    ImagePath(entry).Some? && |Strip(DefaultImageName(ImagePath(entry).value))| > 0
  }

  /**
    `_normalize_data` over the whole list, in order: `None` when an entry
    raises, else the normalised entries and whether any of them changed.
   */
  method NormalizeData(images: seq<Dict>) returns (r: Option<(seq<Dict>, bool)>)
    ensures r.None? <==> exists i :: FailsAt(images, NormalizeImage, i)
    ensures r.Some? ==> |r.value.0| == |images|
    ensures r.Some? ==> forall i :: 0 <= i < |images| ==> MappedAt(images, NormalizeImage, r.value.0, i)
    ensures r.Some? ==> (r.value.1 <==> exists i :: ChangesAt(images, NormalizeImage, i))
  {
    r := MapOrFail(images, NormalizeImage);
  }

  // ---------------------------------------------------------------------------
  // Display mode

  /**
    `get_display_mode`: `character_display.mode`, defaulting to `"image"`.
    `None` when `character_display` is present but not a dictionary, where
    `.get` raises.
   */
  function GetDisplayMode(settings: Dict): (r: Option<Value>)
    ensures "character_display" !in settings ==> r == Some(Str("image"))
    ensures r.None? <==> "character_display" in settings && !settings["character_display"].Obj?
    ensures "character_display" in settings && settings["character_display"].Obj? ==>
              r == Some(Get(settings["character_display"].fields, "mode", Str("image")))
  {
    var display := Get(settings, "character_display", Obj(map[]));
    if display.Obj? then Some(Get(display.fields, "mode", Str("image"))) else None
  }

  predicate IsDisplayMode(mode: string) { mode == "image" || mode == "live2d" }

  /**
    `set_display_mode`: any mode other than `image` or `live2d` is ignored;
    `None` when `character_display` is present but not a dictionary, where
    the item assignment raises.
   */
  function SetDisplayMode(settings: Dict, mode: string): (r: Option<Dict>)
    ensures !IsDisplayMode(mode) ==> r == Some(settings)
    ensures r.None? <==> IsDisplayMode(mode) && "character_display" in settings && !settings["character_display"].Obj?
    ensures r.Some? ==> r.value.Keys == settings.Keys + (if IsDisplayMode(mode) then {"character_display"} else {})
    ensures r.Some? ==> forall k :: k in settings && k != "character_display" ==> r.value[k] == settings[k]
  {
    if !IsDisplayMode(mode) then Some(settings)
    else
      var display := Get(settings, "character_display", Obj(map[]));
      if !display.Obj? then None
      else Some(settings["character_display" := Obj(display.fields["mode" := Str(mode)])])
  }

  /** Setting a valid mode and reading it back gives that mode; other settings under `character_display` survive. */
  lemma SetThenGetMode(settings: Dict, mode: string)
    requires IsDisplayMode(mode)
    requires SetDisplayMode(settings, mode).Some?
    ensures GetDisplayMode(SetDisplayMode(settings, mode).value) == Some(Str(mode))
    ensures "character_display" in settings ==>
              forall k :: k in settings["character_display"].fields && k != "mode" ==>
                k in SetDisplayMode(settings, mode).value["character_display"].fields
  {
  }

  /** `is_image_mode` on fresh settings: the default mode is the image mode. */
  lemma DefaultModeIsImage()
    ensures GetDisplayMode(map[]) == Some(Str("image"))
  {
  }
}

=== FILE: json.dfy ===
/**
  The JSON-shaped values the managers keep in their history files and
  settings dictionaries. A Python `dict` is a map from keys to values;
  `dict.update` is map union with the right operand winning.
 */
module Json {
  import opened Common

  datatype Value =
    | Null
    | Bool(b: bool)
    | Int(i: int)
    | Num(r: real)
    | Str(s: string)
    | List(items: seq<Value>)
    | Obj(fields: map<string, Value>)
  {
    predicate IsObj() { this.Obj? }
    predicate IsList() { this.List? }
  }

  type Dict = map<string, Value>

  /** Python truthiness of a JSON value. */
  predicate Truthy(v: Value) {
    match v
    case Null => false
    case Bool(b) => b
    case Int(i) => i != 0
    case Num(r) => r != 0.0
    case Str(s) => |s| > 0
    case List(xs) => |xs| > 0
    case Obj(m) => |m| > 0
  }

  /** `d.update(u)`: every key of `u` takes its value from `u`, every other key keeps its value. */
  function Update(d: Dict, u: Dict): (r: Dict)
    ensures r.Keys == d.Keys + u.Keys
    ensures forall k :: k in u ==> r[k] == u[k]
    ensures forall k :: k in d && k !in u ==> r[k] == d[k]
  {
    d + u
  }

  /** `d.setdefault(k, v)` viewed as a whole-map update: `k` is added only when absent. */
  function SetDefault(d: Dict, k: string, v: Value): (r: Dict)
    ensures k in r
    ensures k in d ==> r == d
    ensures k !in d ==> r == d[k := v]
  {
    if k in d then d else d[k := v]
  }

  /** `d.get(k, default)`. */
  function Get(d: Dict, k: string, default: Value): (v: Value)
    ensures k in d ==> v == d[k]
    ensures k !in d ==> v == default
  {
    if k in d then d[k] else default
  }

  /** `entry.get("id")`: the identifier history entries are looked up by (`None` when absent). */
  function IdOf(entry: Dict): (v: Value)
    ensures "id" in entry ==> v == entry["id"]
    ensures "id" !in entry ==> v == Null
  {
    Get(entry, "id", Null)
  }

  /** The number Python's arithmetic sees in a JSON value; `None` where arithmetic on it raises `TypeError`. */
  function NumberOf(v: Value): (r: Option<real>)
    ensures v.Int? ==> r == Some(v.i as real)
    ensures v.Num? ==> r == Some(v.r)
    ensures v.Bool? ==> r == Some(if v.b then 1.0 else 0.0)
    ensures r.None? <==> !(v.Int? || v.Num? || v.Bool?)
  {
    match v
    case Int(i) => Some(i as real)
    case Num(x) => Some(x)
    case Bool(b) => Some(if b then 1.0 else 0.0)
    case _ => None
  }

  /** `sub` occurs in `s` at some position. */
  predicate IsSubstring(sub: string, s: string) {
    exists i :: 0 <= i <= |s| && OccursAt(sub, s, i)
  }

  predicate OccursAt(sub: string, s: string, i: int) {
    0 <= i <= |s| - |sub| && s[i..i + |sub|] == sub
  }

  /**
    Python's `key in container` for a string key: a key test on a dict, an
    element test on a list, a substring test on a string; `None` for the
    `TypeError` other values raise.
   */
  function Contains(container: Value, key: string): (r: Option<bool>)
    ensures container.Obj? ==> r == Some(key in container.fields)
    ensures container.List? ==> r == Some(Str(key) in container.items)
    ensures container.Str? ==> r == Some(IsSubstring(key, container.s))
    ensures r.None? <==> container.Null? || container.Bool? || container.Int? || container.Num?
  {
    match container
    case Obj(m) => Some(key in m)
    case List(xs) => Some(Str(key) in xs)
    case Str(s) => Some(IsSubstring(key, s))
    case _ => None
  }
}

=== FILE: lip_sync_frames.dfy ===
/**
  The frame stage of the lip-sync engine (core/lip_sync_engine.py): rescaling
  a timeline onto the real audio length, forcing silence inside detected
  silence regions, protecting word endings, applying the sensitivity, the
  text-length estimate and the fallback timeline, and the whole
  `analyze_text_for_lipsync` pipeline after phonemisation.
 */
module LipSyncFrames {
  import opened Common
  import opened VowelFrames
  import opened LipSyncPhonemes

  // ---------------------------------------------------------------------------
  // Rescaling onto a target length

  /** Total of the frames' durations: the engine's `estimated_duration`. */
  function TotalDuration(fs: seq<VowelFrame>): real {
    Sum(Durations(fs))
  }

  /** Each duration multiplied by `scale`; nothing else changes. */
  function Stretch(fs: seq<VowelFrame>, scale: real): (r: seq<VowelFrame>)
    ensures |r| == |fs|
    ensures forall k :: 0 <= k < |fs| ==> r[k] == fs[k].(duration := fs[k].duration * scale)
  {
    if |fs| == 0 then [] else [fs[0].(duration := fs[0].duration * scale)] + Stretch(fs[1..], scale)
  }

  /** The frames laid back to back from `start`, keeping their durations: only timestamps change. */
  function Restack(fs: seq<VowelFrame>, start: real): (r: seq<VowelFrame>)
    ensures |r| == |fs|
    ensures ContiguousFrom(r, start)
    ensures forall k :: 0 <= k < |fs| ==> r[k] == fs[k].(timestamp := r[k].timestamp)
  {
    if |fs| == 0 then [] else [fs[0].(timestamp := start)] + Restack(fs[1..], start + fs[0].duration)
  }

  lemma {:induction false} StretchTotal(fs: seq<VowelFrame>, scale: real)
    ensures TotalDuration(Stretch(fs, scale)) == scale * TotalDuration(fs)
  {
    if |fs| > 0 {
      var r := Stretch(fs, scale);
      assert r[1..] == Stretch(fs[1..], scale);
      assert Durations(r)[1..] == Durations(r[1..]);
      assert Durations(fs)[1..] == Durations(fs[1..]);
      StretchTotal(fs[1..], scale);
    }
  }

  lemma {:induction false} RestackTotal(fs: seq<VowelFrame>, start: real)
    ensures TotalDuration(Restack(fs, start)) == TotalDuration(fs)
  {
    SameDurationsTotal(fs, Restack(fs, start));
  }

  /** `r` is `fs` with every duration multiplied by `scale` and possibly new timestamps. */
  predicate ScaledBy(fs: seq<VowelFrame>, r: seq<VowelFrame>, scale: real) {
    |r| == |fs| && forall k :: 0 <= k < |fs| ==> r[k] == fs[k].(timestamp := r[k].timestamp, duration := fs[k].duration * scale)
  }

  /**
    The rescale block of `analyze_text_for_lipsync` (used both with the real
    audio length and with the text estimate): when the estimated total is
    positive the frames are stretched onto `target` and laid back to back from
    0; otherwise they are left as they are.
   */
  function Rescale(fs: seq<VowelFrame>, target: real): (r: seq<VowelFrame>)
    ensures TotalDuration(fs) <= 0.0 ==> r == fs
    ensures TotalDuration(fs) > 0.0 ==>
      && ContiguousFrom(r, 0.0)
      && TotalDuration(r) == target
      && ScaledBy(fs, r, target / TotalDuration(fs))
  {
    var est := TotalDuration(fs);
    if est > 0.0 then
      var scale := target / est;
      var stretched := Stretch(fs, scale);
      var r := Restack(stretched, 0.0);
      StretchTotal(fs, scale);
      RestackTotal(stretched, 0.0);
      assert scale * est == target;
      r
    else fs
  }

  /** Rescaling keeps the closed vowel set and the intensities. */
  lemma RescaleKeepsContent(fs: seq<VowelFrame>, target: real)
    ensures ClosedVowels(fs) ==> ClosedVowels(Rescale(fs, target))
    ensures UnitIntensities(fs) ==> UnitIntensities(Rescale(fs, target))
  {
  }

  // ---------------------------------------------------------------------------
  // Silence regions

  datatype Region = Region(start: real, end: real)

  /** Some region contains `t`, bounds included. */
  predicate InSilence(t: real, regions: seq<Region>) {
    exists j :: 0 <= j < |regions| && regions[j].start <= t <= regions[j].end
  }

  function Midpoint(f: VowelFrame): real {
    (f.timestamp + f.End()) / 2.0
  }

  /** The per-frame rule of `_apply_silence_regions_to_frames`. */
  function SilenceFrame(f: VowelFrame, regions: seq<Region>): VowelFrame {
    if InSilence(Midpoint(f), regions) && f.vowel != "sil" then Silence(f.timestamp, f.duration) else f
  }

  /** `_apply_silence_regions_to_frames`. */
  function ApplySilence(fs: seq<VowelFrame>, regions: seq<Region>): (r: seq<VowelFrame>)
    ensures SameTiming(fs, r)
    ensures ClosedVowels(fs) ==> ClosedVowels(r)
    ensures |regions| == 0 ==> r == fs
    ensures forall k :: 0 <= k < |fs| ==>
      if InSilence(Midpoint(fs[k]), regions) && fs[k].vowel != "sil"
      then r[k] == Silence(fs[k].timestamp, fs[k].duration)
      else r[k] == fs[k]
  {
    if |regions| == 0 then fs else MapFrames(fs, f => SilenceFrame(f, regions))
  }

  /** Applies `g` to every frame. */
  function MapFrames(fs: seq<VowelFrame>, g: VowelFrame -> VowelFrame): (r: seq<VowelFrame>)
    ensures |r| == |fs| && forall k :: 0 <= k < |fs| ==> r[k] == g(fs[k])
  {
    if |fs| == 0 then [] else [g(fs[0])] + MapFrames(fs[1..], g)
  }

  /** Applying the same regions twice changes nothing more. */
  lemma ApplySilenceIdempotent(fs: seq<VowelFrame>, regions: seq<Region>)
    ensures ApplySilence(ApplySilence(fs, regions), regions) == ApplySilence(fs, regions)
  {
    var once := ApplySilence(fs, regions);
    var twice := ApplySilence(once, regions);
    forall k | 0 <= k < |fs|
      ensures twice[k] == once[k]
    {
      assert Midpoint(once[k]) == Midpoint(fs[k]);
    }
  }

  /** After applying the regions, no frame whose midpoint is silent shows a vowel. */
  lemma ApplySilenceSilences(fs: seq<VowelFrame>, regions: seq<Region>, k: nat)
    requires k < |fs| && InSilence(Midpoint(fs[k]), regions)
    ensures ApplySilence(fs, regions)[k].vowel == "sil"
    ensures ApplySilence(fs, regions)[k].intensity == 0.0 || fs[k].vowel == "sil"
  {
  }

  // ---------------------------------------------------------------------------
  // Ending protection and sensitivity

  /** The per-frame rule of `_apply_ending_protection_to_frames`. */
  function ProtectFrame(f: VowelFrame, boost: real): VowelFrame {
    if f.isEnding && f.vowel != "sil" then f.(intensity := MinR(1.0, f.intensity * boost), isEnding := true) else f
  }

  /** `_apply_ending_protection_to_frames`. */
  function ProtectEndings(fs: seq<VowelFrame>, enabled: bool, boost: real): (r: seq<VowelFrame>)
    ensures SameTiming(fs, r)
    ensures ClosedVowels(fs) ==> ClosedVowels(r)
    ensures !enabled ==> r == fs
    ensures enabled ==> forall k :: 0 <= k < |fs| ==>
      if fs[k].isEnding && fs[k].vowel != "sil"
      then r[k] == fs[k].(intensity := MinR(1.0, fs[k].intensity * boost))
      else r[k] == fs[k]
  {
    if !enabled then fs else MapFrames(fs, f => ProtectFrame(f, boost))
  }

  /**
    With a boost of at least 1 (the only values the settings allow), protection
    never weakens a frame and keeps intensities within [0, 1].
   */
  lemma ProtectEndingsBounds(fs: seq<VowelFrame>, enabled: bool, boost: real)
    requires UnitIntensities(fs) && boost >= 1.0
    ensures UnitIntensities(ProtectEndings(fs, enabled, boost))
    ensures forall k :: 0 <= k < |fs| ==> ProtectEndings(fs, enabled, boost)[k].intensity >= fs[k].intensity
  {
    var r := ProtectEndings(fs, enabled, boost);
    forall k | 0 <= k < |fs|
      ensures 0.0 <= r[k].intensity <= 1.0 && r[k].intensity >= fs[k].intensity
    {
      if enabled && fs[k].isEnding && fs[k].vowel != "sil" {
        assert fs[k].intensity * boost >= fs[k].intensity * 1.0;
      }
    }
  }

  /** The per-frame rule of `_apply_settings_to_frames_safe`. */
  function SensitizeFrame(f: VowelFrame, sensitivity: int): VowelFrame {
    f.(intensity := ClampR(f.intensity * (sensitivity as real / 100.0), 0.0, 1.0))
  }

  /** `_apply_settings_to_frames_safe`: intensity times sensitivity/100, clamped to [0, 1]. */
  function ApplySensitivity(fs: seq<VowelFrame>, sensitivity: int): (r: seq<VowelFrame>)
    ensures SameTiming(fs, r)
    ensures UnitIntensities(r)
    ensures ClosedVowels(fs) ==> ClosedVowels(r)
    ensures forall k :: 0 <= k < |fs| ==>
      && r[k].intensity == ClampR(fs[k].intensity * (sensitivity as real / 100.0), 0.0, 1.0)
      && r[k].vowel == fs[k].vowel
      && r[k].isEnding == fs[k].isEnding
  {
    MapFrames(fs, f => SensitizeFrame(f, sensitivity))
  }

  /** At sensitivity 100 a timeline whose intensities are already in [0, 1] is unchanged. */
  lemma SensitivityHundredIsIdentity(fs: seq<VowelFrame>)
    requires UnitIntensities(fs)
    ensures ApplySensitivity(fs, 100) == fs
  {
    var r := ApplySensitivity(fs, 100);
    forall k | 0 <= k < |fs|
      ensures r[k] == fs[k]
    {
      assert fs[k].intensity * (100 as real / 100.0) == fs[k].intensity;
    }
  }

  // ---------------------------------------------------------------------------
  // Text estimate and fallback

  /** Characters not counted at full weight by the text estimate. */
  predicate EstimatePunctuation(c: char) {
    c in "。、！？…～ー・"
  }

  function CountWhere(text: string, keep: char -> bool): (n: nat)
    ensures n <= |text|
  {
    if |text| == 0 then 0 else (if keep(text[0]) then 1 else 0) + CountWhere(text[1..], keep)
  }

  /**
    `_estimate_duration_from_text`: half weight for punctuation, at least one
    effective character, and never less than half a second.
   */
  function EstimateDurationFromText(text: string, charDuration: real): (d: real)
    ensures d >= 0.5
    ensures charDuration >= 0.0 ==> d <= MaxR(0.5, MaxR(1.0, |text| as real) * charDuration)
    ensures CountWhere(text, EstimatePunctuation) == 0 && |text| >= 1 ==> d == MaxR(0.5, |text| as real * charDuration)
  {
    var count := |text| as real;
    var punct := CountWhere(text, EstimatePunctuation) as real;
    var effective := MaxR(1.0, count - punct * 0.5);
    MaxR(0.5, effective * charDuration)
  }

  /** The vowels the fallback cycles through. */
  const DefaultVowels: seq<string> := ["a", "i", "u", "e", "o"]

  /** One frame of the fallback timeline: the `i`-th of a text of `count` characters. */
  function FallbackFrame(i: nat, count: nat, per: real): VowelFrame {
    var ending := i >= count - 1;
    VowelFrame(i as real * per, DefaultVowels[i % 5], if ending then 0.8 else 0.7, per, ending)
  }

  /** Fallback frames `i` up to (excluding) `n`. */
  function FallbackFrames(i: nat, n: nat, count: nat, per: real): (fs: seq<VowelFrame>)
    requires i <= n
    ensures |fs| == n - i
    ensures forall k :: 0 <= k < |fs| ==> fs[k] == FallbackFrame(i + k, count, per)
    decreases n - i
  {
    if i == n then [] else [FallbackFrame(i, count, per)] + FallbackFrames(i + 1, n, count, per)
  }

  /**
    `_fallback_analysis` of the engine: up to ten frames cycling a, i, u, e,
    o, each one character's share of the duration; only a frame at the text's
    last character is an ending.
   */
  function Fallback(text: string, actualDuration: Option<real>, charDuration: real): (data: LipSyncData)
    ensures data.text == text && data.sampleRate == 22050
    ensures actualDuration.Some? ==> data.totalDuration == actualDuration.value
    ensures actualDuration.None? ==> data.totalDuration == EstimateDurationFromText(text, charDuration)
    ensures |data.frames| == if |text| < 10 then |text| else 10
    ensures forall k :: 0 <= k < |data.frames| ==>
      && data.frames[k].vowel == DefaultVowels[k % 5]
      && data.frames[k].duration == data.totalDuration / (if |text| > 1 then |text| else 1) as real
      && (data.frames[k].isEnding <==> k == |text| - 1)
      && data.frames[k].intensity == (if k == |text| - 1 then 0.8 else 0.7)
  {
    var actual := if actualDuration.Some? then actualDuration.value else EstimateDurationFromText(text, charDuration);
    var per := actual / (if |text| > 1 then |text| else 1) as real;
    var n := if |text| < 10 then |text| else 10;
    LipSyncData(text, actual, FallbackFrames(0, n, |text|, per), 22050)
  }

  /** The fallback timeline uses the closed vowel set, unit intensities, and is back to back from 0. */
  lemma FallbackWellFormed(text: string, actualDuration: Option<real>, charDuration: real)
    ensures var data := Fallback(text, actualDuration, charDuration);
      ClosedVowels(data.frames) && UnitIntensities(data.frames) && ContiguousFrom(data.frames, 0.0)
  {
    var data := Fallback(text, actualDuration, charDuration);
    var n := |data.frames|;
    var per := data.totalDuration / (if |text| > 1 then |text| else 1) as real;
    FallbackFramesContent(0, n, |text|, per);
    FallbackFramesContiguous(0, n, |text|, per);
  }

  lemma FallbackFramesContent(i: nat, n: nat, count: nat, per: real)
    requires i <= n
    ensures ClosedVowels(FallbackFrames(i, n, count, per))
    ensures UnitIntensities(FallbackFrames(i, n, count, per))
  {
    var fs := FallbackFrames(i, n, count, per);
    forall k | 0 <= k < |fs|
      ensures IsVowel(fs[k].vowel)
    {
      assert fs[k].vowel == DefaultVowels[(i + k) % 5];
    }
  }

  lemma {:induction false} FallbackFramesContiguous(i: nat, n: nat, count: nat, per: real)
    requires i <= n
    ensures ContiguousFrom(FallbackFrames(i, n, count, per), i as real * per)
    decreases n - i
  {
    if i < n {
      var f := FallbackFrame(i, count, per);
      var rest := FallbackFrames(i + 1, n, count, per);
      assert FallbackFrames(i, n, count, per) == [f] + rest;
      FallbackFramesContiguous(i + 1, n, count, per);
      Distribute(i as real, per);
      assert (i + 1) as real * per == f.End();
      ConsContiguous(f, rest);
    }
  }

  /** A frame ending where a back-to-back timeline starts extends it. */
  lemma ConsContiguous(f: VowelFrame, rest: seq<VowelFrame>)
    requires ContiguousFrom(rest, f.End())
    ensures ContiguousFrom([f] + rest, f.timestamp)
  {
    var fs := [f] + rest;
    forall k | 0 <= k < |fs| - 1 ensures fs[k + 1].timestamp == fs[k].timestamp + fs[k].duration {
      if k > 0 {
        assert fs[k] == rest[k - 1] && fs[k + 1] == rest[k];
      }
    }
  }

  lemma Distribute(x: real, y: real)
    ensures (x + 1.0) * y == x * y + y
  {
  }

  // ---------------------------------------------------------------------------
  // The pipeline after phonemisation

  /** The engine configuration the pipeline reads. */
  datatype PipelineSettings = PipelineSettings(
    protectionEnabled: bool, intensityBoost: real, sensitivity: int, charDuration: real)

  /** The frame stages of `analyze_text_for_lipsync` after the ending mark, onto `total` seconds. */
  function ShapeFrames(frames: seq<VowelFrame>, total: real, regions: seq<Region>, s: PipelineSettings): (r: seq<VowelFrame>)
    ensures ClosedVowels(frames) && UnitIntensities(frames) ==> ClosedVowels(r) && UnitIntensities(r)
  {
    var scaled := Rescale(frames, total);
    RescaleKeepsContent(frames, total);
    var silenced := if |regions| > 0 then ApplySilence(scaled, regions) else scaled;
    var protected := ProtectEndings(silenced, s.protectionEnabled, s.intensityBoost);
    ApplySensitivity(protected, s.sensitivity)
  }

  /** The shaping stages after the rescale only ever touch vowels and intensities, never timing. */
  lemma ShapeFramesTiming(frames: seq<VowelFrame>, total: real, regions: seq<Region>, s: PipelineSettings)
    ensures SameTiming(Rescale(frames, total), ShapeFrames(frames, total, regions, s))
  {
  }

  /**
    `analyze_text_for_lipsync` once the phonemiser has produced its token list.
    `audio` carries the real audio length and the detected silence regions
    when audio was given. An empty phoneme list falls back.
   */
  function Analyze(text: string, tokens: seq<string>, audio: Option<(real, seq<Region>)>, s: PipelineSettings): (data: LipSyncData)
    ensures ClosedVowels(data.frames) && UnitIntensities(data.frames)
    ensures data.text == text
    ensures audio.Some? ==> data.totalDuration == audio.value.0
  {
    var entries := LayOut(Merge(tokens), 0.0);
    if |entries| == 0 then
      FallbackWellFormed(text, if audio.Some? then Some(audio.value.0) else None, s.charDuration);
      Fallback(text, if audio.Some? then Some(audio.value.0) else None, s.charDuration)
    else
      var frames := ToFrames(MarkEnding(entries, s.protectionEnabled));
      var total := if audio.Some? then audio.value.0 else EstimateDurationFromText(text, s.charDuration);
      var regions := if audio.Some? then audio.value.1 else [];
      LipSyncData(text, total, ShapeFrames(frames, total, regions, s), 22050)
  }

  /**
    Whenever phonemes were found, the final timeline covers exactly the total
    duration, back to back from 0: the later stages never move a frame.
   */
  lemma AnalyzeIsContiguous(text: string, tokens: seq<string>, audio: Option<(real, seq<Region>)>, s: PipelineSettings)
    requires |LayOut(Merge(tokens), 0.0)| > 0
    ensures ContiguousFrom(Analyze(text, tokens, audio, s).frames, 0.0)
    ensures TotalDuration(Analyze(text, tokens, audio, s).frames) == Analyze(text, tokens, audio, s).totalDuration
  {
    var entries := LayOut(Merge(tokens), 0.0);
    var marked := MarkEnding(entries, s.protectionEnabled);
    var frames := ToFrames(marked);
    assert forall k :: 0 <= k < |frames| ==> frames[k].duration == BaseDuration(entries[k].phoneme);
    assert TotalDuration(frames) > 0.0 by {
      var ds := Durations(frames);
      assert forall k :: 0 <= k < |ds| ==> ds[k] >= 0.3;
      PositiveSum(ds);
    }
    var total := if audio.Some? then audio.value.0 else EstimateDurationFromText(text, s.charDuration);
    var regions := if audio.Some? then audio.value.1 else [];
    var scaled := Rescale(frames, total);
    var shaped := ShapeFrames(frames, total, regions, s);
    ShapeFramesTiming(frames, total, regions, s);
    SameTimingKeepsContiguity(scaled, shaped, 0.0);
    SameDurationsTotal(scaled, shaped);
  }

  lemma {:induction false} PositiveSum(xs: seq<real>)
    requires |xs| > 0 && xs[0] > 0.0 && forall i :: 0 <= i < |xs| ==> xs[i] >= 0.0
    ensures Sum(xs) > 0.0
  {
    SumNonNegative(xs[1..]);
  }

  lemma {:induction false} SameDurationsTotal(a: seq<VowelFrame>, b: seq<VowelFrame>)
    requires |a| == |b| && forall k :: 0 <= k < |a| ==> a[k].duration == b[k].duration
    ensures TotalDuration(a) == TotalDuration(b)
  {
    if |a| > 0 {
      assert Durations(a)[1..] == Durations(a[1..]);
      assert Durations(b)[1..] == Durations(b[1..]);
      SameDurationsTotal(a[1..], b[1..]);
    }
  }
}

=== FILE: lip_sync_keyframes.dfy ===
/**
  Resampling a vowel timeline into per-video-frame keyframes
  (`generate_lipsync_keyframes` and `_find_active_vowel_frame` in
  core/lip_sync_engine.py).
 */
module LipSyncKeyframes {
  import opened Common
  import opened VowelFrames

  /** A frame covers `t` when `timestamp <= t < timestamp + duration`. */
  predicate Active(f: VowelFrame, t: real) {
    f.timestamp <= t < f.End()
  }

  /** Index of the first frame covering `t`. */
  function FirstActive(frames: seq<VowelFrame>, t: real): (r: Option<nat>)
    ensures r.Some? ==> r.value < |frames| && Active(frames[r.value], t)
    ensures r.Some? ==> forall j :: 0 <= j < r.value ==> !Active(frames[j], t)
    ensures r.None? <==> forall j :: 0 <= j < |frames| ==> !Active(frames[j], t)
  {
    if |frames| == 0 then None
    else if Active(frames[0], t) then Some(0)
    else match FirstActive(frames[1..], t)
      case None => None
      case Some(k) => Some(k + 1)
  }

  /** `_find_active_vowel_frame`: the first frame covering `t`, if any. */
  function FindActive(frames: seq<VowelFrame>, t: real): (r: Option<VowelFrame>)
    ensures r.Some? <==> exists j :: 0 <= j < |frames| && Active(frames[j], t)
    ensures r.Some? ==> Active(r.value, t)
    ensures r.Some? ==> exists j :: (0 <= j < |frames| && frames[j] == r.value
      && forall i :: 0 <= i < j ==> !Active(frames[i], t))
  {
    match FirstActive(frames, t)
    case None => None
    case Some(k) => Some(frames[k])
  }

  /** On a timeline of back-to-back frames, the frame covering `t` is the one whose interval holds `t`. */
  lemma {:induction false} ContiguousActive(frames: seq<VowelFrame>, start: real, k: nat, t: real)
    requires ContiguousFrom(frames, start)
    requires forall j :: 0 <= j < |frames| ==> frames[j].duration >= 0.0
    requires k < |frames| && Active(frames[k], t)
    ensures FindActive(frames, t) == Some(frames[k])
  {
    forall j | 0 <= j < k
      ensures !Active(frames[j], t)
    {
      EndsBefore(frames, start, j, k);
    }
    var r := FirstActive(frames, t);
    assert r == Some(k);
  }

  /** On back-to-back frames with non-negative durations, every earlier frame ends no later than a later one starts. */
  lemma {:induction false} EndsBefore(frames: seq<VowelFrame>, start: real, j: nat, k: nat)
    requires ContiguousFrom(frames, start)
    requires forall i :: 0 <= i < |frames| ==> frames[i].duration >= 0.0
    requires j < k < |frames|
    ensures frames[j].End() <= frames[k].timestamp
    decreases k - j
  {
    if j + 1 < k {
      EndsBefore(frames, start, j + 1, k);
    }
  }

  datatype MouthShape = MouthShape(open: real, form: real)

  /** The engine's initial vowel-to-mouth table. */
  const BaseVowelMapping: map<string, MouthShape> := map[
    "a" := MouthShape(100.0, 0.0),
    "i" := MouthShape(30.0, -100.0),
    "u" := MouthShape(40.0, -70.0),
    "e" := MouthShape(60.0, -30.0),
    "o" := MouthShape(80.0, 70.0),
    "n" := MouthShape(10.0, 0.0),
    "sil" := MouthShape(0.0, 0.0)]

  /** The vowel parameter channels, in output order. */
  const Channels: seq<string> := ["a", "i", "u", "e", "o", "n"]

  datatype Key = Key(frame: nat, value: real, isEnding: bool)

  datatype Keyframes = Keyframes(
    totalDuration: real,
    fps: int,
    totalFrames: int,
    vowelKeys: map<string, seq<Key>>,
    mouthOpen: seq<Key>,
    mouthForm: seq<Key>,
    endingProtectionApplied: bool)

  /** The number of keyframes per list: `range(int(total_duration * fps))`. */
  function FrameCount(totalDuration: real, fps: int): nat {
    var n := Trunc(totalDuration * fps as real);
    if n < 0 then 0 else n
  }

  /** Time of keyframe `k`: `k / fps`. */
  function FrameTime(k: nat, fps: int): real {
    // Only reached with a non-zero fps: a zero fps gives no keyframes at all.
    if fps == 0 then 0.0 else k as real / fps as real
  }

  /** The value of vowel channel `v` at keyframe `k`. */
  function VowelKey(frames: seq<VowelFrame>, fps: int, v: string, k: nat): (key: Key)
    ensures key.frame == k
  {
    match FindActive(frames, FrameTime(k, fps))
    case Some(f) => Key(k, if v == f.vowel then f.intensity else 0.0, f.isEnding)
    case None => Key(k, 0.0, false)
  }

  /** `mouth_open` and `mouth_form` at keyframe `k`. */
  function MouthKeys(frames: seq<VowelFrame>, fps: int, mapping: map<string, MouthShape>, mouthOpenScale: int, k: nat): (keys: (Key, Key))
    ensures keys.0.frame == k && keys.1.frame == k
  {
    match FindActive(frames, FrameTime(k, fps))
    case Some(f) =>
      if f.vowel in mapping then
        var scale := mouthOpenScale as real / 100.0;
        (Key(k, (mapping[f.vowel].open * scale / 100.0) * f.intensity, f.isEnding),
         Key(k, (mapping[f.vowel].form / 100.0) * f.intensity, f.isEnding))
      else (Key(k, 0.0, f.isEnding), Key(k, 0.0, f.isEnding))
    case None => (Key(k, 0.0, false), Key(k, 0.0, false))
  }

  /** One vowel channel: its key at each of the `n` keyframes. */
  function Channel(frames: seq<VowelFrame>, fps: int, v: string, n: nat): (c: seq<Key>)
    ensures |c| == n && forall k :: 0 <= k < n ==> c[k] == VowelKey(frames, fps, v, k)
  {
    seq(n, k requires 0 <= k < n => VowelKey(frames, fps, v, k))
  }

  /** The six vowel channels. */
  function VowelChannels(frames: seq<VowelFrame>, fps: int, n: nat): (m: map<string, seq<Key>>)
    ensures m.Keys == set v | v in Channels
    ensures forall v :: v in m ==> m[v] == Channel(frames, fps, v, n)
  {
    map v | v in Channels :: Channel(frames, fps, v, n)
  }

  /** The `mouth_open` (`form` false) or `mouth_form` (`form` true) list. */
  function MouthChannel(frames: seq<VowelFrame>, fps: int, mapping: map<string, MouthShape>, mouthOpenScale: int,
                        n: nat, form: bool): (c: seq<Key>)
    ensures |c| == n
    ensures forall k :: 0 <= k < n ==>
      c[k] == (if form then MouthKeys(frames, fps, mapping, mouthOpenScale, k).1 else MouthKeys(frames, fps, mapping, mouthOpenScale, k).0)
  {
    seq(n, k requires 0 <= k < n =>
      if form then MouthKeys(frames, fps, mapping, mouthOpenScale, k).1 else MouthKeys(frames, fps, mapping, mouthOpenScale, k).0)
  }

  /** `generate_lipsync_keyframes`; `None` is the empty result for missing data or an empty timeline. */
  function GenerateKeyframes(data: Option<LipSyncData>, fps: int, mapping: map<string, MouthShape>,
                             mouthOpenScale: int, protectionEnabled: bool): (r: Option<Keyframes>)
    ensures data.None? || |data.value.frames| == 0 <==> r.None?
    ensures r.Some? ==>
      var n := FrameCount(data.value.totalDuration, fps);
      && r.value.vowelKeys.Keys == set v | v in Channels
      && (forall v :: v in r.value.vowelKeys ==> |r.value.vowelKeys[v]| == n)
      && |r.value.mouthOpen| == n && |r.value.mouthForm| == n
      && (forall v, k :: v in r.value.vowelKeys && 0 <= k < n ==> r.value.vowelKeys[v][k] == VowelKey(data.value.frames, fps, v, k))
      && (forall k :: 0 <= k < n ==> (r.value.mouthOpen[k], r.value.mouthForm[k]) == MouthKeys(data.value.frames, fps, mapping, mouthOpenScale, k))
  {
    if data.None? || |data.value.frames| == 0 then None
    else
      var d := data.value;
      var n := FrameCount(d.totalDuration, fps);
      Some(Keyframes(
        d.totalDuration, fps, Trunc(d.totalDuration * fps as real),
        VowelChannels(d.frames, fps, n),
        MouthChannel(d.frames, fps, mapping, mouthOpenScale, n, false),
        MouthChannel(d.frames, fps, mapping, mouthOpenScale, n, true),
        protectionEnabled))
  }

  /** Every key of a generated list is numbered by its position. */
  lemma KeysNumbered(data: LipSyncData, fps: int, mapping: map<string, MouthShape>, mouthOpenScale: int, protectionEnabled: bool)
    requires |data.frames| > 0
    ensures var r := GenerateKeyframes(Some(data), fps, mapping, mouthOpenScale, protectionEnabled).value;
            && (forall v, k :: v in r.vowelKeys && 0 <= k < |r.vowelKeys[v]| ==> r.vowelKeys[v][k].frame == k)
            && (forall k :: 0 <= k < |r.mouthOpen| ==> r.mouthOpen[k].frame == k && r.mouthForm[k].frame == k)
  {
  }

  /**
    With the built-in mapping, intensities in [0, 1] and a mouth scale of at
    most 500 %, every generated `mouth_open` lies in [0, 5] and every
    `mouth_form` in [-1, 1].
   */
  lemma KeyframesBounded(data: LipSyncData, fps: int, mouthOpenScale: int, protectionEnabled: bool)
    requires |data.frames| > 0 && UnitIntensities(data.frames)
    requires 0 <= mouthOpenScale <= 500
    ensures var r := GenerateKeyframes(Some(data), fps, BaseVowelMapping, mouthOpenScale, protectionEnabled).value;
            && (forall k :: 0 <= k < |r.mouthOpen| ==> 0.0 <= r.mouthOpen[k].value <= 5.0)
            && (forall k :: 0 <= k < |r.mouthForm| ==> -1.0 <= r.mouthForm[k].value <= 1.0)
  {
    var r := GenerateKeyframes(Some(data), fps, BaseVowelMapping, mouthOpenScale, protectionEnabled).value;
    forall k | 0 <= k < |r.mouthOpen|
      ensures 0.0 <= r.mouthOpen[k].value <= 5.0 && -1.0 <= r.mouthForm[k].value <= 1.0
    {
      MouthKeysBounded(data.frames, fps, mouthOpenScale, k);
    }
  }

  /** At any keyframe at most one vowel channel is non-zero: the active frame's vowel. */
  lemma OneChannelAtATime(frames: seq<VowelFrame>, fps: int, v: string, w: string, k: nat)
    requires v != w
    ensures VowelKey(frames, fps, v, k).value == 0.0 || VowelKey(frames, fps, w, k).value == 0.0
  {
  }

  /** A keyframe whose time no frame covers is closed and not an ending. */
  lemma GapIsClosed(frames: seq<VowelFrame>, fps: int, mapping: map<string, MouthShape>, mouthOpenScale: int, k: nat)
    requires forall j :: 0 <= j < |frames| ==> !Active(frames[j], FrameTime(k, fps))
    ensures MouthKeys(frames, fps, mapping, mouthOpenScale, k) == (Key(k, 0.0, false), Key(k, 0.0, false))
    ensures forall v :: VowelKey(frames, fps, v, k) == Key(k, 0.0, false)
  {
  }

  /**
    With the base mouth table, unit intensities and a scale in [0, 500], the
    mouth opening stays within [0, 5] and the mouth form within [-1, 1].
   */
  lemma MouthKeysBounded(frames: seq<VowelFrame>, fps: int, mouthOpenScale: int, k: nat)
    requires UnitIntensities(frames)
    requires 0 <= mouthOpenScale <= 500
    ensures 0.0 <= MouthKeys(frames, fps, BaseVowelMapping, mouthOpenScale, k).0.value <= 5.0
    ensures -1.0 <= MouthKeys(frames, fps, BaseVowelMapping, mouthOpenScale, k).1.value <= 1.0
  {
    BaseShapesBounded();
    MouthKeysWithin(frames, fps, BaseVowelMapping, mouthOpenScale, k);
  }

  /** Every mouth shape opens by 0..100 and forms by -100..100. */
  predicate ShapesBounded(mapping: map<string, MouthShape>) {
    forall v :: v in mapping ==> 0.0 <= mapping[v].open <= 100.0 && -100.0 <= mapping[v].form <= 100.0
  }

  lemma BaseShapesBounded()
    ensures ShapesBounded(BaseVowelMapping)
  {
    forall v | v in BaseVowelMapping
      ensures 0.0 <= BaseVowelMapping[v].open <= 100.0 && -100.0 <= BaseVowelMapping[v].form <= 100.0
    {
      BaseShapeBounds(v);
    }
  }

  lemma MouthKeysWithin(frames: seq<VowelFrame>, fps: int, mapping: map<string, MouthShape>, mouthOpenScale: int, k: nat)
    requires UnitIntensities(frames) && ShapesBounded(mapping)
    requires 0 <= mouthOpenScale <= 500
    ensures 0.0 <= MouthKeys(frames, fps, mapping, mouthOpenScale, k).0.value <= 5.0
    ensures -1.0 <= MouthKeys(frames, fps, mapping, mouthOpenScale, k).1.value <= 1.0
  {
    match FirstActive(frames, FrameTime(k, fps))
    case None =>
    case Some(j) =>
      var f := frames[j];
      assert FindActive(frames, FrameTime(k, fps)) == Some(f);
      if f.vowel in mapping {
        ShapeBounds(mapping[f.vowel], mouthOpenScale as real / 100.0, f.intensity);
      }
  }

  lemma BaseShapeBounds(v: string)
    requires v in BaseVowelMapping
    ensures 0.0 <= BaseVowelMapping[v].open <= 100.0 && -100.0 <= BaseVowelMapping[v].form <= 100.0
  {
  }

  lemma ShapeBounds(m: MouthShape, scale: real, intensity: real)
    requires 0.0 <= m.open <= 100.0 && -100.0 <= m.form <= 100.0
    requires 0.0 <= scale <= 5.0 && 0.0 <= intensity <= 1.0
    ensures 0.0 <= (m.open * scale / 100.0) * intensity <= 5.0
    ensures -1.0 <= (m.form / 100.0) * intensity <= 1.0
  {
    NonNegMul(m.open, scale);
    NonNegMul(100.0 - m.open, scale);
    assert 500.0 - m.open * scale == (100.0 - m.open) * scale + 100.0 * (5.0 - scale);
    Bounded(m.open * scale / 100.0, intensity, 5.0);
    Bounded(m.form / 100.0, intensity, 1.0);
  }

  /** A value within [-b, b] scaled by a factor in [0, 1] stays within [-b, b], and keeps its sign. */
  lemma Bounded(x: real, y: real, b: real)
    requires -b <= x <= b && 0.0 <= y <= 1.0
    ensures -b <= x * y <= b
    ensures x >= 0.0 ==> x * y >= 0.0
  {
    NonNegMul(x + b, y);
    NonNegMul(b - x, y);
    NonNegMul(b, 1.0 - y);
    assert x * y + b == (x + b) * y + b * (1.0 - y);
    assert b - x * y == (b - x) * y + b * (1.0 - y);
    if x >= 0.0 {
      NonNegMul(x, y);
    }
  }
}

=== FILE: lip_sync_phonemes.dfy ===
/**
  The phoneme stage of the lip-sync engine (core/lip_sync_engine.py): merging
  over-split consonant/vowel tokens, laying them on a relative time axis,
  marking the word ending, mapping each phoneme to a mouth vowel and giving
  it an intensity. The phonemiser itself (pyopenjtalk) is not modelled: its
  token list is the input.
 */
module LipSyncPhonemes {
  import opened Common
  import opened Text
  import opened VowelFrames

  // ---------------------------------------------------------------------------
  // Merging tokens

  /** The consonants that combine with all five vowels in the merge table. */
  predicate FullConsonant(c: string) {
    c in {"k", "g", "s", "z", "t", "d", "n", "h", "b", "p", "m", "r", "w"}
  }

  predicate LowerVowel(v: string) {
    v in {"a", "i", "u", "e", "o"}
  }

  /**
    `_try_combine_phonemes`: the merge table. The pair (w, a) appears twice in
    the table and the later entry, `ha`, is the one that stays.
   */
  function Combine(first: string, second: string): (r: Option<string>)
    ensures r.Some? <==>
      || (FullConsonant(first) && LowerVowel(second))
      || (first == "y" && second in {"a", "u", "o"})
      || (first in {"ch", "sh", "j"} && second in {"i", "u", "o"})
    ensures r.Some? && (first, second) != ("w", "a") ==> r.value == first + second
    ensures (first, second) == ("w", "a") ==> r == Some("ha")
  {
    if first == "w" && second == "a" then Some("ha")
    else if FullConsonant(first) && LowerVowel(second) then Some(first + second)
    else if first == "y" && second in {"a", "u", "o"} then Some(first + second)
    else if first in {"ch", "sh", "j"} && second in {"i", "u", "o"} then Some(first + second)
    else None
  }

  /** `_convert_single_phoneme`. */
  function ConvertSingle(p: string): (r: string)
    ensures p == "w" ==> r == "wa"
    ensures p == "n" ==> r == "N"
    ensures p != "w" && p != "n" ==> r == p
  {
    if p == "w" then "wa" else if p == "n" then "N" else p
  }

  /** The greedy left-to-right merge `_merge_phonemes` performs, as a recursive definition. */
  function Merge(raw: seq<string>): (merged: seq<string>)
    ensures |merged| <= |raw|
    ensures 2 * |merged| >= |raw|
    ensures |raw| > 0 ==> |merged| > 0
  {
    if |raw| == 0 then []
    else if |raw| >= 2 && Combine(raw[0], raw[1]).Some? then [Combine(raw[0], raw[1]).value] + Merge(raw[2..])
    else [ConvertSingle(raw[0])] + Merge(raw[1..])
  }

  /** `_merge_phonemes`, with its while loop. */
  method MergePhonemes(raw: seq<string>) returns (merged: seq<string>)
    ensures merged == Merge(raw)
  {
    merged := [];
    var i := 0;
    while i < |raw|
      invariant 0 <= i <= |raw|
      invariant merged + Merge(raw[i..]) == Merge(raw)
      decreases |raw| - i
    {
      if i + 1 < |raw| {
        var combined := Combine(raw[i], raw[i + 1]);
        if combined.Some? {
          assert raw[i..][2..] == raw[i + 2..];
          merged := merged + [combined.value];
          i := i + 2;
          continue;
        }
      }
      assert raw[i..][1..] == raw[i + 1..];
      merged := merged + [ConvertSingle(raw[i])];
      i := i + 1;
    }
    assert raw[i..] == [];
  }

  /** Tokens that never pair up are only converted one by one. */
  lemma {:induction false} MergeWithoutPairs(raw: seq<string>)
    requires forall k :: 0 <= k < |raw| - 1 ==> Combine(raw[k], raw[k + 1]).None?
    ensures |Merge(raw)| == |raw|
    ensures forall k :: 0 <= k < |raw| ==> Merge(raw)[k] == ConvertSingle(raw[k])
  {
    if |raw| > 0 {
      MergeWithoutPairs(raw[1..]);
    }
  }

  lemma MergeExamples()
    ensures Merge(["w", "a"]) == ["ha"]
    ensures Merge(["k", "a", "n"]) == ["ka", "N"]
    ensures Merge(["w"]) == ["wa"]
    ensures Merge(["a", "k"]) == ["a", "k"]
  {
    assert "k" + "a" == "ka";
    assert ["k", "a", "n"][2..] == ["n"];
    assert Merge(["n"]) == ["N"];
  }

  // ---------------------------------------------------------------------------
  // Relative timing and word endings

  /** A phoneme record of the engine: the token, its relative start and length, and the ending mark. */
  datatype PhonemeEntry = PhonemeEntry(phoneme: string, startTime: real, duration: real, isEnding: bool)

  /** `_estimate_phoneme_duration_base`: relative lengths before rescaling. */
  function BaseDuration(p: string): (d: real)
    ensures LowerVowel(p) ==> d == 1.0
    ensures p in {"N", "Q", "pau", "cl"} ==> d == 0.3
    ensures !LowerVowel(p) && p !in {"N", "Q", "pau", "cl"} ==> d == 0.7
    ensures 0.3 <= d <= 1.0
  {
    if LowerVowel(p) then 1.0 else if p in {"N", "Q", "pau", "cl"} then 0.3 else 0.7
  }

  /** Empty or all-whitespace tokens are skipped when laying out the timeline. */
  predicate Blank(p: string) {
    |p| == 0 || forall i :: 0 <= i < |p| ==> IsSpace(p[i])
  }

  /**
    The timing loop of `_extract_phonemes_with_timing`: every non-blank token
    gets its base duration, starting where the previous one ended.
   */
  function LayOut(tokens: seq<string>, start: real): (entries: seq<PhonemeEntry>)
    ensures |entries| <= |tokens|
    ensures forall k :: 0 <= k < |entries| ==> !entries[k].isEnding && !Blank(entries[k].phoneme)
    ensures forall k :: 0 <= k < |entries| ==> entries[k].duration == BaseDuration(entries[k].phoneme)
    ensures |entries| > 0 ==> entries[0].startTime == start
    ensures forall k :: 0 <= k < |entries| - 1 ==>
      entries[k + 1].startTime == entries[k].startTime + entries[k].duration
    ensures (forall k :: 0 <= k < |tokens| ==> !Blank(tokens[k])) ==> |entries| == |tokens|
  {
    if |tokens| == 0 then []
    else if Blank(tokens[0]) then LayOut(tokens[1..], start)
    else
      var d := BaseDuration(tokens[0]);
      [PhonemeEntry(tokens[0], start, d, false)] + LayOut(tokens[1..], start + d)
  }

  /** Phonemes that never count as a word ending. */
  predicate Pause(p: string) {
    p in {"pau", "sil", "sp", "Q", "cl"}
  }

  /** Index of the last phoneme that is not a pause, if any. */
  function LastMeaningful(entries: seq<PhonemeEntry>): (r: Option<nat>)
    ensures r.Some? ==> r.value < |entries| && !Pause(entries[r.value].phoneme)
    ensures r.Some? ==> forall k :: r.value < k < |entries| ==> Pause(entries[k].phoneme)
    ensures r.None? ==> forall k :: 0 <= k < |entries| ==> Pause(entries[k].phoneme)
  {
    if |entries| == 0 then None
    else if !Pause(entries[|entries| - 1].phoneme) then Some(|entries| - 1)
    else LastMeaningful(entries[..|entries| - 1])
  }

  /**
    `_mark_ending_phonemes`: when protection is enabled, the last meaningful
    phoneme gets the ending mark; nothing else changes.
   */
  function MarkEnding(entries: seq<PhonemeEntry>, enabled: bool): (r: seq<PhonemeEntry>)
    ensures |r| == |entries|
    ensures forall k :: 0 <= k < |entries| ==> r[k] == entries[k].(isEnding := r[k].isEnding)
    ensures !enabled ==> r == entries
    ensures (forall k :: 0 <= k < |entries| ==> Pause(entries[k].phoneme)) ==> r == entries
    ensures enabled ==> forall k :: 0 <= k < |entries| ==>
      r[k] == (if LastMeaningful(entries) == Some(k) then entries[k].(isEnding := true) else entries[k])
  {
    if !enabled || |entries| == 0 then entries
    else match LastMeaningful(entries)
      case None => entries
      case Some(idx) => entries[idx := entries[idx].(isEnding := true)]
  }

  /** The mark lands on the last meaningful phoneme: every later one is a pause. */
  lemma MarkEndingIsLast(entries: seq<PhonemeEntry>, k: nat)
    requires k < |entries| && !Pause(entries[k].phoneme) && !entries[k].isEnding
    requires MarkEnding(entries, true)[k].isEnding
    ensures forall j :: k < j < |entries| ==> Pause(entries[j].phoneme)
  {
  }

  // ---------------------------------------------------------------------------
  // Vowel mapping and intensity

  /** The table part of `_map_phoneme_to_vowel_fixed`. */
  function VowelTable(p: string): Option<string> {
    if p in {"a", "A", "ka", "ga", "sa", "za", "ta", "da", "na", "ha", "ba", "pa", "ma", "ya",
             "ra", "wa", "kya", "gya", "sha", "ja", "cha", "nya", "hya", "bya", "pya", "mya", "rya", "ー"}
    then Some("a")
    else if p in {"i", "I", "ki", "gi", "si", "zi", "ti", "di", "ni", "hi", "bi", "pi", "mi", "ri",
                  "chi", "ji", "shi", "sh"}
    then Some("i")
    else if p in {"u", "U", "ku", "gu", "su", "zu", "tu", "du", "nu", "hu", "bu", "pu", "mu", "yu",
                  "ru", "tsu", "kyu", "gyu", "shu", "ju", "chu", "nyu", "hyu", "byu", "pyu", "myu", "ryu",
                  "w", "v", "f"}
    then Some("u")
    else if p in {"e", "E", "ke", "ge", "se", "ze", "te", "de", "ne", "he", "be", "pe", "me", "re"}
    then Some("e")
    else if p in {"o", "O", "ko", "go", "so", "zo", "to", "do", "no", "ho", "bo", "po", "mo", "yo",
                  "ro", "kyo", "gyo", "sho", "jo", "cho", "nyo", "hyo", "byo", "pyo", "myo", "ryo"}
    then Some("o")
    else if p == "N" then Some("n")
    else if Pause(p) then Some("sil")
    else None
  }

  /** The last-letter fallback: a, i, u, e, o are tried in that order. */
  function VowelSuffix(p: string): Option<string> {
    if |p| == 0 then None
    else if p[|p| - 1] == 'a' then Some("a")
    else if p[|p| - 1] == 'i' then Some("i")
    else if p[|p| - 1] == 'u' then Some("u")
    else if p[|p| - 1] == 'e' then Some("e")
    else if p[|p| - 1] == 'o' then Some("o")
    else None
  }

  /** `_map_phoneme_to_vowel_fixed`: table first, then the last letter, otherwise silence. */
  function MapToVowel(p: string): (v: string)
    ensures IsVowel(v)
    ensures VowelTable(p).Some? ==> v == VowelTable(p).value
    ensures VowelTable(p).None? && VowelSuffix(p).Some? ==> v == VowelSuffix(p).value
    ensures VowelTable(p).None? && VowelSuffix(p).None? ==> v == "sil"
  {
    match VowelTable(p)
    case Some(v) => v
    case None =>
      match VowelSuffix(p)
      case Some(v) => v
      case None => "sil"
  }

  /**
    Every token the merge produces from a table pair maps to the vowel it was
    merged with, except `ha` from (w, a), which still maps to `a`.
   */
  lemma MergedPairVowel(first: string, second: string)
    requires Combine(first, second).Some?
    ensures MapToVowel(Combine(first, second).value) == second
  {
    var p := Combine(first, second).value;
    if (first, second) != ("w", "a") {
      assert p == first + second;
      assert p[|p| - 1] == second[0];
      assert VowelSuffix(p) == Some(second);
      assert p[..|p| - 1] == first;
      assert "pau"[..2] == "pa";
      if VowelTable(p).Some? {
        TableAgreesWithSuffix(p);
      }
    }
  }

  /** Wherever the table and the last-letter rule both apply they agree, except for `pau`. */
  lemma TableAgreesWithSuffix(p: string)
    requires VowelTable(p).Some? && VowelSuffix(p).Some? && p != "pau"
    ensures VowelTable(p) == VowelSuffix(p)
  {
  }

  /** `_calculate_intensity`: by vowel only. */
  function Intensity(phoneme: string, vowel: string): (x: real)
    ensures vowel in {"a", "e", "o"} ==> x == 0.9
    ensures vowel in {"i", "u"} ==> x == 0.7
    ensures vowel == "n" ==> x == 0.3
    ensures vowel !in {"a", "e", "o", "i", "u", "n"} ==> x == 0.1
    ensures 0.0 < x < 1.0
  {
    if vowel in {"a", "e", "o"} then 0.9
    else if vowel in {"i", "u"} then 0.7
    else if vowel == "n" then 0.3
    else 0.1
  }

  /** `_convert_to_vowel_frames`: one frame per phoneme, keeping its timing and ending mark. */
  function ToFrames(entries: seq<PhonemeEntry>): (fs: seq<VowelFrame>)
    ensures |fs| == |entries|
    ensures ClosedVowels(fs) && UnitIntensities(fs)
    ensures forall k :: 0 <= k < |fs| ==>
      && fs[k].timestamp == entries[k].startTime
      && fs[k].duration == entries[k].duration
      && fs[k].isEnding == entries[k].isEnding
      && fs[k].vowel == MapToVowel(entries[k].phoneme)
  {
    if |entries| == 0 then []
    else
      var e := entries[0];
      var v := MapToVowel(e.phoneme);
      [VowelFrame(e.startTime, v, Intensity(e.phoneme, v), e.duration, e.isEnding)] + ToFrames(entries[1..])
  }
}

=== FILE: lip_sync_segments.dfy ===
/**
  Timeline post-processing of the lip-sync engine (core/lip_sync_engine.py):
  grouping transcription segments at long pauses (`_group_segments_by_silence`)
  and filling the gaps of a frame timeline with silence
  (`_fill_gaps_with_silence`).
 */
module LipSyncSegments {
  import opened Common
  import opened VowelFrames

  // ---------------------------------------------------------------------------
  // Grouping segments

  datatype Segment = Segment(start: real, end: real, text: string)

  datatype Group = Group(start: real, end: real, text: string, segments: seq<Segment>)

  /** The segments' texts joined in order. */
  function Texts(segs: seq<Segment>): string {
    if |segs| == 0 then "" else Texts(segs[..|segs| - 1]) + segs[|segs| - 1].text
  }

  /** The silence between two consecutive segments. */
  function Gap(prev: Segment, next: Segment): real {
    next.start - prev.end
  }

  /** A group spans its segments, carries their joined text, and has no pause of `minGap` or more inside. */
  predicate GroupOk(g: Group, minGap: real) {
    && |g.segments| > 0
    && g.start == g.segments[0].start
    && g.end == g.segments[|g.segments| - 1].end
    && g.text == Texts(g.segments)
    && forall j :: 0 <= j < |g.segments| - 1 ==> Gap(g.segments[j], g.segments[j + 1]) < minGap
  }

  predicate AllOk(groups: seq<Group>, minGap: real) {
    forall i :: 0 <= i < |groups| ==> GroupOk(groups[i], minGap)
  }

  lemma AllOkAppend(groups: seq<Group>, g: Group, minGap: real)
    requires AllOk(groups, minGap) && GroupOk(g, minGap)
    ensures AllOk(groups + [g], minGap)
  {
    var r := groups + [g];
    forall i | 0 <= i < |r|
      ensures GroupOk(r[i], minGap)
    {
      if i < |groups| {
        assert r[i] == groups[i];
      }
    }
  }

  /** Consecutive groups are separated by a pause of at least `minGap`. */
  predicate Separated(groups: seq<Group>, minGap: real) {
    forall i :: 0 <= i < |groups| - 1 && |groups[i].segments| > 0 && |groups[i + 1].segments| > 0 ==>
      Gap(groups[i].segments[|groups[i].segments| - 1], groups[i + 1].segments[0]) >= minGap
  }

  /** All segments of the groups, in order. */
  function Flatten(groups: seq<Group>): seq<Segment> {
    if |groups| == 0 then [] else Flatten(groups[..|groups| - 1]) + groups[|groups| - 1].segments
  }

  function Single(s: Segment): (g: Group)
    ensures g.segments == [s] && g.start == s.start && g.end == s.end && g.text == Texts(g.segments)
  {
    assert [s][..0] == [];
    Group(s.start, s.end, s.text, [s])
  }

  /** The current group with one more segment appended, as the loop's else branch builds it. */
  function Extend(g: Group, s: Segment): (r: Group)
    ensures r.segments == g.segments + [s]
  {
    Group(g.start, s.end, g.text + s.text, g.segments + [s])
  }

  lemma ExtendOk(groups: seq<Group>, g: Group, s: Segment, minGap: real)
    requires GroupOk(g, minGap) && Gap(g.segments[|g.segments| - 1], s) < minGap
    requires Separated(groups + [g], minGap)
    ensures GroupOk(Extend(g, s), minGap)
    ensures Separated(groups + [Extend(g, s)], minGap)
  {
    var segs := g.segments + [s];
    assert segs[..|segs| - 1] == g.segments;
    var before := groups + [g];
    var after := groups + [Extend(g, s)];
    forall i | 0 <= i < |after| - 1 && |after[i].segments| > 0 && |after[i + 1].segments| > 0
      ensures Gap(after[i].segments[|after[i].segments| - 1], after[i + 1].segments[0]) >= minGap
    {
      assert after[i] == before[i];
      assert after[i + 1].segments[0] == before[i + 1].segments[0];
    }
  }

  lemma CloseOk(groups: seq<Group>, g: Group, s: Segment, minGap: real)
    requires GroupOk(g, minGap) && Gap(g.segments[|g.segments| - 1], s) >= minGap
    requires Separated(groups + [g], minGap)
    ensures Separated(groups + [g] + [Single(s)], minGap)
    ensures Flatten(groups + [g]) == Flatten(groups) + g.segments
  {
    assert (groups + [g])[..|groups|] == groups;
    var before := groups + [g];
    var after := groups + [g] + [Single(s)];
    forall i | 0 <= i < |after| - 1 && |after[i].segments| > 0 && |after[i + 1].segments| > 0
      ensures Gap(after[i].segments[|after[i].segments| - 1], after[i + 1].segments[0]) >= minGap
    {
      if i < |before| - 1 {
        assert after[i] == before[i] && after[i + 1] == before[i + 1];
      }
    }
  }

  /**
    The grouping loop's invariant after `i` segments: the closed groups
    and the open one are well formed and separated, and together hold
    exactly the segments seen so far, the open group ending with the last.
   */
  predicate GroupingInv(segments: seq<Segment>, minGap: real, groups: seq<Group>, current: Group, i: int) {
    && 1 <= i <= |segments|
    && AllOk(groups, minGap)
    && GroupOk(current, minGap)
    && Separated(groups + [current], minGap)
    && Flatten(groups) + current.segments == segments[..i]
    && current.segments[|current.segments| - 1] == segments[i - 1]
  }

  /** A long pause closes the open group and opens one with the next segment. */
  lemma CloseStep(segments: seq<Segment>, minGap: real, groups: seq<Group>, current: Group, i: int)
    requires GroupingInv(segments, minGap, groups, current, i) && i < |segments|
    requires Gap(segments[i - 1], segments[i]) >= minGap
    ensures GroupingInv(segments, minGap, groups + [current], Single(segments[i]), i + 1)
  {
    var curr := segments[i];
    assert segments[..i + 1] == segments[..i] + [curr];
    CloseOk(groups, current, curr, minGap);
    AllOkAppend(groups, current, minGap);
  }

  /** A short pause appends the next segment to the open group. */
  lemma ExtendStep(segments: seq<Segment>, minGap: real, groups: seq<Group>, current: Group, i: int)
    requires GroupingInv(segments, minGap, groups, current, i) && i < |segments|
    requires Gap(segments[i - 1], segments[i]) < minGap
    ensures GroupingInv(segments, minGap, groups, Extend(current, segments[i]), i + 1)
  {
    var curr := segments[i];
    assert segments[..i + 1] == segments[..i] + [curr];
    ExtendOk(groups, current, curr, minGap);
    assert Flatten(groups) + (current.segments + [curr]) == (Flatten(groups) + current.segments) + [curr];
  }

  /** After the last segment, closing the open group gives the result. */
  lemma FinishGrouping(segments: seq<Segment>, minGap: real, groups: seq<Group>, current: Group)
    requires GroupingInv(segments, minGap, groups, current, |segments|)
    ensures Flatten(groups + [current]) == segments
    ensures AllOk(groups + [current], minGap)
    ensures Separated(groups + [current], minGap)
  {
    assert (groups + [current])[..|groups|] == groups;
    AllOkAppend(groups, current, minGap);
    assert segments[..|segments|] == segments;
  }

  /** `_group_segments_by_silence`, with its loop. */
  method GroupSegments(segments: seq<Segment>, minGap: real) returns (groups: seq<Group>)
    ensures |segments| == 0 ==> groups == []
    ensures Flatten(groups) == segments
    ensures AllOk(groups, minGap)
    ensures Separated(groups, minGap)
  {
    if |segments| == 0 {
      return [];
    }
    groups := [];
    var current := Single(segments[0]);
    var i := 1;
    assert segments[..1] == [segments[0]];
    while i < |segments|
      invariant GroupingInv(segments, minGap, groups, current, i)
    {
      if Gap(segments[i - 1], segments[i]) >= minGap {
        CloseStep(segments, minGap, groups, current, i);
        groups := groups + [current];
        current := Single(segments[i]);
      } else {
        ExtendStep(segments, minGap, groups, current, i);
        current := Extend(current, segments[i]);
      }
      i := i + 1;
    }
    FinishGrouping(segments, minGap, groups, current);
    groups := groups + [current];
  }

  // ---------------------------------------------------------------------------
  // Filling gaps with silence

  /** The pause length above which the engine inserts an explicit silence frame. */
  const FillThreshold: real := 0.1

  /** A frame the gap filler inserts: silent, closed, not an ending, and longer than the threshold. */
  predicate Filler(f: VowelFrame) {
    f.vowel == "sil" && f.intensity == 0.0 && !f.isEnding && f.duration > FillThreshold
  }

  /** No pause between consecutive frames exceeds the threshold. */
  predicate NoLongPause(r: seq<VowelFrame>) {
    forall k :: 0 <= k < |r| - 1 ==> r[k + 1].timestamp - r[k].End() <= FillThreshold
  }

  /** Two timelines without long pauses, joined without one, have none. */
  lemma JoinNoLongPause(a: seq<VowelFrame>, b: seq<VowelFrame>)
    requires NoLongPause(a) && NoLongPause(b)
    requires |a| > 0 && |b| > 0 ==> b[0].timestamp - a[|a| - 1].End() <= FillThreshold
    ensures NoLongPause(a + b)
  {
    var r := a + b;
    forall k | 0 <= k < |r| - 1 ensures r[k + 1].timestamp - r[k].End() <= FillThreshold {
      if k < |a| - 1 {
        assert r[k] == a[k] && r[k + 1] == a[k + 1];
      } else if k == |a| - 1 {
        assert r[k] == a[|a| - 1] && r[k + 1] == b[0];
      } else {
        assert r[k] == b[k - |a|] && r[k + 1] == b[k - |a| + 1];
      }
    }
  }

  /** The pause between frame `i` and the next. */
  function PauseAfter(fs: seq<VowelFrame>, i: int): real
    requires 0 <= i < |fs| - 1
  {
    fs[i + 1].timestamp - fs[i].End()
  }

  /** The frames the filler emits for frame `i`: the frame, then a silence frame when the pause after it exceeds the threshold. */
  function Stride(fs: seq<VowelFrame>, i: int): (n: nat)
    requires 0 <= i < |fs|
    ensures n == 1 || n == 2
  {
    if i < |fs| - 1 && PauseAfter(fs, i) > FillThreshold then 2 else 1
  }

  /** Dropping the first frame leaves every later frame's stride alone. */
  lemma StrideOfTail(fs: seq<VowelFrame>, i: int)
    requires 1 <= i < |fs|
    ensures Stride(fs[1..], i - 1) == Stride(fs, i)
  {
    assert fs[1..][i - 1] == fs[i];
    if i < |fs| - 1 {
      assert fs[1..][i] == fs[i + 1];
    }
  }

  /**
    Where each frame lands in the filled body: the first at index 0, each
    later one a stride after the one before it. The last entry, one past
    the last frame, is the body's length.
   */
  function Slots(fs: seq<VowelFrame>): (p: seq<nat>)
    ensures |p| == |fs| + 1 && p[0] == 0
    ensures forall i {:trigger Stride(fs, i)} :: 0 <= i < |fs| ==> p[i + 1] == p[i] + Stride(fs, i)
    decreases |fs|
  {
    if |fs| == 0 then [0]
    else
      var q := Slots(fs[1..]);
      var p := [0] + Shifted(Stride(fs, 0), q);
      SlotsStep(fs, q, p);
      p
  }

  /** The slots of `fs` are the first stride followed by the tail's slots shifted by it. */
  lemma SlotsStep(fs: seq<VowelFrame>, q: seq<nat>, p: seq<nat>)
    requires |fs| > 0 && |q| == |fs| && q[0] == 0
    requires forall i {:trigger Stride(fs[1..], i)} :: 0 <= i < |fs| - 1 ==> q[i + 1] == q[i] + Stride(fs[1..], i)
    requires |p| == |fs| + 1 && p[0] == 0
    requires forall j :: 0 < j <= |fs| ==> p[j] == Stride(fs, 0) + q[j - 1]
    ensures forall i {:trigger Stride(fs, i)} :: 0 <= i < |fs| ==> p[i + 1] == p[i] + Stride(fs, i)
  {
    forall i | 0 <= i < |fs| ensures p[i + 1] == p[i] + Stride(fs, i) {
      if i > 0 {
        StrideOfTail(fs, i);
        assert q[i] == q[i - 1] + Stride(fs[1..], i - 1);
      }
    }
  }

  /**
    From index `offset` on, `r` holds each frame of `fs` at its slot, each
    followed at the next index by the silence frame covering the pause
    after it when that pause exceeds the threshold, and nothing else up to
    `offset` plus the body's length.
   */
  predicate PlacedAt(fs: seq<VowelFrame>, r: seq<VowelFrame>, offset: nat) {
    offset + Slots(fs)[|fs|] <= |r| && FramesAt(fs, r, offset) && SilencesAt(fs, r, offset)
  }

  /** Each frame of `fs` sits at its slot, shifted by `offset`. */
  predicate FramesAt(fs: seq<VowelFrame>, r: seq<VowelFrame>, offset: nat) {
    forall i {:trigger Slots(fs)[i]} :: 0 <= i < |fs| ==> offset + Slots(fs)[i] < |r| && r[offset + Slots(fs)[i]] == fs[i]
  }

  /** Each pause over the threshold is covered by a silence frame right after the frame before it. */
  predicate SilencesAt(fs: seq<VowelFrame>, r: seq<VowelFrame>, offset: nat) {
    forall i {:trigger Slots(fs)[i]} :: 0 <= i < |fs| - 1 && PauseAfter(fs, i) > FillThreshold ==>
      offset + Slots(fs)[i] + 1 < |r| && r[offset + Slots(fs)[i] + 1] == Silence(fs[i].End(), PauseAfter(fs, i))
  }

  /** The frames from `fs`, each followed by a silence frame when the pause to the next exceeds the threshold. */
  function FillBody(fs: seq<VowelFrame>): (r: seq<VowelFrame>)
    ensures |fs| <= |r| <= 2 * |fs|
  {
    if |fs| == 0 then []
    else if |fs| == 1 then [fs[0]]
    else
      var gap := fs[1].timestamp - fs[0].End();
      var filler := if gap > FillThreshold then [Silence(fs[0].End(), gap)] else [];
      [fs[0]] + filler + FillBody(fs[1..])
  }

  /** The filled body keeps the ends and every frame, adds only fillers, and leaves no long pause. */
  lemma {:induction false} FillBodyFilled(fs: seq<VowelFrame>)
    ensures FilledFrom(fs, FillBody(fs))
    decreases |fs|
  {
    if |fs| >= 2 {
      var gap := fs[1].timestamp - fs[0].End();
      var filler := if gap > FillThreshold then [Silence(fs[0].End(), gap)] else [];
      FillBodyFilled(fs[1..]);
      FillerStep(fs, filler, FillBody(fs[1..]));
    }
  }

  /** The filled body is exactly the frames at their slots with the silences after them. */
  lemma {:induction false} FillBodyPlaced(fs: seq<VowelFrame>)
    ensures |FillBody(fs)| == Slots(fs)[|fs|] && PlacedAt(fs, FillBody(fs), 0)
    decreases |fs|
  {
    if |fs| >= 2 {
      FillBodyPlaced(fs[1..]);
      FillBodyStepPlaced(fs);
    } else {
      FillBodyShortPlaced(fs);
    }
  }

  lemma FillBodyShortPlaced(fs: seq<VowelFrame>)
    requires |fs| <= 1
    ensures |FillBody(fs)| == Slots(fs)[|fs|] && PlacedAt(fs, FillBody(fs), 0)
  {
    if |fs| == 1 {
      assert Slots(fs)[1] == Stride(fs, 0) == 1;
    }
  }

  lemma FillBodyStepPlaced(fs: seq<VowelFrame>)
    requires |fs| >= 2
    requires |FillBody(fs[1..])| == Slots(fs[1..])[|fs[1..]|] && PlacedAt(fs[1..], FillBody(fs[1..]), 0)
    ensures |FillBody(fs)| == Slots(fs)[|fs|] && PlacedAt(fs, FillBody(fs), 0)
  {
    var gap := fs[1].timestamp - fs[0].End();
    var filler := if gap > FillThreshold then [Silence(fs[0].End(), gap)] else [];
    var rest := FillBody(fs[1..]);
    assert FillBody(fs) == [fs[0]] + filler + rest;
    FillerStepPlaced(fs, filler, rest);
  }

  /** One step of the filler puts the first frame and its silence in front of the placed rest. */
  lemma FillerStepPlaced(fs: seq<VowelFrame>, filler: seq<VowelFrame>, rest: seq<VowelFrame>)
    requires |fs| >= 2
    requires var gap := fs[1].timestamp - fs[0].End();
             filler == if gap > FillThreshold then [Silence(fs[0].End(), gap)] else []
    requires |rest| == Slots(fs[1..])[|fs[1..]|] && PlacedAt(fs[1..], rest, 0)
    ensures var r := [fs[0]] + filler + rest;
            |r| == Slots(fs)[|fs|] && PlacedAt(fs, r, 0)
  {
    assert Stride(fs, 0) == 1 + |filler|;
    SlotsLast(fs);
    StepFrames(fs, filler, rest);
    StepSilences(fs, filler, rest);
  }

  /** The body's length is the first stride plus the length of the tail's body. */
  lemma SlotsLast(fs: seq<VowelFrame>)
    requires |fs| >= 1
    ensures Slots(fs)[|fs|] == Stride(fs, 0) + Slots(fs[1..])[|fs[1..]|]
  {
  }

  /** One step of the filler keeps every frame at its slot. */
  lemma StepFrames(fs: seq<VowelFrame>, filler: seq<VowelFrame>, rest: seq<VowelFrame>)
    requires |fs| >= 2 && Stride(fs, 0) == 1 + |filler|
    requires FramesAt(fs[1..], rest, 0)
    ensures FramesAt(fs, [fs[0]] + filler + rest, 0)
  {
    var r := [fs[0]] + filler + rest;
    var p := Slots(fs);
    var q := Slots(fs[1..]);
    forall i | 0 <= i < |fs| ensures p[i] < |r| && r[p[i]] == fs[i] {
      if i > 0 {
        assert fs[1..][i - 1] == fs[i];
        assert p[i] == 1 + |filler| + q[i - 1];
        assert r[p[i]] == rest[q[i - 1]];
      }
    }
  }

  /** One step of the filler keeps every silence right after its frame. */
  lemma StepSilences(fs: seq<VowelFrame>, filler: seq<VowelFrame>, rest: seq<VowelFrame>)
    requires |fs| >= 2
    requires var gap := fs[1].timestamp - fs[0].End();
             filler == if gap > FillThreshold then [Silence(fs[0].End(), gap)] else []
    requires SilencesAt(fs[1..], rest, 0)
    ensures SilencesAt(fs, [fs[0]] + filler + rest, 0)
  {
    var r := [fs[0]] + filler + rest;
    var p := Slots(fs);
    var q := Slots(fs[1..]);
    assert Stride(fs, 0) == 1 + |filler|;
    forall i | 0 <= i < |fs| - 1 && PauseAfter(fs, i) > FillThreshold
      ensures p[i] + 1 < |r| && r[p[i] + 1] == Silence(fs[i].End(), PauseAfter(fs, i))
    {
      if i > 0 {
        assert fs[1..][i - 1] == fs[i] && fs[1..][i] == fs[i + 1];
        assert PauseAfter(fs[1..], i - 1) == PauseAfter(fs, i);
        assert p[i] == 1 + |filler| + q[i - 1];
        assert r[p[i] + 1] == rest[q[i - 1] + 1];
      }
    }
  }

  /**
    `r` is `fs` with silence frames inserted: the same ends, every frame of
    `fs` kept, nothing else added, at most one frame inserted per frame, and
    no long pause left.
   */
  predicate FilledFrom(fs: seq<VowelFrame>, r: seq<VowelFrame>) {
    && |fs| <= |r| <= 2 * |fs|
    && (|fs| > 0 ==> |r| > 0 && r[0] == fs[0] && r[|r| - 1] == fs[|fs| - 1])
    && (forall k :: 0 <= k < |r| ==> r[k] in fs || Filler(r[k]))
    && (forall f :: f in fs ==> f in r)
    && NoLongPause(r)
  }

  /** One step of the filler. */
  lemma FillerStep(fs: seq<VowelFrame>, filler: seq<VowelFrame>, rest: seq<VowelFrame>)
    requires |fs| >= 2
    requires var gap := fs[1].timestamp - fs[0].End();
             filler == if gap > FillThreshold then [Silence(fs[0].End(), gap)] else []
    requires FilledFrom(fs[1..], rest)
    ensures FilledFrom(fs, [fs[0]] + filler + rest)
  {
    FillerStepMembers(fs, filler, rest);
    FillerStepShape(fs, filler, rest);
  }

  /** One step of the filler keeps its frames drawn from `fs` and every frame of `fs`. */
  lemma FillerStepMembers(fs: seq<VowelFrame>, filler: seq<VowelFrame>, rest: seq<VowelFrame>)
    requires |fs| >= 2
    requires forall k :: 0 <= k < |filler| ==> Filler(filler[k])
    requires forall k :: 0 <= k < |rest| ==> rest[k] in fs[1..] || Filler(rest[k])
    requires forall f :: f in fs[1..] ==> f in rest
    ensures var r := [fs[0]] + filler + rest;
            && (forall k :: 0 <= k < |r| ==> r[k] in fs || Filler(r[k]))
            && (forall f :: f in fs ==> f in r)
  {
    var r := [fs[0]] + filler + rest;
    forall k | 0 <= k < |r| ensures r[k] in fs || Filler(r[k]) {
      if k == 0 {
      } else if k - 1 < |filler| {
        assert r[k] == filler[k - 1];
      } else {
        assert r[k] == rest[k - 1 - |filler|];
      }
    }
    forall f | f in fs ensures f in r {
      if f != fs[0] {
        var j :| 0 <= j < |fs| && fs[j] == f;
        assert fs[1..][j - 1] == f;
        assert f in rest;
      }
    }
  }

  /** One step of the filler keeps the ends, the length bounds and the absence of long pauses. */
  lemma FillerStepShape(fs: seq<VowelFrame>, filler: seq<VowelFrame>, rest: seq<VowelFrame>)
    requires |fs| >= 2
    requires var gap := fs[1].timestamp - fs[0].End();
             filler == if gap > FillThreshold then [Silence(fs[0].End(), gap)] else []
    requires |fs| - 1 <= |rest| <= 2 * (|fs| - 1)
    requires rest[0] == fs[1] && rest[|rest| - 1] == fs[|fs| - 1]
    requires NoLongPause(rest)
    ensures var r := [fs[0]] + filler + rest;
            && |fs| <= |r| <= 2 * |fs|
            && r[0] == fs[0] && r[|r| - 1] == fs[|fs| - 1]
            && NoLongPause(r)
  {
    JoinNoLongPause([fs[0]], filler);
    assert ([fs[0]] + filler)[|[fs[0]] + filler| - 1] == (if |filler| == 0 then fs[0] else filler[0]);
    JoinNoLongPause([fs[0]] + filler, rest);
  }

  /**
    `_fill_gaps_with_silence`: a leading silence when the first frame starts
    after the threshold, the filled body, and a trailing silence when the
    last frame ends more than the threshold before the total duration.
   */
  function FillGaps(fs: seq<VowelFrame>, totalDuration: real): (r: seq<VowelFrame>)
    ensures |fs| == 0 <==> |r| == 0
    ensures |fs| <= |r| <= 2 * |fs| + 2
    ensures forall k :: 0 <= k < |r| ==> r[k] in fs || Filler(r[k])
    ensures forall f :: f in fs ==> f in r
  {
    if |fs| == 0 then []
    else
      FillBodyFilled(fs);
      LeadFill(fs) + FillBody(fs) + TailFill(fs, totalDuration)
  }

  /**
    The layout of the filled timeline: the leading silence when the first
    frame starts after the threshold, then every frame at its slot with the
    silence after it for each long pause, then the trailing silence when
    the last frame ends more than the threshold before the total, and
    nothing else.
   */
  lemma FillGapsLayout(fs: seq<VowelFrame>, totalDuration: real)
    requires |fs| > 0
    ensures var r := FillGaps(fs, totalDuration);
            var lead := if fs[0].timestamp > FillThreshold then 1 else 0;
            var last := fs[|fs| - 1];
            var trail := if last.End() < totalDuration - FillThreshold then 1 else 0;
            && |r| == lead + Slots(fs)[|fs|] + trail
            && PlacedAt(fs, r, lead)
            && (lead == 1 ==> r[0] == Silence(0.0, fs[0].timestamp))
            && (trail == 1 ==> r[|r| - 1] == Silence(last.End(), totalDuration - last.End()))
  {
    FillBodyPlaced(fs);
    FillGapsPlaced(fs, totalDuration);
  }

  /** The filled body keeps its placement behind the leading silence. */
  lemma FillGapsPlaced(fs: seq<VowelFrame>, totalDuration: real)
    requires |fs| > 0
    requires PlacedAt(fs, FillBody(fs), 0)
    ensures PlacedAt(fs, LeadFill(fs) + FillBody(fs) + TailFill(fs, totalDuration), |LeadFill(fs)|)
  {
    PlacedShift(fs, LeadFill(fs), FillBody(fs), TailFill(fs, totalDuration));
  }

  /** A placement survives putting frames in front of it and behind it. */
  lemma PlacedShift(fs: seq<VowelFrame>, lead: seq<VowelFrame>, body: seq<VowelFrame>, tail: seq<VowelFrame>)
    requires PlacedAt(fs, body, 0)
    ensures PlacedAt(fs, lead + body + tail, |lead|)
  {
    FramesShift(fs, lead, body, tail);
    SilencesShift(fs, lead, body, tail);
  }

  lemma FramesShift(fs: seq<VowelFrame>, lead: seq<VowelFrame>, body: seq<VowelFrame>, tail: seq<VowelFrame>)
    requires FramesAt(fs, body, 0)
    ensures FramesAt(fs, lead + body + tail, |lead|)
  {
    var r := lead + body + tail;
    var p := Slots(fs);
    forall i | 0 <= i < |fs| ensures |lead| + p[i] < |r| && r[|lead| + p[i]] == fs[i] {
      assert body[p[i]] == fs[i];
    }
  }

  lemma SilencesShift(fs: seq<VowelFrame>, lead: seq<VowelFrame>, body: seq<VowelFrame>, tail: seq<VowelFrame>)
    requires SilencesAt(fs, body, 0)
    ensures SilencesAt(fs, lead + body + tail, |lead|)
  {
    var r := lead + body + tail;
    var p := Slots(fs);
    forall i | 0 <= i < |fs| - 1 && PauseAfter(fs, i) > FillThreshold
      ensures |lead| + p[i] + 1 < |r| && r[|lead| + p[i] + 1] == Silence(fs[i].End(), PauseAfter(fs, i))
    {
      assert body[p[i] + 1] == Silence(fs[i].End(), PauseAfter(fs, i));
    }
  }

  /** The leading silence: from 0 up to the first frame, when it starts after the threshold. */
  function LeadFill(fs: seq<VowelFrame>): (r: seq<VowelFrame>)
    requires |fs| > 0
    ensures |r| <= 1 && forall k :: 0 <= k < |r| ==> Filler(r[k])
    ensures fs[0].timestamp > FillThreshold ==> r == [Silence(0.0, fs[0].timestamp)]
    ensures fs[0].timestamp <= FillThreshold ==> r == []
  {
    if fs[0].timestamp > FillThreshold then [Silence(0.0, fs[0].timestamp)] else []
  }

  /** The trailing silence: from the last frame's end up to the total duration, when more than the threshold is left. */
  function TailFill(fs: seq<VowelFrame>, totalDuration: real): (r: seq<VowelFrame>)
    requires |fs| > 0
    ensures |r| <= 1 && forall k :: 0 <= k < |r| ==> Filler(r[k])
    ensures var last := fs[|fs| - 1];
            && (last.End() < totalDuration - FillThreshold ==> r == [Silence(last.End(), totalDuration - last.End())])
            && (last.End() >= totalDuration - FillThreshold ==> r == [])
  {
    var last := fs[|fs| - 1];
    if last.End() < totalDuration - FillThreshold then [Silence(last.End(), totalDuration - last.End())] else []
  }

  /**
    After filling, the timeline starts within the threshold of 0, no pause
    between consecutive frames exceeds the threshold, and it reaches to
    within the threshold of the total duration.
   */
  lemma FillGapsLeavesNoLongPause(fs: seq<VowelFrame>, totalDuration: real)
    requires |fs| > 0
    ensures var r := FillGaps(fs, totalDuration);
      && r[0].timestamp <= FillThreshold
      && r[|r| - 1].End() >= totalDuration - FillThreshold
      && NoLongPause(r)
  {
    FillGapsStart(fs, totalDuration);
    FillGapsEnd(fs, totalDuration);
    FillGapsPauses(fs, totalDuration);
  }

  lemma FillGapsStart(fs: seq<VowelFrame>, totalDuration: real)
    requires |fs| > 0
    ensures FillGaps(fs, totalDuration)[0].timestamp <= FillThreshold
  {
    var lead := LeadFill(fs);
    FillBodyFilled(fs);
    assert FillGaps(fs, totalDuration)[0] == (lead + FillBody(fs))[0];
  }

  lemma FillGapsEnd(fs: seq<VowelFrame>, totalDuration: real)
    requires |fs| > 0
    ensures var r := FillGaps(fs, totalDuration); r[|r| - 1].End() >= totalDuration - FillThreshold
  {
    var lead := LeadFill(fs);
    var body := FillBody(fs);
    var tail := TailFill(fs, totalDuration);
    FillBodyFilled(fs);
    var r := FillGaps(fs, totalDuration);
    assert r == (lead + body) + tail;
    if |tail| == 0 {
      assert r[|r| - 1] == body[|body| - 1];
    } else {
      assert r[|r| - 1] == tail[0];
    }
  }

  lemma FillGapsPauses(fs: seq<VowelFrame>, totalDuration: real)
    requires |fs| > 0
    ensures NoLongPause(FillGaps(fs, totalDuration))
  {
    var lead := LeadFill(fs);
    var body := FillBody(fs);
    var tail := TailFill(fs, totalDuration);
    FillBodyFilled(fs);
    assert FillGaps(fs, totalDuration) == (lead + body) + tail;
    JoinNoLongPause(lead, body);
    assert (lead + body)[|lead + body| - 1] == body[|body| - 1];
    JoinNoLongPause(lead + body, tail);
  }
}

=== FILE: lip_sync_settings.dfy ===
/**
  The lip-sync engine's configuration and `update_settings`
  (core/lip_sync_engine.py): four optional sections (`basic`,
  `ending_protection`, `phoneme`, `advanced`) whose values are converted and
  clamped. A conversion that raises inside `basic`, `ending_protection` or
  `advanced` aborts the rest of the update, keeping what was already written;
  in `phoneme` each value is guarded on its own.
 */
module LipSyncSettings {
  import opened Common
  import opened Json
  import opened LipSyncKeyframes

  /** The `basic` keys of `self.settings`. */
  datatype BasicSettings = BasicSettings(
    enabled: bool, sensitivity: int, responseSpeed: int, mouthOpenScale: int,
    autoOptimize: bool, audioSyncEnabled: bool, charDuration: real)

  /** `self.ending_protection`. */
  datatype ProtectionSettings = ProtectionSettings(
    enabled: bool, minDuration: real, intensityBoost: real, detectionRange: int)

  /** The `advanced` keys of `self.settings`; `quality_mode` is stored as given. */
  datatype AdvancedSettings = AdvancedSettings(
    delayCompensation: int, smoothingFactor: int, predictionEnabled: bool,
    consonantDetection: bool, volumeThreshold: int, qualityMode: Value)

  datatype Engine = Engine(
    basic: BasicSettings,
    protection: ProtectionSettings,
    advanced: AdvancedSettings,
    mapping: map<string, MouthShape>)

  /** The engine's initial configuration. */
  const Defaults: Engine := Engine(
    BasicSettings(true, 80, 70, 100, true, true, 0.08),
    ProtectionSettings(true, 0.15, 1.05, 1),
    AdvancedSettings(0, 70, true, true, 5, Str("balanced")),
    BaseVowelMapping)

  predicate BasicInRange(b: BasicSettings) {
    && 0 <= b.sensitivity <= 500 && 0 <= b.responseSpeed <= 500 && 0 <= b.mouthOpenScale <= 500
    && 0.05 <= b.charDuration <= 0.3
  }

  predicate ProtectionInRange(p: ProtectionSettings) {
    0.1 <= p.minDuration <= 1.0 && 1.0 <= p.intensityBoost <= 3.0 && 1 <= p.detectionRange <= 10
  }

  predicate AdvancedInRange(a: AdvancedSettings) {
    -1000 <= a.delayCompensation <= 1000 && 0 <= a.smoothingFactor <= 100 && 0 <= a.volumeThreshold <= 100
  }

  /** The mouth table keeps the base vowels, with openings in [0, 500] and forms in [-500, 500]. */
  predicate MappingInRange(m: map<string, MouthShape>) {
    && m.Keys == BaseVowelMapping.Keys
    && forall v :: v in m ==> 0.0 <= m[v].open <= 500.0 && -500.0 <= m[v].form <= 500.0
  }

  /** Every value lies in the range `update_settings` clamps it to. */
  predicate InRange(e: Engine) {
    && BasicInRange(e.basic) && ProtectionInRange(e.protection) && AdvancedInRange(e.advanced)
    && MappingInRange(e.mapping)
  }

  lemma DefaultsInRange()
    ensures InRange(Defaults)
  {
  }

  // ---------------------------------------------------------------------------
  // Python conversions; `None` means the conversion raises

  /** `int(v)`: booleans count as 0/1, floats truncate toward zero. */
  function ToInt(v: Value): (r: Option<int>)
    ensures v.Int? ==> r == Some(v.i)
    ensures v.Num? ==> r == Some(Trunc(v.r))
    ensures v.Null? || v.List? || v.Obj? ==> r.None?
  {
    match v
    case Bool(b) => Some(if b then 1 else 0)
    case Int(i) => Some(i)
    case Num(x) => Some(Trunc(x))
    case _ => None
  }

  /** `float(v)`. */
  function ToFloat(v: Value): (r: Option<real>)
    ensures v.Int? ==> r == Some(v.i as real)
    ensures v.Num? ==> r == Some(v.r)
    ensures v.Null? || v.List? || v.Obj? ==> r.None?
  {
    match v
    case Bool(b) => Some(if b then 1.0 else 0.0)
    case Int(i) => Some(i as real)
    case Num(x) => Some(x)
    case _ => None
  }

  // ---------------------------------------------------------------------------
  // One key at a time; `None` means the key's conversion raised

  /** Stores an already clamped count under one of the three integer keys of `basic`. */
  function BasicIntKey(b: BasicSettings, key: string, c: int): (r: BasicSettings)
    requires 0 <= c <= 500
    ensures BasicInRange(b) ==> BasicInRange(r)
    ensures key == "sensitivity" ==> r == b.(sensitivity := c)
    ensures key == "response_speed" ==> r == b.(responseSpeed := c)
    ensures key != "sensitivity" && key != "response_speed" ==> r == b.(mouthOpenScale := c)
  {
    if key == "sensitivity" then b.(sensitivity := c)
    else if key == "response_speed" then b.(responseSpeed := c)
    else b.(mouthOpenScale := c)
  }

  /** One key of the `basic` section (every key it reads is one of the listed ones). */
  function BasicKey(b: BasicSettings, key: string, v: Value): (r: Option<BasicSettings>)
    ensures BasicInRange(b) && r.Some? ==> BasicInRange(r.value)
    ensures key in {"enabled", "auto_optimize", "audio_sync_enabled"} ==> r.Some?
    ensures key == "enabled" ==> r == Some(b.(enabled := Truthy(v)))
    ensures key == "auto_optimize" ==> r == Some(b.(autoOptimize := Truthy(v)))
    ensures key == "audio_sync_enabled" ==> r == Some(b.(audioSyncEnabled := Truthy(v)))
    ensures key in {"sensitivity", "response_speed", "mouth_open_scale"} ==> (r.None? <==> ToInt(v).None?)
    ensures key == "sensitivity" && ToInt(v).Some? ==> r == Some(b.(sensitivity := ClampI(ToInt(v).value, 0, 500)))
    ensures key == "response_speed" && ToInt(v).Some? ==> r == Some(b.(responseSpeed := ClampI(ToInt(v).value, 0, 500)))
    ensures key == "mouth_open_scale" && ToInt(v).Some? ==> r == Some(b.(mouthOpenScale := ClampI(ToInt(v).value, 0, 500)))
    ensures key == "char_duration" ==> (r.None? <==> ToFloat(v).None?)
    ensures key == "char_duration" && ToFloat(v).Some? ==> r == Some(b.(charDuration := ClampR(ToFloat(v).value, 0.05, 0.3)))
  {
    if key == "enabled" then Some(b.(enabled := Truthy(v)))
    else if key == "auto_optimize" then Some(b.(autoOptimize := Truthy(v)))
    else if key == "audio_sync_enabled" then Some(b.(audioSyncEnabled := Truthy(v)))
    else if key in {"sensitivity", "response_speed", "mouth_open_scale"} then
      match ToInt(v)
      case None => None
      case Some(n) => Some(BasicIntKey(b, key, ClampI(n, 0, 500)))
    else
      match ToFloat(v)
      case None => None
      case Some(x) => Some(b.(charDuration := ClampR(x, 0.05, 0.3)))
  }

  /** One key of the `ending_protection` section. */
  function ProtectionKey(p: ProtectionSettings, key: string, v: Value): (r: Option<ProtectionSettings>)
    ensures ProtectionInRange(p) && r.Some? ==> ProtectionInRange(r.value)
    ensures key == "enabled" ==> r == Some(p.(enabled := Truthy(v)))
    ensures key == "detection_range" ==> (r.None? <==> ToInt(v).None?)
    ensures key == "detection_range" && ToInt(v).Some? ==> r == Some(p.(detectionRange := ClampI(ToInt(v).value, 1, 10)))
    ensures key in {"min_duration", "intensity_boost"} ==> (r.None? <==> ToFloat(v).None?)
    ensures key == "min_duration" && ToFloat(v).Some? ==> r == Some(p.(minDuration := ClampR(ToFloat(v).value, 0.1, 1.0)))
    ensures key == "intensity_boost" && ToFloat(v).Some? ==> r == Some(p.(intensityBoost := ClampR(ToFloat(v).value, 1.0, 3.0)))
  {
    if key == "enabled" then Some(p.(enabled := Truthy(v)))
    else if key == "detection_range" then
      match ToInt(v)
      case None => None
      case Some(n) => Some(p.(detectionRange := ClampI(n, 1, 10)))
    else
      match ToFloat(v)
      case None => None
      case Some(x) =>
        Some(if key == "min_duration" then p.(minDuration := ClampR(x, 0.1, 1.0))
             else p.(intensityBoost := ClampR(x, 1.0, 3.0)))
  }

  /** One key of the `advanced` section. */
  function AdvancedKey(a: AdvancedSettings, key: string, v: Value): (r: Option<AdvancedSettings>)
    ensures AdvancedInRange(a) && r.Some? ==> AdvancedInRange(r.value)
    ensures key == "quality_mode" ==> r == Some(a.(qualityMode := v))
    ensures key == "prediction_enabled" ==> r == Some(a.(predictionEnabled := Truthy(v)))
    ensures key == "consonant_detection" ==> r == Some(a.(consonantDetection := Truthy(v)))
    ensures key in {"delay_compensation", "smoothing_factor", "volume_threshold"} ==> (r.None? <==> ToInt(v).None?)
    ensures key == "delay_compensation" && ToInt(v).Some? ==> r == Some(a.(delayCompensation := ClampI(ToInt(v).value, -1000, 1000)))
    ensures key == "smoothing_factor" && ToInt(v).Some? ==> r == Some(a.(smoothingFactor := ClampI(ToInt(v).value, 0, 100)))
    ensures key == "volume_threshold" && ToInt(v).Some? ==> r == Some(a.(volumeThreshold := ClampI(ToInt(v).value, 0, 100)))
  {
    if key == "prediction_enabled" then Some(a.(predictionEnabled := Truthy(v)))
    else if key == "consonant_detection" then Some(a.(consonantDetection := Truthy(v)))
    else if key == "quality_mode" then Some(a.(qualityMode := v))
    else
      match ToInt(v)
      case None => None
      case Some(n) =>
        Some(if key == "delay_compensation" then a.(delayCompensation := ClampI(n, -1000, 1000))
             else if key == "smoothing_factor" then a.(smoothingFactor := ClampI(n, 0, 100))
             else a.(volumeThreshold := ClampI(n, 0, 100)))
  }

  datatype Section = Basic | Protection | Advanced

  /** The state after a section: `Raised` keeps what was written before the conversion failed. */
  datatype Outcome = Done(engine: Engine) | Raised(engine: Engine)

  /** One key applied to its section of the engine. */
  function ApplyKey(section: Section, e: Engine, key: string, v: Value): (r: Outcome)
    ensures InRange(e) ==> InRange(r.engine)
    ensures r.Raised? ==> r.engine == e
    ensures r.engine.mapping == e.mapping
    ensures section != Basic ==> r.engine.basic == e.basic
    ensures section != Protection ==> r.engine.protection == e.protection
    ensures section != Advanced ==> r.engine.advanced == e.advanced
  {
    match section
    case Basic =>
      (match BasicKey(e.basic, key, v)
       case None => Raised(e)
       case Some(b) => Done(e.(basic := b)))
    case Protection =>
      (match ProtectionKey(e.protection, key, v)
       case None => Raised(e)
       case Some(p) => Done(e.(protection := p)))
    case Advanced =>
      (match AdvancedKey(e.advanced, key, v)
       case None => Raised(e)
       case Some(a) => Done(e.(advanced := a)))
  }

  /** The keys each section reads, in the order it reads them. */
  function SectionKeys(section: Section): seq<string> {
    match section
    case Basic => ["enabled", "sensitivity", "response_speed", "mouth_open_scale", "auto_optimize", "audio_sync_enabled", "char_duration"]
    case Protection => ["enabled", "min_duration", "intensity_boost", "detection_range"]
    case Advanced => ["delay_compensation", "smoothing_factor", "prediction_enabled", "consonant_detection", "volume_threshold", "quality_mode"]
  }

  /** The listed keys that are present, applied in order until one raises. */
  function ApplyKeys(section: Section, e: Engine, d: Dict, keys: seq<string>): (r: Outcome)
    ensures InRange(e) ==> InRange(r.engine)
    ensures r.engine.mapping == e.mapping
    ensures (forall k :: 0 <= k < |keys| ==> keys[k] !in d) ==> r == Done(e)
    ensures section != Basic ==> r.engine.basic == e.basic
    ensures section != Protection ==> r.engine.protection == e.protection
    ensures section != Advanced ==> r.engine.advanced == e.advanced
    decreases |keys|
  {
    if |keys| == 0 then Done(e)
    else if keys[0] !in d then ApplyKeys(section, e, d, keys[1..])
    else
      match ApplyKey(section, e, keys[0], d[keys[0]])
      case Raised(e') => Raised(e')
      case Done(e') => ApplyKeys(section, e', d, keys[1..])
  }

  /** A section that is present and a dict. */
  function ApplySection(section: Section, e: Engine, settings: Dict, name: string): (r: Outcome)
    ensures InRange(e) ==> InRange(r.engine)
    ensures name !in settings || !settings[name].Obj? ==> r == Done(e)
    ensures r.engine.mapping == e.mapping
    ensures section != Basic ==> r.engine.basic == e.basic
    ensures section != Protection ==> r.engine.protection == e.protection
    ensures section != Advanced ==> r.engine.advanced == e.advanced
  {
    if name in settings && settings[name].Obj? then ApplyKeys(section, e, settings[name].fields, SectionKeys(section))
    else Done(e)
  }

  /** One vowel's `mouth_open` / `mouth_form` update; an unconvertible value is skipped. */
  function UpdateShape(m: MouthShape, params: Dict): (r: MouthShape)
    ensures 0.0 <= m.open <= 500.0 ==> 0.0 <= r.open <= 500.0
    ensures -500.0 <= m.form <= 500.0 ==> -500.0 <= r.form <= 500.0
    ensures "mouth_open" in params && ToFloat(params["mouth_open"]).Some? ==>
              r.open == ClampR(ToFloat(params["mouth_open"]).value, 0.0, 500.0)
    ensures !("mouth_open" in params && ToFloat(params["mouth_open"]).Some?) ==> r.open == m.open
    ensures "mouth_form" in params && ToFloat(params["mouth_form"]).Some? ==>
              r.form == ClampR(ToFloat(params["mouth_form"]).value, -500.0, 500.0)
    ensures !("mouth_form" in params && ToFloat(params["mouth_form"]).Some?) ==> r.form == m.form
  {
    var open := if "mouth_open" in params && ToFloat(params["mouth_open"]).Some?
      then ClampR(ToFloat(params["mouth_open"]).value, 0.0, 500.0) else m.open;
    var form := if "mouth_form" in params && ToFloat(params["mouth_form"]).Some?
      then ClampR(ToFloat(params["mouth_form"]).value, -500.0, 500.0) else m.form;
    MouthShape(open, form)
  }

  /** The `phoneme` section: only known vowels with dict parameters change; it never aborts. */
  function ApplyPhoneme(e: Engine, settings: Dict): (r: Engine)
    ensures r == e.(mapping := r.mapping)
    ensures r.mapping.Keys == e.mapping.Keys
    ensures InRange(e) ==> InRange(r)
  {
    if "phoneme" in settings && settings["phoneme"].Obj? then
      var p := settings["phoneme"].fields;
      e.(mapping := map v | v in e.mapping ::
        if v in p && p[v].Obj? then UpdateShape(e.mapping[v], p[v].fields) else e.mapping[v])
    else e
  }

  /** `update_settings`: the sections in source order; a raising conversion ends the update early. */
  function UpdateSettings(e: Engine, settings: Dict): (r: Engine)
    ensures InRange(e) ==> InRange(r)
    ensures (forall name :: name in settings ==> name !in {"basic", "ending_protection", "phoneme", "advanced"}) ==> r == e
    ensures "basic" !in settings ==> r.basic == e.basic
    ensures "ending_protection" !in settings ==> r.protection == e.protection
    ensures "advanced" !in settings ==> r.advanced == e.advanced
    ensures !("phoneme" in settings && settings["phoneme"].Obj?) ==> r.mapping == e.mapping
  {
    match ApplySection(Basic, e, settings, "basic")
    case Raised(e1) => e1
    case Done(e1) =>
      match ApplySection(Protection, e1, settings, "ending_protection")
      case Raised(e2) => e2
      case Done(e2) =>
        ApplySection(Advanced, ApplyPhoneme(e2, settings), settings, "advanced").engine
  }

  /** The key of `update_settings`' argument that holds each section. */
  function SectionName(section: Section): string {
    match section
    case Basic => "basic"
    case Protection => "ending_protection"
    case Advanced => "advanced"
  }

  /**
    A section holding a single one of its keys is that one key's update:
    the named setting takes the converted, clamped value and nothing else
    changes, or a raising conversion leaves the engine as it was.
   */
  lemma {:induction false} ApplyKeysSingle(section: Section, e: Engine, key: string, v: Value, keys: seq<string>)
    requires key in keys
    requires forall i, j :: 0 <= i < j < |keys| ==> keys[i] != keys[j]
    ensures ApplyKeys(section, e, map[key := v], keys) == ApplyKey(section, e, key, v)
    decreases |keys|
  {
    var d := map[key := v];
    if keys[0] != key {
      assert key in keys[1..];
      ApplyKeysSingle(section, e, key, v, keys[1..]);
    } else {
      assert forall k :: 0 <= k < |keys[1..]| ==> keys[1..][k] !in d;
      match ApplyKey(section, e, key, v)
      case Raised(_) =>
      case Done(e') =>
        assert ApplyKeys(section, e', d, keys[1..]) == Done(e');
    }
  }

  /** `update_settings` with one section holding one of its keys applies exactly that key. */
  lemma OneKeyUpdate(section: Section, e: Engine, key: string, v: Value)
    requires key in SectionKeys(section)
    ensures UpdateSettings(e, map[SectionName(section) := Obj(map[key := v])]) == ApplyKey(section, e, key, v).engine
  {
    ApplyKeysSingle(section, e, key, v, SectionKeys(section));
    match section
    case Basic => OneBasicKey(e, key, v);
    case Protection => OneProtectionKey(e, key, v);
    case Advanced => OneAdvancedKey(e, key, v);
  }

  lemma OneBasicKey(e: Engine, key: string, v: Value)
    requires ApplyKeys(Basic, e, map[key := v], SectionKeys(Basic)) == ApplyKey(Basic, e, key, v)
    ensures UpdateSettings(e, map["basic" := Obj(map[key := v])]) == ApplyKey(Basic, e, key, v).engine
  {
    var settings := map["basic" := Obj(map[key := v])];
    var e1 := ApplyKey(Basic, e, key, v).engine;
    assert ApplySection(Protection, e1, settings, "ending_protection") == Done(e1);
    assert ApplyPhoneme(e1, settings) == e1;
  }

  lemma OneProtectionKey(e: Engine, key: string, v: Value)
    requires ApplyKeys(Protection, e, map[key := v], SectionKeys(Protection)) == ApplyKey(Protection, e, key, v)
    ensures UpdateSettings(e, map["ending_protection" := Obj(map[key := v])]) == ApplyKey(Protection, e, key, v).engine
  {
    var settings := map["ending_protection" := Obj(map[key := v])];
    assert ApplySection(Basic, e, settings, "basic") == Done(e);
    var e2 := ApplyKey(Protection, e, key, v).engine;
    assert ApplyPhoneme(e2, settings) == e2;
  }

  lemma OneAdvancedKey(e: Engine, key: string, v: Value)
    requires ApplyKeys(Advanced, e, map[key := v], SectionKeys(Advanced)) == ApplyKey(Advanced, e, key, v)
    ensures UpdateSettings(e, map["advanced" := Obj(map[key := v])]) == ApplyKey(Advanced, e, key, v).engine
  {
    var settings := map["advanced" := Obj(map[key := v])];
    assert ApplySection(Basic, e, settings, "basic") == Done(e);
    assert ApplySection(Protection, e, settings, "ending_protection") == Done(e);
    assert ApplyPhoneme(e, settings) == e;
  }

  /** A numeric sensitivity alone is clamped into [0, 500] and nothing else changes. */
  lemma SensitivityUpdate(e: Engine, n: int)
    ensures UpdateSettings(e, map["basic" := Obj(map["sensitivity" := Int(n)])]) == e.(basic := e.basic.(sensitivity := ClampI(n, 0, 500)))
  {
    OneKeyUpdate(Basic, e, "sensitivity", Int(n));
  }

  /** A failing conversion in `basic` stops the update: later sections are not applied. */
  lemma RaisingBasicStops(e: Engine, protection: Dict)
    ensures UpdateSettings(e, map["basic" := Obj(map["sensitivity" := Null]), "ending_protection" := Obj(protection)]) == e
  {
    var d := map["sensitivity" := Null];
    var keys := SectionKeys(Basic);
    assert ApplyKeys(Basic, e, d, keys[1..]) == Raised(e);
    assert ApplyKeys(Basic, e, d, keys) == Raised(e);
  }
}

=== FILE: live2d_manager.dfy ===
/**
  core/live2d_manager.py: the history of Live2D model folders. Entries are
  kept newest first and are keyed by their resolved folder path when added
  and by their identifier otherwise; unlike the model and image histories
  the list has no cap, and every entry carries a full `ui_settings`
  dictionary. The identifier (a fresh UUID), the current time and the
  resolved folder path are outside the model, so callers pass them in; file
  I/O is left out.
 */
module Live2DHistory {
  import opened Common
  import opened Json
  import opened Recent
  import opened PathNames

  // ---------------------------------------------------------------------------
  // Default settings

  /** The `background_settings` block of every default. */
  function DefaultBackground(): Dict {
    map["mode" := Str("default"), "color" := Str("#000000"), "alpha" := Num(1.0), "previewAlpha" := Num(1.0)]
  }

  /** The `ui_settings` a newly added model starts with. */
  function NewModelSettings(): Dict {
    map["scale" := Num(1.0), "position_x" := Num(0.0), "position_y" := Num(0.0),
        "auto_breath" := Bool(true), "auto_eye_blink" := Bool(true), "lip_sync_gain" := Num(1.0),
        "background_visible" := Bool(true), "zoom_percent" := Int(100), "h_position" := Int(50),
        "v_position" := Int(50), "minimap_visible" := Bool(false),
        "background_settings" := Obj(DefaultBackground())]
  }

  /** What `get_ui_settings` answers for an unknown model: the new-model settings plus `idle_motion_enabled`. */
  function FallbackSettings(): Dict {
    map["scale" := Num(1.0), "position_x" := Num(0.0), "position_y" := Num(0.0),
        "auto_breath" := Bool(true), "auto_eye_blink" := Bool(true), "lip_sync_gain" := Num(1.0),
        "background_visible" := Bool(true), "zoom_percent" := Int(100), "h_position" := Int(50),
        "v_position" := Int(50), "minimap_visible" := Bool(false), "idle_motion_enabled" := Bool(true),
        "background_settings" := Obj(DefaultBackground())]
  }

  /** The keys loading fills in when a stored entry lacks them. */
  function LoadDefaults(): Dict {
    map["zoom_percent" := Int(100), "h_position" := Int(50), "v_position" := Int(50),
        "minimap_visible" := Bool(false), "background_settings" := Obj(DefaultBackground())]
  }

  /** The two written defaults differ only in `idle_motion_enabled`, which a new model lacks. */
  lemma FallbackExtendsNewModel()
    ensures FallbackSettings().Keys == NewModelSettings().Keys + {"idle_motion_enabled"}
    ensures "idle_motion_enabled" !in NewModelSettings()
    ensures forall k :: k in NewModelSettings() ==> FallbackSettings()[k] == NewModelSettings()[k]
  {
  }

  /** Every default that loading fills in is already part of a new model's settings, with the same value. */
  lemma LoadDefaultsAgreeWithNewModel()
    ensures forall k :: k in LoadDefaults() ==> k in NewModelSettings() && NewModelSettings()[k] == LoadDefaults()[k]
  {
  }

  // ---------------------------------------------------------------------------
  // Adding and looking up models

  /** `model['model_folder_path']`, the key `add_model` looks entries up by. */
  function FolderOf(entry: Dict): (v: Value)
    ensures "model_folder_path" in entry ==> v == entry["model_folder_path"]
    ensures "model_folder_path" !in entry ==> v == Null
  {
    Get(entry, "model_folder_path", Null)
  }

  /** The entry `add_model` creates for a folder it has not seen. */
  function NewModel(id: string, folder: string, name: string, now: string): Dict {
    map["id" := Str(id), "model_folder_path" := Str(folder), "name" := Str(name),
        "created_at" := Str(now), "last_used" := Str(now), "ui_settings" := Obj(NewModelSettings())]
  }

  /** `model_name or Path(model_folder_path).name`. */
  function ModelName(folder: string, name: string): (r: string)
    ensures |name| > 0 ==> r == name
    ensures |name| == 0 ==> r == Name(folder)
  {
    if |name| > 0 then name else Name(folder)
  }

  /**
    `add_model` on an already resolved folder path: a known folder moves
    its entry to the front, stamps its `last_used` and answers its
    identifier; a new folder is pushed at the front with the new-model
    settings and the fresh identifier `newId`. The list is not cut.
   */
  function AddModel(models: seq<Dict>, folder: string, name: string, newId: string, now: string): (r: (seq<Dict>, Value))
    ensures HasKey(models, FolderOf, Str(folder)) ==>
              exists i :: FirstKeyed(models, FolderOf, Str(folder), i)
                          && |r.0| == |models|
                          && r.0[0] == models[i]["last_used" := Str(now)]
                          && r.0[1..] == models[..i] + models[i + 1..]
                          && r.1 == IdOf(models[i])
    ensures !HasKey(models, FolderOf, Str(folder)) ==>
              && |r.0| == |models| + 1
              && r.0[1..] == models
              && r.0[0] == NewModel(newId, folder, ModelName(folder, name), now)
              && r.1 == Str(newId)
  {
    match Find(models, FolderOf, Str(folder))
    case Some(i) =>
      var moved := MoveToFront(models, i);
      (moved[0 := moved[0]["last_used" := Str(now)]], IdOf(models[i]))
    case None =>
      (PushFront(models, NewModel(newId, folder, ModelName(folder, name), now), None), Str(newId))
  }

  /** Stamping `last_used` keeps the folder path and the identifier. */
  lemma StampKeepsKeys(entry: Dict, now: string)
    ensures FolderOf(entry["last_used" := Str(now)]) == FolderOf(entry)
    ensures IdOf(entry["last_used" := Str(now)]) == IdOf(entry)
  {
    assert "last_used" != "model_folder_path" by { assert |"last_used"| != |"model_folder_path"|; }
    assert "last_used" != "id" by { assert |"last_used"| != |"id"|; }
  }

  /** Adding keeps folder paths pairwise distinct, and the added folder is the newest entry. */
  lemma AddKeepsFoldersDistinct(models: seq<Dict>, folder: string, name: string, newId: string, now: string)
    requires DistinctKeys(models, FolderOf)
    ensures var added := AddModel(models, folder, name, newId, now).0;
            DistinctKeys(added, FolderOf) && FolderOf(added[0]) == Str(folder)
  {
    var added := AddModel(models, folder, name, newId, now).0;
    match Find(models, FolderOf, Str(folder))
    case Some(i) =>
      var moved := MoveToFront(models, i);
      MoveToFrontDistinct(models, FolderOf, i);
      StampKeepsKeys(moved[0], now);
      assert added == moved[0 := moved[0]["last_used" := Str(now)]];
      forall p, q | 0 <= p < q < |added| ensures FolderOf(added[p]) != FolderOf(added[q]) {
        assert FolderOf(added[p]) == FolderOf(moved[p]);
      }
    case None =>
      PushFrontDistinct(models, FolderOf, NewModel(newId, folder, ModelName(folder, name), now), None);
  }

  /** Adding the same folder again keeps the list length and answers the same identifier. */
  lemma ReAddAnswersSameId(models: seq<Dict>, folder: string, name: string, newId: string, now: string,
                           name2: string, newId2: string, now2: string)
    requires !HasKey(models, FolderOf, Str(folder))
    ensures var (once, id1) := AddModel(models, folder, name, newId, now);
            var (twice, id2) := AddModel(once, folder, name2, newId2, now2);
            id2 == id1 && |twice| == |once| && twice[1..] == once[1..]
  {
    var (once, id1) := AddModel(models, folder, name, newId, now);
    assert FolderOf(once[0]) == Str(folder);
    FindFirstAtFront(once, FolderOf, Str(folder));
  }

  /** An entry keyed `k` at the front is the first one. */
  lemma FindFirstAtFront<E, K>(xs: seq<E>, key: E -> K, k: K)
    requires |xs| > 0 && key(xs[0]) == k
    ensures HasKey(xs, key, k) && FirstKeyed(xs, key, k, 0)
  {
  }

  /** `get_last_model`: the newest entry, `None` for an empty history. */
  function GetLastModel(models: seq<Dict>): (r: Option<Dict>)
    ensures r.None? <==> |models| == 0
    ensures r.Some? ==> r.value == models[0]
  {
    if |models| > 0 then Some(models[0]) else None
  }

  /** After adding, `get_last_model` answers the entry of the added folder. */
  lemma AddedModelIsLast(models: seq<Dict>, folder: string, name: string, newId: string, now: string)
    ensures var added := AddModel(models, folder, name, newId, now);
            GetLastModel(added.0).Some? && FolderOf(GetLastModel(added.0).value) == Str(folder)
            && IdOf(GetLastModel(added.0).value) == added.1
  {
    match Find(models, FolderOf, Str(folder))
    case Some(i) =>
      StampKeepsKeys(models[i], now);
    case None =>
  }

  // ---------------------------------------------------------------------------
  // Removing

  /** `remove_model`: deletes only the first entry with the identifier; false when there is none. */
  function RemoveModel(models: seq<Dict>, id: string): (r: (seq<Dict>, bool))
    ensures r.1 <==> HasKey(models, IdOf, Str(id))
    ensures !r.1 ==> r.0 == models
    ensures r.1 ==> exists i :: FirstKeyed(models, IdOf, Str(id), i) && r.0 == RemoveAt(models, i)
  {
    match Find(models, IdOf, Str(id))
    case None => (models, false)
    case Some(i) => (RemoveAt(models, i), true)
  }

  /**
    With distinct identifiers, deleting the first match is the same as
    filtering out every match, as the model history does.
   */
  lemma RemoveFirstIsRemoveAll(models: seq<Dict>, id: string)
    requires DistinctKeys(models, IdOf)
    ensures RemoveModel(models, id) == RemoveById(models, id)
  {
    if HasKey(models, IdOf, Str(id)) {
      var i :| 0 <= i < |models| && IdOf(models[i]) == Str(id) && RemoveById(models, id).0 == RemoveAt(models, i);
      FindUnique(models, IdOf, Str(id), i);
    }
  }

  // ---------------------------------------------------------------------------
  // Per-model UI settings

  /**
    `update_ui_settings`: merges the given keys over the stored settings of
    the first entry with the identifier and stamps `last_used`. A missing
    `ui_settings` (a `KeyError`) or a non-dictionary one raises.
   */
  function UpdateUiSettings(models: seq<Dict>, id: string, settings: Dict, now: string): (r: UiUpdate)
    ensures r == Unknown <==> !HasKey(models, IdOf, Str(id))
    ensures r.Updated? ==>
              exists i :: FirstKeyed(models, IdOf, Str(id), i)
                          && "ui_settings" in models[i] && models[i]["ui_settings"].Obj?
                          && r.entries == models[i := models[i]["ui_settings" := Obj(Update(models[i]["ui_settings"].fields, settings))]
                                                               ["last_used" := Str(now)]]
    ensures r == Raised <==>
              exists i :: FirstKeyed(models, IdOf, Str(id), i) && !("ui_settings" in models[i] && models[i]["ui_settings"].Obj?)
  {
    match Find(models, IdOf, Str(id))
    case None => Unknown
    case Some(i) =>
      assert forall j :: FirstKeyed(models, IdOf, Str(id), j) ==> j == i by {
        forall j | FirstKeyed(models, IdOf, Str(id), j) ensures j == i {
          assert !(j < i) && !(i < j);
        }
      }
      var entry := models[i];
      if "ui_settings" in entry && entry["ui_settings"].Obj? then
        Updated(models[i := entry["ui_settings" := Obj(Update(entry["ui_settings"].fields, settings))]["last_used" := Str(now)]])
      else Raised
  }

  /**
    `get_ui_settings`: a copy of the stored settings of the first entry
    with the identifier, or the fallback defaults for an unknown one.
    `None` when the entry has no `ui_settings` (a `KeyError`) or holds a
    value without `.copy()` (only dictionaries and lists have one).
   */
  function GetUiSettings(models: seq<Dict>, id: string): (r: Option<Value>)
    ensures !HasKey(models, IdOf, Str(id)) ==> r == Some(Obj(FallbackSettings()))
    ensures HasKey(models, IdOf, Str(id)) ==>
              exists i :: FirstKeyed(models, IdOf, Str(id), i)
                          && (r.Some? <==> "ui_settings" in models[i] && (models[i]["ui_settings"].Obj? || models[i]["ui_settings"].List?))
                          && (r.Some? ==> r.value == models[i]["ui_settings"])
  {
    match Find(models, IdOf, Str(id))
    case None => Some(Obj(FallbackSettings()))
    case Some(i) =>
      if "ui_settings" in models[i] && (models[i]["ui_settings"].Obj? || models[i]["ui_settings"].List?)
      then Some(models[i]["ui_settings"])
      else None
  }

  /** After a successful update, reading back gives the stored settings with the new keys on top. */
  lemma UpdateThenGet(models: seq<Dict>, id: string, settings: Dict, now: string)
    requires UpdateUiSettings(models, id, settings, now).Updated?
    ensures var after := UpdateUiSettings(models, id, settings, now).entries;
            var v := GetUiSettings(after, id);
            v.Some? && v.value.Obj? && settings.Keys <= v.value.fields.Keys
            && forall k :: k in settings ==> v.value.fields[k] == settings[k]
  {
    var after := UpdateUiSettings(models, id, settings, now).entries;
    var i :| FirstKeyed(models, IdOf, Str(id), i)
             && "ui_settings" in models[i] && models[i]["ui_settings"].Obj?
             && after == models[i := models[i]["ui_settings" := Obj(Update(models[i]["ui_settings"].fields, settings))]
                                               ["last_used" := Str(now)]];
    var merged := models[i]["ui_settings" := Obj(Update(models[i]["ui_settings"].fields, settings))];
    StampKeepsKeys(merged, now);
    assert after[i]["ui_settings"] == Obj(Update(models[i]["ui_settings"].fields, settings)) by {
      assert "last_used" != "ui_settings" by { assert |"last_used"| != |"ui_settings"|; }
    }
    assert IdOf(after[i]) == IdOf(models[i]) by {
      assert "ui_settings" != "id" by { assert |"ui_settings"| != |"id"|; }
    }
    assert FirstKeyed(after, IdOf, Str(id), i);
    FirstKeyedUnique(after, IdOf, Str(id), i);
  }

  /** The first entry keyed `k` is the one `Find` answers. */
  lemma FirstKeyedUnique<E, K>(xs: seq<E>, key: E -> K, k: K, i: int)
    requires FirstKeyed(xs, key, k, i)
    ensures Find(xs, key, k) == Some(i as nat)
  {
    var r := Find(xs, key, k);
    assert HasKey(xs, key, k);
    assert !(r.value < i) && !(i < r.value);
  }

  /** A freshly added model reads back the new-model settings. */
  lemma NewModelReadsDefaults(models: seq<Dict>, folder: string, name: string, newId: string, now: string)
    requires !HasKey(models, FolderOf, Str(folder))
    ensures GetUiSettings(AddModel(models, folder, name, newId, now).0, newId) == Some(Obj(NewModelSettings()))
  {
    var added := AddModel(models, folder, name, newId, now).0;
    assert IdOf(added[0]) == Str(newId);
    FirstKeyedUnique(added, IdOf, Str(newId), 0);
  }

  // ---------------------------------------------------------------------------
  // Loading

  /** The chain of `setdefault` calls `load_history` applies to one `ui_settings` dictionary. */
  function FillUiDefaults(ui: Dict): (r: Dict)
    ensures r.Keys == ui.Keys + LoadDefaults().Keys
    ensures forall k :: k in ui ==> r[k] == ui[k]
    ensures forall k :: k in LoadDefaults() && k !in ui ==> r[k] == LoadDefaults()[k]
  {
    var d := LoadDefaults();
    SetDefault(SetDefault(SetDefault(SetDefault(SetDefault(ui,
      "zoom_percent", d["zoom_percent"]),
      "h_position", d["h_position"]),
      "v_position", d["v_position"]),
      "minimap_visible", d["minimap_visible"]),
      "background_settings", d["background_settings"])
  }

  /** Filling twice is filling once. */
  lemma FillUiDefaultsIdempotent(ui: Dict)
    ensures FillUiDefaults(FillUiDefaults(ui)) == FillUiDefaults(ui)
  {
  }

  /** Loading leaves the settings of a model added in this session untouched. */
  lemma NewModelSurvivesLoad()
    ensures FillUiDefaults(NewModelSettings()) == NewModelSettings()
  {
    LoadDefaultsAgreeWithNewModel();
  }

  /**
    One iteration of the loading loop: `None` when the entry is not a
    dictionary or its `ui_settings` is not one (`setdefault` raises);
    otherwise the entry with its settings filled, and whether any key
    was added.
   */
  function LoadEntry(v: Value): (r: Option<(Dict, bool)>)
    ensures r.None? <==> !v.Obj? || ("ui_settings" in v.fields && !v.fields["ui_settings"].Obj?)
  {
    if !v.Obj? then None
    else
      var ui := Get(v.fields, "ui_settings", Obj(map[]));
      if !ui.Obj? then None
      else Some((v.fields["ui_settings" := Obj(FillUiDefaults(ui.fields))],
                 "ui_settings" !in v.fields || !(LoadDefaults().Keys <= ui.fields.Keys)))
  }

  /** What loading makes of one stored entry: only missing settings keys are added. */
  lemma LoadEntrySpec(v: Value)
    requires LoadEntry(v).Some?
    ensures var (entry, added) := LoadEntry(v).value;
            && entry.Keys == v.fields.Keys + {"ui_settings"}
            && (forall k :: k in v.fields && k != "ui_settings" ==> entry[k] == v.fields[k])
            && entry["ui_settings"].Obj?
            && var before := Get(v.fields, "ui_settings", Obj(map[])).fields;
               && entry["ui_settings"].fields.Keys == before.Keys + LoadDefaults().Keys
               && (forall k :: k in before ==> entry["ui_settings"].fields[k] == before[k])
               && (added <==> "ui_settings" !in v.fields || exists k :: k in LoadDefaults() && k !in before)
  {
  }

  /**
    The defaulting part of `load_history`: a missing file, a parse error, a
    top level that is not a dictionary, or any entry that makes `setdefault`
    raise gives an empty history; otherwise every entry of `models` is
    filled. A `models` value that is not a list reads as empty.
   */
  method LoadHistory(fileExists: bool, parsed: Option<Value>) returns (r: seq<Dict>)
    ensures !fileExists || parsed.None? || !parsed.value.Obj? ==> r == []
    ensures fileExists && parsed.Some? && parsed.value.Obj? && "models" in parsed.value.fields
            && parsed.value.fields["models"].List? ==>
              var items := parsed.value.fields["models"].items;
              && ((exists i :: FailsAt(items, LoadEntry, i)) ==> r == [])
              && ((forall i :: 0 <= i < |items| ==> !FailsAt(items, LoadEntry, i)) ==>
                    |r| == |items| && forall i :: 0 <= i < |items| ==> MappedAt(items, LoadEntry, r, i))
    ensures |r| > 0 ==> fileExists && parsed.Some? && parsed.value.Obj? && "models" in parsed.value.fields
  {
    if !fileExists || parsed.None? || !parsed.value.Obj? {
      return [];
    }
    var models := Get(parsed.value.fields, "models", List([]));
    if !models.List? {
      return [];
    }
    var filled := MapOrFail(models.items, LoadEntry);
    if filled.None? {
      return [];
    }
    r := filled.value.0;
  }
}

=== FILE: main_window.dfy ===
/**
  The data handling inside ui/main_window.py: starting the lip sync of a
  WAV file part-way through, the vowel settings sent to the Live2D viewer,
  trimming trailing silence and keeping the splitter between the two main
  panes in proportion. Widgets, the viewer's script and audio playback are
  left out.
 */
module MainWindow {
  import opened Common
  import opened Json
  import opened VowelFrames
  import opened Samples

  // ---------------------------------------------------------------------------
  // Starting the WAV lip sync at a position

  /** `[f for f in frames if f.timestamp >= start]`. */
  function FramesFrom(fs: seq<VowelFrame>, start: real): (r: seq<VowelFrame>)
    ensures |r| <= |fs|
    ensures forall k :: 0 <= k < |r| ==> r[k].timestamp >= start && r[k] in fs
    ensures forall k :: 0 <= k < |fs| && fs[k].timestamp >= start ==> fs[k] in r
  {
    if |fs| == 0 then []
    else
      var rest := FramesFrom(fs[1..], start);
      assert forall k :: 1 <= k < |fs| ==> fs[k] == fs[1..][k - 1];
      if fs[0].timestamp >= start then [fs[0]] + rest else rest
  }

  /** Filtering keeps order: the frames kept from `a + b` are those kept from `a`, then those from `b`. */
  lemma {:induction false} FramesFromAppend(a: seq<VowelFrame>, b: seq<VowelFrame>, start: real)
    ensures FramesFrom(a + b, start) == FramesFrom(a, start) + FramesFrom(b, start)
  {
    if |a| == 0 {
      assert a + b == b;
    } else {
      assert (a + b)[1..] == a[1..] + b;
      FramesFromAppend(a[1..], b, start);
    }
  }

  /** Every frame moved `start` seconds earlier, all other fields kept. */
  function ShiftFrames(fs: seq<VowelFrame>, start: real): (r: seq<VowelFrame>)
    ensures |r| == |fs|
    ensures forall k :: 0 <= k < |fs| ==> r[k] == fs[k].(timestamp := fs[k].timestamp - start)
  {
    seq(|fs|, k requires 0 <= k < |fs| => fs[k].(timestamp := fs[k].timestamp - start))
  }

  /** Shifting back by the same amount restores the frames. */
  lemma ShiftRoundTrip(fs: seq<VowelFrame>, start: real)
    ensures ShiftFrames(ShiftFrames(fs, start), -start) == fs
  {
  }

  /** What `_start_wav_lipsync` sends to the viewer. */
  datatype WavLipSync = WavLipSync(text: string, duration: real, frames: seq<VowelFrame>)

  /**
    `_start_wav_lipsync`: nothing is sent without lip-sync data, without a
    loaded model, or when no frame starts at or after the position; else
    the frames from the position on, moved so the position is time 0, and
    the remaining duration.
   */
  function StartWavLipSync(data: Option<LipSyncData>, modelLoaded: bool, start: real): (r: Option<WavLipSync>)
    ensures r.None? <==> data.None? || !modelLoaded || |FramesFrom(data.value.frames, start)| == 0
    ensures r.Some? ==> && r.value.text == data.value.text
                        && r.value.duration == data.value.totalDuration - start
                        && r.value.frames == ShiftFrames(FramesFrom(data.value.frames, start), start)
                        && forall k :: 0 <= k < |r.value.frames| ==> r.value.frames[k].timestamp >= 0.0
  {
    if data.None? || !modelLoaded then None
    else
      var kept := FramesFrom(data.value.frames, start);
      if |kept| == 0 then None
      else Some(WavLipSync(data.value.text, data.value.totalDuration - start, ShiftFrames(kept, start)))
  }

  predicate PositiveDurations(fs: seq<VowelFrame>) {
    forall k :: 0 <= k < |fs| ==> fs[k].duration > 0.0
  }

  /** Back-to-back frames of positive length start strictly later and later. */
  lemma {:induction false} TimestampsIncrease(fs: seq<VowelFrame>, start: real, a: nat, b: nat)
    requires ContiguousFrom(fs, start) && PositiveDurations(fs)
    requires a < b < |fs|
    ensures fs[a].timestamp < fs[b].timestamp
    decreases b - a
  {
    if b > a + 1 {
      TimestampsIncrease(fs, start, a, b - 1);
    }
    assert fs[b].timestamp == fs[b - 1].timestamp + fs[b - 1].duration;
  }

  predicate Increasing(fs: seq<VowelFrame>) {
    forall a, b :: 0 <= a < b < |fs| ==> fs[a].timestamp < fs[b].timestamp
  }

  /** When no frame starts before `start`, filtering keeps them all. */
  lemma {:induction false} FramesFromAll(fs: seq<VowelFrame>, start: real)
    requires forall k :: 0 <= k < |fs| ==> fs[k].timestamp >= start
    ensures FramesFrom(fs, start) == fs
  {
    if |fs| > 0 {
      FramesFromAll(fs[1..], start);
    }
  }

  /** In an increasing timeline, filtering from the start of frame `j` keeps exactly the frames from `j` on. */
  lemma {:induction false} FramesFromIncreasing(fs: seq<VowelFrame>, j: nat)
    requires Increasing(fs) && j < |fs|
    ensures FramesFrom(fs, fs[j].timestamp) == fs[j..]
  {
    var t := fs[j].timestamp;
    if j == 0 {
      FramesFromAll(fs, t);
    } else {
      assert fs[0].timestamp < t;
      assert Increasing(fs[1..]);
      assert fs[1..][j - 1] == fs[j];
      FramesFromIncreasing(fs[1..], j - 1);
      assert fs[1..][j - 1..] == fs[j..];
    }
  }

  /**
    Starting at the beginning of a frame of a back-to-back timeline sends
    that frame and every later one, again back to back from time 0.
   */
  lemma StartAtFrame(data: LipSyncData, j: nat)
    requires ContiguousFrom(data.frames, 0.0) && PositiveDurations(data.frames)
    requires j < |data.frames|
    ensures var r := StartWavLipSync(Some(data), true, data.frames[j].timestamp);
            && r.Some?
            && |r.value.frames| == |data.frames| - j
            && ContiguousFrom(r.value.frames, 0.0)
  {
    var fs := data.frames;
    ContiguousIsIncreasing(fs);
    FramesFromIncreasing(fs, j);
    ShiftedSuffixContiguous(fs, j);
  }

  lemma ContiguousIsIncreasing(fs: seq<VowelFrame>)
    requires ContiguousFrom(fs, 0.0) && PositiveDurations(fs)
    ensures Increasing(fs)
  {
    forall a, b | 0 <= a < b < |fs| ensures fs[a].timestamp < fs[b].timestamp {
      TimestampsIncrease(fs, 0.0, a, b);
    }
  }

  /** The frames from `j` on, moved to start at 0, are still back to back. */
  lemma ShiftedSuffixContiguous(fs: seq<VowelFrame>, j: nat)
    requires ContiguousFrom(fs, 0.0) && j < |fs|
    ensures ContiguousFrom(ShiftFrames(fs[j..], fs[j].timestamp), 0.0)
  {
    var shifted := ShiftFrames(fs[j..], fs[j].timestamp);
    forall k | 0 <= k < |shifted| - 1
      ensures shifted[k + 1].timestamp == shifted[k].timestamp + shifted[k].duration
    {
      assert fs[j + k + 1].timestamp == fs[j + k].timestamp + fs[j + k].duration;
    }
  }

  // ---------------------------------------------------------------------------
  // Vowel settings for the viewer

  /** `max(0, min(1, mouth_open / 100.0))`. */
  function OpenLevel(mouthOpen: real): (r: real)
    ensures 0.0 <= r <= 1.0
    ensures 0.0 <= mouthOpen <= 100.0 ==> r == mouthOpen / 100.0
    ensures mouthOpen <= 0.0 ==> r == 0.0
    ensures mouthOpen >= 100.0 ==> r == 1.0
  {
    ClampR(mouthOpen / 100.0, 0.0, 1.0)
  }

  /** `max(-1, min(1, mouth_form / 100.0))`. */
  function FormLevel(mouthForm: real): (r: real)
    ensures -1.0 <= r <= 1.0
    ensures -100.0 <= mouthForm <= 100.0 ==> r == mouthForm / 100.0
    ensures mouthForm <= -100.0 ==> r == -1.0
    ensures mouthForm >= 100.0 ==> r == 1.0
  {
    ClampR(mouthForm / 100.0, -1.0, 1.0)
  }

  /** A vowel's `mouth_open` read as a number, 0 when absent; `None` when it is not a number. */
  function OpenParam(params: Dict): Option<real> {
    NumberOf(Get(params, "mouth_open", Int(0)))
  }

  /** A vowel's `mouth_form` read as a number, 0 when absent; `None` when it is not a number. */
  function FormParam(params: Dict): Option<real> {
    NumberOf(Get(params, "mouth_form", Int(0)))
  }

  /**
    The entry for one vowel: its `open` and `form` levels after
    `round(..., 3)`, which the caller supplies as `round3`. `None` when a
    level is not a number.
   */
  function VowelShape(params: Dict, round3: real -> real): (r: Option<Dict>)
    ensures r.None? <==> OpenParam(params).None? || FormParam(params).None?
    ensures r.Some? ==> && r.value.Keys == {"open", "form"}
                        && r.value["open"] == Num(round3(OpenLevel(OpenParam(params).value)))
                        && r.value["form"] == Num(round3(FormLevel(FormParam(params).value)))
  {
    var o := OpenParam(params);
    var f := FormParam(params);
    if o.None? || f.None? then None
    else Some(ShapeEntry(round3(OpenLevel(o.value)), round3(FormLevel(f.value))))
  }

  /** The `{"open": ..., "form": ...}` dictionary sent for one vowel. */
  function ShapeEntry(open: real, form: real): (d: Dict)
    ensures d.Keys == {"open", "form"} && d["open"] == Num(open) && d["form"] == Num(form)
  {
    map["open" := Num(open), "form" := Num(form)]
  }

  /** The `basic` part: `None` when it is not a dictionary or a scale is not a number. */
  function BasicPart(basic: Value): (r: Option<Dict>)
    ensures r.None? <==> !basic.Obj? || NumberOf(Get(basic.fields, "sensitivity", Int(100))).None?
                         || NumberOf(Get(basic.fields, "mouth_open_scale", Int(100))).None?
    ensures r.Some? ==> && r.value.Keys == {"enabled", "sensitivity", "mouth_scale"}
                        && r.value["enabled"] == Get(basic.fields, "enabled", Bool(true))
                        && r.value["sensitivity"] == Num(NumberOf(Get(basic.fields, "sensitivity", Int(100))).value / 100.0)
                        && r.value["mouth_scale"] == Num(NumberOf(Get(basic.fields, "mouth_open_scale", Int(100))).value / 100.0)
  {
    if !basic.Obj? then None
    else
      var sensitivity := NumberOf(Get(basic.fields, "sensitivity", Int(100)));
      var scale := NumberOf(Get(basic.fields, "mouth_open_scale", Int(100)));
      if sensitivity.None? || scale.None? then None
      else Some(map["enabled" := Get(basic.fields, "enabled", Bool(true)),
                    "sensitivity" := Num(sensitivity.value / 100.0),
                    "mouth_scale" := Num(scale.value / 100.0)])
  }

  /** A vowel whose parameters are a dictionary that cannot be read. */
  predicate BadVowel(phoneme: Dict, v: string, round3: real -> real) {
    v in phoneme && phoneme[v].Obj? && VowelShape(phoneme[v].fields, round3).None?
  }

  /**
    The `phoneme` part: one entry per vowel whose parameters are a
    dictionary, others skipped; `None` when it is not a dictionary or some
    entry cannot be read.
   */
  function VowelsPart(phoneme: Value, round3: real -> real): (r: Option<Dict>)
    ensures r.None? <==> !phoneme.Obj? || exists v :: BadVowel(phoneme.fields, v, round3)
    ensures r.Some? ==> && r.value.Keys == set v | v in phoneme.fields && phoneme.fields[v].Obj?
    ensures r.Some? ==> phoneme.Obj? && forall v :: v in phoneme.fields && phoneme.fields[v].Obj? ==>
                          && VowelShape(phoneme.fields[v].fields, round3).Some?
                          && r.value[v] == Obj(VowelShape(phoneme.fields[v].fields, round3).value)
  {
    if !phoneme.Obj? then None
    else
      var m := phoneme.fields;
      if exists v :: v in m && BadVowel(m, v, round3) then None
      else Some(map v | v in m && m[v].Obj? :: Obj(VowelShape(m[v].fields, round3).value))
  }

  /**
    `_send_simple_lipsync_settings`: the settings dictionary sent to the
    viewer; `None` when building it raises (the call then sends nothing).
   */
  function SimpleSettings(settings: Dict, round3: real -> real): (r: Option<Dict>)
    ensures "basic" !in settings && "phoneme" !in settings ==> r == Some(map[])
    ensures r.None? <==> ("basic" in settings && BasicPart(settings["basic"]).None?)
                         || ("phoneme" in settings && VowelsPart(settings["phoneme"], round3).None?)
    ensures r.Some? && "basic" in settings ==>
              forall k :: k in BasicPart(settings["basic"]).value ==> k in r.value && r.value[k] == BasicPart(settings["basic"]).value[k]
    ensures r.Some? && "phoneme" in settings ==>
              "vowels" in r.value && r.value["vowels"] == Obj(VowelsPart(settings["phoneme"], round3).value)
    ensures r.Some? ==> r.value.Keys == (if "basic" in settings then {"enabled", "sensitivity", "mouth_scale"} else {})
                                        + (if "phoneme" in settings then {"vowels"} else {})
  {
    var basic := if "basic" in settings then BasicPart(settings["basic"]) else Some(map[]);
    var vowels := if "phoneme" in settings then VowelsPart(settings["phoneme"], round3) else None;
    if basic.None? then None
    else if "phoneme" !in settings then basic
    else if vowels.None? then None
    else Some(WithVowels(basic.value, vowels.value))
  }

  /** Adds the `vowels` entry to the basic part. */
  function WithVowels(basic: Dict, vowels: Dict): (r: Dict)
    requires basic.Keys <= {"enabled", "sensitivity", "mouth_scale"}
    ensures r.Keys == basic.Keys + {"vowels"}
    ensures r["vowels"] == Obj(vowels)
    ensures forall k :: k in basic ==> r[k] == basic[k]
  {
    assert "vowels" !in basic;
    basic["vowels" := Obj(vowels)]
  }

  /**
    With exact rounding, every vowel level the viewer receives is within
    range: `open` in [0, 1] and `form` in [-1, 1].
   */
  lemma SentLevelsInRange(settings: Dict, v: string)
    requires "phoneme" in settings
    requires SimpleSettings(settings, x => x).Some?
    requires v in SimpleSettings(settings, x => x).value["vowels"].fields
    ensures var shape := SimpleSettings(settings, x => x).value["vowels"].fields[v];
            && shape.Obj? && "open" in shape.fields && "form" in shape.fields
            && shape.fields["open"].Num? && 0.0 <= shape.fields["open"].r <= 1.0
            && shape.fields["form"].Num? && -1.0 <= shape.fields["form"].r <= 1.0
  {
  }

  // ---------------------------------------------------------------------------
  // Trimming trailing silence

  /**
    `trim_silence`: unchanged when no sample is louder than the threshold;
    otherwise cut a tenth of a second after the last loud sample.
   */
  function TrimSilence(audio: seq<real>, sampleRate: nat, threshold: real): (r: seq<real>)
    ensures |r| <= |audio| && r == audio[..|r|]
    ensures LastLoud(audio, threshold).None? ==> r == audio
    ensures LastLoud(audio, threshold).Some? ==>
              |r| == MinI(LastLoud(audio, threshold).value + TenthOfSecond(sampleRate), |audio|)
    ensures TenthOfSecond(sampleRate) >= 1 ==> forall i :: LoudAt(audio, threshold, i) ==> i < |r|
  {
    match LastLoud(audio, threshold)
    case None => audio
    case Some(last) => SliceTo(audio, last + TenthOfSecond(sampleRate))
  }

  // ---------------------------------------------------------------------------
  // The main splitter

  function Total(sizes: seq<nat>): nat {
    if |sizes| == 0 then 0 else sizes[0] + Total(sizes[1..])
  }

  /**
    `on_splitter_moved`: when the right pane is wider than 30% of the total
    it is cut to `int(0.3 * total)`; otherwise when the left pane is
    narrower than 70% it is widened to `int(0.7 * total)`; the other pane
    takes the rest. `None` when nothing is reset.
   */
  function CorrectSplitter(sizes: seq<nat>): (r: Option<(nat, nat)>)
    ensures |sizes| < 2 ==> r.None?
    ensures r.Some? ==> r.value.0 + r.value.1 == Total(sizes)
    ensures |sizes| >= 2 && sizes[1] as real > 0.3 * Total(sizes) as real ==>
              r.Some? && r.value.1 as real <= 0.3 * Total(sizes) as real < r.value.1 as real + 1.0
    ensures |sizes| >= 2 && sizes[1] as real <= 0.3 * Total(sizes) as real && (sizes[0] as real) < 0.7 * Total(sizes) as real ==>
              r.Some? && r.value.0 as real <= 0.7 * Total(sizes) as real < r.value.0 as real + 1.0
    ensures r.None? <==> |sizes| < 2 || (sizes[1] as real <= 0.3 * Total(sizes) as real && sizes[0] as real >= 0.7 * Total(sizes) as real)
  {
    var total := Total(sizes);
    var maxRight := 0.3 * total as real;
    var minLeft := 0.7 * total as real;
    if |sizes| < 2 then None
    else if sizes[1] as real > maxRight then
      var right := Trunc(maxRight);
      Some((total - right, right))
    else if (sizes[0] as real) < minLeft then
      var left := Trunc(minLeft);
      Some((left, total - left))
    else None
  }

  /** Two panes: their total is their sum. */
  lemma TotalOfTwo(l: nat, r: nat)
    ensures Total([l, r]) == l + r
  {
    assert [l, r][1..] == [r];
    assert [r][1..] == [];
    assert Total([r]) == r + Total([]);
  }

  /** After the right pane was capped, moving the splitter to that position is left alone. */
  lemma CappedRightIsStable(sizes: seq<nat>)
    requires |sizes| >= 2 && sizes[1] as real > 0.3 * Total(sizes) as real
    ensures var (l, r) := CorrectSplitter(sizes).value;
            CorrectSplitter([l, r]).None?
  {
    var (l, r) := CorrectSplitter(sizes).value;
    TotalOfTwo(l, r);
  }

  /**
    After the left pane was widened, rounding down may leave the right pane
    up to one pixel over 30%; one more correction caps it, and then nothing
    changes.
   */
  lemma WidenedLeftSettles(sizes: seq<nat>)
    requires |sizes| >= 2 && sizes[1] as real <= 0.3 * Total(sizes) as real && (sizes[0] as real) < 0.7 * Total(sizes) as real
    ensures var (l, r) := CorrectSplitter(sizes).value;
            && r as real < 0.3 * Total(sizes) as real + 1.0
            && (CorrectSplitter([l, r]).None? || CorrectSplitter([l, r]).value.1 as real <= 0.3 * Total(sizes) as real)
  {
    var (l, r) := CorrectSplitter(sizes).value;
    TotalOfTwo(l, r);
  }
}

=== FILE: model_manager.dfy ===
/**
  core/model_manager.py: the history of TTS voice models, newest first and
  capped at 20 entries, plus the display name derived from a model's path.
  The identifier of a model is the MD5 hash of its path; the hash is not
  modelled, so callers pass the identifier in. Saving the file is left out.
 */
module ModelHistory {
  import opened Common
  import opened Json
  import opened Recent
  import opened PathNames

  const MaxModels: nat := 20

  // ---------------------------------------------------------------------------
  // Default display names

  predicate IsAsciiDigit(c: char) { '0' <= c <= '9' }

  predicate IsTokenJoiner(c: char) { c == '_' || c == '-' }

  /** Number of ASCII digits at the start of `s`. */
  function LeadingDigits(s: string): (n: nat)
    ensures n <= |s|
    ensures forall j :: 0 <= j < n ==> IsAsciiDigit(s[j])
    ensures n < |s| ==> !IsAsciiDigit(s[n])
  {
    if |s| == 0 || !IsAsciiDigit(s[0]) then 0 else 1 + LeadingDigits(s[1..])
  }

  /** `[_-]?s\d+` matched against the whole of `t`, ignoring case. */
  predicate IsStepPart(t: string) {
    var a := if |t| > 0 && IsTokenJoiner(t[0]) then 1 else 0;
    a < |t| && (t[a] == 's' || t[a] == 'S')
    && var d := LeadingDigits(t[a + 1..]);
    d > 0 && a + 1 + d == |t|
  }

  /**
    `[_-]?e\d+([_-]?s\d+)?` matched against the whole of `t`, ignoring case:
    the epoch/step suffix training tools append to checkpoint names. The
    match is deterministic: a leading joiner must be consumed (it cannot be
    an `e`), and the digits are taken greedily (a digit cannot start what
    follows).
   */
  predicate IsTrainingToken(t: string) {
    var a := if |t| > 0 && IsTokenJoiner(t[0]) then 1 else 0;
    a < |t| && (t[a] == 'e' || t[a] == 'E')
    && var d := LeadingDigits(t[a + 1..]);
    d > 0 && (a + 1 + d == |t| || IsStepPart(t[a + 1 + d..]))
  }

  /** A training token runs from position `j` to the end of `s`. */
  predicate TokenAt(s: string, j: int) {
    0 <= j <= |s| && IsTrainingToken(s[j..])
  }

  /** The leftmost position in `i..n` where `p` holds. */
  function FirstFrom(p: nat -> bool, i: nat, n: nat): (r: Option<nat>)
    requires i <= n
    ensures r.Some? ==> i <= r.value <= n && p(r.value)
    ensures r.Some? ==> forall j :: i <= j < r.value ==> !p(j)
    ensures r.None? ==> forall j :: i <= j <= n ==> !p(j)
    decreases n - i
  {
    if p(i) then Some(i)
    else if i == n then None
    else FirstFrom(p, i + 1, n)
  }

  /** The leftmost position from `i` on where a training token runs to the end of `s`. */
  function TokenStartFrom(s: string, i: nat): (r: Option<nat>)
    requires i <= |s|
    ensures r.Some? ==> i <= r.value <= |s| && TokenAt(s, r.value)
    ensures r.Some? ==> forall j :: i <= j < r.value ==> !TokenAt(s, j)
    ensures r.None? ==> forall j :: i <= j <= |s| ==> !TokenAt(s, j)
  {
    var p: nat -> bool := j => TokenAt(s, j);
    assert forall j: nat :: p(j) == TokenAt(s, j);
    FirstFrom(p, i, |s|)
  }

  /**
    `re.sub(r'([_-]?e\d+([_-]?s\d+)?)$', "", s, flags=re.IGNORECASE)`: the
    leftmost match anchored at the end is removed; without one, `s` is kept.
   */
  function DropTrainingSuffix(s: string): (r: string)
    ensures |r| <= |s| && r == s[..|r|]
    ensures |r| < |s| ==> TokenAt(s, |r|)
    ensures forall j :: 0 <= j < |r| ==> !TokenAt(s, j)
    ensures |r| == |s| ==> !TokenAt(s, |s|)
  {
    match TokenStartFrom(s, 0)
    case None => s
    case Some(i) => s[..i]
  }

  /** The characters `strip("_- ")` removes. */
  predicate IsNameJoiner(c: char) { c == '_' || c == '-' || c == ' ' }

  /** `s.strip("_- ")`. */
  function StripJoiners(s: string): (r: string)
    ensures |r| <= |s|
    ensures |r| > 0 ==> !IsNameJoiner(r[0]) && !IsNameJoiner(r[|r| - 1])
    ensures (forall j :: 0 <= j < |s| ==> IsNameJoiner(s[j])) <==> |r| == 0
    decreases |s|
  {
    if |s| == 0 then s
    else if IsNameJoiner(s[0]) then
      var r := StripJoiners(s[1..]);
      assert forall j :: 1 <= j < |s| ==> s[j] == s[1..][j - 1];
      r
    else if IsNameJoiner(s[|s| - 1]) then
      var r := StripJoiners(s[..|s| - 1]);
      assert forall j :: 0 <= j < |s| - 1 ==> s[j] == s[..|s| - 1][j];
      r
    else s
  }

  /** `os.path.basename(os.path.dirname(p))`: the folder a model file sits in. */
  function ParentFolder(p: string): string {
    Basename(Dirname(p))
  }

  predicate UsableParent(parent: string) {
    |parent| > 0 && parent != "." && parent != "/"
  }

  /**
    `_pretty_default_name`: the parent folder's name when there is a usable
    one; otherwise the file's stem without a training suffix and without
    joiners at its ends; otherwise `"model"`.
   */
  function PrettyDefaultName(p: string): (r: string)
    ensures |r| > 0
    ensures UsableParent(ParentFolder(p)) ==> r == ParentFolder(p)
    ensures !UsableParent(ParentFolder(p)) && r != "model" ==>
              !IsNameJoiner(r[0]) && !IsNameJoiner(r[|r| - 1])
    ensures '/' !in r
  {
    var parent := ParentFolder(p);
    if UsableParent(parent) then parent else StemName(Name(p))
  }

  /** The file's stem without a training suffix and without joiners at its ends, or `"model"` when nothing is left. */
  function StemName(name: string): (r: string)
    requires '/' !in name
    ensures |r| > 0 && '/' !in r
    ensures r != "model" ==> !IsNameJoiner(r[0]) && !IsNameJoiner(r[|r| - 1])
  {
    var stem := StripJoiners(DropTrainingSuffix(Stem(name)));
    NoSlashKept(name);
    if |stem| > 0 then stem else "model"
  }

  /** Neither taking the stem, dropping the suffix nor stripping joiners introduces a separator. */
  lemma NoSlashKept(name: string)
    requires '/' !in name
    ensures '/' !in StripJoiners(DropTrainingSuffix(Stem(name)))
  {
    var stem := Stem(name);
    assert forall j :: 0 <= j < |stem| ==> stem[j] == name[j];
    var dropped := DropTrainingSuffix(stem);
    assert forall j :: 0 <= j < |dropped| ==> dropped[j] == stem[j];
    StripJoinersInfix(dropped);
  }

  /** Every character of the stripped string comes from the input. */
  lemma {:induction false} StripJoinersInfix(s: string)
    ensures forall c :: c in StripJoiners(s) ==> c in s
    decreases |s|
  {
    if |s| > 0 && IsNameJoiner(s[0]) {
      StripJoinersInfix(s[1..]);
    } else if |s| > 0 && IsNameJoiner(s[|s| - 1]) {
      StripJoinersInfix(s[..|s| - 1]);
    }
  }

  /** The current directory has neither a usable parent nor a stem, so it is named `model`. */
  lemma CurrentDirectoryIsModel()
    ensures PrettyDefaultName(".") == "model"
  {
    DotHasNoName();
    assert AfterLast(".", '/') == 0;
    assert ParentFolder(".") == "";
    assert Stem("") == "";
  }

  /** A checkpoint named after its epoch and step gets the name without them. */
  lemma CheckpointSuffixIsDropped()
    ensures PrettyDefaultName("voice_e30_s300.pth") == "voice"
  {
    CheckpointHasNoFolder();
    CheckpointStem();
    CheckpointToken();
    VoiceHasNoJoiners();
    assert !UsableParent("");
  }

  lemma VoiceHasNoJoiners()
    ensures StripJoiners("voice") == "voice"
  {
    assert !IsNameJoiner("voice"[0]) && !IsNameJoiner("voice"[4]);
  }

  lemma CheckpointHasNoFolder()
    ensures ParentFolder("voice_e30_s300.pth") == ""
    ensures Name("voice_e30_s300.pth") == "voice_e30_s300.pth"
  {
    var name := "voice_e30_s300.pth";
    assert forall j :: 0 <= j < |name| ==> name[j] != '/';
    assert AfterLast(name, '/') == 0;
    assert "" + name == name;
    NameOfChild("", name);
  }

  lemma CheckpointStem()
    ensures Stem("voice_e30_s300.pth") == "voice_e30_s300"
  {
    var name := "voice_e30_s300.pth";
    assert name[14] == '.' && forall j :: 15 <= j < |name| ==> name[j] != '.';
    assert AfterLast(name, '.') == 15;
  }

  lemma CheckpointTokenAtFive()
    ensures TokenAt("voice_e30_s300", 5)
  {
    assert "voice_e30_s300"[5..] == "_e30_s300";
    assert LeadingDigits("30_s300") == 2;
    assert LeadingDigits("300") == 3;
    assert IsStepPart("_s300");
  }

  lemma CheckpointNoEarlierToken(j: nat)
    requires j < 5
    ensures !TokenAt("voice_e30_s300", j)
  {
    var s := "voice_e30_s300";
    var t := s[j..];
    assert t[0] == s[j];
    if j < 4 {
      assert s[j] in "voic";
      NoTokenAtLetter(t);
    } else {
      assert t[1] == '_';
      NoTokenBeforeJoiner(t);
    }
  }

  /** A token starts with a joiner or an `e`. */
  lemma NoTokenAtLetter(t: string)
    requires |t| > 0 && !IsTokenJoiner(t[0]) && t[0] != 'e' && t[0] != 'E'
    ensures !IsTrainingToken(t)
  {
  }

  /** After a leading `e`, a token needs a digit. */
  lemma NoTokenBeforeJoiner(t: string)
    requires |t| > 1 && !IsTokenJoiner(t[0]) && !IsAsciiDigit(t[1])
    ensures !IsTrainingToken(t)
  {
    assert t[1..][0] == t[1];
  }

  lemma CheckpointToken()
    ensures DropTrainingSuffix("voice_e30_s300") == "voice"
  {
    var stem := "voice_e30_s300";
    CheckpointTokenAtFive();
    forall j | 0 <= j < 5 ensures !TokenAt(stem, j) {
      CheckpointNoEarlierToken(j);
    }
    var r := DropTrainingSuffix(stem);
    assert |r| == 5;
  }

  /**
    A model file inside a named folder is named after the folder, whatever
    the file is called: `models/alice/alice_e100.pth` is named `alice`.
   */
  lemma FolderNameWins(prefix: string, folder: string, file: string)
    requires |prefix| == 0 || prefix[|prefix| - 1] == '/'
    requires '/' !in folder && '/' !in file
    requires |folder| > 0 && folder != "."
    ensures PrettyDefaultName(prefix + folder + "/" + file) == folder
  {
    var dir := prefix + folder;
    assert prefix + folder + "/" + file == dir + "/" + file;
    DirnameOfChild(dir, file);
    BasenameOfChild(prefix, folder);
    assert folder != "/" by {
      assert folder[0] != '/';
    }
  }

  // ---------------------------------------------------------------------------
  // The history list

  /** The entry `add_model` creates. */
  function NewEntry(id: string, name: string, modelPath: string, configPath: string, stylePath: string): (d: Dict)
    ensures "id" in d && d["id"] == Str(id) && "name" in d && d["name"] == Str(name)
  {
    map["id" := Str(id), "name" := Str(name), "note" := Str(""),
        "model_path" := Str(modelPath), "config_path" := Str(configPath), "style_path" := Str(stylePath)]
  }

  /**
    `add_model`: a known identifier moves its entry to the front and keeps
    the length; a new one is pushed at the front under the custom name (when
    non-empty) or the default name, and the list is cut to 20 entries.
   */
  function AddModel(models: seq<Dict>, modelPath: string, configPath: string, stylePath: string,
                    customName: Option<string>, modelId: string): (r: (seq<Dict>, string))
    ensures r.1 == modelId
    ensures |r.0| > 0 && IdOf(r.0[0]) == Str(modelId)
    ensures HasKey(models, IdOf, Str(modelId)) ==>
              exists i :: FirstKeyed(models, IdOf, Str(modelId), i) && r.0[0] == models[i]
                          && r.0[1..] == models[..i] + models[i + 1..]
    ensures !HasKey(models, IdOf, Str(modelId)) ==>
              && |r.0| == MinNat(|models| + 1, MaxModels)
              && r.0[1..] == models[..|r.0| - 1]
              && "name" in r.0[0] && r.0[0]["name"] == Str(if customName.Some? && |customName.value| > 0 then customName.value
                                       else PrettyDefaultName(modelPath))
  {
    match Find(models, IdOf, Str(modelId))
    case Some(i) => (MoveToFront(models, i), modelId)
    case None =>
      var name := if customName.Some? && |customName.value| > 0 then customName.value else PrettyDefaultName(modelPath);
      (PushFront(models, NewEntry(modelId, name, modelPath, configPath, stylePath), Some(MaxModels)), modelId)
  }

  /** Adding keeps identifiers pairwise distinct. */
  lemma AddKeepsIdsDistinct(models: seq<Dict>, modelPath: string, configPath: string, stylePath: string,
                            customName: Option<string>, modelId: string)
    requires DistinctKeys(models, IdOf)
    ensures DistinctKeys(AddModel(models, modelPath, configPath, stylePath, customName, modelId).0, IdOf)
  {
    var r := AddModel(models, modelPath, configPath, stylePath, customName, modelId).0;
    match Find(models, IdOf, Str(modelId))
    case Some(i) =>
      assert r == MoveToFront(models, i);
      MoveToFrontDistinct(models, IdOf, i);
    case None =>
      var name := if customName.Some? && |customName.value| > 0 then customName.value else PrettyDefaultName(modelPath);
      var entry := NewEntry(modelId, name, modelPath, configPath, stylePath);
      assert r == PushFront(models, entry, Some(MaxModels));
      assert IdOf(entry) == Str(modelId);
      PushFrontDistinct(models, IdOf, entry, Some(MaxModels));
  }

  /** Adding the same model twice in a row leaves the list as the first addition left it. */
  lemma ReAddingIsIdempotent(models: seq<Dict>, modelPath: string, configPath: string, stylePath: string,
                             customName: Option<string>, modelId: string)
    ensures var once := AddModel(models, modelPath, configPath, stylePath, customName, modelId).0;
            AddModel(once, modelPath, configPath, stylePath, customName, modelId).0 == once
  {
    var once := AddModel(models, modelPath, configPath, stylePath, customName, modelId).0;
    AddingFrontIsNoop(once, modelPath, configPath, stylePath, customName, modelId);
  }

  /** Adding the model already at the front changes nothing. */
  lemma AddingFrontIsNoop(models: seq<Dict>, modelPath: string, configPath: string, stylePath: string,
                          customName: Option<string>, modelId: string)
    requires |models| > 0 && IdOf(models[0]) == Str(modelId)
    ensures AddModel(models, modelPath, configPath, stylePath, customName, modelId).0 == models
  {
    assert Find(models, IdOf, Str(modelId)) == Some(0);
    assert MoveToFront(models, 0) == models by {
      assert models == [models[0]] + models[1..];
    }
  }

  /** `get_model_by_id`: the first entry with that identifier. */
  function GetModelById(models: seq<Dict>, id: string): (r: Option<Dict>)
    ensures r.None? <==> !HasKey(models, IdOf, Str(id))
    ensures r.Some? ==> exists i :: FirstKeyed(models, IdOf, Str(id), i) && r.value == models[i]
  {
    match Find(models, IdOf, Str(id))
    case None => None
    case Some(i) => Some(models[i])
  }

  /**
    `remove_model`: every entry with the identifier goes, the others stay in
    order, and the answer is whether the length changed.
   */
  function RemoveModel(models: seq<Dict>, id: string): (r: (seq<Dict>, bool))
    ensures r.1 <==> HasKey(models, IdOf, Str(id))
    ensures !HasKey(r.0, IdOf, Str(id))
    ensures !r.1 ==> r.0 == models
    ensures DistinctKeys(models, IdOf) && r.1 ==>
              exists i :: 0 <= i < |models| && IdOf(models[i]) == Str(id) && r.0 == RemoveAt(models, i)
  {
    RemoveById(models, id)
  }

  /** `update_model_name`. */
  function UpdateModelName(models: seq<Dict>, id: string, newName: string): (r: (seq<Dict>, bool))
    ensures r.1 <==> HasKey(models, IdOf, Str(id))
    ensures !r.1 ==> r.0 == models
    ensures r.1 ==> exists i :: FirstKeyed(models, IdOf, Str(id), i) && |r.0| == |models|
                                && r.0[i] == models[i]["name" := Str(newName)]
                                && forall j :: 0 <= j < |models| && j != i ==> r.0[j] == models[j]
  {
    SetFieldById(models, id, "name", Str(newName))
  }

  /** `update_note`. */
  function UpdateNote(models: seq<Dict>, id: string, note: string): (r: (seq<Dict>, bool))
    ensures r.1 <==> HasKey(models, IdOf, Str(id))
    ensures !r.1 ==> r.0 == models
    ensures r.1 ==> exists i :: FirstKeyed(models, IdOf, Str(id), i) && |r.0| == |models|
                                && r.0[i] == models[i]["note" := Str(note)]
                                && forall j :: 0 <= j < |models| && j != i ==> r.0[j] == models[j]
  {
    SetFieldById(models, id, "note", Str(note))
  }
}

=== FILE: multi_text.dfy ===
/**
  ui/multi_text.py: the list of text rows the studio synthesises one after
  another. Rows are kept in insertion order (the widget's `text_rows`
  dictionary) and each has an identifier, its raw text, its synthesis
  parameters and a pause after it. Widgets, focus and scrolling are left
  out; what remains is how texts are read, split, numbered and collected.
 */
module MultiText {
  import opened Common
  import opened Text
  import opened Json
  import opened Recent

  datatype Row = Row(id: string, text: string, parameters: Dict, silenceAfter: real)

  function RowId(r: Row): string { r.id }

  /** The parameters a row created without any starts with. */
  function DefaultParameters(): Dict {
    map["style" := Str("Neutral"), "style_weight" := Num(1.0), "length_scale" := Num(0.85),
        "pitch_scale" := Num(1.0), "intonation_scale" := Num(1.0), "sdp_ratio" := Num(0.25),
        "noise" := Num(0.35)]
  }

  /** `get_text`: the row's text without surrounding whitespace. */
  function RowText(r: Row): (t: string)
    ensures Trimmed(t)
  {
    Strip(r.text)
  }

  // ---------------------------------------------------------------------------
  // Cleaning lines

  /**
    A line as `auto_split_texts` produces it: not empty, no whitespace but
    plain spaces, none at either end and never two in a row.
   */
  predicate SingleSpaced(l: string) {
    && |l| > 0 && l[0] != ' ' && l[|l| - 1] != ' '
    && (forall i :: 0 <= i < |l| && IsSpace(l[i]) ==> l[i] == ' ')
    && (forall i :: 0 <= i < |l| - 1 && l[i] == ' ' ==> l[i + 1] != ' ')
  }

  /** Words as `str.split()` produces them: non-empty, without whitespace. */
  predicate IsWord(w: string) {
    |w| > 0 && forall i :: 0 <= i < |w| ==> !IsSpace(w[i])
  }

  /** `" ".join(words)` of at least one word is single-spaced. */
  lemma {:induction false} JoinWordsSingleSpaced(ws: seq<string>)
    requires |ws| > 0
    requires forall k :: 0 <= k < |ws| ==> IsWord(ws[k])
    ensures SingleSpaced(Join(ws, " "))
  {
    if |ws| > 1 {
      var w := ws[0];
      JoinWordsSingleSpaced(ws[1..]);
      var rest := Join(ws[1..], " ");
      var l := Join(ws, " ");
      assert l == w + " " + rest;
      assert l[|l| - 1] == rest[|rest| - 1];
      assert forall i :: 0 <= i < |w| ==> l[i] == w[i];
      assert l[|w|] == ' ' && l[|w| + 1] == rest[0];
      assert forall i :: |w| < i < |l| ==> l[i] == rest[i - |w| - 1];
    }
  }

  /** The words of a string whose first word is all of it. */
  lemma WordsOfWord(w: string)
    requires IsWord(w)
    ensures Words(w) == [w]
  {
    var p := WordPrefix(w);
    assert |p| == |w|;
    assert p == w;
    assert w[|w|..] == [];
  }

  /** A leading space does not start a word. */
  lemma WordsAfterSpace(s: string)
    ensures Words(" " + s) == Words(s)
  {
    assert (" " + s)[1..] == s;
  }

  /** Past its first space, a single-spaced line is single-spaced again. */
  lemma SingleSpacedTail(l: string, n: nat)
    requires SingleSpaced(l) && n < |l| && l[n] == ' '
    ensures n + 1 < |l| && SingleSpaced(l[n + 1..])
  {
    var rest := l[n + 1..];
    assert n != |l| - 1;
    assert forall i :: 0 <= i < |rest| ==> rest[i] == l[n + 1 + i];
    assert rest[0] != ' ' by { assert l[n + 1] != ' '; }
  }

  /** A single-spaced line is its first word, a space, and the rest. */
  lemma WordsOfSpaced(l: string)
    requires SingleSpaced(l)
    requires |WordPrefix(l)| < |l|
    ensures var w := WordPrefix(l);
            && l[|w|] == ' ' && |w| > 0
            && Words(l) == [w] + Words(l[|w| + 1..])
            && l == w + " " + l[|w| + 1..]
  {
    var w := WordPrefix(l);
    assert IsSpace(l[|w|]);
    assert l[|w|] == ' ';
    assert !IsSpace(l[0]) by { assert l[0] != ' '; }
    assert |w| > 0;
    assert Words(l) == [w] + Words(l[|w|..]);
    var rest := l[|w| + 1..];
    assert l[|w|..] == " " + rest;
    WordsAfterSpace(rest);
    assert l == l[..|w|] + l[|w|..];
  }

  /** Splitting a single-spaced line and joining it back gives the line. */
  lemma {:induction false} JoinWordsOfSingleSpaced(l: string)
    requires SingleSpaced(l)
    ensures Join(Words(l), " ") == l
    decreases |l|
  {
    var w := WordPrefix(l);
    if |w| == |l| {
      assert w == l;
      WordsOfWord(l);
    } else {
      WordsOfSpaced(l);
      SingleSpacedTail(l, |w|);
      var rest := l[|w| + 1..];
      JoinWordsOfSingleSpaced(rest);
      var ws := Words(rest);
      assert Join([], " ") == "";
      assert |ws| > 0;
      assert Words(l) == [w] + ws;
      assert ([w] + ws)[1..] == ws;
    }
  }

  /** A single-spaced line has no line break. */
  lemma SingleSpacedHasNoBreak(l: string)
    requires SingleSpaced(l)
    ensures forall i :: 0 <= i < |l| ==> !IsLineBreak(l[i])
  {
    forall i | 0 <= i < |l| ensures !IsLineBreak(l[i]) {
      if IsLineBreak(l[i]) { LineBreakIsSpace(l[i]); }
    }
  }

  /** A non-empty string without line breaks is one line. */
  lemma SplitLinesOfOneLine(s: string)
    requires |s| > 0
    requires forall i :: 0 <= i < |s| ==> !IsLineBreak(s[i])
    ensures SplitLines(s) == [s]
  {
    assert FirstBreak(s) == |s|;
  }

  /**
    The body of the loop over `text.splitlines()`: strip each line, skip
    blank ones, and squeeze the rest to single spaces.
   */
  function CleanLines(raws: seq<string>): (r: seq<string>)
    ensures |r| <= |raws|
    ensures forall k :: 0 <= k < |r| ==> SingleSpaced(r[k])
  {
    if |raws| == 0 then []
    else
      match CleanLine(raws[0])
      case None => CleanLines(raws[1..])
      case Some(l) =>
        var rest := CleanLines(raws[1..]);
        AllSingleSpacedAppend([l], rest);
        [l] + rest
  }

  /** Joining two lists of single-spaced lines gives single-spaced lines. */
  lemma AllSingleSpacedAppend(a: seq<string>, b: seq<string>)
    requires forall k :: 0 <= k < |a| ==> SingleSpaced(a[k])
    requires forall k :: 0 <= k < |b| ==> SingleSpaced(b[k])
    ensures forall k :: 0 <= k < |a + b| ==> SingleSpaced((a + b)[k])
  {
    forall k | 0 <= k < |a + b| ensures SingleSpaced((a + b)[k]) {
      if k < |a| { assert (a + b)[k] == a[k]; } else { assert (a + b)[k] == b[k - |a|]; }
    }
  }

  /** One line of the loop: `None` when it is blank, else its words joined by single spaces. */
  function CleanLine(raw: string): (r: Option<string>)
    ensures r.Some? ==> SingleSpaced(r.value)
    ensures r.None? <==> |Strip(raw)| == 0 || |Words(Strip(raw))| == 0
  {
    var stripped := Strip(raw);
    if |stripped| == 0 then None
    else
      var words := Words(stripped);
      if |words| == 0 then None
      else
        JoinWordsSingleSpaced(words);
        Some(Join(words, " "))
  }

  /** The lines `auto_split_texts` takes from one row: none from a blank row. */
  function TextLines(text: string): (r: seq<string>)
    ensures forall k :: 0 <= k < |r| ==> SingleSpaced(r[k])
    ensures |Strip(text)| == 0 ==> r == []
  {
    var t := Strip(text);
    if |t| == 0 then [] else CleanLines(SplitLines(t))
  }

  /** A row that already holds one single-spaced line gives exactly that line. */
  lemma TextLinesOfSingleSpaced(l: string)
    requires SingleSpaced(l)
    ensures TextLines(l) == [l]
  {
    assert Trimmed(l) by {
      assert !IsSpace(l[0]) && !IsSpace(l[|l| - 1]);
    }
    StripTrimmed(l);
    SingleSpacedHasNoBreak(l);
    SplitLinesOfOneLine(l);
    JoinWordsOfSingleSpaced(l);
    assert CleanLines([l])[1..] == [] by {
      assert CleanLines([l][1..]) == [];
    }
  }

  /** The lines of one row. */
  function RowLines(row: Row): seq<string> {
    TextLines(row.text)
  }

  /** Each element's lines in turn. */
  function Flatten<T>(f: T -> seq<string>, xs: seq<T>): seq<string> {
    if |xs| == 0 then [] else f(xs[0]) + Flatten(f, xs[1..])
  }

  lemma {:induction false} FlattenAppend<T>(f: T -> seq<string>, a: seq<T>, b: seq<T>)
    ensures Flatten(f, a + b) == Flatten(f, a) + Flatten(f, b)
  {
    if |a| == 0 {
      assert a + b == b;
    } else {
      assert (a + b)[0] == a[0];
      assert (a + b)[1..] == a[1..] + b;
      FlattenAppend(f, a[1..], b);
    }
  }

  /** The lines of all rows, in row order and line order within a row. */
  function SplitRows(rows: seq<Row>): seq<string> {
    Flatten(RowLines, rows)
  }

  /** Every line a split finds is single-spaced. */
  lemma {:induction false} SplitRowsSingleSpaced(rows: seq<Row>)
    ensures forall k :: 0 <= k < |SplitRows(rows)| ==> SingleSpaced(SplitRows(rows)[k])
  {
    if |rows| > 0 {
      SplitRowsSingleSpaced(rows[1..]);
      AllSingleSpacedAppend(TextLines(rows[0].text), SplitRows(rows[1..]));
    }
  }

  /** Splitting keeps row order: the lines of `a + b` are the lines of `a` followed by those of `b`. */
  lemma SplitRowsAppend(a: seq<Row>, b: seq<Row>)
    ensures SplitRows(a + b) == SplitRows(a) + SplitRows(b)
  {
    FlattenAppend(RowLines, a, b);
  }

  /** `max(1, len(lines))`: at least one row always remains. */
  function RequiredRows(lines: seq<string>): (n: nat)
    ensures n >= 1 && n >= |lines|
    ensures |lines| > 0 ==> n == |lines|
  {
    if |lines| > 0 then |lines| else 1
  }

  /** `list(self.text_rows.keys())[required:]`: the rows the split deletes afterwards. */
  function ExtraRowIds(rows: seq<Row>, required: nat): (ids: seq<string>)
    ensures |rows| <= required ==> ids == []
    ensures |rows| > required ==> |ids| == |rows| - required
                                  && forall k :: 0 <= k < |ids| ==> ids[k] == rows[required + k].id
  {
    if |rows| <= required then []
    else seq(|rows| - required, k requires 0 <= k < |rows| - required => rows[required + k].id)
  }

  /**
    The rows once the batched split has finished: row `k` holds line `k`
    (an empty text when there are no lines), rows beyond the required
    number are gone, and missing rows are added with fresh identifiers
    (`freshId(j)` names the `j`-th added row) and default parameters.
   */
  function ArrangeRows(rows: seq<Row>, lines: seq<string>, freshId: nat -> string): (r: seq<Row>)
    ensures |r| == RequiredRows(lines)
    ensures forall k :: 0 <= k < |r| ==> r[k].text == (if k < |lines| then lines[k] else "")
    ensures forall k :: 0 <= k < |r| && k < |rows| ==>
              r[k].id == rows[k].id && r[k].parameters == rows[k].parameters && r[k].silenceAfter == rows[k].silenceAfter
    ensures forall k :: |rows| <= k < |r| ==>
              r[k].id == freshId(k - |rows|) && r[k].parameters == DefaultParameters() && r[k].silenceAfter == 0.0
  {
    var n := RequiredRows(lines);
    seq(n, k requires 0 <= k < n =>
      var text := if k < |lines| then lines[k] else "";
      if k < |rows| then rows[k].(text := text) else Row(freshId(k - |rows|), text, DefaultParameters(), 0.0))
  }

  /** Row `k` holds exactly line `k`, which is single-spaced. */
  predicate HoldsLine(rows: seq<Row>, lines: seq<string>, k: int) {
    0 <= k < |rows| && k < |lines| && rows[k].text == lines[k] && SingleSpaced(lines[k])
  }

  /** When every element gives exactly one line, flattening lists those lines. */
  lemma {:induction false} FlattenSingletons<T>(f: T -> seq<string>, xs: seq<T>, ys: seq<string>)
    requires |xs| == |ys|
    requires forall k :: 0 <= k < |xs| ==> f(xs[k]) == [ys[k]]
    ensures Flatten(f, xs) == ys
  {
    if |xs| > 0 {
      assert f(xs[0]) == [ys[0]];
      FlattenSingletons(f, xs[1..], ys[1..]);
      assert ys == [ys[0]] + ys[1..];
    }
  }

  /** Rows that each hold one single-spaced line give those lines back in order. */
  lemma SplitRowsOfLines(rows: seq<Row>, lines: seq<string>)
    requires |rows| == |lines|
    requires forall k :: 0 <= k < |rows| ==> HoldsLine(rows, lines, k)
    ensures SplitRows(rows) == lines
  {
    forall k | 0 <= k < |rows| ensures RowLines(rows[k]) == [lines[k]] {
      assert HoldsLine(rows, lines, k);
      TextLinesOfSingleSpaced(lines[k]);
    }
    FlattenSingletons(RowLines, rows, lines);
  }

  /**
    Auto-splitting is idempotent: splitting the rows an earlier split
    arranged finds the same lines again.
   */
  lemma AutoSplitIdempotent(rows: seq<Row>, freshId: nat -> string)
    ensures var lines := SplitRows(rows);
            SplitRows(ArrangeRows(rows, lines, freshId)) == lines
  {
    var lines := SplitRows(rows);
    if |lines| == 0 {
      SplitNothing(rows, freshId);
    } else {
      SplitRowsSingleSpaced(rows);
      ResplitLines(rows, lines, freshId);
    }
  }

  /** With no lines the split leaves one empty row, which gives no lines. */
  lemma SplitNothing(rows: seq<Row>, freshId: nat -> string)
    ensures SplitRows(ArrangeRows(rows, [], freshId)) == []
  {
    var arranged := ArrangeRows(rows, [], freshId);
    assert |arranged| == 1 && arranged[0].text == "";
    assert Strip(arranged[0].text) == "";
    assert SplitRows(arranged) == TextLines(arranged[0].text) + SplitRows(arranged[1..]);
  }

  /** Arranging single-spaced lines and splitting again gives the lines back. */
  lemma ResplitLines(rows: seq<Row>, lines: seq<string>, freshId: nat -> string)
    requires |lines| > 0
    requires forall k :: 0 <= k < |lines| ==> SingleSpaced(lines[k])
    ensures SplitRows(ArrangeRows(rows, lines, freshId)) == lines
  {
    var arranged := ArrangeRows(rows, lines, freshId);
    forall k | 0 <= k < |arranged| ensures HoldsLine(arranged, lines, k) {
    }
    SplitRowsOfLines(arranged, lines);
  }

  // ---------------------------------------------------------------------------
  // Row bookkeeping

  predicate DistinctIds(rows: seq<Row>) { DistinctKeys(rows, RowId) }

  /**
    `delete_text_row`: the last remaining row is never deleted, and an
    unknown identifier changes nothing.
   */
  function DeleteRow(rows: seq<Row>, id: string): (r: seq<Row>)
    ensures |rows| <= 1 ==> r == rows
    ensures !HasKey(rows, RowId, id) ==> r == rows
    ensures |rows| > 1 && HasKey(rows, RowId, id) ==>
              exists i :: FirstKeyed(rows, RowId, id, i) && r == RemoveAt(rows, i)
    ensures |rows| >= 1 ==> |r| >= 1
  {
    if |rows| <= 1 then rows
    else
      match Find(rows, RowId, id)
      case None => rows
      case Some(i) => RemoveAt(rows, i)
  }

  /** Deleting keeps identifiers distinct and removes the identifier when more than one row remains. */
  lemma DeleteRowRemovesId(rows: seq<Row>, id: string)
    requires DistinctIds(rows) && |rows| > 1
    ensures DistinctIds(DeleteRow(rows, id))
    ensures !HasKey(DeleteRow(rows, id), RowId, id)
  {
    match Find(rows, RowId, id)
    case None =>
    case Some(i) =>
      RemoveAtDistinct(rows, RowId, i);
      var r := RemoveAt(rows, i);
      forall j | 0 <= j < |r| ensures RowId(r[j]) != id {
        var src := if j < i then j else j + 1;
        assert r[j] == rows[src];
        assert RowId(rows[src]) != RowId(rows[i]);
      }
  }

  /** The identifiers of the rows. */
  function Ids(rows: seq<Row>): set<string> {
    set i | 0 <= i < |rows| :: rows[i].id
  }

  lemma IdsSnoc(rows: seq<Row>)
    requires |rows| > 0
    ensures Ids(rows) == Ids(rows[..|rows| - 1]) + {rows[|rows| - 1].id}
  {
    var init := rows[..|rows| - 1];
    forall x | x in Ids(rows) ensures x in Ids(init) + {rows[|rows| - 1].id} {
      var i :| 0 <= i < |rows| && rows[i].id == x;
      if i < |rows| - 1 { assert init[i] == rows[i]; }
    }
    forall x | x in Ids(init) ensures x in Ids(rows) {
      var i :| 0 <= i < |init| && init[i].id == x;
      assert rows[i] == init[i];
    }
  }

  lemma DistinctInit(rows: seq<Row>)
    requires |rows| > 0 && DistinctIds(rows)
    ensures DistinctIds(rows[..|rows| - 1])
    ensures forall i :: 0 <= i < |rows| - 1 ==> rows[i].id != rows[|rows| - 1].id
  {
    var init := rows[..|rows| - 1];
    forall p, q | 0 <= p < q < |init| ensures RowId(init[p]) != RowId(init[q]) {
      assert init[p] == rows[p] && init[q] == rows[q];
    }
    forall i | 0 <= i < |init| ensures rows[i].id != rows[|rows| - 1].id {
      assert RowId(rows[i]) != RowId(rows[|rows| - 1]);
    }
  }

  /** `update_row_numbers`: each row's identifier mapped to its 1-based position. */
  function RowNumbers(rows: seq<Row>): (m: map<string, nat>)
    ensures m.Keys == Ids(rows)
  {
    if |rows| == 0 then map[]
    else
      IdsSnoc(rows);
      RowNumbers(rows[..|rows| - 1])[rows[|rows| - 1].id := |rows|]
  }

  /** With distinct identifiers, every row is numbered by its 1-based position. */
  lemma {:induction false} RowNumbersArePositions(rows: seq<Row>)
    requires DistinctIds(rows)
    ensures forall i :: 0 <= i < |rows| ==> rows[i].id in RowNumbers(rows) && RowNumbers(rows)[rows[i].id] == i + 1
  {
    if |rows| > 0 {
      var init := rows[..|rows| - 1];
      DistinctInit(rows);
      RowNumbersArePositions(init);
      forall i | 0 <= i < |init| ensures RowNumbers(rows)[rows[i].id] == i + 1 {
        assert rows[i] == init[i];
      }
    }
  }

  /**
    `focus_row_by_number`: nothing to focus without rows; otherwise the
    requested number clamped to 1..count.
   */
  function FocusTarget(count: nat, requested: int): (r: Option<nat>)
    ensures r.None? <==> count == 0
    ensures r.Some? ==> 1 <= r.value <= count
    ensures r.Some? ==> r.value == ClampI(requested, 1, count)
  {
    if count == 0 then None
    else
      var t := if requested < count then requested else count;
      Some(if t > 1 then t else 1)
  }

  /**
    `update_jump_range`: the jump box's maximum becomes `max(1, count)` and
    a current value above it is lowered to it.
   */
  function JumpRange(count: nat, current: int): (r: (nat, int))
    ensures r.0 == RequiredCount(count)
    ensures r.1 <= r.0
    ensures current <= r.0 ==> r.1 == current
    ensures current > r.0 ==> r.1 == r.0
  {
    var maximum := if count > 1 then count else 1;
    (maximum, if current > maximum then maximum else current)
  }

  function RequiredCount(count: nat): nat { if count > 0 then count else 1 }

  // ---------------------------------------------------------------------------
  // Collecting the texts to synthesise

  datatype TextEntry = TextEntry(rowId: string, text: string, parameters: Dict, silenceAfter: real)

  /** `get_all_texts_and_parameters`: rows with a blank text are skipped, the others kept in order. */
  function CollectTexts(rows: seq<Row>): (r: seq<TextEntry>)
    ensures |r| <= |rows|
    ensures forall k :: 0 <= k < |r| ==> |r[k].text| > 0 && Trimmed(r[k].text)
  {
    if |rows| == 0 then []
    else
      var row := rows[0];
      var text := RowText(row);
      var rest := CollectTexts(rows[1..]);
      if |text| > 0 then [TextEntry(row.id, text, row.parameters, row.silenceAfter)] + rest else rest
  }

  /** Collecting keeps row order. */
  lemma {:induction false} CollectAppend(a: seq<Row>, b: seq<Row>)
    ensures CollectTexts(a + b) == CollectTexts(a) + CollectTexts(b)
  {
    if |a| == 0 {
      assert a + b == b;
    } else {
      assert (a + b)[1..] == a[1..] + b;
      CollectAppend(a[1..], b);
    }
  }

  /** One row contributes one entry, its stripped text, exactly when that text is not blank. */
  lemma CollectOne(row: Row)
    ensures |RowText(row)| == 0 ==> CollectTexts([row]) == []
    ensures |RowText(row)| > 0 ==>
              CollectTexts([row]) == [TextEntry(row.id, RowText(row), row.parameters, row.silenceAfter)]
  {
    assert [row][1..] == [];
  }

  /** After an auto split, the texts collected for synthesis are exactly the split lines. */
  lemma {:induction false} CollectAfterSplit(rows: seq<Row>, lines: seq<string>)
    requires |rows| == |lines|
    requires forall k :: 0 <= k < |rows| ==> rows[k].text == lines[k] && SingleSpaced(lines[k])
    ensures |CollectTexts(rows)| == |lines|
    ensures forall k :: 0 <= k < |lines| ==> CollectTexts(rows)[k].text == lines[k] && CollectTexts(rows)[k].rowId == rows[k].id
  {
    if |rows| > 0 {
      var l := lines[0];
      assert Trimmed(l) by {
        assert !IsSpace(l[0]) && !IsSpace(l[|l| - 1]);
      }
      StripTrimmed(l);
      assert RowText(rows[0]) == l;
      var entry := TextEntry(rows[0].id, l, rows[0].parameters, rows[0].silenceAfter);
      var rest := CollectTexts(rows[1..]);
      assert CollectTexts(rows) == [entry] + rest;
      CollectAfterSplit(rows[1..], lines[1..]);
      forall k | 0 <= k < |lines|
        ensures CollectTexts(rows)[k].text == lines[k] && CollectTexts(rows)[k].rowId == rows[k].id
      {
        if k > 0 { assert CollectTexts(rows)[k] == rest[k - 1]; }
      }
    }
  }
}

=== FILE: paths.dfy ===
/**
  The pieces of POSIX path handling the history managers use to derive
  display names: `os.path.dirname`, `os.path.basename`, `Path(p).name` and
  `Path(p).stem`, with `/` as the only separator.
 */
module PathNames {
  import opened Common

  /** The position just after the last `c` in `s`, or 0 when there is none. */
  function AfterLast(s: string, c: char): (i: nat)
    ensures i <= |s|
    ensures i > 0 ==> s[i - 1] == c
    ensures forall j :: i <= j < |s| ==> s[j] != c
  {
    if |s| == 0 then 0
    else if s[|s| - 1] == c then |s|
    else AfterLast(s[..|s| - 1], c)
  }

  /** `os.path.basename`: everything after the last separator. */
  function Basename(p: string): (r: string)
    ensures '/' !in r
    ensures |r| <= |p| && r == p[|p| - |r|..]
  {
    p[AfterLast(p, '/')..]
  }

  /** `s.rstrip(c)`. */
  function RStrip(s: string, c: char): (r: string)
    ensures |r| <= |s| && r == s[..|r|]
    ensures |r| == 0 || r[|r| - 1] != c
    ensures forall j :: |r| <= j < |s| ==> s[j] == c
  {
    if |s| == 0 || s[|s| - 1] != c then s else RStrip(s[..|s| - 1], c)
  }

  /** `os.path.dirname`: everything up to the last separator, without trailing separators unless it is all separators. */
  function Dirname(p: string): (r: string)
    ensures |r| <= |p| && r == p[..|r|]
  {
    var head := p[..AfterLast(p, '/')];
    var trimmed := RStrip(head, '/');
    assert trimmed == p[..|trimmed|];
    if |trimmed| > 0 then trimmed else head
  }

  /**
    `Path(p).name`: the last component, trailing separators ignored. pathlib
    drops `.` components, so a trailing `.` is skipped and a path with no
    other component has the empty name.
   */
  function Name(p: string): (r: string)
    ensures '/' !in r && r != "."
    ensures |r| <= |p|
    decreases |p|
  {
    var q := RStrip(p, '/');
    var b := Basename(q);
    if b == "." then Name(q[..|q| - 1]) else b
  }

  /** A name after a separator (or alone) that is not `.` is the path's name. */
  lemma NameOfChild(prefix: string, name: string)
    requires |prefix| == 0 || prefix[|prefix| - 1] == '/'
    requires '/' !in name && |name| > 0 && name != "."
    ensures Name(prefix + name) == name
  {
    var p := prefix + name;
    assert p[|p| - 1] == name[|name| - 1] != '/';
    assert RStrip(p, '/') == p;
    BasenameOfChild(prefix, name);
  }

  /** A trailing `/.` does not change the name, as pathlib drops the `.` component. */
  lemma NameDropsDot(p: string)
    ensures Name(p + "/.") == Name(p)
  {
    var q := p + "/.";
    assert RStrip(q, '/') == q;
    BasenameOfChild(p + "/", ".");
    assert q == (p + "/") + ".";
    assert q[..|q| - 1] == p + "/";
    RStripSeparator(p);
  }

  /** One more trailing separator does not change the stripped path. */
  lemma RStripSeparator(p: string)
    ensures RStrip(p + "/", '/') == RStrip(p, '/')
  {
    assert (p + "/")[..|p|] == p;
  }

  /** The current directory, alone or with separators, has the empty name. */
  lemma DotHasNoName()
    ensures Name(".") == "" && Name("./") == ""
  {
    assert RStrip(".", '/') == ".";
    BasenameOfChild("", ".");
    assert "./"[..1] == ".";
    assert RStrip("./", '/') == ".";
  }

  /** `Path(p).stem`: the name without its last suffix; a leading dot or a trailing dot is not a suffix. */
  function Stem(name: string): (r: string)
    ensures |r| <= |name| && r == name[..|r|]
    ensures |r| < |name| ==> 0 < |r| < |name| - 1 && name[|r|] == '.' && '.' !in name[|r| + 1..]
  {
    var i := AfterLast(name, '.');
    if 1 < i < |name| then name[..i - 1] else name
  }

  /** The last `c` is found where it is. */
  lemma AfterLastIs(s: string, c: char, i: nat)
    requires 0 < i <= |s| && s[i - 1] == c
    requires forall j :: i <= j < |s| ==> s[j] != c
    ensures AfterLast(s, c) == i
  {
  }

  /** Of a name inside a directory, `dirname` gives the directory (not ending in a separator). */
  lemma DirnameOfChild(dir: string, name: string)
    requires |dir| > 0 && dir[|dir| - 1] != '/' && '/' !in name
    ensures Dirname(dir + "/" + name) == dir
  {
    var p := dir + "/" + name;
    assert p[|dir|] == '/';
    assert forall j :: |dir| + 1 <= j < |p| ==> p[j] == name[j - |dir| - 1];
    AfterLastIs(p, '/', |dir| + 1);
    var head := p[..|dir| + 1];
    assert head == dir + "/";
    assert head[..|head| - 1] == dir;
    assert RStrip(dir, '/') == dir;
  }

  /** Of a name after a separator (or alone), `basename` gives the name. */
  lemma BasenameOfChild(prefix: string, name: string)
    requires |prefix| == 0 || prefix[|prefix| - 1] == '/'
    requires '/' !in name
    ensures Basename(prefix + name) == name
  {
    var p := prefix + name;
    assert forall j :: |prefix| <= j < |p| ==> p[j] == name[j - |prefix|];
    if |prefix| > 0 {
      AfterLastIs(p, '/', |prefix|);
    } else {
      assert p == name;
      assert AfterLast(p, '/') == 0;
    }
    assert p[|prefix|..] == name;
  }

  /** The stem of a name without a dot is the whole name. */
  lemma StemWithoutDot(name: string)
    requires '.' !in name
    ensures Stem(name) == name
  {
    assert forall j :: 0 <= j < |name| ==> name[j] != '.';
  }
}

=== FILE: phoneme_analyzer.dfy ===
/**
  core/phoneme_analyzer.py: the phoneme records the analyzer produces, its
  vowel table, duration and intensity estimates, the word-ending rule and
  ending protection, retiming to the real audio length, and the kana
  fallback used when no phonemizer is available.
 */
module PhonemeAnalysis {
  import opened Common
  import opened VowelFrames

  /** `PhonemeInfo`. */
  datatype PhonemeInfo = PhonemeInfo(
    phoneme: string,
    startTime: real,
    duration: real,
    vowel: string,
    intensity: real,
    moraPosition: int,
    wordPosition: int,
    isEnding: bool)

  /** The analyzer's ending-protection settings. */
  datatype Analyzer = Analyzer(protectionEnabled: bool, minEndingDuration: real, endingIntensityBoost: real)

  const DefaultAnalyzer: Analyzer := Analyzer(true, 0.25, 1.2)

  /** Each record starts where the previous one ends. */
  predicate Contiguous(infos: seq<PhonemeInfo>) {
    forall k :: 0 <= k < |infos| - 1 ==> infos[k + 1].startTime == infos[k].startTime + infos[k].duration
  }

  predicate ContiguousFromTime(infos: seq<PhonemeInfo>, start: real) {
    (|infos| > 0 ==> infos[0].startTime == start) && Contiguous(infos)
  }

  function Phonemes(infos: seq<PhonemeInfo>): (ps: seq<string>)
    ensures |ps| == |infos| && forall k :: 0 <= k < |infos| ==> ps[k] == infos[k].phoneme
  {
    if |infos| == 0 then [] else [infos[0].phoneme] + Phonemes(infos[1..])
  }

  function DurationsOf(infos: seq<PhonemeInfo>): (ds: seq<real>)
    ensures |ds| == |infos| && forall k :: 0 <= k < |infos| ==> ds[k] == infos[k].duration
  {
    seq(|infos|, k requires 0 <= k < |infos| => infos[k].duration)
  }

  // ---------------------------------------------------------------------------
  // Tables

  /** `phoneme_to_vowel_map`. */
  function AnalyzerTable(p: string): Option<string> {
    if p in {"a", "ka", "ga", "sa", "za", "ta", "da", "na", "ha", "ba", "pa", "ma", "ya", "ra", "wa", "ー",
             "kya", "gya", "sha", "ja", "cha", "nya", "hya", "bya", "pya", "mya", "rya"}
    then Some("a")
    else if p in {"i", "ki", "gi", "si", "zi", "ti", "di", "ni", "hi", "bi", "pi", "mi", "ri", "ji", "chi"}
    then Some("i")
    else if p in {"u", "ku", "gu", "su", "zu", "tu", "du", "nu", "hu", "bu", "pu", "mu", "yu", "ru", "tsu",
                  "kyu", "gyu", "shu", "ju", "chu", "nyu", "hyu", "byu", "pyu", "myu", "ryu"}
    then Some("u")
    else if p in {"e", "ke", "ge", "se", "ze", "te", "de", "ne", "he", "be", "pe", "me", "re"}
    then Some("e")
    else if p in {"o", "ko", "go", "so", "zo", "to", "do", "no", "ho", "bo", "po", "mo", "yo", "ro",
                  "kyo", "gyo", "sho", "jo", "cho", "nyo", "hyo", "byo", "pyo", "myo", "ryo"}
    then Some("o")
    else if p == "N" then Some("n")
    else if p in {"Q", "pau", "sil", "sp"} then Some("sil")
    else None
  }

  /** The vowel a phoneme ends in, if its last letter is one. */
  function LastLetterVowel(p: string): Option<string> {
    if |p| == 0 then None
    else if p[|p| - 1] == 'a' then Some("a")
    else if p[|p| - 1] == 'i' then Some("i")
    else if p[|p| - 1] == 'u' then Some("u")
    else if p[|p| - 1] == 'e' then Some("e")
    else if p[|p| - 1] == 'o' then Some("o")
    else None
  }

  /** `_map_phoneme_to_vowel`: the table, then the last letter, otherwise silence. */
  function MapPhonemeToVowel(p: string): (v: string)
    ensures IsVowel(v)
    ensures AnalyzerTable(p).Some? ==> v == AnalyzerTable(p).value
    ensures AnalyzerTable(p).None? && LastLetterVowel(p).Some? ==> v == LastLetterVowel(p).value
    ensures AnalyzerTable(p).None? && LastLetterVowel(p).None? ==> v == "sil"
  {
    match AnalyzerTable(p)
    case Some(v) => v
    case None =>
      match LastLetterVowel(p)
      case Some(v) => v
      case None => "sil"
  }

  /** Apart from `pau`, the table never contradicts the last-letter rule. */
  lemma TableAgreesWithLastLetter(p: string)
    requires AnalyzerTable(p).Some? && LastLetterVowel(p).Some? && p != "pau"
    ensures AnalyzerTable(p) == LastLetterVowel(p)
  {
  }

  /** A bare consonant cluster maps to silence. */
  lemma ConsonantsAreSilent(p: string)
    requires AnalyzerTable(p).None?
    requires forall k :: 0 <= k < |p| ==> p[k] !in "aiueo"
    ensures MapPhonemeToVowel(p) == "sil"
  {
    if |p| > 0 {
      assert p[|p| - 1] !in "aiueo";
    }
  }

  /** `phoneme_duration_map`. */
  function BaseDuration(p: string): Option<real> {
    if p == "a" then Some(0.20) else if p == "i" then Some(0.18) else if p == "u" then Some(0.19)
    else if p == "e" then Some(0.19) else if p == "o" then Some(0.21)
    else if p == "k" then Some(0.08) else if p == "g" then Some(0.09) else if p == "s" then Some(0.18)
    else if p == "z" then Some(0.12) else if p == "t" then Some(0.09) else if p == "d" then Some(0.10)
    else if p == "n" then Some(0.15) else if p == "h" then Some(0.16) else if p == "b" then Some(0.10)
    else if p == "p" then Some(0.09) else if p == "m" then Some(0.12) else if p == "r" then Some(0.08)
    else if p == "w" then Some(0.10) else if p == "y" then Some(0.08) else if p == "j" then Some(0.11)
    else if p == "c" then Some(0.10) else if p == "f" then Some(0.12) else if p == "v" then Some(0.11)
    else if p == "N" then Some(0.15) else if p == "Q" then Some(0.08) else if p == "pau" then Some(0.20)
    else if p == "sil" then Some(0.05) else if p == "sp" then Some(0.03)
    else None
  }

  /** The text-length correction `max(0.8, min(1.2, 10 / max(n, 1)))`. */
  function LengthFactor(textLength: int): (f: real)
    ensures 0.8 <= f <= 1.2
    ensures textLength <= 8 ==> f == 1.2
    ensures textLength >= 13 ==> f == 0.8
  {
    var n := if textLength > 1 then textLength else 1;
    var q := 10.0 / n as real;
    assert q * n as real == 10.0;
    assert n <= 8 ==> q >= 1.2;
    assert n >= 13 ==> q <= 0.8;
    MaxR(0.8, MinR(1.2, q))
  }

  /** `_estimate_phoneme_duration`: the table's base (0.15 when absent) times the length factor. */
  function EstimatePhonemeDuration(p: string, textLength: int): (d: real)
    ensures var base := if BaseDuration(p).Some? then BaseDuration(p).value else 0.15;
      0.8 * base <= d <= 1.2 * base
    ensures BaseDuration(p).None? && textLength <= 8 ==> d == 0.18
  {
    var base := if BaseDuration(p).Some? then BaseDuration(p).value else 0.15;
    var f := LengthFactor(textLength);
    assert base >= 0.0;
    assert base * f - 0.8 * base == base * (f - 0.8);
    assert 1.2 * base - base * f == base * (1.2 - f);
    NonNegMul(base, f - 0.8);
    NonNegMul(base, 1.2 - f);
    base * f
  }

  /** The per-vowel base intensities of `_calculate_phoneme_intensity` (0.5 for anything else). */
  function VowelIntensity(v: string): real {
    if v == "a" then 0.9 else if v == "e" then 0.8 else if v == "o" then 0.85
    else if v == "i" then 0.7 else if v == "u" then 0.65 else if v == "n" then 0.4
    else if v == "sil" then 0.0 else 0.5
  }

  /** `_calculate_phoneme_intensity`. */
  function PhonemeIntensity(p: string, v: string): (x: real)
    ensures 0.0 <= x <= 1.0
    ensures p in {"pau", "sil", "sp"} ==> x == 0.0
    ensures p == "N" ==> x == 0.4
    ensures p == "Q" ==> x == 0.1
    ensures p !in {"pau", "sil", "sp", "N", "Q"} && |p| > 1 ==> x == VowelIntensity(v) * 0.9
    ensures p !in {"pau", "sil", "sp", "N", "Q"} && |p| <= 1 ==> x == VowelIntensity(v)
  {
    var base := VowelIntensity(v);
    if p in {"pau", "sil", "sp"} then 0.0
    else if p == "N" then 0.4
    else if p == "Q" then 0.1
    else if |p| > 1 then base * 0.9
    else base
  }

  /** A multi-letter phoneme is never louder than the same vowel spoken alone. */
  lemma CompoundIsQuieter(p: string, q: string, v: string)
    requires |p| > 1 && |q| == 1
    requires p !in {"pau", "sil", "sp", "N", "Q"} && q !in {"N", "Q"}
    ensures PhonemeIntensity(p, v) <= PhonemeIntensity(q, v)
  {
  }

  // ---------------------------------------------------------------------------
  // Word endings

  predicate IsSilentPhoneme(p: string) {
    p in {"pau", "sil", "sp"}
  }

  /** Every non-empty phoneme after index `i` is silent. */
  predicate OnlySilenceAfter(ps: seq<string>, i: nat) {
    forall j :: i < j < |ps| && ps[j] != "" ==> IsSilentPhoneme(ps[j])
  }

  /**
    `_is_ending_phoneme`: the last phoneme, one followed only by silence, or a
    non-silent phoneme among the last three.
   */
  function IsEndingPhoneme(ps: seq<string>, i: nat): (r: bool)
    ensures i + 1 >= |ps| ==> r
    ensures !r <==> && i + 1 < |ps|
                    && (exists j :: i < j < |ps| && ps[j] != "" && !IsSilentPhoneme(ps[j]))
                    && (i + 3 < |ps| || IsSilentPhoneme(ps[i]))
  {
    if i + 1 >= |ps| then true
    else if OnlySilenceAfter(ps, i) then true
    else |ps| - i - 1 <= 2 && !IsSilentPhoneme(ps[i])
  }

  /** A phoneme four or more from the end with a spoken phoneme after it is not an ending. */
  lemma EarlyPhonemeIsNotEnding(ps: seq<string>, i: nat, j: nat)
    requires i < j < |ps| && i + 3 < |ps|
    requires ps[j] != "" && !IsSilentPhoneme(ps[j])
    ensures !IsEndingPhoneme(ps, i)
  {
  }

  // ---------------------------------------------------------------------------
  // Ending protection

  /** Whether record `i` is protected: an ending whose vowel is not silence. */
  predicate Protects(a: Analyzer, ps: seq<string>, i: nat, info: PhonemeInfo) {
    IsEndingPhoneme(ps, i) && info.vowel != "sil"
  }

  /** The protected duration and intensity of record `i`, and the seconds it was lengthened by. */
  function ProtectedDuration(a: Analyzer, ps: seq<string>, i: nat, info: PhonemeInfo): real {
    if Protects(a, ps, i, info) then MaxR(info.duration, a.minEndingDuration) else info.duration
  }

  function ProtectedIntensity(a: Analyzer, ps: seq<string>, i: nat, info: PhonemeInfo): real {
    if Protects(a, ps, i, info) then MinR(1.0, info.intensity * a.endingIntensityBoost) else info.intensity
  }

  /** How `out` relates to the record `info` it was made from at index `i`. */
  predicate ProtectedRecord(a: Analyzer, ps: seq<string>, i: nat, info: PhonemeInfo, out: PhonemeInfo) {
    && out.phoneme == info.phoneme && out.vowel == info.vowel
    && out.moraPosition == info.moraPosition && out.wordPosition == info.wordPosition
    && out.isEnding == Protects(a, ps, i, info)
    && (out.isEnding ==>
          && out.duration >= a.minEndingDuration && out.duration >= info.duration
          && out.intensity <= 1.0
          && out.intensity == MinR(1.0, info.intensity * a.endingIntensityBoost))
    && (!out.isEnding ==> out.duration == info.duration && out.intensity == info.intensity)
  }

  /**
    Ending protection from record `i` on, with every start moved later by the
    time the records before it were lengthened (`shift`).
   */
  function ProtectFrom(a: Analyzer, ps: seq<string>, infos: seq<PhonemeInfo>, i: nat, shift: real): (r: seq<PhonemeInfo>)
    requires i <= |infos|
    ensures |r| == |infos| - i
    ensures forall k :: 0 <= k < |r| ==> ProtectedRecord(a, ps, i + k, infos[i + k], r[k])
    decreases |infos| - i
  {
    if i == |infos| then []
    else
      var info := infos[i];
      var d := ProtectedDuration(a, ps, i, info);
      [info.(startTime := info.startTime + shift, duration := d,
             intensity := ProtectedIntensity(a, ps, i, info), isEnding := Protects(a, ps, i, info))]
        + ProtectFrom(a, ps, infos, i + 1, shift + (d - info.duration))
  }

  /**
    `_apply_ending_protection` with each start shifted by the lengthening of
    the records before it (the corrected form; see `ProtectAsWritten`).
   */
  function ApplyEndingProtection(a: Analyzer, infos: seq<PhonemeInfo>): (r: seq<PhonemeInfo>)
    ensures |r| == |infos|
    ensures !a.protectionEnabled ==> r == infos
    ensures a.protectionEnabled ==>
      forall k :: 0 <= k < |r| ==> ProtectedRecord(a, Phonemes(infos), k, infos[k], r[k])
  {
    if !a.protectionEnabled || |infos| == 0 then infos
    else ProtectFrom(a, Phonemes(infos), infos, 0, 0.0)
  }

  lemma {:induction false} ProtectFromContiguous(a: Analyzer, ps: seq<string>, infos: seq<PhonemeInfo>, i: nat, shift: real)
    requires i <= |infos| && Contiguous(infos)
    ensures ContiguousFromTime(ProtectFrom(a, ps, infos, i, shift), if i < |infos| then infos[i].startTime + shift else 0.0)
    decreases |infos| - i
  {
    if i < |infos| {
      var info := infos[i];
      var d := ProtectedDuration(a, ps, i, info);
      var rest := ProtectFrom(a, ps, infos, i + 1, shift + (d - info.duration));
      ProtectFromContiguous(a, ps, infos, i + 1, shift + (d - info.duration));
      var r := ProtectFrom(a, ps, infos, i, shift);
      assert r[1..] == rest;
      if i + 1 < |infos| {
        assert rest[0].startTime == r[0].startTime + r[0].duration;
      }
      forall k | 0 <= k < |r| - 1
        ensures r[k + 1].startTime == r[k].startTime + r[k].duration
      {
        if k > 0 {
          assert r[k] == rest[k - 1] && r[k + 1] == rest[k];
        }
      }
    }
  }

  /** Protection keeps a contiguous timeline contiguous and its start in place. */
  lemma ProtectionKeepsContiguity(a: Analyzer, infos: seq<PhonemeInfo>)
    requires |infos| > 0 && Contiguous(infos)
    ensures ContiguousFromTime(ApplyEndingProtection(a, infos), infos[0].startTime)
  {
    if a.protectionEnabled {
      ProtectFromContiguous(a, Phonemes(infos), infos, 0, 0.0);
    }
  }

  /**
    `_apply_ending_protection` as the source writes it from record `i` on:
    `total` is `total_time_adjustment` and `adjustment` the last value bound
    to that local. A protected record reads `adjustment` whether or not it
    was lengthened; `None` stands for the `UnboundLocalError` raised when no
    record has been lengthened yet.
   */
  function ProtectAsWrittenFrom(a: Analyzer, ps: seq<string>, infos: seq<PhonemeInfo>, i: nat, total: real, adjustment: Option<real>)
    : (r: Option<seq<PhonemeInfo>>)
    requires i <= |infos|
    ensures r.Some? ==> |r.value| == |infos| - i
    decreases |infos| - i
  {
    if i == |infos| then Some([])
    else
      var info := infos[i];
      if Protects(a, ps, i, info) then
        var d := MaxR(info.duration, a.minEndingDuration);
        var lengthened := d > info.duration;
        var adj := if lengthened then Some(d - info.duration) else adjustment;
        var total' := if lengthened then total + (d - info.duration) else total;
        match adj
        case None => None
        case Some(x) =>
          var out := info.(startTime := info.startTime + total' - x, duration := d,
                           intensity := MinR(1.0, info.intensity * a.endingIntensityBoost), isEnding := true);
          match ProtectAsWrittenFrom(a, ps, infos, i + 1, total', adj)
          case None => None
          case Some(rest) => Some([out] + rest)
      else
        var out := info.(startTime := info.startTime + total, isEnding := false);
        match ProtectAsWrittenFrom(a, ps, infos, i + 1, total, adjustment)
        case None => None
        case Some(rest) => Some([out] + rest)
  }

  function ProtectAsWritten(a: Analyzer, infos: seq<PhonemeInfo>): (r: Option<seq<PhonemeInfo>>)
    ensures !a.protectionEnabled || |infos| == 0 ==> r == Some(infos)
  {
    if !a.protectionEnabled || |infos| == 0 then Some(infos)
    else ProtectAsWrittenFrom(a, Phonemes(infos), infos, 0, 0.0, None)
  }

  /** A lone vowel already longer than the minimum: the source raises instead of returning it. */
  lemma AsWrittenRaisesWithoutLengthening()
    ensures ProtectAsWritten(DefaultAnalyzer, [PhonemeInfo("a", 0.0, 0.3, "a", 0.9, 0, 0, false)]).None?
  {
    var infos := [PhonemeInfo("a", 0.0, 0.3, "a", 0.9, 0, 0, false)];
    assert Phonemes(infos) == ["a"];
    assert IsEndingPhoneme(["a"], 0);
  }

  /**
    Two spoken records, the first too short: the second keeps the first's
    stale `adjustment` and starts before the lengthened first record ends.
   */
  lemma AsWrittenOverlapsAfterLengthening()
    ensures var infos := [PhonemeInfo("ka", 0.0, 0.1, "a", 0.9, 0, 0, false), PhonemeInfo("a", 0.1, 0.3, "a", 0.9, 1, 0, false)];
      && Contiguous(infos)
      && ProtectAsWritten(DefaultAnalyzer, infos).Some?
      && (var r := ProtectAsWritten(DefaultAnalyzer, infos).value;
          |r| == 2 && r[1].startTime < r[0].startTime + r[0].duration)
      && (var c := ApplyEndingProtection(DefaultAnalyzer, infos);
          c[1].startTime == c[0].startTime + c[0].duration)
  {
    var infos := [PhonemeInfo("ka", 0.0, 0.1, "a", 0.9, 0, 0, false), PhonemeInfo("a", 0.1, 0.3, "a", 0.9, 1, 0, false)];
    assert Phonemes(infos) == ["ka", "a"];
    assert IsEndingPhoneme(["ka", "a"], 0) && IsEndingPhoneme(["ka", "a"], 1);
    ProtectionKeepsContiguity(DefaultAnalyzer, infos);
  }

  // ---------------------------------------------------------------------------
  // Retiming to the audio length

  /** The retimed duration of one record. */
  function RetimedDuration(a: Analyzer, info: PhonemeInfo, scale: real): real {
    if info.isEnding && a.protectionEnabled then MaxR(info.duration * scale, a.minEndingDuration * 0.8)
    else info.duration * scale
  }

  /** Scaled durations laid back to back from `t`; protected endings keep at least 0.8 of the minimum. */
  function Retime(a: Analyzer, infos: seq<PhonemeInfo>, scale: real, t: real): (r: seq<PhonemeInfo>)
    ensures |r| == |infos|
    ensures ContiguousFromTime(r, t)
  {
    if |infos| == 0 then []
    else
      var d := RetimedDuration(a, infos[0], scale);
      var rest := Retime(a, infos[1..], scale, t + d);
      var r := [infos[0].(startTime := t, duration := d)] + rest;
      assert r[1..] == rest;
      r
  }

  lemma {:induction false} RetimeRecords(a: Analyzer, infos: seq<PhonemeInfo>, scale: real, t: real)
    ensures forall k :: 0 <= k < |infos| ==> RetimedRecord(a, infos[k], scale, Retime(a, infos, scale, t)[k])
  {
    if |infos| > 0 {
      var d := RetimedDuration(a, infos[0], scale);
      var r := Retime(a, infos, scale, t);
      RetimeRecords(a, infos[1..], scale, t + d);
      assert r[1..] == Retime(a, infos[1..], scale, t + d);
      forall k | 0 <= k < |infos|
        ensures RetimedRecord(a, infos[k], scale, r[k])
      {
        if k > 0 {
          assert infos[k] == infos[1..][k - 1] && r[k] == r[1..][k - 1];
        }
      }
    }
  }

  /** `out` is `info` with its duration scaled (and the ending minimum applied). */
  predicate RetimedRecord(a: Analyzer, info: PhonemeInfo, scale: real, out: PhonemeInfo) {
    && out == info.(startTime := out.startTime, duration := out.duration)
    && (info.isEnding && a.protectionEnabled ==>
          out.duration >= info.duration * scale && out.duration >= a.minEndingDuration * 0.8)
    && (!(info.isEnding && a.protectionEnabled) ==> out.duration == info.duration * scale)
  }

  /**
    `optimize_for_tts`: unchanged for an empty list, a missing or non-positive
    audio length, or an estimated total of zero (where the division raises and
    the handler returns the input); otherwise retimed from 0.
   */
  function OptimizeForTts(a: Analyzer, infos: seq<PhonemeInfo>, audioDuration: Option<real>): (r: seq<PhonemeInfo>)
    ensures |r| == |infos|
    ensures |infos| == 0 || audioDuration.None? || audioDuration.value <= 0.0 || Sum(DurationsOf(infos)) == 0.0 ==> r == infos
    ensures audioDuration.Some? && audioDuration.value > 0.0 && Sum(DurationsOf(infos)) != 0.0 ==>
      && ContiguousFromTime(r, 0.0)
      && forall k :: 0 <= k < |r| ==>
           RetimedRecord(a, infos[k], audioDuration.value / Sum(DurationsOf(infos)), r[k])
  {
    if |infos| == 0 then infos
    else
      var estimated := Sum(DurationsOf(infos));
      if audioDuration.None? || audioDuration.value <= 0.0 then infos
      else if estimated == 0.0 then infos
      else
        RetimeRecords(a, infos, audioDuration.value / estimated, 0.0);
        Retime(a, infos, audioDuration.value / estimated, 0.0)
  }

  /** Without protection the retimed durations add up to the audio length. */
  lemma ScaleSum(x: real, y: real, scale: real)
    ensures (x + y) * scale == x * scale + y * scale
  {
  }

  lemma RetimeTotal(a: Analyzer, infos: seq<PhonemeInfo>, scale: real, t: real)
    requires !a.protectionEnabled
    ensures Sum(DurationsOf(Retime(a, infos, scale, t))) == Sum(DurationsOf(infos)) * scale
  {
    RetimeScalesEach(a, infos, scale, t);
    DurationsScaled(Retime(a, infos, scale, t), infos, scale);
  }

  /** Records whose durations are all scaled by `scale` have their total scaled by it. */
  lemma DurationsScaled(rs: seq<PhonemeInfo>, infos: seq<PhonemeInfo>, scale: real)
    requires |rs| == |infos|
    requires forall k :: 0 <= k < |infos| ==> rs[k].duration == infos[k].duration * scale
    ensures Sum(DurationsOf(rs)) == Sum(DurationsOf(infos)) * scale
  {
    var ds := DurationsOf(rs);
    var es := DurationsOf(infos);
    forall k | 0 <= k < |es|
      ensures ds[k] == es[k] * scale
    {
      assert ds[k] == rs[k].duration && es[k] == infos[k].duration;
    }
    SumScaled(ds, es, scale);
  }

  /** Without ending protection every record's duration is scaled exactly. */
  lemma RetimeScalesEach(a: Analyzer, infos: seq<PhonemeInfo>, scale: real, t: real)
    requires !a.protectionEnabled
    ensures forall k :: 0 <= k < |infos| ==> Retime(a, infos, scale, t)[k].duration == infos[k].duration * scale
  {
    RetimeRecords(a, infos, scale, t);
    var r := Retime(a, infos, scale, t);
    forall k | 0 <= k < |infos|
      ensures r[k].duration == infos[k].duration * scale
    {
      assert RetimedRecord(a, infos[k], scale, r[k]);
    }
  }

  /** Scaling every element scales the sum. */
  lemma {:induction false} SumScaled(ds: seq<real>, es: seq<real>, scale: real)
    requires |ds| == |es|
    requires forall k :: 0 <= k < |es| ==> ds[k] == es[k] * scale
    ensures Sum(ds) == Sum(es) * scale
  {
    if |es| > 0 {
      SumScaled(ds[1..], es[1..], scale);
      ScaleSum(es[0], Sum(es[1..]), scale);
    }
  }

  lemma OptimizeFillsAudio(a: Analyzer, infos: seq<PhonemeInfo>, audio: real)
    requires !a.protectionEnabled && audio > 0.0 && Sum(DurationsOf(infos)) != 0.0
    ensures Sum(DurationsOf(OptimizeForTts(a, infos, Some(audio)))) == audio
  {
    var est := Sum(DurationsOf(infos));
    RetimeTotal(a, infos, audio / est, 0.0);
    assert est * (audio / est) == audio;
  }

  // ---------------------------------------------------------------------------
  // Vowel sequence

  /** `extract_vowel_sequence`: the vowels other than `sil`, in order. */
  function ExtractVowelSequence(infos: seq<PhonemeInfo>): (vs: seq<string>)
    ensures |vs| <= |infos|
    ensures forall k :: 0 <= k < |vs| ==> vs[k] != "sil"
    ensures forall k :: 0 <= k < |infos| && infos[k].vowel != "sil" ==> infos[k].vowel in vs
  {
    if |infos| == 0 then []
    else if infos[0].vowel == "sil" then ExtractVowelSequence(infos[1..])
    else [infos[0].vowel] + ExtractVowelSequence(infos[1..])
  }

  /** Extraction distributes over concatenation, so it keeps the order of the records. */
  lemma {:induction false} ExtractAppend(a: seq<PhonemeInfo>, b: seq<PhonemeInfo>)
    ensures ExtractVowelSequence(a + b) == ExtractVowelSequence(a) + ExtractVowelSequence(b)
  {
    if |a| > 0 {
      assert (a + b)[1..] == a[1..] + b;
      ExtractAppend(a[1..], b);
    } else {
      assert a + b == b;
    }
  }

  /** A single record gives its vowel, or nothing when the vowel is `sil`. */
  lemma ExtractSingle(x: PhonemeInfo)
    ensures ExtractVowelSequence([x]) == if x.vowel == "sil" then [] else [x.vowel]
  {
    assert [x][1..] == [];
  }

  /** The positions of the records whose vowel is not `sil`, in increasing order. */
  function KeptPositions(infos: seq<PhonemeInfo>): seq<nat>
    decreases |infos|
  {
    if |infos| == 0 then []
    else
      var rest := Shifted(1, KeptPositions(infos[1..]));
      if infos[0].vowel == "sil" then rest else [0] + rest
  }

  /** Every position in `p` is a record of `infos` whose vowel is not `sil`. */
  predicate KeptAt(infos: seq<PhonemeInfo>, p: seq<nat>) {
    forall j :: 0 <= j < |p| ==> p[j] < |infos| && infos[p[j]].vowel != "sil"
  }

  predicate Increasing(p: seq<nat>) {
    forall j, l :: 0 <= j < l < |p| ==> p[j] < p[l]
  }

  /** Every record of `infos` whose vowel is not `sil` has its position in `p`. */
  predicate CoversKept(infos: seq<PhonemeInfo>, p: seq<nat>) {
    forall k :: 0 <= k < |infos| && infos[k].vowel != "sil" ==> k in p
  }

  /** The kept positions are exactly the non-`sil` records, each once, in increasing order. */
  lemma {:induction false} KeptPositionsExact(infos: seq<PhonemeInfo>)
    ensures var p := KeptPositions(infos);
            KeptAt(infos, p) && Increasing(p) && CoversKept(infos, p)
    decreases |infos|
  {
    if |infos| > 0 {
      var q := KeptPositions(infos[1..]);
      KeptPositionsExact(infos[1..]);
      var rest := Shifted(1, q);
      var p := if infos[0].vowel == "sil" then rest else [0] + rest;
      assert KeptPositions(infos) == p;
      ShiftedKept(infos, q, rest, p);
      ShiftedIncreasing(q, rest, p);
      ShiftedCovers(infos, q, rest, p);
    }
  }

  /** Moving the tail's kept positions up by one makes them positions of the whole sequence. */
  lemma ShiftedKept(infos: seq<PhonemeInfo>, q: seq<nat>, rest: seq<nat>, p: seq<nat>)
    requires |infos| > 0 && KeptAt(infos[1..], q) && rest == Shifted(1, q)
    requires p == if infos[0].vowel == "sil" then rest else [0] + rest
    ensures KeptAt(infos, p)
  {
    forall j | 0 <= j < |rest|
      ensures rest[j] < |infos| && infos[rest[j]].vowel != "sil"
    {
      assert infos[1..][q[j]] == infos[rest[j]];
    }
  }

  /** Moving increasing positions up by one, with 0 perhaps in front, keeps them increasing. */
  lemma ShiftedIncreasing(q: seq<nat>, rest: seq<nat>, p: seq<nat>)
    requires Increasing(q) && rest == Shifted(1, q)
    requires p == rest || p == [0] + rest
    ensures Increasing(p)
  {
    forall j, l | 0 <= j < l < |rest|
      ensures rest[j] < rest[l]
    {
      assert q[j] < q[l];
    }
    if p != rest {
      forall j, l | 0 <= j < l < |p|
        ensures p[j] < p[l]
      {
        assert p[l] == rest[l - 1] == 1 + q[l - 1];
        if j > 0 {
          assert p[j] == rest[j - 1];
        }
      }
    }
  }

  /** Moving the tail's kept positions up by one covers every non-`sil` record after the first. */
  lemma ShiftedCovers(infos: seq<PhonemeInfo>, q: seq<nat>, rest: seq<nat>, p: seq<nat>)
    requires |infos| > 0 && CoversKept(infos[1..], q) && rest == Shifted(1, q)
    requires p == if infos[0].vowel == "sil" then rest else [0] + rest
    ensures CoversKept(infos, p)
  {
    forall k | 0 <= k < |infos| && infos[k].vowel != "sil"
      ensures k in p
    {
      if k > 0 {
        assert infos[1..][k - 1] == infos[k];
        var j :| 0 <= j < |q| && q[j] == k - 1;
        assert rest[j] == k;
        assert k in rest;
      }
    }
  }

  /** `vs` lists the vowels of the records at positions `p`, one for one. */
  predicate VowelsAt(infos: seq<PhonemeInfo>, vs: seq<string>, p: seq<nat>) {
    |vs| == |p| && forall j :: 0 <= j < |vs| ==> p[j] < |infos| && vs[j] == infos[p[j]].vowel
  }

  /**
    The extracted vowels are exactly the vowels at the kept positions, in
    order: every `sil` record is dropped and every other record gives its
    vowel once.
   */
  lemma {:induction false} ExtractAtPositions(infos: seq<PhonemeInfo>)
    ensures VowelsAt(infos, ExtractVowelSequence(infos), KeptPositions(infos))
    decreases |infos|
  {
    if |infos| > 0 {
      var q := KeptPositions(infos[1..]);
      var ws := ExtractVowelSequence(infos[1..]);
      ExtractAtPositions(infos[1..]);
      var rest := Shifted(1, q);
      var sil := infos[0].vowel == "sil";
      assert KeptPositions(infos) == if sil then rest else [0] + rest;
      assert ExtractVowelSequence(infos) == if sil then ws else [infos[0].vowel] + ws;
      ShiftedVowels(infos, ws, q, rest);
    }
  }

  /** One step of `ExtractAtPositions`: the first record's vowel, if kept, goes in front at position 0. */
  lemma ShiftedVowels(infos: seq<PhonemeInfo>, ws: seq<string>, q: seq<nat>, rest: seq<nat>)
    requires |infos| > 0 && VowelsAt(infos[1..], ws, q) && rest == Shifted(1, q)
    ensures VowelsAt(infos, ws, rest) && VowelsAt(infos, [infos[0].vowel] + ws, [0] + rest)
  {
    forall j | 0 <= j < |ws|
      ensures rest[j] < |infos| && ws[j] == infos[rest[j]].vowel
    {
      assert infos[1..][q[j]] == infos[rest[j]];
    }
  }

  // ---------------------------------------------------------------------------
  // Kana fallback

  /** `kana_to_vowel`. */
  function KanaVowel(c: char): Option<string> {
    if c in "あかがさざただなはばぱまやらわー" then Some("a")
    else if c in "いきぎしじちぢにひびぴみりゐ" then Some("i")
    else if c in "うくぐすずつづぬふぶぷむゆる" then Some("u")
    else if c in "えけげせぜてでねへべぺめれゑ" then Some("e")
    else if c in "おこごそぞとどのほぼぽもよろを" then Some("o")
    else if c == 'ん' then Some("n")
    else None
  }

  predicate IsPunctuation(c: char) {
    c in "。、！？．，!?"
  }

  /** A character the fallback gives a record for: a kana of the table or a punctuation mark. */
  predicate Recognised(c: char) {
    KanaVowel(c).Some? || IsPunctuation(c)
  }

  /**
    `p` is the fallback record for the character at its mora position: a
    kana gives its vowel for 0.2 s at intensity 0.7, a punctuation mark a
    0.3 s silent pause.
   */
  predicate FallbackRecord(text: string, p: PhonemeInfo) {
    && 0 <= p.moraPosition < |text|
    && p.wordPosition == 0 && !p.isEnding
    && var c := text[p.moraPosition];
       match KanaVowel(c)
       case Some(v) => p.phoneme == [c] && p.vowel == v && p.duration == 0.2 && p.intensity == 0.7
       case None => IsPunctuation(c) && p.phoneme == "pau" && p.vowel == "sil" && p.duration == 0.3 && p.intensity == 0.0
  }

  /**
    `r` holds one fallback record for each recognised character from index
    `i` on, in text order: every record is the one for its mora position,
    positions strictly increase, and every recognised index has a record.
   */
  predicate RecordsFrom(text: string, i: int, r: seq<PhonemeInfo>) {
    RecordsAfter(text, i, r) && PositionsIncrease(r) && CoversFrom(text, i, r)
  }

  /** Every record is the fallback record for its position, at `i` or later. */
  predicate RecordsAfter(text: string, i: int, r: seq<PhonemeInfo>) {
    forall k :: 0 <= k < |r| ==> i <= r[k].moraPosition && FallbackRecord(text, r[k])
  }

  /** Mora positions strictly increase along `r`. */
  predicate PositionsIncrease(r: seq<PhonemeInfo>) {
    forall k :: 0 <= k < |r| - 1 ==> r[k].moraPosition < r[k + 1].moraPosition
  }

  /** Every recognised index from `i` on has a record in `r`. */
  predicate CoversFrom(text: string, i: int, r: seq<PhonemeInfo>) {
    forall j :: 0 <= j < |text| && i <= j && Recognised(text[j]) ==> exists k :: 0 <= k < |r| && r[k].moraPosition == j
  }

  /** A fallback record's shape: a known vowel, 0.2 s or 0.3 s long, silent exactly when it is a pause. */
  predicate SimpleRecord(p: PhonemeInfo) {
    IsVowel(p.vowel) && p.duration in {0.2, 0.3} && (p.vowel == "sil" <==> p.phoneme == "pau")
  }

  /** Kana become 0.2 s records, punctuation a 0.3 s pause, anything else is skipped. */
  function FallbackFrom(text: string, i: nat, t: real): (r: seq<PhonemeInfo>)
    requires i <= |text|
    ensures ContiguousFromTime(r, t)
    ensures |r| <= |text| - i
    ensures forall k :: 0 <= k < |r| ==> SimpleRecord(r[k])
    ensures (forall j :: i <= j < |text| ==> KanaVowel(text[j]).None? && !IsPunctuation(text[j])) ==> r == []
    decreases |text| - i
  {
    if i == |text| then []
    else
      var c := text[i];
      match KanaVowel(c)
      case Some(v) =>
        var rest := FallbackFrom(text, i + 1, t + 0.2);
        var r := [PhonemeInfo([c], t, 0.2, v, 0.7, i, 0, false)] + rest;
        assert r[1..] == rest;
        r
      case None =>
        if IsPunctuation(c) then
          var rest := FallbackFrom(text, i + 1, t + 0.3);
          var r := [PhonemeInfo("pau", t, 0.3, "sil", 0.0, i, 0, false)] + rest;
          assert r[1..] == rest;
          r
        else FallbackFrom(text, i + 1, t)
  }

  /** The fallback gives exactly one record per recognised character from `i` on, in text order. */
  lemma {:induction false} FallbackRecords(text: string, i: nat, t: real)
    requires i <= |text|
    ensures RecordsFrom(text, i, FallbackFrom(text, i, t))
    decreases |text| - i
  {
    if i < |text| {
      var c := text[i];
      match KanaVowel(c)
      case Some(v) =>
        FallbackRecords(text, i + 1, t + 0.2);
        PrependRecord(text, i, PhonemeInfo([c], t, 0.2, v, 0.7, i, 0, false), FallbackFrom(text, i + 1, t + 0.2));
      case None =>
        if IsPunctuation(c) {
          FallbackRecords(text, i + 1, t + 0.3);
          PrependRecord(text, i, PhonemeInfo("pau", t, 0.3, "sil", 0.0, i, 0, false), FallbackFrom(text, i + 1, t + 0.3));
        } else {
          FallbackRecords(text, i + 1, t);
          SkipUnrecognised(text, i, FallbackFrom(text, i + 1, t));
        }
    }
  }

  /** A record for index `i` in front of the records from `i + 1` gives the records from `i`. */
  lemma PrependRecord(text: string, i: int, rec: PhonemeInfo, rest: seq<PhonemeInfo>)
    requires 0 <= i < |text| && rec.moraPosition == i && FallbackRecord(text, rec)
    requires RecordsFrom(text, i + 1, rest)
    ensures RecordsFrom(text, i, [rec] + rest)
  {
    PrependRecordsAfter(text, i, rec, rest);
    PrependIncreasing(i, rec, rest);
    PrependCovers(text, i, rec, rest);
  }

  lemma PrependRecordsAfter(text: string, i: int, rec: PhonemeInfo, rest: seq<PhonemeInfo>)
    requires rec.moraPosition == i && FallbackRecord(text, rec)
    requires RecordsAfter(text, i + 1, rest)
    ensures RecordsAfter(text, i, [rec] + rest)
  {
    var r := [rec] + rest;
    forall k | 0 <= k < |r| ensures i <= r[k].moraPosition && FallbackRecord(text, r[k]) {
      if k > 0 {
        assert r[k] == rest[k - 1];
      }
    }
  }

  lemma PrependIncreasing(i: int, rec: PhonemeInfo, rest: seq<PhonemeInfo>)
    requires rec.moraPosition == i
    requires forall k :: 0 <= k < |rest| ==> i + 1 <= rest[k].moraPosition
    requires PositionsIncrease(rest)
    ensures PositionsIncrease([rec] + rest)
  {
    var r := [rec] + rest;
    forall k | 0 <= k < |r| - 1 ensures r[k].moraPosition < r[k + 1].moraPosition {
      if k > 0 {
        assert r[k] == rest[k - 1] && r[k + 1] == rest[k];
      }
    }
  }

  lemma PrependCovers(text: string, i: int, rec: PhonemeInfo, rest: seq<PhonemeInfo>)
    requires rec.moraPosition == i
    requires CoversFrom(text, i + 1, rest)
    ensures CoversFrom(text, i, [rec] + rest)
  {
    var r := [rec] + rest;
    forall j | 0 <= j < |text| && i <= j && Recognised(text[j]) ensures exists k :: 0 <= k < |r| && r[k].moraPosition == j {
      if j == i {
        assert r[0].moraPosition == j;
      } else {
        var k :| 0 <= k < |rest| && rest[k].moraPosition == j;
        assert r[k + 1].moraPosition == j;
      }
    }
  }

  /** An unrecognised character at index `i` adds nothing to the records from `i + 1`. */
  lemma SkipUnrecognised(text: string, i: int, r: seq<PhonemeInfo>)
    requires 0 <= i < |text| && !Recognised(text[i])
    requires RecordsFrom(text, i + 1, r)
    ensures RecordsFrom(text, i, r)
  {
  }

  /** The five vowels the fallback returns when the text gives no record. */
  function DefaultRecords(): (r: seq<PhonemeInfo>)
    ensures |r| == 5 && ContiguousFromTime(r, 0.0)
  {
    [PhonemeInfo("a", 0.0, 0.2, "a", 0.5, 0, 0, false),
     PhonemeInfo("i", 0.2, 0.2, "i", 0.5, 1, 0, false),
     PhonemeInfo("u", 0.4, 0.2, "u", 0.5, 2, 0, false),
     PhonemeInfo("e", 0.6, 0.2, "e", 0.5, 3, 0, false),
     PhonemeInfo("o", 0.8, 0.2, "o", 0.5, 4, 0, false)]
  }

  /** `_fallback_analysis`: the records for the text, or the five default vowels when it has none. */
  function FallbackAnalysis(text: string): (r: seq<PhonemeInfo>)
    ensures |r| > 0
    ensures forall k :: 0 <= k < |r| ==> IsVowel(r[k].vowel)
    ensures (forall j :: 0 <= j < |text| ==> KanaVowel(text[j]).None? && !IsPunctuation(text[j])) ==> r == DefaultRecords()
    ensures (exists j :: 0 <= j < |text| && Recognised(text[j])) ==> RecordsFrom(text, 0, r)
  {
    var r := FallbackFrom(text, 0, 0.0);
    FallbackRecords(text, 0, 0.0);
    if |r| == 0 then DefaultRecords() else r
  }

  lemma FallbackIsContiguous(text: string)
    ensures ContiguousFromTime(FallbackAnalysis(text), 0.0)
  {
  }
}

=== FILE: realtime_vowel.dfy ===
/**
  The vowel heuristics of core/audio_realtime_processor.py, taking the
  frame's formants, RMS level and dominant frequency as inputs: the range
  score, the formant-table classifier, the frequency-band fallback, the
  post-classification threshold, the bounded analysis buffer and the
  frame-size setting.
 */
module RealtimeVowel {
  import opened Common
  import opened Json

  /** One row of `vowel_formant_table`. */
  datatype FormantRange = FormantRange(vowel: string, f1Lo: real, f1Hi: real, f2Lo: real, f2Hi: real)
  {
    predicate Valid() { f1Lo < f1Hi && f2Lo < f2Hi }
  }

  /** The table in its insertion order, which decides ties. */
  const FormantTable: seq<FormantRange> := [
    FormantRange("a", 600.0, 900.0, 1000.0, 1400.0),
    FormantRange("i", 200.0, 400.0, 2000.0, 2800.0),
    FormantRange("u", 200.0, 400.0, 600.0, 1200.0),
    FormantRange("e", 400.0, 600.0, 1400.0, 2000.0),
    FormantRange("o", 400.0, 600.0, 600.0, 1200.0)]

  predicate ValidTable(table: seq<FormantRange>) {
    forall k :: 0 <= k < |table| ==> table[k].Valid()
  }

  lemma FormantTableValid()
    ensures ValidTable(FormantTable)
  {
  }

  /**
    `_calculate_range_score`: inside the range, 1 at the centre falling to 0
    at both ends; outside, 1 minus the distance over twice the width, floored at 0.
   */
  function RangeScore(value: real, lo: real, hi: real): (s: real)
    requires lo < hi
    ensures 0.0 <= s <= 1.0
    ensures lo <= value <= hi ==> s == 1.0 - Abs(value - (lo + hi) / 2.0) / ((hi - lo) / 2.0)
    ensures value < lo ==> s == MaxR(0.0, 1.0 - (lo - value) / ((hi - lo) * 2.0))
    ensures value > hi ==> s == MaxR(0.0, 1.0 - (value - hi) / ((hi - lo) * 2.0))
  {
    if lo <= value <= hi then
      var half := (hi - lo) / 2.0;
      var distance := Abs(value - (lo + hi) / 2.0);
      assert distance <= half;
      DivBounds(distance, half);
      1.0 - distance / half
    else
      var distance := if value < lo then lo - value else value - hi;
      var tolerance := (hi - lo) * 2.0;
      DivBounds(0.0, tolerance);
      assert distance / tolerance >= 0.0 by { DivNonNeg(distance, tolerance); }
      MaxR(0.0, 1.0 - distance / tolerance)
  }

  lemma DivBounds(x: real, y: real)
    requires 0.0 <= x <= y && y > 0.0
    ensures 0.0 <= x / y <= 1.0
  {
    DivNonNeg(x, y);
    assert y / y == 1.0;
    assert x / y <= y / y;
  }

  lemma DivAtLeastOne(x: real, y: real)
    requires y > 0.0 && x >= y
    ensures x / y >= 1.0
  {
    assert y / y == 1.0;
    assert x / y >= y / y;
  }

  lemma DivPos(x: real, y: real)
    requires x > 0.0 && y > 0.0
    ensures x / y > 0.0
  {
    assert x / y * y == x;
  }

  lemma DivNonNeg(x: real, y: real)
    requires x >= 0.0 && y > 0.0
    ensures x / y >= 0.0
  {
  }

  /** The score is 1 exactly at the centre of the range. */
  lemma ScoreOneExactlyAtCentre(value: real, lo: real, hi: real)
    requires lo < hi
    ensures RangeScore(value, lo, hi) == 1.0 <==> value == (lo + hi) / 2.0
  {
    if value < lo {
      DivPos(lo - value, (hi - lo) * 2.0);
    } else if value > hi {
      DivPos(value - hi, (hi - lo) * 2.0);
    } else if value != (lo + hi) / 2.0 {
      DivPos(Abs(value - (lo + hi) / 2.0), (hi - lo) / 2.0);
    }
  }

  /** Both ends of the range score 0, as does anything twice the width or more outside it. */
  lemma ScoreZeroAtEndsAndFarAway(value: real, lo: real, hi: real)
    requires lo < hi
    requires value == lo || value == hi || value <= lo - 2.0 * (hi - lo) || value >= hi + 2.0 * (hi - lo)
    ensures RangeScore(value, lo, hi) == 0.0
  {
    var w := hi - lo;
    if value <= lo - 2.0 * w {
      DivAtLeastOne(lo - value, w * 2.0);
    } else if value >= hi + 2.0 * w {
      DivAtLeastOne(value - hi, w * 2.0);
    } else {
      assert lo <= value <= hi;
      assert Abs(value - (lo + hi) / 2.0) == w / 2.0;
      assert (w / 2.0) / (w / 2.0) == 1.0;
    }
  }

  /** Just outside an end the score is close to 1, while the end itself scores 0. */
  lemma ScoreJumpsAtTheEnds()
    ensures RangeScore(600.0, 600.0, 900.0) == 0.0
    ensures RangeScore(599.0, 600.0, 900.0) > 0.99
  {
    ScoreZeroAtEndsAndFarAway(600.0, 600.0, 900.0);
  }

  /** The average of a row's two scores. */
  function RowScore(row: FormantRange, f1: real, f2: real): (s: real)
    requires row.Valid()
    ensures 0.0 <= s <= 1.0
  {
    (RangeScore(f1, row.f1Lo, row.f1Hi) + RangeScore(f2, row.f2Lo, row.f2Hi)) / 2.0
  }

  /**
    `_classify_vowel_by_formants`: the row with the highest average score, the
    earliest one on a tie (the comparison is strict), starting from ("a", 0.0).
   */
  method ClassifyVowel(table: seq<FormantRange>, f1: real, f2: real) returns (vowel: string, score: real)
    requires ValidTable(table)
    ensures 0.0 <= score <= 1.0
    ensures forall k :: 0 <= k < |table| ==> RowScore(table[k], f1, f2) <= score
    ensures score == 0.0 ==> vowel == "a"
    ensures score > 0.0 ==> exists k :: 0 <= k < |table| && FirstBest(table, f1, f2, k) && vowel == table[k].vowel && score == RowScore(table[k], f1, f2)
    ensures Classified(table, f1, f2, vowel, score)
  {
    vowel, score := "a", 0.0;
    var best: int := -1;
    var i := 0;
    while i < |table|
      invariant 0 <= i <= |table| && -1 <= best < i
      invariant 0.0 <= score <= 1.0
      invariant forall k :: 0 <= k < i ==> RowScore(table[k], f1, f2) <= score
      invariant best == -1 ==> score == 0.0 && vowel == "a"
      invariant best >= 0 ==> score > 0.0 && vowel == table[best].vowel && score == RowScore(table[best], f1, f2)
      invariant best >= 0 ==> forall j :: 0 <= j < best ==> RowScore(table[j], f1, f2) < score
    {
      var s := RowScore(table[i], f1, f2);
      if s > score {
        vowel, score, best := table[i].vowel, s, i;
      }
      i := i + 1;
    }
    if best >= 0 {
      assert FirstBest(table, f1, f2, best);
    }
    ScoreIsBest(table, f1, f2, score);
  }

  /** Row `k` has the highest score and every earlier row scores strictly less. */
  predicate FirstBest(table: seq<FormantRange>, f1: real, f2: real, k: int)
    requires ValidTable(table)
  {
    && 0 <= k < |table|
    && (forall j :: 0 <= j < |table| ==> RowScore(table[j], f1, f2) <= RowScore(table[k], f1, f2))
    && (forall j :: 0 <= j < k ==> RowScore(table[j], f1, f2) < RowScore(table[k], f1, f2))
  }

  /** At most one row is the first best, so the classifier's answer is determined. */
  lemma FirstBestUnique(table: seq<FormantRange>, f1: real, f2: real, k: int, m: int)
    requires ValidTable(table)
    requires FirstBest(table, f1, f2, k) && FirstBest(table, f1, f2, m)
    ensures k == m
  {
    var sk, sm := RowScore(table[k], f1, f2), RowScore(table[m], f1, f2);
    assert sk <= sm && sm <= sk;
  }

  /** The highest row score, or 0 when no row scores above 0: the value the classifier starts from. */
  function BestScore(table: seq<FormantRange>, f1: real, f2: real): (s: real)
    requires ValidTable(table)
    ensures 0.0 <= s <= 1.0
    ensures forall k :: 0 <= k < |table| ==> RowScore(table[k], f1, f2) <= s
    ensures s == 0.0 || exists k :: 0 <= k < |table| && RowScore(table[k], f1, f2) == s
  {
    if |table| == 0 then 0.0
    else
      var rest := BestScore(table[1..], f1, f2);
      assert forall k :: 1 <= k < |table| ==> table[k] == table[1..][k - 1];
      MaxR(RowScore(table[0], f1, f2), rest)
  }

  /** What the classifier answers for `f1`, `f2`: the best score, with the first best row's vowel, or `a` when nothing scores. */
  predicate Classified(table: seq<FormantRange>, f1: real, f2: real, vowel: string, score: real)
    requires ValidTable(table)
  {
    && score == BestScore(table, f1, f2)
    && (score == 0.0 ==> vowel == "a")
    && (score > 0.0 ==> exists k :: 0 <= k < |table| && FirstBest(table, f1, f2, k) && vowel == table[k].vowel)
  }

  /** An upper bound on every row that is 0 or some row's score is the best score. */
  lemma ScoreIsBest(table: seq<FormantRange>, f1: real, f2: real, score: real)
    requires ValidTable(table) && score >= 0.0
    requires forall k :: 0 <= k < |table| ==> RowScore(table[k], f1, f2) <= score
    requires score == 0.0 || exists k :: 0 <= k < |table| && RowScore(table[k], f1, f2) == score
    ensures score == BestScore(table, f1, f2)
  {
  }

  /** The classifier's answer is determined by the table and the formants. */
  lemma ClassifiedUnique(table: seq<FormantRange>, f1: real, f2: real, v: string, s: real, w: string, t: real)
    requires ValidTable(table)
    requires Classified(table, f1, f2, v, s) && Classified(table, f1, f2, w, t)
    ensures v == w && s == t
  {
    if s > 0.0 {
      var k :| FirstBest(table, f1, f2, k) && v == table[k].vowel;
      var m :| FirstBest(table, f1, f2, m) && w == table[m].vowel;
      FirstBestUnique(table, f1, f2, k, m);
    }
  }

  // ---------------------------------------------------------------------------
  // Detection results

  /** `VowelDetectionResult`. */
  datatype Detection = Detection(timestamp: real, vowel: string, confidence: real, f1: real, f2: real, intensity: real)

  /** The vowel of the frequency bands <500, <1000, <1500, <2000 and above. */
  function BandVowel(freq: real): string {
    if freq < 500.0 then "u"
    else if freq < 1000.0 then "o"
    else if freq < 1500.0 then "a"
    else if freq < 2000.0 then "e"
    else "i"
  }

  /** Position of a band vowel from low to high frequency. */
  function BandRank(v: string): int {
    if v == "u" then 0 else if v == "o" then 1 else if v == "a" then 2 else if v == "e" then 3 else 4
  }

  /** A higher frequency never picks a lower band. */
  lemma BandsAreOrdered(f: real, g: real)
    requires f <= g
    ensures BandRank(BandVowel(f)) <= BandRank(BandVowel(g))
  {
  }

  /** `_simple_vowel_detection`. */
  function SimpleDetection(timestamp: real, rms: real, dominantFreq: real): (d: Detection)
    ensures d.timestamp == timestamp
    ensures rms < 0.01 ==> d.vowel == "sil" && d.confidence == 0.8 && d.intensity == 0.0
    ensures rms >= 0.01 ==> d.vowel in {"u", "o", "a", "e", "i"} && d.confidence == 0.6
    ensures rms >= 0.01 ==> d.intensity == MinR(1.0, rms * 3.0) && 0.0 < d.intensity <= 1.0
  {
    if rms < 0.01 then Detection(timestamp, "sil", 0.8, 0.0, 0.0, 0.0)
    else Detection(timestamp, BandVowel(dominantFreq), 0.6, dominantFreq * 0.3, dominantFreq, MinR(1.0, rms * 3.0))
  }

  /**
    The part of `_detect_vowel` after the formants are known: the simple
    detector without the formant path or with fewer than two formants,
    otherwise the classifier, with `None` below the confidence threshold.
   */
  method DetectVowel(formantPath: bool, formants: seq<real>, threshold: real, timestamp: real, rms: real, dominantFreq: real)
    returns (r: Option<Detection>)
    ensures !formantPath || |formants| < 2 ==> r == Some(SimpleDetection(timestamp, rms, dominantFreq))
    ensures formantPath && |formants| >= 2 ==>
      (r.Some? <==> BestScore(FormantTable, formants[0], formants[1]) >= threshold)
    ensures formantPath && |formants| >= 2 && r.Some? ==>
      && Classified(FormantTable, formants[0], formants[1], r.value.vowel, r.value.confidence)
      && r.value.confidence >= threshold
      && r.value.timestamp == timestamp
      && r.value.intensity == MinR(1.0, rms * 5.0)
      && r.value.f1 == formants[0] && r.value.f2 == formants[1]
      && r.value.vowel in {"a", "i", "u", "e", "o"}
  {
    if !formantPath || |formants| < 2 {
      return Some(SimpleDetection(timestamp, rms, dominantFreq));
    }
    FormantTableValid();
    var f1, f2 := formants[0], formants[1];
    var vowel, confidence := ClassifyVowel(FormantTable, f1, f2);
    assert confidence == BestScore(FormantTable, f1, f2);
    if confidence < threshold {
      return None;
    }
    ClassifiedVowelKnown(f1, f2, vowel, confidence);
    return Some(Detection(timestamp, vowel, confidence, f1, f2, MinR(1.0, rms * 5.0)));
  }

  /** The classifier only answers vowels of the formant table. */
  lemma ClassifiedVowelKnown(f1: real, f2: real, vowel: string, score: real)
    requires ValidTable(FormantTable) && Classified(FormantTable, f1, f2, vowel, score)
    ensures vowel in {"a", "i", "u", "e", "o"}
  {
    if score > 0.0 {
      var k :| 0 <= k < |FormantTable| && FirstBest(FormantTable, f1, f2, k) && vowel == FormantTable[k].vowel;
      assert FormantTable[k].vowel in {"a", "i", "u", "e", "o"};
    }
  }

  // ---------------------------------------------------------------------------
  // Analysis buffer

  /** `_update_analysis_buffer`: append, then drop the oldest samples beyond `maxLength`. */
  function UpdateBuffer(buffer: seq<real>, data: seq<real>, maxLength: nat): (r: seq<real>)
    ensures |r| == MinI(|buffer + data|, maxLength)
    ensures r == (buffer + data)[|buffer + data| - |r|..]
  {
    var all := buffer + data;
    if |all| > maxLength then all[|all| - maxLength..] else all
  }

  /** Two updates in a row keep what one update with both chunks keeps. */
  lemma UpdateBufferTwice(buffer: seq<real>, x: seq<real>, y: seq<real>, maxLength: nat)
    ensures UpdateBuffer(UpdateBuffer(buffer, x, maxLength), y, maxLength) == UpdateBuffer(buffer, x + y, maxLength)
  {
    if |buffer + x| <= maxLength {
      UpdateBufferTwiceShort(buffer, x, y, maxLength);
    } else {
      UpdateBufferTwiceFull(buffer, x, y, maxLength);
    }
  }

  lemma UpdateBufferTwiceShort(buffer: seq<real>, x: seq<real>, y: seq<real>, maxLength: nat)
    requires |buffer + x| <= maxLength
    ensures UpdateBuffer(UpdateBuffer(buffer, x, maxLength), y, maxLength) == UpdateBuffer(buffer, x + y, maxLength)
  {
    assert UpdateBuffer(buffer, x, maxLength) == buffer + x;
    assert buffer + (x + y) == (buffer + x) + y;
    SameContents(buffer + x, y, buffer, x + y, maxLength);
  }

  /** The buffer after an update depends only on the samples seen, not on how they were split. */
  lemma SameContents(a: seq<real>, b: seq<real>, c: seq<real>, d: seq<real>, maxLength: nat)
    requires a + b == c + d
    ensures UpdateBuffer(a, b, maxLength) == UpdateBuffer(c, d, maxLength)
  {
  }

  /** Once the first update filled the buffer, the second keeps the last `maxLength` of everything. */
  lemma UpdateBufferTwiceFull(buffer: seq<real>, x: seq<real>, y: seq<real>, maxLength: nat)
    requires |buffer + x| > maxLength
    ensures UpdateBuffer(UpdateBuffer(buffer, x, maxLength), y, maxLength) == UpdateBuffer(buffer, x + y, maxLength)
  {
    var all := buffer + x;
    var b1 := all[|all| - maxLength..];
    assert UpdateBuffer(buffer, x, maxLength) == b1;
    assert UpdateBuffer(b1, y, maxLength) == (b1 + y)[|b1 + y| - maxLength..];
    assert buffer + (x + y) == all + y;
    assert UpdateBuffer(buffer, x + y, maxLength) == (all + y)[|all + y| - maxLength..];
    SuffixAppend(all, b1, y);
    SuffixOfSuffix(all + y, b1 + y, maxLength);
  }

  /** A suffix followed by `y` is a suffix of the whole followed by `y`. */
  lemma SuffixAppend(s: seq<real>, t: seq<real>, y: seq<real>)
    requires |t| <= |s| && t == s[|s| - |t|..]
    ensures t + y == (s + y)[|s + y| - |t + y|..]
  {
    var u := s + y;
    var v := t + y;
    forall i | 0 <= i < |v| ensures v[i] == u[|u| - |v| + i] {
      if i < |t| {
        assert v[i] == t[i] == s[|s| - |t| + i];
      }
    }
  }

  /** The last `k` elements of a suffix at least `k` long are the last `k` of the whole. */
  lemma SuffixOfSuffix(s: seq<real>, t: seq<real>, k: nat)
    requires |t| <= |s| && t == s[|s| - |t|..] && k <= |t|
    ensures t[|t| - k..] == s[|s| - k..]
  {
    var a := t[|t| - k..];
    var b := s[|s| - k..];
    forall i | 0 <= i < k ensures a[i] == b[i] {
      assert a[i] == t[|t| - k + i] == s[|s| - |t| + (|t| - k + i)];
    }
  }

  // ---------------------------------------------------------------------------
  // Settings

  datatype Processor = Processor(frameSize: int, hopSize: int, detection: Dict)
  {
    /** The hop is half the frame, rounded down. */
    predicate Valid() { hopSize == frameSize / 2 }
  }

  /**
    `AudioRealtimeProcessor(frame_size=...)`: `formantAnalysis` is whether
    SciPy could be imported.
   */
  function NewProcessor(frameSize: int, formantAnalysis: bool): (p: Processor)
    ensures p.Valid() && p.frameSize == frameSize
    ensures p.detection.Keys == {"enabled", "confidence_threshold", "smoothing_window", "formant_analysis"}
    ensures p.detection["enabled"] == Bool(true) && p.detection["confidence_threshold"] == Num(0.6)
    ensures p.detection["smoothing_window"] == Int(3) && p.detection["formant_analysis"] == Bool(formantAnalysis)
  {
    Processor(frameSize, frameSize / 2,
      map["enabled" := Bool(true), "confidence_threshold" := Num(0.6), "smoothing_window" := Int(3),
          "formant_analysis" := Bool(formantAnalysis)])
  }

  /** `update_settings`: merge `vowel_detection`, then take a new integer `frame_size` and halve it for the hop. */
  function UpdateSettings(p: Processor, vowelDetection: Option<Dict>, frameSize: Option<int>): (r: Processor)
    ensures p.Valid() ==> r.Valid()
    ensures frameSize.Some? ==> r.frameSize == frameSize.value && r.hopSize == (if frameSize.value != p.frameSize then frameSize.value / 2 else p.hopSize)
    ensures frameSize.None? ==> r.frameSize == p.frameSize && r.hopSize == p.hopSize
    ensures vowelDetection.Some? ==> r.detection.Keys == p.detection.Keys + vowelDetection.value.Keys
    ensures vowelDetection.Some? ==> forall k :: k in vowelDetection.value ==> r.detection[k] == vowelDetection.value[k]
    ensures vowelDetection.None? ==> r.detection == p.detection
  {
    var detection := if vowelDetection.Some? then Update(p.detection, vowelDetection.value) else p.detection;
    match frameSize
    case Some(n) => if n != p.frameSize then Processor(n, n / 2, detection) else p.(detection := detection)
    case None => p.(detection := detection)
  }
}

=== FILE: recent.dfy ===
/**
  The most-recently-used lists behind the model, image and Live2D histories
  (core/model_manager.py, core/image_manager.py, core/live2d_manager.py):
  entries are kept newest first, a known entry is moved to the front, a new
  one is pushed at the front, and the list may be capped. Entries are
  identified by a key function (`m['id']`, `img.get('id')`,
  `model['model_folder_path']`), so the same operations serve every list.
 */
module Recent {
  import opened Common
  import opened Json

  /** No two entries share a key. */
  predicate DistinctKeys<E, K(==)>(xs: seq<E>, key: E -> K) {
    forall i, j :: 0 <= i < j < |xs| ==> key(xs[i]) != key(xs[j])
  }

  predicate HasKey<E, K(==)>(xs: seq<E>, key: E -> K, k: K) {
    exists i :: 0 <= i < |xs| && key(xs[i]) == k
  }

  /** Entry `i` is the first whose key is `k`. */
  predicate FirstKeyed<E, K(==)>(xs: seq<E>, key: E -> K, k: K, i: int) {
    0 <= i < |xs| && key(xs[i]) == k && forall j :: 0 <= j < i ==> key(xs[j]) != k
  }

  /** The loop `for m in xs: if key(m) == k: return ...`: the first position with key `k`. */
  function Find<E, K(==)>(xs: seq<E>, key: E -> K, k: K): (r: Option<nat>)
    ensures r.None? <==> !HasKey(xs, key, k)
    ensures r.Some? ==> FirstKeyed(xs, key, k, r.value)
  {
    if |xs| == 0 then None
    else if key(xs[0]) == k then Some(0)
    else
      var rest := Find(xs[1..], key, k);
      assert forall i :: 1 <= i < |xs| ==> xs[i] == xs[1..][i - 1];
      assert HasKey(xs, key, k) ==> HasKey(xs[1..], key, k) by {
        if HasKey(xs, key, k) {
          var i :| 0 <= i < |xs| && key(xs[i]) == k;
          assert key(xs[1..][i - 1]) == k;
        }
      }
      match rest
      case None => None
      case Some(i) => Some(i + 1)
  }

  /** With distinct keys the first entry keyed `k` is the only one. */
  lemma FindUnique<E, K>(xs: seq<E>, key: E -> K, k: K, i: nat)
    requires DistinctKeys(xs, key) && i < |xs| && key(xs[i]) == k
    ensures Find(xs, key, k) == Some(i)
  {
    var r := Find(xs, key, k);
    assert HasKey(xs, key, k);
    assert key(xs[r.value]) == key(xs[i]);
  }

  /** `xs.remove(x); xs.insert(0, x)` for the entry at `i`: it moves to the front, the others keep their order. */
  function MoveToFront<E>(xs: seq<E>, i: nat): (r: seq<E>)
    requires i < |xs|
    ensures |r| == |xs| && r[0] == xs[i]
    ensures r[1..] == xs[..i] + xs[i + 1..]
    ensures multiset(r) == multiset(xs)
  {
    assert xs == xs[..i] + [xs[i]] + xs[i + 1..];
    [xs[i]] + xs[..i] + xs[i + 1..]
  }

  /** Moving an entry to the front keeps the keys distinct. */
  lemma MoveToFrontDistinct<E, K>(xs: seq<E>, key: E -> K, i: nat)
    requires i < |xs| && DistinctKeys(xs, key)
    ensures DistinctKeys(MoveToFront(xs, i), key)
  {
    var r := MoveToFront(xs, i);
    // position p of r came from position Src(p) of xs, and Src is injective
    forall p, q | 0 <= p < q < |r| ensures key(r[p]) != key(r[q]) {
      var sp := if p == 0 then i else if p <= i then p - 1 else p;
      var sq := if q <= i then q - 1 else q;
      assert r[p] == xs[sp];
      assert r[q] == xs[sq];
      assert sp != sq;
    }
  }

  /** `xs.insert(0, e)` followed, when a cap is given, by `xs = xs[:cap]` if the list grew past it. */
  function PushFront<E>(xs: seq<E>, e: E, cap: Option<nat>): (r: seq<E>)
    ensures |r| > 0 ==> r[0] == e
    ensures cap.None? ==> r == [e] + xs
    ensures cap.Some? && |xs| + 1 <= cap.value ==> r == [e] + xs
    ensures cap.Some? && |xs| + 1 > cap.value ==> r == ([e] + xs)[..cap.value]
    ensures cap.Some? ==> |r| == MinNat(|xs| + 1, cap.value)
  {
    var pushed := [e] + xs;
    if cap.Some? && |pushed| > cap.value then pushed[..cap.value] else pushed
  }

  function MinNat(a: nat, b: nat): nat { if a <= b then a else b }

  /** Pushing an entry with a new key keeps the keys distinct. */
  lemma PushFrontDistinct<E, K>(xs: seq<E>, key: E -> K, e: E, cap: Option<nat>)
    requires DistinctKeys(xs, key) && !HasKey(xs, key, key(e))
    ensures DistinctKeys(PushFront(xs, e, cap), key)
  {
    var pushed := [e] + xs;
    forall p, q | 0 <= p < q < |pushed| ensures key(pushed[p]) != key(pushed[q]) {
      assert pushed[q] == xs[q - 1];
      if p > 0 {
        assert pushed[p] == xs[p - 1];
      }
    }
  }

  /** `[m for m in xs if key(m) != k]`. */
  function RemoveAll<E, K(==)>(xs: seq<E>, key: E -> K, k: K): (r: seq<E>)
    ensures |r| <= |xs|
    ensures forall i :: 0 <= i < |r| ==> key(r[i]) != k
    ensures |r| == |xs| <==> !HasKey(xs, key, k)
    ensures forall i :: 0 <= i < |r| ==> r[i] in xs
    ensures forall i :: 0 <= i < |xs| && key(xs[i]) != k ==> xs[i] in r
  {
    if |xs| == 0 then []
    else
      var rest := RemoveAll(xs[1..], key, k);
      assert forall i :: 1 <= i < |xs| ==> xs[i] == xs[1..][i - 1];
      assert HasKey(xs, key, k) <==> key(xs[0]) == k || HasKey(xs[1..], key, k) by {
        if HasKey(xs, key, k) && key(xs[0]) != k {
          var i :| 0 <= i < |xs| && key(xs[i]) == k;
          assert key(xs[1..][i - 1]) == k;
        }
      }
      if key(xs[0]) == k then rest else [xs[0]] + rest
  }

  /** Removing a key that no entry has changes nothing. */
  lemma {:induction false} RemoveAllAbsent<E, K>(xs: seq<E>, key: E -> K, k: K)
    requires !HasKey(xs, key, k)
    ensures RemoveAll(xs, key, k) == xs
  {
    if |xs| > 0 {
      assert !HasKey(xs[1..], key, k) by {
        forall i | 0 <= i < |xs[1..]| ensures key(xs[1..][i]) != k {
          assert xs[1..][i] == xs[i + 1];
        }
      }
      RemoveAllAbsent(xs[1..], key, k);
      assert key(xs[0]) != k;
      assert [xs[0]] + xs[1..] == xs;
    }
  }

  /**
    With distinct keys, the filter removes exactly the one entry keyed `k`
    and keeps the others in order.
   */
  lemma {:induction false} RemoveAllIsRemoveAt<E, K>(xs: seq<E>, key: E -> K, k: K, i: nat)
    requires DistinctKeys(xs, key) && i < |xs| && key(xs[i]) == k
    ensures RemoveAll(xs, key, k) == RemoveAt(xs, i)
  {
    var tail := xs[1..];
    assert DistinctKeys(tail, key) by {
      forall p, q | 0 <= p < q < |tail| ensures key(tail[p]) != key(tail[q]) {
        assert tail[p] == xs[p + 1] && tail[q] == xs[q + 1];
      }
    }
    if i == 0 {
      assert !HasKey(tail, key, k) by {
        forall p | 0 <= p < |tail| ensures key(tail[p]) != k {
          assert tail[p] == xs[p + 1];
        }
      }
      RemoveAllAbsent(tail, key, k);
      assert RemoveAt(xs, 0) == tail;
    } else {
      assert key(xs[0]) != key(xs[i]);
      assert tail[i - 1] == xs[i];
      RemoveAllIsRemoveAt(tail, key, k, i - 1);
      assert [xs[0]] + RemoveAt(tail, i - 1) == RemoveAt(xs, i);
    }
  }

  /** Deleting an entry keeps the keys distinct. */
  lemma RemoveAtDistinct<E, K>(xs: seq<E>, key: E -> K, i: nat)
    requires i < |xs| && DistinctKeys(xs, key)
    ensures DistinctKeys(RemoveAt(xs, i), key)
  {
    var r := RemoveAt(xs, i);
    forall p, q | 0 <= p < q < |r| ensures key(r[p]) != key(r[q]) {
      var sp := if p < i then p else p + 1;
      var sq := if q < i then q else q + 1;
      assert r[p] == xs[sp] && r[q] == xs[sq];
    }
  }

  /**
    Find the first entry keyed `k` and replace it by `f` of itself: the
    `m = get_by_id(k); if not m: return False; m[field] = v; return True`
    pattern. The flag says whether an entry was found.
   */
  function UpdateFirst<E, K(==)>(xs: seq<E>, key: E -> K, k: K, f: E -> E): (r: (seq<E>, bool))
    ensures r.1 <==> HasKey(xs, key, k)
    ensures !r.1 ==> r.0 == xs
    ensures r.1 ==> exists i :: FirstKeyed(xs, key, k, i) && r.0 == xs[i := f(xs[i])]
  {
    match Find(xs, key, k)
    case None => (xs, false)
    case Some(i) => (xs[i := f(xs[i])], true)
  }

  /** `del xs[i]`. */
  function RemoveAt<E>(xs: seq<E>, i: nat): (r: seq<E>)
    requires i < |xs|
    ensures |r| == |xs| - 1
    ensures forall j :: 0 <= j < i ==> r[j] == xs[j]
    ensures forall j :: i <= j < |r| ==> r[j] == xs[j + 1]
  {
    xs[..i] + xs[i + 1..]
  }

  // ---------------------------------------------------------------------------
  // Lists of dictionaries identified by their "id" entry

  /**
    What an `update_ui_settings` call does to a history list: the entry is
    unknown (the call answers false), its settings are merged with the new
    ones (true), or its stored settings cannot be merged and the call raises.
   */
  datatype UiUpdate = Unknown | Updated(entries: seq<Dict>) | Raised

  /**
    `[m for m in xs if m.get('id') != id]` with the answer `len` changed:
    every entry with the identifier goes and the others stay in order.
   */
  function RemoveById(xs: seq<Dict>, id: string): (r: (seq<Dict>, bool))
    ensures r.1 <==> HasKey(xs, IdOf, Str(id))
    ensures !HasKey(r.0, IdOf, Str(id))
    ensures !r.1 ==> r.0 == xs
    ensures DistinctKeys(xs, IdOf) && r.1 ==>
              exists i :: 0 <= i < |xs| && IdOf(xs[i]) == Str(id) && r.0 == RemoveAt(xs, i)
  {
    var kept := RemoveAll(xs, IdOf, Str(id));
    assert !HasKey(xs, IdOf, Str(id)) ==> kept == xs by {
      if !HasKey(xs, IdOf, Str(id)) { RemoveAllAbsent(xs, IdOf, Str(id)); }
    }
    assert DistinctKeys(xs, IdOf) && HasKey(xs, IdOf, Str(id)) ==>
             exists i :: 0 <= i < |xs| && IdOf(xs[i]) == Str(id) && kept == RemoveAt(xs, i) by {
      if DistinctKeys(xs, IdOf) && HasKey(xs, IdOf, Str(id)) {
        var i :| 0 <= i < |xs| && IdOf(xs[i]) == Str(id);
        RemoveAllIsRemoveAt(xs, IdOf, Str(id), i);
      }
    }
    (kept, |kept| != |xs|)
  }

  /** Sets one field of the first entry with the identifier; false when there is none. */
  function SetFieldById(xs: seq<Dict>, id: string, field: string, v: Value): (r: (seq<Dict>, bool))
    ensures r.1 <==> HasKey(xs, IdOf, Str(id))
    ensures !r.1 ==> r.0 == xs
    ensures r.1 ==> exists i :: FirstKeyed(xs, IdOf, Str(id), i) && |r.0| == |xs|
                                && r.0[i] == xs[i][field := v]
                                && forall j :: 0 <= j < |xs| && j != i ==> r.0[j] == xs[j]
  {
    UpdateFirst(xs, IdOf, Str(id), (d: Dict) => d[field := v])
  }
}

=== FILE: samples.dfy ===
/**
  Mono audio as the UI code sees it: a sequence of sample values. Only the
  index arithmetic of the silence trimming is modelled; the values are
  plain reals.
 */
module Samples {
  import opened Common

  /** Sample `i` is louder than the threshold. */
  predicate LoudAt(audio: seq<real>, threshold: real, i: int) {
    0 <= i < |audio| && Abs(audio[i]) > threshold
  }

  /** `np.where(np.abs(audio) > threshold)[0][-1]`: the index of the last loud sample. */
  function LastLoud(audio: seq<real>, threshold: real): (r: Option<nat>)
    ensures r.None? <==> forall i :: 0 <= i < |audio| ==> !LoudAt(audio, threshold, i)
    ensures r.Some? ==> LoudAt(audio, threshold, r.value)
                        && forall j :: r.value < j < |audio| ==> !LoudAt(audio, threshold, j)
  {
    if |audio| == 0 then None
    else if Abs(audio[|audio| - 1]) > threshold then
      assert LoudAt(audio, threshold, |audio| - 1);
      Some(|audio| - 1)
    else
      var r := LastLoud(audio[..|audio| - 1], threshold);
      assert forall i :: 0 <= i < |audio| - 1 ==> audio[..|audio| - 1][i] == audio[i];
      assert forall i :: 0 <= i < |audio| - 1 ==> (LoudAt(audio[..|audio| - 1], threshold, i) <==> LoudAt(audio, threshold, i));
      assert !LoudAt(audio, threshold, |audio| - 1);
      assert r.Some? ==> LoudAt(audio, threshold, r.value);
      r
  }

  /** Python's `xs[:end]`: a negative end counts from the back, and the end is clipped to the length. */
  function SliceTo<T>(xs: seq<T>, end: int): (r: seq<T>)
    ensures end >= 0 ==> r == xs[..if end <= |xs| then end else |xs|]
    ensures end < 0 ==> r == xs[..if |xs| + end >= 0 then |xs| + end else 0]
  {
    if end >= 0 then xs[..if end <= |xs| then end else |xs|]
    else xs[..if |xs| + end >= 0 then |xs| + end else 0]
  }

  /** `int(sample_rate * 0.1)`: the number of samples in a tenth of a second. */
  function TenthOfSecond(sampleRate: int): int {
    Trunc(sampleRate as real * 0.1)
  }
}

=== FILE: streaming_worker.dfy ===
/**
  ui/streaming_tts_worker.py: texts are synthesised chunk by chunk and
  each finished chunk is delivered in order. Synthesis, the cleaner and
  the effects chain are outside the model: the worker sees their results
  as inputs. What is modelled is the trimming of trailing silence, the
  silence appended after a chunk, and the order of the emitted signals.
 */
module StreamingWorker {
  import opened Common
  import opened Text
  import opened VowelFrames
  import opened Samples
  import MainWindow

  // ---------------------------------------------------------------------------
  // One chunk

  /**
    `_trim_silence`: unchanged for empty audio, a threshold that is not
    positive, or audio with no loud sample; otherwise the audio up to a
    tenth of a second after the last loud sample, never past the end.
   */
  function TrimSilence(audio: seq<real>, sampleRate: int, threshold: real): (r: seq<real>)
    ensures |r| <= |audio| && r == audio[..|r|]
    ensures |audio| == 0 || threshold <= 0.0 || LastLoud(audio, threshold).None? ==> r == audio
    ensures |audio| > 0 && threshold > 0.0 && LastLoud(audio, threshold).Some? && sampleRate >= 0 ==>
              |r| == MinI(LastLoud(audio, threshold).value + TenthOfSecond(sampleRate), |audio|)
    ensures TenthOfSecond(sampleRate) >= 1 ==> forall i :: LoudAt(audio, threshold, i) ==> i < |r|
  {
    if |audio| == 0 || threshold <= 0.0 then audio
    else
      match LastLoud(audio, threshold)
      case None => audio
      case Some(last) => SliceTo(audio, MinI(last + TenthOfSecond(sampleRate), |audio|))
  }

  /** For a positive threshold the worker trims exactly as the main window does. */
  lemma TrimAgreesWithMainWindow(audio: seq<real>, sampleRate: nat, threshold: real)
    requires threshold > 0.0
    ensures TrimSilence(audio, sampleRate, threshold) == MainWindow.TrimSilence(audio, sampleRate, threshold)
  {
  }

  /** Everything cut off is quiet, as long as a tenth of a second is at least one sample. */
  lemma TrimCutsOnlySilence(audio: seq<real>, sampleRate: int, threshold: real, i: int)
    requires TenthOfSecond(sampleRate) >= 1
    requires |TrimSilence(audio, sampleRate, threshold)| <= i < |audio|
    ensures !LoudAt(audio, threshold, i)
  {
  }

  /** `np.zeros(n)` as samples. */
  function Zeros(n: nat): (r: seq<real>)
    ensures |r| == n && forall k :: 0 <= k < n ==> r[k] == 0.0
  {
    seq(n, k => 0.0)
  }

  /** The frames end exactly at `total`: empty, or the last frame ends there. */
  predicate EndsAt(fs: seq<VowelFrame>, total: real) {
    |fs| > 0 ==> fs[|fs| - 1].End() == total
  }

  /**
    The `silence_after` step: a positive pause appends that many seconds of
    zero samples and, when there is lip-sync data, a closing `sil` frame at
    the old total, which grows by the pause. Anything else changes nothing.
   */
  function AddSilenceAfter(audio: seq<real>, lipsync: Option<LipSyncData>, sampleRate: nat, silenceAfter: real)
    : (r: (seq<real>, Option<LipSyncData>))
    ensures silenceAfter <= 0.0 ==> r == (audio, lipsync)
    ensures silenceAfter > 0.0 ==> && r.0 == audio + Zeros(Trunc(sampleRate as real * silenceAfter))
                                   && r.0[..|audio|] == audio
    ensures r.1.Some? <==> lipsync.Some?
    ensures silenceAfter > 0.0 && lipsync.Some? ==>
              var old_ := lipsync.value;
              && r.1.value.totalDuration == old_.totalDuration + silenceAfter
              && |r.1.value.frames| == |old_.frames| + 1
              && r.1.value.frames[..|old_.frames|] == old_.frames
              && r.1.value.frames[|old_.frames|] == VowelFrame(old_.totalDuration, "sil", 0.0, silenceAfter, true)
              && r.1.value.text == old_.text && r.1.value.sampleRate == old_.sampleRate
  {
    if silenceAfter <= 0.0 then (audio, lipsync)
    else
      var padding := Zeros(Trunc(sampleRate as real * silenceAfter));
      match lipsync
      case None => (audio + padding, None)
      case Some(data) =>
        var closing := VowelFrame(data.totalDuration, "sil", 0.0, silenceAfter, true);
        (audio + padding, Some(data.(frames := data.frames + [closing], totalDuration := data.totalDuration + silenceAfter)))
  }

  /**
    A back-to-back timeline that ends at its total stays back to back and
    still ends at its total after the pause is appended.
   */
  lemma SilenceAfterKeepsTimeline(audio: seq<real>, data: LipSyncData, sampleRate: nat, silenceAfter: real)
    requires ContiguousFrom(data.frames, 0.0) && EndsAt(data.frames, data.totalDuration)
    requires |data.frames| > 0
    ensures var out := AddSilenceAfter(audio, Some(data), sampleRate, silenceAfter).1.value;
            && ContiguousFrom(out.frames, 0.0)
            && EndsAt(out.frames, out.totalDuration)
  {
    var out := AddSilenceAfter(audio, Some(data), sampleRate, silenceAfter).1.value;
    if silenceAfter > 0.0 {
      var n := |data.frames|;
      assert out.frames[n - 1] == data.frames[n - 1];
      forall k | 0 <= k < |out.frames| - 1
        ensures out.frames[k + 1].timestamp == out.frames[k].timestamp + out.frames[k].duration
      {
        if k < n - 1 {
          assert out.frames[k + 1] == data.frames[k + 1] && out.frames[k] == data.frames[k];
        }
      }
    }
  }

  /** What synthesis hands the worker: a sample rate and the samples. */
  datatype Chunk = Chunk(sampleRate: nat, audio: seq<real>, lipsync: Option<LipSyncData>)

  /**
    `_process_single_chunk` after synthesis: `None` for a blank text or a
    failed synthesis; otherwise the audio trimmed when the threshold is
    positive, with the chunk's pause appended. The lip sync is computed
    from the trimmed audio by the engine and is an input here.
   */
  function ProcessChunk(text: string, synthesized: Option<(nat, seq<real>)>, trimThreshold: real,
                        lipsync: Option<LipSyncData>, silenceAfter: real): (r: Option<Chunk>)
    ensures r.None? <==> Strip(text) == [] || synthesized.None?
    ensures r.Some? ==> && r.value.sampleRate == synthesized.value.0
                        && |r.value.audio| >= |TrimSilence(synthesized.value.1, synthesized.value.0, trimThreshold)|
                        && r.value.audio[..|TrimSilence(synthesized.value.1, synthesized.value.0, trimThreshold)|]
                           == TrimSilence(synthesized.value.1, synthesized.value.0, trimThreshold)
    ensures r.Some? && silenceAfter <= 0.0 ==> r.value.audio == TrimSilence(synthesized.value.1, synthesized.value.0, trimThreshold)
  {
    if Strip(text) == [] || synthesized.None? then None
    else
      var (sr, audio) := synthesized.value;
      var trimmed := if trimThreshold > 0.0 then TrimSilence(audio, sr, trimThreshold) else audio;
      var (padded, lip) := AddSilenceAfter(trimmed, lipsync, sr, silenceAfter);
      Some(Chunk(sr, padded, lip))
  }

  // ---------------------------------------------------------------------------
  // Delivery order

  /** The worker's signals, in the order it emits them. */
  datatype Event =
    | Started(total: nat)
    | ChunkReady(index: nat, chunk: Chunk)
    | Progress(current: nat, total: nat)
    | AllFinished

  /** How many chunks are produced ahead of the one being delivered. */
  const BufferSize: nat := 3

  /**
    How many chunks are delivered: all of them, or those before the index
    at which the loop first sees the cancel flag.
   */
  function DeliveredCount(total: nat, cancelAt: Option<nat>): (d: nat)
    ensures d <= total
    ensures cancelAt.None? ==> d == total
  {
    match cancelAt
    case None => total
    case Some(c) => MinI(c, total)
  }

  /** The signals for delivering chunk `i`. */
  function Delivery(results: seq<Option<Chunk>>, i: nat): seq<Event>
    requires i < |results|
  {
    (if results[i].Some? then [ChunkReady(i, results[i].value)] else []) + [Progress(i + 1, |results|)]
  }

  /** The signals for delivering chunks `0 .. n-1`. */
  function DeliverUpTo(results: seq<Option<Chunk>>, n: nat): seq<Event>
    requires n <= |results|
  {
    if n == 0 then [] else DeliverUpTo(results, n - 1) + Delivery(results, n - 1)
  }

  /**
    The signals of one `synthesize_streaming` call: `all_finished` at once
    for no texts; otherwise `processing_started`, the deliveries, and
    `all_finished` only when the call was not cancelled.
   */
  function StreamEvents(results: seq<Option<Chunk>>, cancelAt: Option<nat>): seq<Event> {
    if |results| == 0 then [AllFinished]
    else [Started(|results|)] + DeliverUpTo(results, DeliveredCount(|results|, cancelAt))
         + (if cancelAt.None? then [AllFinished] else [])
  }

  /** `[a, a+1, ..., b-1]`. */
  function Range(a: nat, b: nat): (r: seq<nat>)
    requires a <= b
    ensures |r| == b - a && forall k :: 0 <= k < b - a ==> r[k] == a + k
  {
    seq(b - a, k requires 0 <= k < b - a => a + k)
  }

  /**
    `synthesize_streaming`, with each chunk's result given up front
    (`results[i]` is what processing text `i` yields) and `cancelAt` the
    loop index at which the cancel flag is first seen. Also returns the
    indices in the order they are processed.
   */
  method SynthesizeStreaming(results: seq<Option<Chunk>>, cancelAt: Option<nat>)
    returns (events: seq<Event>, processed: seq<nat>)
    ensures events == StreamEvents(results, cancelAt)
    ensures |results| > 0 ==> processed == Range(0, MinI(|results|, DeliveredCount(|results|, cancelAt) + BufferSize))
    ensures |results| == 0 ==> processed == []
  {
    var total := |results|;
    if total == 0 {
      return [AllFinished], [];
    }
    events := [Started(total)];
    processed := [];
    var k := 0;
    while k < MinI(BufferSize, total)
      invariant k <= MinI(BufferSize, total)
      invariant processed == Range(0, k)
    {
      processed := processed + [k];
      k := k + 1;
    }
    var i := 0;
    while i < total && !(cancelAt.Some? && cancelAt.value <= i)
      invariant i <= DeliveredCount(total, cancelAt)
      invariant events == [Started(total)] + DeliverUpTo(results, i)
      invariant processed == Range(0, MinI(total, i + BufferSize))
    {
      events := events + Delivery(results, i);
      if i + BufferSize < total {
        processed := processed + [i + BufferSize];
      }
      i := i + 1;
    }
    if cancelAt.None? {
      events := events + [AllFinished];
    }
  }

  /** The `progress_updated` counts among the signals, in order. */
  function ProgressCounts(events: seq<Event>): seq<nat> {
    if |events| == 0 then []
    else (if events[0].Progress? then [events[0].current] else []) + ProgressCounts(events[1..])
  }

  lemma {:induction false} ProgressCountsAppend(a: seq<Event>, b: seq<Event>)
    ensures ProgressCounts(a + b) == ProgressCounts(a) + ProgressCounts(b)
  {
    if |a| == 0 {
      assert a + b == b;
    } else {
      assert (a + b)[1..] == a[1..] + b;
      ProgressCountsAppend(a[1..], b);
    }
  }

  lemma {:induction false} DeliverUpToProgress(results: seq<Option<Chunk>>, n: nat)
    requires n <= |results|
    ensures ProgressCounts(DeliverUpTo(results, n)) == Range(1, n + 1)
  {
    if n > 0 {
      DeliverUpToProgress(results, n - 1);
      var d := Delivery(results, n - 1);
      ProgressCountsAppend(DeliverUpTo(results, n - 1), d);
      var head := if results[n - 1].Some? then [ChunkReady(n - 1, results[n - 1].value)] else [];
      ProgressCountsAppend(head, [Progress(n, |results|)]);
      assert ProgressCounts(head) == [];
      assert ProgressCounts([Progress(n, |results|)]) == [n];
    }
  }

  /**
    Progress is reported as 1, 2, ..., d for the d delivered chunks, in
    increasing order: every delivered index exactly once.
   */
  lemma ProgressInOrder(results: seq<Option<Chunk>>, cancelAt: Option<nat>)
    ensures ProgressCounts(StreamEvents(results, cancelAt)) == Range(1, DeliveredCount(|results|, cancelAt) + 1)
  {
    if |results| > 0 {
      var d := DeliveredCount(|results|, cancelAt);
      var tail: seq<Event> := if cancelAt.None? then [AllFinished] else [];
      DeliverUpToProgress(results, d);
      ProgressCountsAppend([Started(|results|)] + DeliverUpTo(results, d), tail);
      ProgressCountsAppend([Started(|results|)], DeliverUpTo(results, d));
      assert ProgressCounts([Started(|results|)]) == [];
      assert ProgressCounts(tail) == [];
    }
  }

  lemma {:induction false} DeliverUpToChunks(results: seq<Option<Chunk>>, n: nat, i: nat, c: Chunk)
    requires n <= |results|
    ensures ChunkReady(i, c) in DeliverUpTo(results, n) <==> i < n && results[i] == Some(c)
  {
    if n > 0 {
      DeliverUpToChunks(results, n - 1, i, c);
    }
  }

  /** A chunk is delivered exactly when it was reached before cancelling and its processing succeeded. */
  lemma ChunkReadyExactly(results: seq<Option<Chunk>>, cancelAt: Option<nat>, i: nat, c: Chunk)
    ensures ChunkReady(i, c) in StreamEvents(results, cancelAt)
            <==> i < DeliveredCount(|results|, cancelAt) && results[i] == Some(c)
  {
    if |results| > 0 {
      DeliverUpToChunks(results, DeliveredCount(|results|, cancelAt), i, c);
    }
  }

  lemma {:induction false} DeliverUpToHasNoFinish(results: seq<Option<Chunk>>, n: nat)
    requires n <= |results|
    ensures AllFinished !in DeliverUpTo(results, n)
  {
    if n > 0 {
      DeliverUpToHasNoFinish(results, n - 1);
    }
  }

  /**
    `all_finished` is emitted exactly when the call had no texts or was not
    cancelled; with no texts it is the only signal.
   */
  lemma FinishedExactly(results: seq<Option<Chunk>>, cancelAt: Option<nat>)
    ensures AllFinished in StreamEvents(results, cancelAt) <==> |results| == 0 || cancelAt.None?
    ensures |results| == 0 ==> StreamEvents(results, cancelAt) == [AllFinished]
  {
    if |results| > 0 {
      DeliverUpToHasNoFinish(results, DeliveredCount(|results|, cancelAt));
    }
  }
}

=== FILE: text.dfy ===
/**
  Python string primitives used by the studio's text handling: the whitespace
  class of `str.isspace`, `str.strip()`, `str.split()` with no separator,
  `str.splitlines()`, ASCII lower-casing and `" ".join(...)`.
 */
module Text {

  /** The characters Python's `str.isspace` (and so `strip()` / `split()`) treats as whitespace. */
  predicate IsSpace(c: char) {
    || c == '\t' || c == '\n' || c == '\U{000B}' || c == '\U{000C}' || c == '\r'
    || ('\U{001C}' <= c <= '\U{001F}')
    || c == ' ' || c == '\U{0085}' || c == '\U{00A0}' || c == '\U{1680}'
    || ('\U{2000}' <= c <= '\U{200A}')
    || c == '\U{2028}' || c == '\U{2029}' || c == '\U{202F}' || c == '\U{205F}'
    || c == '\U{3000}'
  }

  /** The characters `str.splitlines` breaks at (`\r\n` is handled as one break). */
  predicate IsLineBreak(c: char) {
    || c == '\n' || c == '\r' || c == '\U{000B}' || c == '\U{000C}'
    || c == '\U{001C}' || c == '\U{001D}' || c == '\U{001E}'
    || c == '\U{0085}' || c == '\U{2028}' || c == '\U{2029}'
  }

  lemma LineBreakIsSpace(c: char)
    requires IsLineBreak(c)
    ensures IsSpace(c)
  {
  }

  /** No whitespace at either end. */
  predicate Trimmed(s: string) {
    |s| == 0 || (!IsSpace(s[0]) && !IsSpace(s[|s| - 1]))
  }

  function StripLeft(s: string): (r: string)
    ensures |r| <= |s| && r == s[|s| - |r|..]
    ensures |r| == 0 || !IsSpace(r[0])
    ensures forall i :: 0 <= i < |s| - |r| ==> IsSpace(s[i])
  {
    if |s| == 0 then s
    else if IsSpace(s[0]) then StripLeft(s[1..])
    else s
  }

  function StripRight(s: string): (r: string)
    ensures |r| <= |s| && r == s[..|r|]
    ensures |r| == 0 || !IsSpace(r[|r| - 1])
    ensures forall i :: |r| <= i < |s| ==> IsSpace(s[i])
  {
    if |s| == 0 then s
    else if IsSpace(s[|s| - 1]) then StripRight(s[..|s| - 1])
    else s
  }

  /** `s.strip()`: the longest infix with no whitespace at either end. */
  function Strip(s: string): (r: string)
    ensures Trimmed(r)
    ensures |r| <= |s|
    ensures (exists c :: c in s && !IsSpace(c)) <==> |r| > 0
  {
    var l := StripLeft(s);
    var r := StripRight(l);
    StripLeftKeepsText(s);
    StripRightKeepsText(l);
    r
  }

  /** Every non-whitespace character survives `StripLeft`. */
  lemma StripLeftKeepsText(s: string)
    ensures forall c :: c in s && !IsSpace(c) ==> c in StripLeft(s)
  {
    var l := StripLeft(s);
    forall c | c in s && !IsSpace(c) ensures c in l {
      var i :| 0 <= i < |s| && s[i] == c;
      assert s[i] == l[i - (|s| - |l|)];
    }
  }

  /** Every non-whitespace character survives `StripRight`. */
  lemma StripRightKeepsText(l: string)
    ensures forall c :: c in l && !IsSpace(c) ==> c in StripRight(l)
  {
    var r := StripRight(l);
    forall c | c in l && !IsSpace(c) ensures c in r {
      var i :| 0 <= i < |l| && l[i] == c;
      assert i < |r|;
      assert r[i] == c;
    }
  }

  /** Stripping a string with no whitespace at its ends changes nothing. */
  lemma StripTrimmed(s: string)
    requires Trimmed(s)
    ensures Strip(s) == s
  {
  }

  /** The longest prefix of `s` without whitespace. */
  function WordPrefix(s: string): (w: string)
    ensures |w| <= |s| && w == s[..|w|]
    ensures forall i :: 0 <= i < |w| ==> !IsSpace(w[i])
    ensures |w| == |s| || IsSpace(s[|w|])
  {
    if |s| == 0 || IsSpace(s[0]) then []
    else [s[0]] + WordPrefix(s[1..])
  }

  /** `s.split()`: the maximal runs of non-whitespace characters, in order. */
  function Words(s: string): (ws: seq<string>)
    ensures forall k :: 0 <= k < |ws| ==> |ws[k]| > 0
    ensures forall k, i :: 0 <= k < |ws| && 0 <= i < |ws[k]| ==> !IsSpace(ws[k][i])
    decreases |s|
  {
    if |s| == 0 then []
    else if IsSpace(s[0]) then Words(s[1..])
    else
      var w := WordPrefix(s);
      [w] + Words(s[|w|..])
  }

  /** `sep.join(parts)`. */
  function Join(parts: seq<string>, sep: string): string {
    if |parts| == 0 then ""
    else if |parts| == 1 then parts[0]
    else parts[0] + sep + Join(parts[1..], sep)
  }

  /** Flattening of a sequence of sequences. */
  function Concat<T>(xss: seq<seq<T>>): seq<T> {
    if |xss| == 0 then [] else xss[0] + Concat(xss[1..])
  }

  lemma ConcatAppend<T>(a: seq<seq<T>>, b: seq<seq<T>>)
    ensures Concat(a + b) == Concat(a) + Concat(b)
  {
    if |a| == 0 {
      assert a + b == b;
    } else {
      assert (a + b)[1..] == a[1..] + b;
      ConcatAppend(a[1..], b);
    }
  }

  /** Index of the first line break of `s`, or |s| when there is none. */
  function FirstBreak(s: string): (i: nat)
    ensures i <= |s|
    ensures forall j :: 0 <= j < i ==> !IsLineBreak(s[j])
    ensures i < |s| ==> IsLineBreak(s[i])
  {
    if |s| == 0 || IsLineBreak(s[0]) then 0 else 1 + FirstBreak(s[1..])
  }

  /** `s.splitlines()`: the lines of `s` without their terminators. */
  function SplitLines(s: string): (lines: seq<string>)
    ensures forall k, i :: 0 <= k < |lines| && 0 <= i < |lines[k]| ==> !IsLineBreak(lines[k][i])
    decreases |s|
  {
    if |s| == 0 then []
    else
      var i := FirstBreak(s);
      if i == |s| then [s]
      else
        var width := if s[i] == '\r' && i + 1 < |s| && s[i + 1] == '\n' then 2 else 1;
        [s[..i]] + SplitLines(s[i + width..])
  }

  /** ASCII lower-casing, which is all `str.lower()` changes in the strings modelled here. */
  function LowerChar(c: char): (d: char)
    ensures 'A' <= c <= 'Z' ==> 'a' <= d <= 'z'
    ensures !('A' <= c <= 'Z') ==> d == c
  {
    if 'A' <= c <= 'Z' then (c as int - 'A' as int + 'a' as int) as char else c
  }

  function Lower(s: string): (r: string)
    ensures |r| == |s|
    ensures forall i :: 0 <= i < |s| ==> r[i] == LowerChar(s[i])
  {
    if |s| == 0 then [] else [LowerChar(s[0])] + Lower(s[1..])
  }

  lemma LowerIdempotent(s: string)
    ensures Lower(Lower(s)) == Lower(s)
  {
  }

  /** Lower-casing neither creates nor removes whitespace or occurrences of a non-letter. */
  lemma LowerKeeps(s: string, c: char)
    requires !('A' <= c <= 'Z') && !('a' <= c <= 'z')
    ensures Trimmed(s) ==> Trimmed(Lower(s))
    ensures c !in s ==> c !in Lower(s)
  {
    var l := Lower(s);
    if |s| > 0 {
      LowerCharSpace(s[0]);
      LowerCharSpace(s[|s| - 1]);
    }
    if c in l {
      var i :| 0 <= i < |l| && l[i] == c;
      assert LowerChar(s[i]) == c;
    }
  }

  lemma LowerCharSpace(x: char)
    ensures IsSpace(LowerChar(x)) <==> IsSpace(x)
  {
  }

  /** Replaces every occurrence of `a` by `b`. */
  function ReplaceChar(s: string, a: char, b: char): (r: string)
    ensures |r| == |s|
    ensures forall i :: 0 <= i < |s| ==> r[i] == (if s[i] == a then b else s[i])
  {
    if |s| == 0 then [] else [if s[0] == a then b else s[0]] + ReplaceChar(s[1..], a, b)
  }

  /** Decimal rendering of a natural number. */
  function NatToString(n: nat): (s: string)
    ensures |s| > 0
    ensures forall i :: 0 <= i < |s| ==> '0' <= s[i] <= '9'
  {
    if n < 10 then [Digit(n)] else NatToString(n / 10) + [Digit(n % 10)]
  }

  function Digit(d: nat): (c: char)
    requires d < 10
    ensures '0' <= c <= '9'
  {
    ('0' as int + d) as char
  }

  /** Value of a non-empty string of ASCII digits. */
  function DigitsValue(s: string): nat
    requires forall i :: 0 <= i < |s| ==> '0' <= s[i] <= '9'
  {
    if |s| == 0 then 0 else DigitsValue(s[..|s| - 1]) * 10 + (s[|s| - 1] as int - '0' as int)
  }

  lemma {:induction false} NatToStringRoundTrip(n: nat)
    ensures DigitsValue(NatToString(n)) == n
  {
    if n >= 10 {
      var s := NatToString(n / 10) + [Digit(n % 10)];
      assert s[..|s| - 1] == NatToString(n / 10);
      NatToStringRoundTrip(n / 10);
    }
  }

  /** Python's `str()` of an integer: a minus sign for negatives, then the decimal digits. */
  function IntToString(n: int): (s: string)
    ensures |s| > 0
    ensures n >= 0 ==> s == NatToString(n)
    ensures n < 0 ==> s == "-" + NatToString(-n)
  {
    if n < 0 then "-" + NatToString(-n) else NatToString(n)
  }

  /** Different integers are spelled differently, so comparing spellings compares the integers. */
  lemma IntToStringInjective(a: int, b: int)
    requires IntToString(a) == IntToString(b)
    ensures a == b
  {
    SignOfSpelling(a);
    SignOfSpelling(b);
    if a < 0 {
      assert b < 0 && NatToString(-a) == NatToString(-b);
      NatToStringInjective(-a, -b);
    } else {
      assert b >= 0 && NatToString(a) == NatToString(b);
      NatToStringInjective(a, b);
    }
  }

  lemma NatToStringInjective(m: nat, k: nat)
    requires NatToString(m) == NatToString(k)
    ensures m == k
  {
    NatToStringRoundTrip(m);
    NatToStringRoundTrip(k);
  }

  /** The first character tells the sign, and the rest is the magnitude's digits. */
  lemma SignOfSpelling(n: int)
    ensures (IntToString(n)[0] == '-') <==> n < 0
    ensures n < 0 ==> IntToString(n)[1..] == NatToString(-n)
  {
    var d := NatToString(if n < 0 then -n else n);
    assert '0' <= d[0] <= '9';
    if n < 0 {
      assert ("-" + d)[1..] == d;
    }
  }
}

=== FILE: wav_playback_control.dfy ===
/**
  The flags, position and seek slider of ui/wav_playback_control.py, the
  panel that drives the WAV player. Labels and buttons are left out; the
  signals the panel emits are returned alongside its new state.
 */
module WavPlaybackControl {
  import opened Common
  import opened Text

  /** The seek slider runs over 0..1000. */
  const SliderMax: int := 1000

  datatype Control = Control(loaded: bool, playing: bool, paused: bool, duration: real,
                             position: real, dragging: bool, slider: int)

  datatype Signal = PlaybackPaused | PlaybackStarted(start: real) | PlaybackStopped | PositionChanged(position: real)

  // ---------------------------------------------------------------------------
  // Time display

  /** Every character is a decimal digit. */
  predicate AllDigits(s: string) {
    forall i :: 0 <= i < |s| ==> '0' <= s[i] <= '9'
  }

  /**
    `f"{n:02d}"`: at least two characters, the width counting the sign, so
    a natural number is zero-padded to two digits and a negative one is a
    minus sign followed by its digits, with no padding.
   */
  function Pad2(n: int): (s: string)
    ensures 0 <= n < 100 ==> |s| == 2
    ensures n >= 0 ==> AllDigits(s)
    ensures n < 0 ==> && |s| >= 2 && s[0] == '-' && AllDigits(s[1..]) && DigitsValue(s[1..]) == -n
                      && (|s| == 2 <==> -10 < n)
  {
    if n < 0 then
      SignedDigits(-n);
      "-" + NatToString(-n)
    else if n < 10 then "0" + NatToString(n)
    else
      assert n < 100 ==> NatToString(n) == NatToString(n / 10) + [Digit(n % 10)] && |NatToString(n / 10)| == 1;
      NatToString(n)
  }

  /** A minus sign followed by the digits of `m`, which read back as `m`. */
  lemma SignedDigits(m: nat)
    ensures var s := "-" + NatToString(m);
            && |s| >= 2 && s[0] == '-' && s[1..] == NatToString(m) && AllDigits(s[1..])
            && DigitsValue(s[1..]) == m && (|s| == 2 <==> m < 10)
  {
    NatToStringRoundTrip(m);
    if m >= 10 {
      assert NatToString(m) == NatToString(m / 10) + [Digit(m % 10)];
    }
    assert ("-" + NatToString(m))[1..] == NatToString(m);
  }

  lemma Pad2Value(n: nat)
    ensures DigitsValue(Pad2(n)) == n
  {
    NatToStringRoundTrip(n);
    if n < 10 {
      var s := "0" + NatToString(n);
      assert s[..|s| - 1] == "0";
    }
  }

  /** Python's float `%` by 60: the remainder has the divisor's sign. */
  function Mod60(x: real): (m: real)
    ensures 0.0 <= m < 60.0
  {
    x - 60.0 * (x / 60.0).Floor as real
  }

  /** `_format_time`: minutes `seconds // 60` and seconds `int(seconds % 60)`, each as two digits. */
  function FormatTime(seconds: real): (r: string)
    ensures seconds >= 0.0 ==> |r| >= 5 && r[|r| - 3] == ':'
    ensures seconds < 0.0 ==> |r| > 0 && r[0] == '-'
  {
    var minutes := Pad2((seconds / 60.0).Floor);
    assert seconds < 0.0 ==> (seconds / 60.0).Floor < 0 && |minutes| >= 2 && minutes[0] == '-';
    minutes + ":" + Pad2(Trunc(Mod60(seconds)))
  }

  /** The whole seconds are the display's minutes times 60 plus its two-digit seconds. */
  lemma WholeSeconds(x: real)
    ensures 60 * (x / 60.0).Floor + Mod60(x).Floor == x.Floor
    ensures x >= 0.0 ==> (x / 60.0).Floor >= 0
  {
    var k := (x / 60.0).Floor;
    assert Mod60(x) == x - 60.0 * k as real;
    assert (x - 60.0 * k as real).Floor == x.Floor - 60 * k;
  }

  /** One second before zero shows as minute -1 and second 59, the minus sign unpadded. */
  lemma NegativeTimeDisplay()
    ensures FormatTime(-1.0) == "-1:59"
  {
    assert (-1.0 / 60.0).Floor == -1;
    assert Mod60(-1.0) == 59.0;
    assert NatToString(59) == NatToString(5) + [Digit(9)];
  }

  /** Reads an `mm:ss` display back as minutes and seconds; `None` when it is not one. */
  function ParseTime(r: string): Option<(nat, nat)> {
    if |r| >= 3 && r[|r| - 3] == ':' && AllDigits(r[..|r| - 3]) && AllDigits(r[|r| - 2..]) then
      Some((DigitsValue(r[..|r| - 3]), DigitsValue(r[|r| - 2..])))
    else None
  }

  /**
    Reading the display back gives the time it shows: for a non-negative
    time it parses, the seconds are below 60, and minutes and seconds
    together make the whole seconds.
   */
  lemma FormatTimeReadsBack(seconds: real)
    requires seconds >= 0.0
    ensures var t := ParseTime(FormatTime(seconds));
            t.Some? && t.value.1 < 60 && t.value.0 * 60 + t.value.1 == seconds.Floor
  {
    WholeSeconds(seconds);
    assert Trunc(Mod60(seconds)) == Mod60(seconds).Floor;
    MinutesAndSeconds((seconds / 60.0).Floor, Mod60(seconds).Floor);
  }

  /** `mm:ss` built from whole minutes and seconds reads back as both. */
  lemma MinutesAndSeconds(m: nat, s: nat)
    requires s < 60
    ensures ParseTime(Pad2(m) + ":" + Pad2(s)) == Some((m, s))
  {
    SplitAtColon(Pad2(m), Pad2(s));
    Pad2Value(m);
    Pad2Value(s);
  }

  /** The two halves of `a:b` with a two-character `b`. */
  lemma SplitAtColon(a: string, b: string)
    requires |b| == 2
    ensures var r := a + ":" + b; |r| >= 3 && r[|r| - 3] == ':' && r[..|r| - 3] == a && r[|r| - 2..] == b
  {
  }

  // ---------------------------------------------------------------------------
  // Play, pause, stop

  /**
    `toggle_play_pause` as written: while playing it pauses; otherwise it
    starts, reading the paused flag only after clearing it.
   */
  function TogglePlayPauseAsWritten(c: Control): (Control, Option<Signal>) {
    if !c.loaded then (c, None)
    else if c.playing then (c.(playing := false, paused := true), Some(PlaybackPaused))
    else
      var c1 := c.(playing := true, paused := false);
      (c1, Some(PlaybackStarted(if c1.paused then c1.position else 0.0)))
  }

  /** As written, resuming from a pause always asks the player to start at 0. */
  lemma ResumeStartsAtZeroAsWritten(c: Control)
    requires c.loaded && !c.playing && c.paused
    ensures TogglePlayPauseAsWritten(c).1 == Some(PlaybackStarted(0.0))
  {
  }

  /** A panel paused at 3 s is asked to start over at 0. */
  lemma ResumeLosesPosition()
    ensures var c := Control(true, false, true, 10.0, 3.0, false, 300);
            TogglePlayPauseAsWritten(c).1 == Some(PlaybackStarted(0.0)) != Some(PlaybackStarted(c.position))
  {
  }

  /**
    `toggle_play_pause` as intended: nothing without a loaded file; while
    playing, pause; otherwise play, from the current position after a
    pause and from 0 after a stop.
   */
  function TogglePlayPause(c: Control): (r: (Control, Option<Signal>))
    ensures !c.loaded ==> r == (c, None)
    ensures c.loaded && c.playing ==> !r.0.playing && r.0.paused && r.1 == Some(PlaybackPaused)
    ensures c.loaded && !c.playing ==> && r.0.playing && !r.0.paused
                                       && r.1 == Some(PlaybackStarted(if c.paused then c.position else 0.0))
    ensures r.0.position == c.position && r.0.duration == c.duration && r.0.slider == c.slider
  {
    if !c.loaded then (c, None)
    else if c.playing then (c.(playing := false, paused := true), Some(PlaybackPaused))
    else (c.(playing := true, paused := false), Some(PlaybackStarted(if c.paused then c.position else 0.0)))
  }

  /** Toggling twice from playing pauses and then resumes at the same position. */
  lemma ToggleTwiceResumes(c: Control)
    requires c.loaded && c.playing
    ensures var (paused, _) := TogglePlayPause(c);
            TogglePlayPause(paused).1 == Some(PlaybackStarted(c.position))
  {
  }

  /** The two versions differ only when resuming from a pause at a non-zero position. */
  lemma ToggleDiffersOnlyOnResume(c: Control)
    requires !(c.loaded && !c.playing && c.paused && c.position != 0.0)
    ensures TogglePlayPause(c) == TogglePlayPauseAsWritten(c)
  {
  }

  /** `stop_playback` (also `on_playback_finished`): both flags cleared, position and slider back to 0. */
  function StopPlayback(c: Control): (r: (Control, Option<Signal>))
    ensures !c.loaded ==> r == (c, None)
    ensures c.loaded ==> && !r.0.playing && !r.0.paused && r.0.position == 0.0 && r.0.slider == 0
                         && r.1 == Some(PlaybackStopped)
    ensures r.0.duration == c.duration && r.0.loaded == c.loaded
  {
    if !c.loaded then (c, None)
    else (c.(playing := false, paused := false, position := 0.0, slider := 0), Some(PlaybackStopped))
  }

  /** Never playing and paused at once, with the slider on its scale. */
  predicate Valid(c: Control) {
    !(c.playing && c.paused) && 0 <= c.slider <= SliderMax
  }

  // ---------------------------------------------------------------------------
  // Seek slider

  /**
    `update_position`: the slider follows the position unless it is being
    dragged or the length is unknown; `QSlider.setValue` clamps the
    per-mille value into the slider's range.
   */
  function UpdatePosition(c: Control, position: real): (r: Control)
    ensures r.position == position
    ensures c.dragging || c.duration <= 0.0 ==> r.slider == c.slider
    ensures !c.dragging && c.duration > 0.0 ==> 0 <= r.slider <= SliderMax
    ensures !c.dragging && c.duration > 0.0 && 0.0 <= position <= c.duration ==>
              r.slider as real <= position / c.duration * 1000.0 < r.slider as real + 1.0
    ensures !c.dragging && c.duration > 0.0 && position < 0.0 ==> r.slider == 0
    ensures !c.dragging && c.duration > 0.0 && position > c.duration ==> r.slider == SliderMax
    ensures r == c.(position := position, slider := r.slider)
  {
    if !c.dragging && c.duration > 0.0 then
      var v := Trunc(position / c.duration * 1000.0);
      if 0.0 <= position <= c.duration then
        UnitRatio(position, c.duration);
        c.(position := position, slider := ClampI(v, 0, SliderMax))
      else
        PastEnds(position, c.duration);
        c.(position := position, slider := ClampI(v, 0, SliderMax))
    else c.(position := position)
  }

  /** A position before the start gives a negative ratio, one past the end a ratio above 1. */
  lemma PastEnds(x: real, d: real)
    requires d > 0.0
    ensures x < 0.0 ==> Trunc(x / d * 1000.0) <= 0
    ensures x > d ==> Trunc(x / d * 1000.0) >= 1000
  {
    if x < 0.0 {
      assert x / d < 0.0;
    }
    if x > d {
      assert x / d > 1.0;
    }
  }

  lemma UnitRatio(x: real, d: real)
    requires 0.0 <= x <= d && d > 0.0
    ensures 0.0 <= x / d <= 1.0
  {
    DivMonotone(x, d, d);
  }

  lemma ScaleWithin(f: real, d: real)
    requires 0.0 <= f <= 1.0 && d > 0.0
    ensures 0.0 <= f * d <= d
  {
    assert d - f * d == (1.0 - f) * d;
  }

  /** `on_seek_pressed`. */
  function SeekPressed(c: Control): (r: Control)
    ensures r.dragging && r == c.(dragging := true)
  {
    c.(dragging := true)
  }

  /** `on_seek_released`: dragging ends and, once the length is known, the slider's position is requested. */
  function SeekReleased(c: Control): (r: (Control, Option<Signal>))
    ensures !r.0.dragging && r.0 == c.(dragging := false)
    ensures r.1.Some? <==> c.duration > 0.0
    ensures c.duration > 0.0 ==> r.1.value == PositionChanged(c.slider as real / 1000.0 * c.duration)
    ensures c.duration > 0.0 && 0 <= c.slider <= SliderMax ==>
              r.1.value.PositionChanged? && 0.0 <= r.1.value.position <= c.duration
  {
    if c.duration > 0.0 then
      var p := c.slider as real / 1000.0 * c.duration;
      if 0 <= c.slider <= SliderMax then
        ScaleWithin(c.slider as real / 1000.0, c.duration);
        assert 0.0 <= p <= c.duration;
        (c.(dragging := false), Some(PositionChanged(p)))
      else (c.(dragging := false), Some(PositionChanged(p)))
    else (c.(dragging := false), None)
  }

  /**
    Slider round trip: after the slider follows a position, pressing and
    releasing it requests that position rounded down to a thousandth of the
    length.
   */
  lemma SliderRoundTrip(c: Control, position: real)
    requires !c.dragging && c.duration > 0.0 && 0.0 <= position <= c.duration
    ensures var (_, signal) := SeekReleased(SeekPressed(UpdatePosition(c, position)));
            && signal.Some? && signal.value.PositionChanged?
            && position - c.duration / 1000.0 < signal.value.position <= position
  {
    var u := UpdatePosition(c, position);
    var d := c.duration;
    var pressed := SeekPressed(u);
    assert pressed.slider == u.slider && pressed.duration == d;
    var v := u.slider as real;
    PerMilleBounds(v, position, d);
  }

  /** A per-mille value truncated from `x / d` gives back `x` to within a thousandth of `d`, rounded down. */
  lemma PerMilleBounds(v: real, x: real, d: real)
    requires d > 0.0 && v <= x / d * 1000.0 < v + 1.0
    ensures x - d / 1000.0 < v / 1000.0 * d <= x
  {
    var a := v / 1000.0;
    var q := x / d;
    assert a <= q < a + 0.001;
    QuotientTimes(x, d);
    WithinStep(a, q, d, x);
  }

  /** A factor within a thousandth below `q` scales to within a thousandth of `d` below `q * d`. */
  lemma WithinStep(a: real, q: real, d: real, x: real)
    requires d > 0.0 && a <= q < a + 0.001 && q * d == x
    ensures x - d / 1000.0 < a * d <= x
  {
    var below := q - a;
    var above := a + 0.001 - q;
    assert below * d >= 0.0;
    assert below * d == x - a * d;
    assert above * d > 0.0;
    assert above * d == a * d + d / 1000.0 - x;
  }

  lemma QuotientTimes(x: real, d: real)
    requires d != 0.0
    ensures x / d * d == x
  {
  }

  /** Every operation keeps the panel valid. */
  lemma OperationsKeepValid(c: Control, position: real)
    requires Valid(c)
    ensures Valid(TogglePlayPause(c).0) && Valid(TogglePlayPauseAsWritten(c).0) && Valid(StopPlayback(c).0)
    ensures Valid(SeekPressed(c)) && Valid(SeekReleased(c).0)
    ensures Valid(UpdatePosition(c, position))
  {
  }
}

=== FILE: wav_player.dfy ===
/**
  The playback flags and position of core/wav_player.py. The sound device,
  the playback thread and the 50 ms timer are outside the model: the timer
  is the caller invoking `UpdatePosition`, and the samples themselves are
  not modelled, only whether audio is loaded and how long it lasts.
 */
module WavPlayer {
  import opened Common

  datatype Player = Player(loaded: bool, duration: real, position: real, playing: bool, paused: bool, volume: real)

  /** A fresh player: nothing loaded, stopped, at volume 1. */
  function Initial(): Player {
    Player(false, 0.0, 0.0, false, false, 1.0)
  }

  /**
    The player's invariant: a non-negative length, the position inside the
    audio, never playing and paused at once, and the volume in [0, 2].
   */
  predicate Valid(p: Player) {
    && p.duration >= 0.0
    && 0.0 <= p.position <= p.duration
    && !(p.playing && p.paused)
    && 0.0 <= p.volume <= 2.0
  }

  /** `max(0.0, min(x, duration))`. */
  function ClampPosition(p: Player, x: real): real {
    MaxR(0.0, MinR(x, p.duration))
  }

  /**
    `load_wav_file`: `read` is the sample count and rate, or `None` when
    the file is missing or unreadable. A zero rate raises after the audio
    was stored, so the player counts as loaded with the old length.
   */
  function Load(p: Player, read: Option<(nat, nat)>): (r: (Player, bool))
    ensures r.1 <==> read.Some? && read.value.1 > 0
    ensures read.None? ==> r.0 == p
    ensures r.1 ==> && r.0.loaded && r.0.position == 0.0
                    && r.0.duration * read.value.1 as real == read.value.0 as real
                    && r.0.playing == p.playing && r.0.paused == p.paused && r.0.volume == p.volume
  {
    match read
    case None => (p, false)
    case Some((samples, rate)) =>
      if rate == 0 then (p.(loaded := true), false)
      else (p.(loaded := true, duration := samples as real / rate as real, position := 0.0), true)
  }

  /**
    `play` as written: a fresh start (not resuming from a pause) moves to
    `start` without the clamp applied just before it.
   */
  function PlayAsWritten(p: Player, start: Option<real>): Player {
    if !p.loaded || (p.playing && !p.paused) then p
    else
      var clamped := if start.Some? then ClampPosition(p, start.value) else p.position;
      if p.paused then p.(position := clamped, paused := false, playing := true)
      else p.(position := if start.Some? then start.value else 0.0, playing := true)
  }

  /**
    `play` as intended: nothing without audio or while already playing;
    resuming from a pause continues at the current position or at the
    clamped `start`; a fresh start begins at the clamped `start` or at 0.
   */
  function Play(p: Player, start: Option<real>): (r: Player)
    ensures !p.loaded || (p.playing && !p.paused) ==> r == p
    ensures p.loaded && !(p.playing && !p.paused) ==>
              && r.playing && !r.paused
              && r.position == (if start.Some? then ClampPosition(p, start.value) else if p.paused then p.position else 0.0)
              && r.duration == p.duration && r.volume == p.volume && r.loaded
  {
    if !p.loaded || (p.playing && !p.paused) then p
    else
      var clamped := if start.Some? then ClampPosition(p, start.value) else p.position;
      if p.paused then p.(position := clamped, paused := false, playing := true)
      else p.(position := if start.Some? then clamped else 0.0, playing := true)
  }

  /** A fresh start at a position past the end leaves the player outside its audio. */
  lemma PlayAsWrittenLeavesAudio()
    ensures var p := Player(true, 1.0, 0.0, false, false, 1.0);
            && Valid(p)
            && PlayAsWritten(p, Some(5.0)).position == 5.0
            && !Valid(PlayAsWritten(p, Some(5.0)))
  {
  }

  /** Resuming and plain starts are the same either way; only a fresh start at an explicit position differs. */
  lemma PlayDiffersOnlyOnFreshStart(p: Player, start: Option<real>)
    requires p.paused || start.None? || (0.0 <= start.value <= p.duration)
    ensures Play(p, start) == PlayAsWritten(p, start)
  {
  }

  /** `pause`: only while playing; then paused and not playing, position kept. */
  function Pause(p: Player): (r: Player)
    ensures !p.playing ==> r == p
    ensures p.playing ==> r.paused && !r.playing && r.position == p.position && r.duration == p.duration
  {
    if !p.playing then p else p.(paused := true, playing := false)
  }

  /** `stop`: only while playing or paused; then both cleared and the position back to 0. */
  function Stop(p: Player): (r: Player)
    ensures !p.playing && !p.paused ==> r == p
    ensures p.playing || p.paused ==> !r.playing && !r.paused && r.position == 0.0 && r.duration == p.duration
  {
    if !p.playing && !p.paused then p else p.(playing := false, paused := false, position := 0.0)
  }

  /** `set_volume`: the volume clamped to [0, 2]. */
  function SetVolume(p: Player, v: real): (r: Player)
    ensures 0.0 <= r.volume <= 2.0
    ensures 0.0 <= v <= 2.0 ==> r.volume == v
    ensures r == p.(volume := r.volume)
  {
    p.(volume := ClampR(v, 0.0, 2.0))
  }

  /**
    `seek`: nothing without audio; otherwise the position is clamped into
    the audio, and playback that was running pauses and resumes there.
   */
  function Seek(p: Player, target: real): (r: Player)
    ensures !p.loaded ==> r == p
    ensures p.loaded ==> && r.position == ClampPosition(p, target) && r.playing == p.playing
                         && r.paused == (p.paused && !p.playing) && r.duration == p.duration
  {
    if !p.loaded then p
    else
      var wasPlaying := p.playing;
      var paused := if wasPlaying then Pause(p) else p;
      var moved := paused.(position := ClampPosition(p, target));
      if wasPlaying then Play(moved, Some(moved.position)) else moved
  }

  /** Seeking resumes through the pause branch, so the clamp is kept even as written. */
  lemma SeekSameAsWritten(p: Player, target: real)
    requires Valid(p) && p.loaded && p.playing
    ensures var moved := Pause(p).(position := ClampPosition(p, target));
            PlayAsWritten(moved, Some(moved.position)) == Play(moved, Some(moved.position))
  {
  }

  /**
    `_update_position`, one timer tick: while playing the position moves
    on by 0.05 s; reaching the end stops the player, which puts it back at 0.
   */
  function UpdatePosition(p: Player): (r: Player)
    ensures !p.playing ==> r == p
    ensures p.playing && p.position + 0.05 < p.duration ==> r == p.(position := p.position + 0.05)
    ensures p.playing && p.position + 0.05 >= p.duration ==> !r.playing && !r.paused && r.position == 0.0
  {
    if !p.playing then p
    else
      var next := p.position + 0.05;
      if next >= p.duration then Stop(p.(position := p.duration))
      else p.(position := next)
  }

  /** Every operation keeps the invariant, starting from a fresh player. */
  lemma OperationsKeepValid(p: Player, start: Option<real>, target: real, v: real, read: Option<(nat, nat)>)
    requires Valid(p)
    ensures Valid(Initial())
    ensures Valid(Play(p, start)) && Valid(Pause(p)) && Valid(Stop(p))
    ensures Valid(Seek(p, target)) && Valid(SetVolume(p, v)) && Valid(UpdatePosition(p))
    ensures Valid(Load(p, read).0)
  {
    if read.Some? && read.value.1 > 0 {
      var (samples, rate) := read.value;
      assert samples as real / rate as real >= 0.0;
    }
  }

  /** Pausing and then playing with no position resumes where playback was. */
  lemma PauseThenPlayResumes(p: Player)
    requires Valid(p) && p.loaded && p.playing
    ensures Play(Pause(p), None) == p
  {
  }

  /** Playing for long enough always stops the player at 0: ticks never overshoot. */
  lemma {:induction false} TicksReachEnd(p: Player, n: nat)
    requires Valid(p) && p.playing && n > 0
    requires p.position + 0.05 * n as real >= p.duration
    ensures var q := Ticks(p, n); !q.playing && q.position == 0.0
    decreases n
  {
    var q := UpdatePosition(p);
    if q.playing {
      TicksReachEnd(q, n - 1);
    } else {
      StoppedStaysStopped(q, n - 1);
    }
  }

  /** `n` timer ticks. */
  function Ticks(p: Player, n: nat): Player
    decreases n
  {
    if n == 0 then p else Ticks(UpdatePosition(p), n - 1)
  }

  lemma {:induction false} StoppedStaysStopped(p: Player, n: nat)
    requires !p.playing
    ensures Ticks(p, n) == p
    decreases n
  {
    if n > 0 {
      StoppedStaysStopped(UpdatePosition(p), n - 1);
    }
  }
}
